=== FILE: README.md ===
# Doctors' workspace: a Dafny model of the core

The doctors' workspace is an administration portal for a medical association.
Its Go backend keeps users, sessions, password resets, institutions, SOP
(standard operating procedure) categories, a registry of form schemas and
submissions, and the Dropbox and referral settings. Its Vue client holds a
session store, list stores for users and institutions, a password-reset
wizard, a request wrapper and a router guard. This project models the
decisions of that core in Dafny and proves properties of them.

How the model is built:

- Every MongoDB collection is a value: a sequence of records, or an `Option`
  for a singleton document. Every repository call is a pure function from
  the collection before the call to the collection after it, plus what the
  call returns.
- Services and handlers are functions of those values. Each error the Go
  code returns is a constructor of an error datatype. Each HTTP answer is the
  status code the handler writes.
- Client store actions are functions from the store, and local storage where
  it is involved, to the store after the action and an `Outcome`. `Pass`
  means the action resolved; `Fail(message)` means it threw that message.
- Inputs from outside the code are parameters:
  - the clock (`now`, in nanoseconds on the server and milliseconds in the
    client);
  - identifiers the database would assign, and random codes and tokens;
  - bcrypt checks and hashing;
  - JWT signing and verification;
  - the e-mail syntax check and `primitive.ObjectIDFromHex`;
  - the SDK calls to Dropbox and SMTP, given as the outcome they produced;
  - `atob`, `JSON.parse` and `JSON.stringify`;
  - every server reply a client action receives.

The files, one module each, follow the program's layers:

- Shared pieces:
  - `wrappers.dfy` holds the `Option`, `Result` and `Outcome` types and the
    identifier and time types.
  - `gostrings.dfy` holds the Go `strings` and `strconv` functions the code
    relies on.
  - `seqs.dfy` holds `FirstWhere`, the first position satisfying a predicate.
    It is what a `FindOne` without a sort and a JavaScript `findIndex`
    report. Every store's lookup by key or by predicate (the user,
    form, institution, SOP, submission, session and reset stores) is an
    instance of it.
  - `paging.dfy` holds skip and limit windows and stable sorting and
    filtering.
- Models: `roles`, `users`, `session`, `institution`, `sop_category`,
  `registry_form`, `registry_config`, `registry_submission`,
  `dropbox_config` and `referral_config`. These hold validation and the
  derived values.
- Repositories: `user_store`, `session_store`, `reset_store`,
  `institution_store`, `sop_store`, `form_store`, `submission_store`,
  `registry_config_store`, `dropbox_config_store` and `referral_store`.
- Services and handlers:
  - `auth_service`, `user_service` and `user_handler`;
  - `password_reset`;
  - `institution_service` and `institution_handler`;
  - `sop_service` and `sop_handler`;
  - `registry_service` and `registry_handler`;
  - `referral_service`;
  - `audit`;
  - `dropbox_paths`, `dropbox_retry` and `dropbox_tree`;
  - `uploads`;
  - `middleware`.
- Client: `api_client`, `client_users`, `router_guard`, `client_auth`,
  `client_lists`, `client_users_store`, `client_institutions_store` and
  `client_forgot_password`.

Where the written description of the system and the code disagree, the
model follows the code:

- The client's user store decrements `total` on every delete, even when the
  deleted user was not in the loaded page. The count can therefore go below
  zero; `ClientUsersStore.DeleteWithoutPageGoesNegative` exhibits this.
- A failed validation in the referral settings update is answered with
  status 500, not 400. The service's validation error is not a sentinel the
  handler recognises.
- `UserStore.FindByEmail` and `UserStore.EmailExists` build their
  case-insensitive pattern by escaping dots only. Both are modelled as
  written, and login, registration and the password-reset request use them.
  The pattern language covered is literal characters and escaped
  metacharacters, each optionally followed by one `+`. Any other pattern
  is reported as a failed query. The corrected lookups (`FindByEmailQuoted`,
  `EmailExistsQuoted`) are listed under Findings.
- The password-reset handlers answer from the service as written. The
  corrected variants (`ValidateCodeStatusCorrected`,
  `ResetPasswordHandlerCorrected`) sit beside them, and each pair is
  compared on an input where they differ.

## Model

| member | source | states |
|---|---|---|
| Audit.TimeAgo | backend/internal/service/audit_service.go:176-213 | An age under a minute is "just now". Otherwise the unit is the one whose band holds the age, the count is at least one, and count × unit ≤ age < (count + 1) × unit; weeks never exceed four. |
| Audit.FormatTimeAgo | backend/internal/service/audit_service.go:176-213 | The text is "just now" exactly when the age is under a minute. |
| Audit.TailPlural | backend/internal/service/audit_service.go:186-212 | The plural "s ago" appears exactly when the count is not one. |
| Audit.RenderReadsBack | backend/internal/service/audit_service.go:186-212 | The leading digits of a rendered time read back as its count, followed by a space. |
| Audit.RoleFromDetails | backend/internal/service/audit_service.go:157-173 | A missing or non-string role gives "User"; an unknown role string is shown as it is. |
| Audit.RoleDisplayNames | backend/internal/service/audit_service.go:157-173 | A valid role is always renamed, and two valid roles with the same display name are the same role. |
| Audit.Describe | backend/internal/service/audit_service.go:58-154 | An unknown action is "System activity" with the raw action. An update is told as "updated another user" exactly when performer and subject are both known and differ. A creation names the new user and the role from the details. |
| Audit.SystemActivityIffUnknown | backend/internal/service/audit_service.go:58-154 | The title is "System activity" if and only if the action has no dedicated presentation. |
| AuthService.AfterFailure | backend/internal/service/auth_service.go:176-198 | A wrong password adds one failure. The fifth failure sets a lock for thirty minutes. Nothing else in the record changes. |
| AuthService.RecordFailure | backend/internal/service/auth_service.go:176-213 | The answer is AccountLocked when the count reaches five and InvalidCredentials before that. The store keeps its size. |
| AuthService.NewSession | backend/internal/service/auth_service.go:228-237 | The session belongs to the user and carries both tokens. Its access part expires exactly 24 hours after creation and its refresh part exactly 30 days after. |
| AuthService.Establish | backend/internal/service/auth_service.go:216-264 | Success needs both tokens issued. It appends exactly the new session and stamps the last login. A missing token fails with nothing written. Both tokens issued, the user stored and neither token already held means success. |
| AuthService.Login | backend/internal/service/auth_service.go:129-265 | An email the lookup pattern does not find fails with nothing written. An unlocked, inactive account is AccountInactive with nothing written. A success needs an unlocked, active account and a matching password. Conversely, such an account with the right password and two fresh tokens succeeds. AccountLocked means the account was locked or this failure was the fifth. Sessions change only on success. |
| AuthService.LockedAccountRefused | backend/internal/service/auth_service.go:146-159 | A locked account is refused with AccountLocked whatever the password, and nothing is written. |
| AuthService.RecordFailureFound | backend/internal/service/auth_service.go:177-185 | After a failure is recorded, the same email finds the updated record. |
| AuthService.WrongPasswordStep | backend/internal/service/auth_service.go:176-213 | A wrong password on an open, active account adds one failure and leaves the sessions alone. It is refused with AccountLocked at the fifth failure and InvalidCredentials before. |
| AuthService.AttemptCounts | backend/internal/service/auth_service.go:176-213 | Below the limit, a wrong password only increments the failure count. |
| AuthService.FourFailuresCount | backend/internal/service/auth_service.go:176-213 | Four wrong passwords from a clean record leave the account open with four failures. |
| AuthService.FifthFailureLocks | backend/internal/service/auth_service.go:146-198 | The fifth consecutive wrong password is answered AccountLocked. Within the next thirty minutes even the right password is refused, with nothing written. |
| AuthService.AppendedSessionFound | backend/internal/repository/session_repository.go:58-104 | A live session appended without a token clash is found by its access token and by its refresh token. |
| AuthService.LoginSessionFound | backend/internal/service/auth_service.go:228-246 | After a login, during the token's lifetime, both tokens find the new session of that user. The user's record has the lockout cleared. |
| AuthService.LastLoginFound | backend/internal/repository/user_repository.go:190-197 | The login stamp records the time and clears the failure count and the lock. |
| AuthService.Logout | backend/internal/service/auth_service.go:268-282 | Logout fails if and only if no session holds the token. Otherwise it removes exactly one session and leaves the users alone. |
| AuthService.RefreshToken | backend/internal/service/auth_service.go:285-339 | An unknown or expired refresh token is InvalidToken with nothing written. A success belongs to the active owner of the old session. It replaces that session with a fresh one that keeps its address and agent and carries the new tokens and expiries. An inactive owner gives AccountInactive. |
| AuthService.RefreshRotates | backend/internal/service/auth_service.go:285-339 | After a refresh the token set stays unique and the store keeps its size. The new refresh token is found, and an old refresh token that differs from the new one is no longer found. |
| AuthService.GetUserFromToken | backend/internal/service/auth_service.go:342-364 | A user is returned if and only if the token verified, carries a subject, the subject parses as an identifier and that user exists. The user returned is that one. |
| AuthService.LogoutKeepsAccessToken | backend/internal/service/auth_service.go:268-282 | Signing out does not change what an access token resolves to: the token itself is not revoked. |
| AuthService.LoginStatus | backend/internal/handlers/auth_handler.go:36-57 | 200 exactly on success, 403 exactly for a locked account, 401 for every other failure. |
| AuthService.LoginEndpoint | backend/internal/handlers/auth_handler.go:36-57 | A request the binding refuses (empty or malformed email, empty password) is 400 with nothing written. Otherwise 200 and 403 are answered exactly for a successful and a locked login. |
| AuthService.RefreshStatus | backend/internal/handlers/auth_handler.go:102-119 | 200 exactly on success, 401 for every failure. |
| AuthService.ChangePassword | backend/internal/handlers/auth_handler.go:152-196 | An empty old or new password is refused first by the binding. Then a missing user, a wrong old password and a weak new password are refused in that order. Otherwise the new hash is returned when hashing succeeds; the handler does not store it. Each answer is stated as an if-and-only-if. |
| AuthService.ChangeStatus | backend/internal/handlers/auth_handler.go:152-196 | 400 exactly for a binding failure or a weak new password. 401 exactly for a missing user or a wrong old password. 500 exactly when hashing failed, and 200 exactly with the new hash. |
| AuthService.EmptyOldPasswordIsBadRequest | backend/internal/handlers/auth_handler.go:152-161 | An empty old password is answered 400, whatever the user and the new password. |
| DropboxConfig.IsTokenExpired | backend/internal/models/dropbox_config.go:40-46 | With no expiry recorded the token is expired. Otherwise it is expired exactly when fewer than five minutes remain. |
| DropboxConfig.TokenExpiryMonotone | backend/internal/models/dropbox_config.go:40-46 | A token expired now stays expired later. |
| DropboxConfig.NeedsReconnection | backend/internal/models/dropbox_config.go:49-52 | Reconnection is needed exactly after three consecutive failures or without a refresh token. |
| DropboxConfig.GetPublicStatus | backend/internal/models/dropbox_config.go:55-66 | The status reports the connection flag, the failure count and the reconnection need. |
| DropboxConfig.PublicStatusHidesSecrets | backend/internal/models/dropbox_config.go:55-66 | The status does not depend on the app secret or the tokens, beyond whether a refresh token is present. |
| DropboxConfigStore.GetConfig | backend/internal/repository/dropbox_config_repository.go:33-43 | The stored configuration is returned, or ConfigNotFound when there is none. |
| DropboxConfigStore.CreateConfig | backend/internal/repository/dropbox_config_repository.go:47-69 | Creation is refused while a configuration exists. Otherwise the new document takes the given tokens and settings, the new identifier and the creation time. |
| DropboxConfigStore.CreateThenGet | backend/internal/repository/dropbox_config_repository.go:33-69 | A created configuration is read back, and a second creation is refused with AlreadyExists. |
| DropboxConfigStore.UpdateTokens | backend/internal/repository/dropbox_config_repository.go:72-96 | The access token and its expiry are stored. The refresh token is replaced only when a non-empty one is given. Health and setup fields stay. |
| DropboxConfigStore.FreshTokenNotExpired | backend/internal/repository/dropbox_config_repository.go:72-96 | A token stored with more than five minutes of life is not yet expired. |
| DropboxConfigStore.EmptyRefreshKeepsConnection | backend/internal/repository/dropbox_config_repository.go:72-96 | Storing tokens without a refresh token never makes a connected configuration need reconnection, except through its failure count. |
| DropboxConfigStore.UpdateConfig | backend/internal/repository/dropbox_config_repository.go:99-114 | The document with the same identifier is replaced, with only the update time restamped; another identifier is ConfigNotFound. |
| DropboxConfigStore.UpdateHealth | backend/internal/repository/dropbox_config_repository.go:117-141 | The connection flag, error and attempt time are recorded; a success time is recorded only when connected. The failure count and tokens stay. |
| DropboxConfigStore.IncrementFailures | backend/internal/repository/dropbox_config_repository.go:144-163 | One more failure is counted and the configuration is marked disconnected; tokens and setup stay. |
| DropboxConfigStore.ResetFailures | backend/internal/repository/dropbox_config_repository.go:166-186 | The failure count is zero, the configuration is connected, and the success time is now. |
| DropboxConfigStore.FailTimesCounts | backend/internal/repository/dropbox_config_repository.go:144-163 | k failures in a row add k to the count, leave tokens and setup alone, and disconnect. |
| DropboxConfigStore.ThreeFailuresNeedReconnection | backend/internal/models/dropbox_config.go:49-52 | From a reset, two failures do not require reconnection and the third does. |
| DropboxConfigStore.ResetUndoesFailures | backend/internal/repository/dropbox_config_repository.go:166-186 | A reset after any run of failures gives the same health as a reset without them. |
| DropboxConfigStore.DeleteConfig | backend/internal/repository/dropbox_config_repository.go:190-199 | The configuration is removed; with none stored the answer is ConfigNotFound. |
| DropboxConfigStore.DeleteAllowsCreate | backend/internal/repository/dropbox_config_repository.go:47-69 | After a delete, creation succeeds again. |
| DropboxPaths.SplitSlash | backend/internal/service/dropbox_service.go:695-722 | Splitting on "/" gives at least one element, and no element contains "/". |
| DropboxPaths.SplitJoin | backend/internal/service/dropbox_service.go:695-722 | Splitting the join of slash-free elements gives them back. |
| DropboxPaths.ResolvePlain | backend/internal/service/dropbox_service.go:716 | Cleaning keeps plain elements as they are, in order. |
| DropboxPaths.Clean | backend/internal/service/dropbox_service.go:716 | A cleaned path is never empty, and a rooted path stays rooted. |
| DropboxPaths.CleanOfPlainPath | backend/internal/service/dropbox_service.go:716 | A rooted path of plain elements is already clean. |
| DropboxPaths.Join | backend/internal/service/dropbox_service.go:716 | Joining two elements that are not both empty gives a non-empty path. |
| DropboxPaths.PathUnescape | backend/internal/service/dropbox_service.go:700-707 | A decoded path is no longer than its input and empty only for an empty input. A path without "%" decodes to itself. |
| DropboxPaths.UnescapeSpace | backend/internal/service/dropbox_service.go:700-707 | "%20" decodes to a space. |
| DropboxPaths.FullPath | backend/internal/service/dropbox_service.go:695-722 | An empty relative path gives the parent folder, or "/" without one. Any other path is rooted. |
| DropboxPaths.TrimmedPlainName | backend/internal/service/dropbox_service.go:696-698 | Trimming leaves a plain name alone and strips one slash from each end. |
| DropboxPaths.CleanFixed | backend/internal/service/dropbox_service.go:716 | A rooted path of plain elements is unchanged by cleaning. |
| DropboxPaths.JoinPlainName | backend/internal/service/dropbox_service.go:716 | Joining a plain name under a clean rooted parent appends "/" and the name. |
| DropboxPaths.FullPathOfPlainName | backend/internal/service/dropbox_service.go:695-722 | Under a clean parent, a plain name without "%" is the parent, "/" and the name, with or without surrounding slashes. |
| DropboxRetry.EnsureValidToken | backend/internal/service/dropbox_service.go:126-140 | An unconfigured service fails at once. A token that is not expired passes. An expired one gives the refresh's outcome. |
| DropboxRetry.IsAuthError | backend/internal/service/dropbox_service.go:315-325 | No error is not an authentication error. An error is one exactly when its lower-cased message contains one of the four markers. |
| DropboxRetry.AuthErrorIgnoresCase | backend/internal/service/dropbox_service.go:315-325 | The detection ignores letter case. |
| DropboxRetry.StatusCodeIsAuthError | backend/internal/service/dropbox_service.go:315-325 | Any message mentioning 401 is an authentication error. |
| DropboxRetry.WithClientRetry | backend/internal/service/dropbox_service.go:285-313 | The operation runs at most twice. A failed token check runs nothing. The second run happens exactly after an authentication error and a successful refresh, and its error is the one returned. |
| DropboxRetry.RetrySucceedsIff | backend/internal/service/dropbox_service.go:285-313 | The call succeeds if and only if the token check passes and either the first run succeeds or it failed on authentication and the refresh and the second run both succeed. |
| DropboxRetry.RefreshErrorHidden | backend/internal/service/dropbox_service.go:285-313 | The error returned is always that of the token check or one of the runs, never the refresh's own. |
| DropboxRetry.NonAuthErrorNotRetried | backend/internal/service/dropbox_service.go:285-313 | An error that is not about authentication is returned after one run. |
| DropboxTree.EntryToFileInfo | backend/internal/service/dropbox_service.go:724-743 | Deleted entries are dropped. Files keep their size and time. Folders have size zero and no time. Every entry starts without children. |
| DropboxTree.ConvertEntriesCount | backend/internal/service/dropbox_service.go:408-427 | A listing page keeps exactly its live entries. |
| DropboxTree.HasFilesIff | backend/internal/service/dropbox_service.go:581-593 | The search for files answers true if and only if some file lies below, at any depth. |
| DropboxTree.FilterEmptyFolders | backend/internal/service/dropbox_service.go:555-578 | The filter keeps every file at every depth, leaves no empty folder, and is empty exactly when there is no file. |
| DropboxTree.Prune | backend/internal/service/dropbox_service.go:555-578 | A kept entry keeps its name, path and kind; a file is kept unchanged. |
| DropboxTree.FilterIsSelect | backend/internal/service/dropbox_service.go:555-578 | The filter is exactly the selection of the entries with a file below them, pruned and in order. |
| DropboxTree.FilesAreKept | backend/internal/service/dropbox_service.go:555-578 | Every file entry of a listing survives the filter. |
| DropboxTree.FilterFixesClean | backend/internal/service/dropbox_service.go:555-578 | A listing without empty folders is left as it is. |
| DropboxTree.FilterIdempotent | backend/internal/service/dropbox_service.go:555-578 | Filtering twice is filtering once. |
| FormStore.Create | backend/internal/repository/registry_form_repository.go:50-63 | A new schema is appended inactive, with the given identifier and both times set to now; its other fields are kept. |
| FormStore.CreateKeepsActive | backend/internal/repository/registry_form_repository.go:50-63 | Creating a schema keeps at most one schema active and does not change which one is active. |
| FormStore.FindById | backend/internal/repository/registry_form_repository.go:66-76 | A schema with that identifier is found; otherwise the error is FormSchemaNotFound. |
| FormStore.FindActive | backend/internal/repository/registry_form_repository.go:79-89 | An active schema is returned; when none is active the error is NoActiveForm. |
| FormStore.FindActiveAppendInactive | backend/internal/repository/registry_form_repository.go:79-89 | Appending an inactive schema does not change the active lookup. |
| FormStore.DeactivateAll | backend/internal/repository/registry_form_repository.go:184-191 | Every schema becomes inactive and is stamped now; there are as many as before. |
| FormStore.NothingActiveAfterDeactivateAll | backend/internal/repository/registry_form_repository.go:184-191 | After deactivating all, the active lookup reports NoActiveForm. |
| FormStore.SetActive | backend/internal/repository/registry_form_repository.go:151-181 | Every schema is deactivated first. It succeeds exactly when the identifier exists, and then only that schema is switched on; an unknown identifier leaves all schemas deactivated. |
| FormStore.SetActiveExactlyOne | backend/internal/repository/registry_form_repository.go:151-181 | After a successful activation the active lookup finds that schema. With distinct identifiers, a schema is active exactly when it is the chosen one. |
| FormStore.Update | backend/internal/repository/registry_form_repository.go:121-136 | The change is applied to the schema with that identifier and it is restamped; the others stay. An unknown identifier is FormSchemaNotFound. |
| FormStore.Delete | backend/internal/repository/registry_form_repository.go:139-148 | One schema is removed and no other is added. With distinct identifiers, the removed identifier is gone. An unknown one is FormSchemaNotFound. |
| FormStore.List | backend/internal/repository/registry_form_repository.go:92-118 | A page holds at most the limit, comes from the collection, newest first, and is full when enough schemas remain. The total counts all schemas. |
| Institution.EightInstitutionTypes | backend/internal/models/institution.go:46-59 | Exactly eight institution types are valid. |
| Institution.ValidateCreate | backend/internal/models/institution.go:105-133 | A request passes only when no check fails, and a failure reports the first failing check in the order of the code. |
| Institution.EmptyNameIsRequired | backend/internal/models/institution.go:105-133 | An empty name is reported as missing, though it is also too short. |
| Institution.FullLocation | backend/internal/models/institution.go:136-145 | The location starts with the city and adds ", " and each non-empty province and country. |
| Institution.FullLocationIsJoin | backend/internal/models/institution.go:136-145 | The location is the city and the non-empty province and country joined with ", ". |
| Institution.DisplayName | backend/internal/models/institution.go:148-153 | The short name when it is set, else the name; empty only when both are. |
| InstitutionHandler.CreateStatus | backend/internal/handlers/institution_handler.go:46-74 | 403 exactly for a missing right, 409 exactly for a taken name, 400 for everything else. |
| InstitutionHandler.UpdateStatus | backend/internal/handlers/institution_handler.go:218-255 | 403, 404, 409 and 400 each for exactly their errors. |
| InstitutionHandler.DeleteStatus | backend/internal/handlers/institution_handler.go:270-301 | 403 for a missing right, 404 for an unknown institution, 409 exactly while users reference it, 400 otherwise. |
| InstitutionHandler.ActivationStatus | backend/internal/handlers/institution_handler.go:316-389 | 403 for a missing right, 404 for an unknown institution, 400 otherwise. |
| InstitutionHandler.ReferencedDeleteConflicts | backend/internal/handlers/institution_handler.go:270-301 | Deleting an institution that users still reference is answered 409. |
| InstitutionHandler.ParseListQuery | backend/internal/handlers/institution_handler.go:406-437 | An invalid type is dropped. `is_active` is defined exactly when given and true exactly for "true". The limit is the parsed value when positive, else 100; skip is the parsed value when not negative, else 0. |
| InstitutionHandler.ListQueryStable | backend/internal/handlers/institution_handler.go:406-437 | The limit and skip echoed in a response, sent back, are read the same. |
| InstitutionHandler.ListPublic | backend/internal/handlers/institution_handler.go:462-477 | The public listing holds only active institutions of the collection, at most 1000, and no more than the total. |
| InstitutionService.NewInstitution | backend/internal/service/institution_service.go:46-60 | The stored record copies the request's fields, is active, has no image and names the actor as creator. |
| InstitutionService.CreateInstitution | backend/internal/service/institution_service.go:35-80 | Refused exactly when the actor lacks the user-management right; an invalid request gives the first validation error; a taken name is DuplicateInstitution exactly when the request is otherwise acceptable. A success appends the new active record under the new identifier. |
| InstitutionService.ValidateInstitutionId | backend/internal/service/institution_service.go:313-327 | NotFound exactly for an unknown identifier, NotActive exactly for an inactive institution, and a pass exactly for an active one. |
| InstitutionService.CreatedInstitutionIsUsable | backend/internal/service/institution_service.go:35-80 | A newly created institution passes the identifier check at once. |
| InstitutionService.Merge | backend/internal/service/institution_service.go:100-150 | Merging the request keeps the identifier, image path, creator and times. |
| InstitutionService.MergeIdempotent | backend/internal/service/institution_service.go:100-154 | Merging the same request twice is merging it once, and the merged record needs no write exactly when the request sets nothing besides the name and image. |
| InstitutionService.Commit | backend/internal/service/institution_service.go:156-172 | The write keeps the collection's size and stores the merged record stamped now. |
| InstitutionService.UpdateInstitution | backend/internal/service/institution_service.go:88-173 | Unauthorized, InstitutionNotFound and DuplicateInstitution each occur exactly under their conditions. A success keeps the image and creator and accepts only valid types. It writes the merged record when the request changes something and leaves the collection untouched otherwise. |
| InstitutionService.EmptyUpdateUnchanged | backend/internal/service/institution_service.go:88-173 | An empty request succeeds without touching anything. |
| InstitutionService.DeleteInstitution | backend/internal/service/institution_service.go:176-215 | Unauthorized without the delete right; InstitutionNotFound for an unknown identifier; HasUsers exactly while a user references it. A success removes one record. |
| InstitutionService.SetInstitutionActive | backend/internal/service/institution_service.go:218-275 | Unauthorized without the management right, InstitutionNotFound for an unknown identifier. After a success the identifier check passes for activation and reports NotActive for deactivation. |
| InstitutionService.ListInstitutions | backend/internal/service/institution_service.go:278-310 | A page holds at most the limit, no more than the total, only records of the collection, and only the requested type and active state. |
| InstitutionService.CountInstitutions | backend/internal/service/institution_service.go:330-336 | The count is the total of the unpaginated listing by the active flag. |
| InstitutionStore.FindById | backend/internal/repository/institution_repository.go:50-60 | The first institution with that identifier is found; otherwise InstitutionNotFound. |
| InstitutionStore.FindByName | backend/internal/repository/institution_repository.go:63-73 | An institution with exactly that name is found; otherwise the lookup fails. |
| InstitutionStore.Create | backend/internal/repository/institution_repository.go:34-47 | A taken name is DuplicateInstitution. Otherwise the record is appended under the new identifier with both times set to now. |
| InstitutionStore.CreateKeepsNamesUnique | backend/internal/repository/institution_repository.go:34-47 | Creation never introduces a second institution of the same name. |
| InstitutionStore.NameExists | backend/internal/repository/institution_repository.go:141-153 | True exactly when some institution other than the excluded one has the name. |
| InstitutionStore.NameExistsExclusion | backend/internal/repository/institution_repository.go:141-153 | Without an exclusion the check is the plain name test; an excluded record never clashes with itself. |
| InstitutionStore.Update | backend/internal/repository/institution_repository.go:76-90 | The change is applied to the institution with that identifier and it is restamped; the others stay. |
| InstitutionStore.SetActive | backend/internal/repository/institution_repository.go:131-138 | Only the flag and the update time of that institution change. |
| InstitutionStore.ReactivateRestores | backend/internal/repository/institution_repository.go:131-138 | Deactivating and reactivating an active institution restores it but for its update time. |
| InstitutionStore.Delete | backend/internal/repository/institution_repository.go:93-102 | One record is removed and nothing is added; with distinct identifiers the identifier is gone. |
| InstitutionStore.NameOrderIsTotal | backend/internal/repository/institution_repository.go:105-123 | The name order of the listing is a total preorder. |
| InstitutionStore.List | backend/internal/repository/institution_repository.go:105-123 | A page is sorted by name, holds at most the limit and no more than the count, and only matching records of the collection. |
| InstitutionStore.CountIsUnpaginatedList | backend/internal/repository/institution_repository.go:105-128 | The count is the length of the listing without skip or limit. |
| Middleware.ParseBearer | backend/internal/middleware/auth.go:25-31 | A token is read only from a header that is "Bearer " followed by it. |
| Middleware.ParseBearerComplete | backend/internal/middleware/auth.go:25-31 | Every "Bearer " header is read with its token. |
| Middleware.Authenticate | backend/internal/middleware/auth.go:16-58 | An empty header is MissingHeader. An admitted request has a bearer header whose token resolves to that active user. An inactive user is refused only after the token resolved. |
| Middleware.AuthenticateIff | backend/internal/middleware/auth.go:16-58 | A bearer token is admitted if and only if it resolves to an active user. |
| Middleware.GateStatus | backend/internal/middleware/auth.go:16-58 | Every rejection is a 401. |
| Middleware.FirstField | backend/internal/middleware/auth.go:106-123 | The first comma-separated field is a prefix without a comma, ended by a comma when shorter. |
| Middleware.ClientAddress | backend/internal/middleware/auth.go:106-123 | A forwarded header gives its first comma-separated entry, trimmed. Without one the real-IP header is used, and without that the remote address. |
| Middleware.ClientAddressFirstHop | backend/internal/middleware/auth.go:106-123 | When the forwarded header is the client entry alone, the address is that entry, trimmed. |
| Middleware.RequirePermission | backend/internal/middleware/rbac.go:12-29 | 401 exactly without a user; the request proceeds exactly when the user holds the permission. |
| Middleware.HoldsAny | backend/internal/middleware/rbac.go:41-47 | True exactly when some listed permission is held. |
| Middleware.HoldsAll | backend/internal/middleware/rbac.go:68-74 | True exactly when every listed permission is held. |
| Middleware.RequireAnyPermission | backend/internal/middleware/rbac.go:32-57 | 401 exactly without a user; it proceeds exactly when some listed permission is held. |
| Middleware.RequireAllPermissions | backend/internal/middleware/rbac.go:60-79 | 401 exactly without a user; it proceeds exactly when every listed permission is held. |
| Middleware.ListGateEdges | backend/internal/middleware/rbac.go:32-79 | An empty "any" list refuses everyone and an empty "all" list admits everyone; a one-element list is the single gate. |
| Middleware.AllImpliesAny | backend/internal/middleware/rbac.go:32-79 | On a non-empty list, "all" admits only whom "any" admits. |
| Middleware.RequireRole | backend/internal/middleware/rbac.go:82-99 | 401 exactly without a user; it proceeds exactly for that role. |
| Middleware.RequireAnyRole | backend/internal/middleware/rbac.go:102-127 | 401 exactly without a user; it proceeds exactly for a listed role. |
| Middleware.RequireAdminLevel | backend/internal/middleware/rbac.go:135-152 | 401 exactly without a user; it proceeds exactly for an admin of that level. |
| Middleware.RequireSuperAdmin | backend/internal/middleware/rbac.go:155-157 | The super-admin gate is the level gate at the super-admin level. |
| Middleware.LevelGatesAndPermissions | backend/internal/middleware/rbac.go:135-157 | A super admin passes every permission gate. A user manager may manage but not delete users. An admin without a level may not manage users. |
| Paging.Page | backend/internal/repository/user_repository.go:164-182 | A skip and limit window holds at most the limit and is a prefix of the collection after the skipped documents; it is everything after the skip when the limit is zero or reaches the end. |
| Paging.ConsecutivePages | backend/internal/repository/registry_form_repository.go:92-99 | Two consecutive pages of the same size read the collection without gap or overlap. |
| Paging.SkipOf | backend/internal/repository/registry_form_repository.go:93 | The skip of a one-based page number is the number of documents on the pages before it. |
| Paging.SortDesc | backend/internal/repository/user_repository.go:165-168 | The newest-first sort is a permutation of the collection in descending key order. |
| Paging.PageDesc | backend/internal/repository/user_repository.go:164-182 | A sorted window holds at most the limit, is full when enough documents remain, is in descending order and holds only documents of the collection. |
| Paging.SortBy | backend/internal/repository/institution_repository.go:105-123 | Sorting by a total preorder gives a sorted permutation of the collection. |
| Paging.StrLeTotal | backend/internal/repository/institution_repository.go:105-123 | Any two names are ordered one way or the other by the string order. |
| Paging.StrLeTrans | backend/internal/repository/institution_repository.go:105-123 | The string order is transitive. |
| Paging.Filter | backend/internal/repository/user_repository.go:164-182 | A filter keeps exactly the matching documents of the collection. |
| Paging.FilterPartition | backend/internal/repository/user_repository.go:164-187 | A filter and its complement together count the whole collection. |
| PasswordReset.GenerateVerificationCode | backend/internal/service/password_reset_service.go:326-337 | A code is produced exactly when all six random draws succeed. It is then six digits, each the digit drawn. |
| PasswordReset.RequestPasswordReset | backend/internal/service/password_reset_service.go:72-224 | An email the written lookup pattern does not find is UserNotFound and an inactive user UserInactive, with nothing stored. TooManyRequests is answered exactly when a rate limit is exhausted. A document is stored exactly when the checks pass and a code and token were drawn. The request then passes when SMTP is configured and fails with SmtpNotConfigured otherwise. |
| PasswordReset.DeliveryIgnored | backend/internal/service/password_reset_service.go:170-224 | Whether the email was delivered never changes the answer or the stored documents. |
| PasswordReset.RequestKeepsLimits | backend/internal/service/password_reset_service.go:104-135 | If no user has more than three and no address more than five requests in the last hour, that stays true after a request. |
| PasswordReset.FourthRequestRefused | backend/internal/service/password_reset_service.go:104-121 | With three requests in the last hour, a fourth is refused with TooManyRequests and nothing is stored. |
| PasswordReset.CheckUsable | backend/internal/models/password_reset.go:57-64 | A document passes exactly when it is valid; expiry is reported before use. |
| PasswordReset.ValidateResetCodeAsWritten | backend/internal/service/password_reset_service.go:227-254 | An unknown code is InvalidResetCode. Success returns the token of the first document with the code, when that document is usable. |
| PasswordReset.CollidingCodeRefused | backend/internal/service/password_reset_service.go:227-254 | A used document issued earlier with the same code hides a live one: the code is refused as used. |
| PasswordReset.ValidateResetCode | backend/internal/service/password_reset_service.go:227-254 | Corrected: the code is accepted exactly when some usable document carries it, and the token returned is that document's. An unknown code is InvalidResetCode. |
| PasswordReset.ValidateAgreesOnDistinctCodes | backend/internal/service/password_reset_service.go:227-254 | Where stored codes are distinct the corrected and the written validation agree. |
| PasswordReset.Apply | backend/internal/service/password_reset_service.go:283-323 | The writes succeed exactly when the user exists and hashing succeeded. They store the new hash and mark the token used; a failure writes nothing. |
| PasswordReset.ResetPasswordAsWritten | backend/internal/service/password_reset_service.go:257-323 | An unknown token is InvalidResetCode, and an unusable one fails its usability check, with nothing written. The reset succeeds exactly for a usable token of an existing user with a hash, whatever the new password's strength. Then the token is marked used and the user gets the new hash. |
| PasswordReset.ResetPassword | backend/internal/service/password_reset_service.go:257-323 | Corrected: the token checks are reported first. A success also requires a strong new password, stores the hash and marks the token used. It succeeds exactly when the written version does and the password is strong. |
| PasswordReset.WeakResetAccepted | backend/internal/service/password_reset_service.go:257-323 | "aaaaaaaa" passes the request binding and is accepted as written, but is refused by the corrected reset with WeakNewPassword. |
| PasswordReset.ResetTokenSingleUse | backend/internal/service/password_reset_service.go:257-323 | After a successful reset, as written, the same token is refused as used or expired. |
| PasswordReset.ResetStoresHash | backend/internal/service/password_reset_service.go:285-297 | After a successful reset, as written, the user's record carries the new hash. |
| PasswordReset.ForgotPasswordStatus | backend/internal/handlers/password_reset_handler.go:44-60 | 200, 404, 429, 403 and 400 each for exactly their outcomes. |
| PasswordReset.ForgotPassword | backend/internal/handlers/password_reset_handler.go:37-61 | An email the binding refuses (empty, or not an address) is 400 with nothing stored, before the service is called. Otherwise the stored documents are the service's and the status is its outcome's. 404 exactly for a well-formed email the written lookup does not find, and a 200 stores one new document. |
| PasswordReset.MalformedEmailIsBadRequest | backend/internal/handlers/password_reset_handler.go:37-42 | An address the validator refuses is 400 with nothing stored, never the 404 of an unknown user. |
| PasswordReset.SmtpFailureKeepsCode | backend/internal/service/password_reset_service.go:166-184 | Without SMTP settings the request is answered 400 although its code was stored and counts toward the limit. |
| PasswordReset.TokenStepStatus | backend/internal/handlers/password_reset_handler.go:74-123 | 200 on success, 404 exactly for an unknown, expired or used code or token, 400 otherwise. |
| PasswordReset.ValidateCodeStatus | backend/internal/handlers/password_reset_handler.go:74-92 | As written: 400 exactly when the code is not six characters. 200 exactly when the first document with the code is usable. 404 otherwise. |
| PasswordReset.ValidateCodeStatusCorrected | backend/internal/handlers/password_reset_handler.go:74-92 | Corrected: 400 exactly when the code is not six characters; 200 exactly when some usable document carries it. |
| PasswordReset.ShadowedCodeStatus | backend/internal/handlers/password_reset_handler.go:74-92 | A used document stored before a live one with the same code gives 404 as written and 200 corrected. |
| PasswordReset.ResetPasswordHandler | backend/internal/handlers/password_reset_handler.go:105-123 | A missing token or a password shorter than eight is 400 with nothing written. 200 exactly when the written reset succeeds, with its writes: the token marked used and the hash set. Anything else writes nothing. |
| PasswordReset.ResetPasswordHandlerCorrected | backend/internal/handlers/password_reset_handler.go:105-123 | Corrected: the same binding 400, and a 200 only for a strong password, with the corrected reset's writes. |
| PasswordReset.WeakResetStatus | backend/internal/handlers/password_reset_handler.go:105-123 | With a usable token of a stored user, "aaaaaaaa" is 200 as written and 400 with nothing written when corrected. |
| ReferralConfig.ValidateUrl | backend/internal/models/referral_config.go:50-71 | A URL passes exactly when it is non-empty, parses, has scheme http or https and has a host; an empty one is EmptyUrl. |
| ReferralConfig.ValidateConfig | backend/internal/models/referral_config.go:34-47 | A disabled configuration always passes. An enabled one without a URL is RedCapUrlRequired, and otherwise it passes exactly when its URL does. |
| ReferralConfig.EnabledValidIff | backend/internal/models/referral_config.go:34-71 | An enabled configuration is valid if and only if its URL is an http or https URL with a host. |
| ReferralService.GetReferralConfig | backend/internal/service/referral_service.go:36-49 | Without a stored configuration the answer is NotConfigured. Otherwise the stored one is returned with its configured flag recomputed from the URL. |
| ReferralService.Starting | backend/internal/service/referral_service.go:59-70 | An update starts from the stored configuration, or from an empty, disabled one without an identifier. |
| ReferralService.Merge | backend/internal/service/referral_service.go:76-87 | Only the fields present in the request are written. The configured flag follows the URL and the updater is recorded; the identifier and times stay. |
| ReferralService.MergeIdempotent | backend/internal/service/referral_service.go:76-87 | Merging the same request twice is merging it once. |
| ReferralService.UpdateReferralConfig | backend/internal/service/referral_service.go:52-126 | An invalid merged configuration is refused with its validation error. Otherwise the update succeeds exactly unless a stored configuration has the nil identifier, which is AlreadyExists. A success stores the merged configuration: under a new identifier when none was stored, under the old one otherwise. The audit records the updater, address, old and new URL and flag. |
| ReferralService.UpdateThenGet | backend/internal/service/referral_service.go:36-126 | What an update answers is what a later read returns. |
| ReferralService.EnableWithoutUrlRefused | backend/internal/service/referral_service.go:52-126 | With nothing stored, enabling without a URL is refused with RedCapUrlRequired. |
| ReferralService.LogReferralAccess | backend/internal/service/referral_service.go:129-155 | NotConfigured without a configuration and Disabled while it is disabled. It succeeds exactly when enabled and the audit entry is written, and the entry records the URL, caller, address and agent. |
| ReferralService.GetReferralURL | backend/internal/service/referral_service.go:158-169 | The URL is handed out exactly while the configuration is enabled. |
| ReferralService.UrlMatchesAccessLog | backend/internal/service/referral_service.go:129-169 | For a valid enabled configuration, the URL handed out is non-empty and is the one the access entry records. |
| ReferralHandler.GetConfig | backend/internal/handlers/referral_handler.go:35-56 | Always 200. A missing configuration shows as not configured and disabled, with no URL. |
| ReferralHandler.GetAdminConfigStatus | backend/internal/handlers/referral_handler.go:69-81 | 404 exactly when nothing is configured, 200 otherwise. |
| ReferralHandler.UpdateConfigStatus | backend/internal/handlers/referral_handler.go:97-122 | 401 without a caller. Otherwise 200 exactly when the update succeeds, and every failure, a validation failure included, is 500. |
| ReferralHandler.LogAccess | backend/internal/handlers/referral_handler.go:135-169 | 401 without a caller, 404 when not configured, 403 when disabled. A redirect is given exactly with 200, and then the logged entry holds the same URL. |
| ReferralStore.GetConfig | backend/internal/repository/referral_config_repository.go:32-42 | The stored configuration, or ConfigNotFound. |
| ReferralStore.CreateConfig | backend/internal/repository/referral_config_repository.go:46-67 | Refused while a configuration exists; otherwise stored with the new identifier and both times set to now. |
| ReferralStore.UpdateConfig | backend/internal/repository/referral_config_repository.go:70-92 | The URL, the flag, the time and the updater are written; the identifier, creation time and stored configured flag stay. |
| ReferralStore.StoredFlagNotRewritten | backend/internal/repository/referral_config_repository.go:70-92 | Clearing the URL of a configured record leaves its stored configured flag set. |
| RegistryConfig.ValidateSmtp | backend/internal/models/registry_config.go:87-113 | A configuration passes only when no SMTP check fails, and a failure reports the first failing check in the order of the code. |
| RegistryConfig.ValidSmtpIsComplete | backend/internal/models/registry_config.go:87-118 | A valid SMTP configuration is complete. |
| RegistryConfig.CompleteButInvalid | backend/internal/models/registry_config.go:87-118 | A complete configuration with port 70000 is invalid: completeness does not imply validity. |
| RegistryConfig.AllEmailsOk | backend/internal/models/registry_config.go:72-76 | True exactly when every notification address passes the email check. |
| RegistryConfig.ValidateConfig | backend/internal/models/registry_config.go:58-84 | A configuration passes only when no check fails, and a failure reports the first failing check in the order of the code. |
| RegistryConfig.ValidConfigHasValidSmtp | backend/internal/models/registry_config.go:58-113 | A valid registry configuration has a valid, hence complete, SMTP part and at least one notification address. |
| RegistryConfigStore.GetConfig | backend/internal/repository/registry_config_repository.go:43-53 | The stored configuration, or an error when there is none. |
| RegistryConfigStore.ConfigExists | backend/internal/repository/registry_config_repository.go:162-168 | True exactly when a read would succeed. |
| RegistryConfigStore.CreateOrUpdate | backend/internal/repository/registry_config_repository.go:56-91 | The given fields are stored. A new document takes the new identifier and creation time; an existing one keeps its own. |
| RegistryConfigStore.CreateOrUpdateTwice | backend/internal/repository/registry_config_repository.go:56-91 | A second write keeps the identity and creation time of the first and stores the second configuration's fields. |
| RegistryConfigStore.Update | backend/internal/repository/registry_config_repository.go:94-114 | Fails exactly when nothing is stored; a success is stamped now. |
| RegistryConfigStore.AddNotificationEmail | backend/internal/repository/registry_config_repository.go:117-140 | A listed address leaves the document unchanged; a new one is appended and the document restamped. |
| RegistryConfigStore.AddNotificationEmailIdempotent | backend/internal/repository/registry_config_repository.go:117-140 | Adding keeps the list free of duplicates and lists the address; adding it again changes nothing. |
| RegistryConfigStore.Pull | backend/internal/repository/registry_config_repository.go:143-159 | Every copy of the address is removed and every other address kept. |
| RegistryConfigStore.RemoveNotificationEmail | backend/internal/repository/registry_config_repository.go:143-159 | The address is gone, every other address stays, and nothing else but the time changes. |
| RegistryConfigStore.RemoveUndoesAdd | backend/internal/repository/registry_config_repository.go:117-159 | Removing a newly added address gives back the list as it was. |
| RegistryConfigStore.DeleteConfig | backend/internal/repository/registry_config_repository.go:171-179 | After a delete no configuration exists; with none stored the delete fails. |
| RegistryForm.EightFieldTypes | backend/internal/models/registry_form.go:39-46 | Exactly eight field types are valid. |
| RegistryForm.ValidateField | backend/internal/models/registry_form.go:139-184 | A field passes only when no check fails, and a failure reports the first failing check in the order of the code. |
| RegistryForm.BlankLabelRejected | backend/internal/models/registry_form.go:148-152 | A label made only of white space is rejected like an empty one. |
| RegistryForm.ValidateFormName | backend/internal/models/registry_form.go:187-193 | A name passes exactly when, trimmed, it is non-empty and at most 200 bytes. |
| RegistryForm.FieldOutcomes | backend/internal/models/registry_form.go:113-116 | Each field's own check, in order. |
| RegistryForm.ScanFields | backend/internal/models/registry_form.go:110-135 | The loop over the fields passes exactly when every field is valid with a fresh id and some field is a file field. Any other failure is the first bad field's error, or NoFileField when every field is fine. |
| RegistryForm.AllFieldsOkIff | backend/internal/models/registry_form.go:113-124 | The per-field loop accepts exactly the lists of valid fields with pairwise distinct ids. |
| RegistryForm.ValidateFields | backend/internal/models/registry_form.go:105-135 | The fields pass exactly when there is at least one, each is valid, ids are distinct and one is a file field. An empty list is NoFields, and otherwise the first bad field's error is reported. |
| RegistryForm.ValidateSchema | backend/internal/models/registry_form.go:100-136 | A schema passes exactly when its name and fields do; a bad name is reported first. |
| RegistryForm.ValidateCreateRequest | backend/internal/models/registry_form.go:196-230 | A create request is judged exactly as a schema with its name and fields. |
| RegistryForm.ValidateUpdateRequest | backend/internal/models/registry_form.go:233-269 | Only the present parts are checked: an empty request passes, and with both parts it is judged as a create request. |
| RegistryHandler.ClampPaging | backend/internal/handlers/registry_handler.go:264-272 | The page is at least 1 and the limit between 1 and 100. A page below 1 becomes 1, and a limit outside that range becomes 10. |
| RegistryHandler.DefaultWindow | backend/internal/handlers/registry_handler.go:264-272 | Without parameters the window is the first page of ten. |
| RegistryHandler.ClampPagingStable | backend/internal/handlers/registry_handler.go:264-272 | The window echoed in a response, sent back, is read the same. |
| RegistryHandler.ConfigUpdateStatus | backend/internal/handlers/registry_handler.go:95-121 | 403 exactly for a missing right, 400 for every other failure. |
| RegistryHandler.SchemaChangeStatus | backend/internal/handlers/registry_handler.go:303-381 | 403 for a missing right, 404 for an unknown schema, 400 otherwise. |
| RegistryHandler.Precheck | backend/internal/handlers/registry_handler.go:406-440 | A multipart body that does not parse, missing form data, a missing schema identifier and unparsable data are refused in that order. The "files" uploads are forwarded, or the "documents" uploads when there are none. |
| RegistryHandler.FilesForwarded | backend/internal/handlers/registry_handler.go:432-440 | No file is forwarded only when neither upload field carries one. |
| RegistryHandler.ReturnedError | backend/internal/service/registry_service.go:545-644 | The service never returns a bare readiness sentinel: a readiness failure comes back wrapped. |
| RegistryHandler.SubmitStatusAsWritten | backend/internal/handlers/registry_handler.go:451-459 | The handler's status, using equality on error values, is 412 or 400. |
| RegistryHandler.PreconditionFailedUnreachable | backend/internal/handlers/registry_handler.go:451-459 | As written, every refusal is 400: the 412 branch cannot be reached. |
| RegistryHandler.SubmitStatus | backend/internal/handlers/registry_handler.go:451-459 | Corrected with a wrapping-aware test: 412 exactly for readiness failures, 400 for the rest. |
| RegistryHandler.NoActiveFormIsPreconditionFailed | backend/internal/handlers/registry_handler.go:451-459 | Without an active form the corrected handler answers 412 where the written one answers 400. |
| RegistryService.MergeConfig | backend/internal/service/registry_service.go:104-151 | Each present field is written and each absent one kept. The password changes only for a non-empty new one, to its sealed form. The identifier and creation time stay and the updater is recorded. |
| RegistryService.MergeConfigProperties | backend/internal/service/registry_service.go:104-151 | Merging the same request twice is merging it once, and an empty request only records the updater. |
| RegistryService.UpdateConfiguration | backend/internal/service/registry_service.go:80-175 | Refused without the manage-system right. Then a failed folder creation is FolderCreationFailed with its cause, and a failed password encryption EncryptionFailed with its cause, in that order. A success is exactly the merged configuration and validates. When those steps pass and the merged configuration validates, the update succeeds. A validation failure reports the merged configuration's first error. |
| RegistryService.ToResponse | backend/internal/service/registry_service.go:202-227 | The view reports whether the SMTP settings are complete. |
| RegistryService.GetSmtpConfig | backend/internal/service/registry_service.go:202-227 | A missing configuration reads as empty settings, port 0, incomplete. |
| RegistryService.ResponseHidesPassword | backend/internal/service/registry_service.go:202-227 | The view does not reveal the password, only whether one is set. |
| RegistryService.UpdateSmtpConfig | backend/internal/service/registry_service.go:230-323 | Refused without the manage-system right. A failed password encryption is EncryptionFailed with its cause. When encryption did not fail and the merged SMTP settings validate, the answer is the merged configuration. It has the requested or previous port (587 for a fresh configuration) and leaves the other settings alone. A validation failure reports the SMTP settings' error. |
| RegistryService.SmtpOnlyConfigMayBeIncomplete | backend/internal/service/registry_service.go:250-323 | A configuration first created through the SMTP path has no video URL, so it would not pass the full validation. |
| RegistryService.ValidatePreSubmission | backend/internal/service/registry_service.go:515-542 | Submissions are open exactly with an active form and a stored configuration that has notification addresses and complete SMTP settings. Each failure is reported in that order: no active form, no configuration, no addresses, incomplete SMTP. |
| RegistryService.ValidConfigIsReady | backend/internal/service/registry_service.go:515-542 | A stored configuration that validates never blocks submissions. |
| RegistryService.FirstMissing | backend/internal/service/registry_service.go:647-660 | The first required non-file field from a position on whose value is missing. |
| RegistryService.ValidateFormData | backend/internal/service/registry_service.go:647-660 | Data passes exactly when no required non-file field is missing. A failure names the first missing field's label. |
| RegistryService.FormDataMonotone | backend/internal/service/registry_service.go:647-660 | Adding values never turns accepted data into rejected data. |
| RegistryService.HasRequiredFileField | backend/internal/service/registry_service.go:663-679 | True exactly when some field is a required file field. |
| RegistryService.ValidateFiles | backend/internal/service/registry_service.go:663-679 | Refused exactly when no file was uploaded and some field is a required file field. |
| RegistryService.SubmitChecks | backend/internal/service/registry_service.go:545-600 | Readiness, the request, the schema lookup, the form data and the files are checked in that order, each failure reported with its cause. The record is created exactly when all pass. It records the submitter, schema and data with status "submitted". |
| RegistryService.SubmissionFolder | backend/internal/service/registry_service.go:593 | Submission documents go under "BLDS_approvals/". |
| RegistryService.GetSubmission | backend/internal/service/registry_service.go:820-836 | An unknown submission is SubmissionNotFound. The owner and holders of the manage-users right may read it, and they read the stored record. |
| RegistryService.Enrich | backend/internal/service/registry_service.go:780-794 | The submitter's full name and email and the form's name are filled in when found, and nothing else changes. |
| RegistryService.EnrichPage | backend/internal/service/registry_service.go:780-794 | Every submission of the page is enriched, in page order. |
| RegistryService.FilterBySearch | backend/internal/service/registry_service.go:796-806 | The matching submissions of the page are kept, in order. |
| RegistryService.EmptySearchKeepsAll | backend/internal/service/registry_service.go:796-806 | The empty search keeps the whole page. |
| RegistryService.GetAllSubmissions | backend/internal/service/registry_service.go:763-817 | Refused exactly without the manage-users right. Without a search, the enriched page and the repository's total are returned. Otherwise the result keeps exactly the enriched page entries that match, in page order, and the total becomes their number. |
| RegistrySubmission.FourStatuses | backend/internal/models/registry_submission.go:27-33 | Exactly the four statuses "submitted", "pending", "approved" and "rejected" are valid. |
| RegistrySubmission.ValidateSubmission | backend/internal/models/registry_submission.go:69-86 | A submission passes exactly with a user, a schema and a valid status, and the missing user is reported first. |
| RegistrySubmission.SubmissionValidityIgnoresContent | backend/internal/models/registry_submission.go:69-86 | Validity reads neither the form data nor the documents. |
| RegistrySubmission.ValidateCreateSubmission | backend/internal/models/registry_submission.go:89-102 | A request passes exactly with a non-empty schema identifier that parses. |
| RegistrySubmission.CreateSubmissionIgnoresData | backend/internal/models/registry_submission.go:89-102 | The form data places no constraint on a create request. |
| RegistrySubmission.ValidateStatusUpdate | backend/internal/models/registry_submission.go:105-111 | A status update passes exactly for one of the four statuses. |
| ResetStore.FindByToken | backend/internal/repository/password_reset_repository.go:41-51 | Not found exactly when no document carries the token, and otherwise the first document that does. |
| ResetStore.FindByCode | backend/internal/repository/password_reset_repository.go:54-64 | Not found exactly when no document carries the code, and otherwise the first document that does, whoever it belongs to. |
| ResetStore.Latest | backend/internal/repository/password_reset_repository.go:67-78 | The position of a document of the user created no earlier than any other of theirs. |
| ResetStore.FindByUserId | backend/internal/repository/password_reset_repository.go:67-78 | Not found exactly when the user has no document; otherwise one of theirs with the latest creation time. |
| ResetStore.MarkAsUsed | backend/internal/repository/password_reset_repository.go:81-88 | The first document with the identifier is marked used and every other document is unchanged; an unknown identifier changes nothing. |
| ResetStore.CleanupExpiredTokens | backend/internal/repository/password_reset_repository.go:91-99 | Exactly the documents whose deadline has passed are removed. |
| ResetStore.CountRecentRequests | backend/internal/repository/password_reset_repository.go:102-111 | Counts the user's documents created since the instant; zero exactly when there are none. |
| ResetStore.CountRecentRequestsByIp | backend/internal/repository/password_reset_repository.go:114-123 | Counts the address's documents created since the instant; zero exactly when there are none. |
| ResetStore.CountAfterInsert | backend/internal/repository/password_reset_repository.go:35-38 | Inserting a document raises each count by one exactly when the document falls in its window. |
| ResetStore.CountWindowMonotone | backend/internal/repository/password_reset_repository.go:102-123 | A wider window never counts fewer documents. |
| ResetStore.MarkAsUsedKeepsKeys | backend/internal/repository/password_reset_repository.go:81-88 | Marking a document used does not change what a token lookup finds. |
| ResetStore.SameTokensSameFirst | backend/internal/repository/password_reset_repository.go:41-51 | The token lookup depends only on the token strings, position by position. |
| Roles.NameInjective | backend/internal/models/roles.go:53-70 | Distinct permissions have distinct wire names. |
| Roles.AllPermissionsComplete | backend/internal/models/roles.go:53-70 | The declared list holds every permission. |
| Roles.PermissionsForRole | backend/internal/models/roles.go:73-107 | The list holds exactly the permissions the table grants the role and level, without repetition, and begins with the five clinical ones. |
| Roles.Member | backend/internal/models/roles.go:110-118 | The linear search finds exactly the listed permissions. |
| Roles.HasPermission | backend/internal/models/roles.go:110-118 | A permission is held exactly when the role and level's list contains it, which is exactly when the table grants it. |
| Roles.ClinicalIffValidNonAdmin | backend/internal/models/roles.go:14-29 | The clinical roles are exactly the valid roles other than admin. |
| Roles.NonAdminGetsClinical | backend/internal/models/roles.go:73-107 | A non-admin gets exactly the five clinical permissions, whatever level is given. |
| Roles.AdminPermissionCounts | backend/internal/models/roles.go:73-107 | A user manager has 7 permissions and a super admin 10; an admin at any other level gets only the clinical five. |
| Roles.PermissionsMonotone | backend/internal/models/roles.go:73-107 | Clinical permissions are within a user manager's, which are within a super admin's, and a super admin holds every permission. |
| Roles.SuperAdminOnly | backend/internal/models/roles.go:73-107 | Deleting users, managing the system and viewing audit logs are held exactly by super admins. |
| RouterGuard.Guard | frontend/src/router/index.ts:120-138 | Navigation proceeds exactly when the route's authentication, guest and admin demands are met. A protected page sends a signed-out user to login, and every other redirect goes to the dashboard. |
| RouterGuard.RoutesWellFormed | frontend/src/router/index.ts:10-117 | Every route of the table has a sensible flag combination: admin pages are protected, and no page is both protected and guest-only. |
| RouterGuard.NoRedirectChain | frontend/src/router/index.ts:10-138 | For sensible flags a redirect lands on a route of the table that the same user may enter, so the guard never redirects twice. |
| RouterGuard.AuthenticationCheckedFirst | frontend/src/router/index.ts:120-138 | A signed-out visitor of an admin page goes to login whatever the stored role, and a signed-in non-admin goes to the dashboard. |
| Session.ExpiryProperties | backend/internal/models/session.go:23-30 | Each expiry check reads only its own deadline, expiry persists as time passes, and a session is still live at its deadline and expired one unit later. |
| Session.TokenExpired | backend/internal/models/password_reset.go:57-59 | A reset token is expired exactly when the current time is past its deadline. |
| Session.TokenValid | backend/internal/models/password_reset.go:62-64 | A reset token is valid exactly when unused and not past its deadline. |
| Session.TokenValidity | backend/internal/models/password_reset.go:57-64 | A used token is never valid, an unused one is still valid at its deadline, and validity is never regained as time passes. |
| SessionStore.FindByToken | backend/internal/repository/session_repository.go:71-86 | Not found exactly when no session has the token; a success is a stored session with that token whose access deadline has not passed. |
| SessionStore.FindByRefreshToken | backend/internal/repository/session_repository.go:89-104 | Not found exactly when no session has the refresh token; a success is a stored session with it whose refresh deadline has not passed. |
| SessionStore.RefreshIgnoresAccessExpiry | backend/internal/repository/session_repository.go:71-104 | A session whose access deadline has passed but whose refresh deadline has not is found by its refresh token and reported expired by its access token. |
| SessionStore.Create | backend/internal/repository/session_repository.go:58-68 | Refused as a duplicate exactly when either token is taken; otherwise the session is appended with its identifier and creation time, keeping tokens unique. |
| SessionStore.Delete | backend/internal/repository/session_repository.go:107-116 | Not found exactly when no session has the token; otherwise exactly the first session with it is removed. |
| SessionStore.DeletePreservesUnique | backend/internal/repository/session_repository.go:107-116 | With unique tokens, deleting a session keeps them unique, leaves no session with the token and keeps every other session. |
| SessionStore.DeleteAllByUserId | backend/internal/repository/session_repository.go:119-122 | Exactly the user's sessions are removed. |
| SessionStore.DeleteExpired | backend/internal/repository/session_repository.go:125-133 | Exactly the sessions whose access deadline has passed are removed, and the count reported is how many were. |
| SessionStore.NoExpiredAfterSweep | backend/internal/repository/session_repository.go:71-86 | Right after the sweep no lookup reports an expired session. |
| SessionStore.RefreshAfterSweepFails | backend/internal/repository/session_repository.go:47-50 | After the sweep, which the TTL index on the access deadline also runs, a session whose access token expired is no longer found by its refresh token. |
| SopCategory.ReplaceChar | backend/internal/models/sop_category.go:123-124 | Every occurrence of the one character is replaced and nothing else changes. |
| SopCategory.KeepSlugChars | backend/internal/models/sop_category.go:127-128 | Only slug characters remain, and a string of slug characters is left alone. |
| SopCategory.CollapseHyphens | backend/internal/models/sop_category.go:131-132 | No two hyphens remain in a row. The first character and the slug alphabet are kept, and a string without double hyphens is left alone. |
| SopCategory.TrimLeftHyphens | backend/internal/models/sop_category.go:135 | Exactly the leading hyphens are dropped. |
| SopCategory.TrimRightHyphens | backend/internal/models/sop_category.go:135 | Exactly the trailing hyphens are dropped. |
| SopCategory.SliceOfSlugChars | backend/internal/models/sop_category.go:126-135 | A slice of a string of slug characters without double hyphens is such a string too. |
| SopCategory.TrimHyphensIsSlug | backend/internal/models/sop_category.go:135 | Trimming such a string yields a slug: lower-case letters, digits and single inner hyphens. |
| SopCategory.Hyphenate | backend/internal/models/sop_category.go:120-124 | Each ASCII upper-case letter is lowered, and spaces and underscores become hyphens. |
| SopCategory.Slugify | backend/internal/models/sop_category.go:126-137 | The regular-expression steps always yield a slug. |
| SopCategory.GenerateSlug | backend/internal/models/sop_category.go:118-138 | Every generated slug has the slug shape. |
| SopCategory.SlugifySlug | backend/internal/models/sop_category.go:126-137 | The regular-expression steps leave a slug unchanged. |
| SopCategory.SlugFixpoint | backend/internal/models/sop_category.go:118-138 | A string already shaped like a slug is its own slug. |
| SopCategory.SlugIdempotent | backend/internal/models/sop_category.go:118-138 | Slugging a slug changes nothing. |
| SopCategory.SlugOfSpacedName | backend/internal/models/sop_category.go:118-138 | "A b" becomes "a-b". |
| SopCategory.SlugOfUnderscoredName | backend/internal/models/sop_category.go:118-138 | "a_b" becomes "a-b". |
| SopCategory.SlugOfPunctuatedName | backend/internal/models/sop_category.go:118-138 | Punctuation is stripped, so "a&b" becomes "ab". |
| SopCategory.SlugOfHyphenatedName | backend/internal/models/sop_category.go:118-138 | Hyphens left at the ends are trimmed, so "-a!" becomes "a". |
| SopCategory.ValidateCategoryName | backend/internal/models/sop_category.go:85-91 | A name passes exactly when, trimmed, it is non-empty and at most 100 bytes. |
| SopCategory.EndsWithAny | backend/internal/models/sop_category.go:99-108 | True exactly when one of the extensions ends the string. |
| SopCategory.ValidateImagePath | backend/internal/models/sop_category.go:94-115 | A path passes exactly when it is empty or ends, in any case, with .jpg, .jpeg, .png or .webp. |
| SopCategory.UpperCaseExtensionAccepted | backend/internal/models/sop_category.go:94-115 | A path ending in ".JPG" is accepted whatever its stem. |
| SopCategory.PdfRejected | backend/internal/models/sop_category.go:94-115 | A path ending in ".pdf" is refused whatever its stem. |
| SopCategory.ValidateCategory | backend/internal/models/sop_category.go:53-82 | A category passes only when no check fails, and a failure is the first failing check in the order of the code. |
| SopCategory.ValidateCreate | backend/internal/models/sop_category.go:149-169 | A create request is judged as the category it describes would be, with the slug check skipped. |
| SopCategory.ValidateUpdate | backend/internal/models/sop_category.go:172-194 | Only present fields are checked, each with the category's own rule, and an empty request passes. |
| SopCategory.DropboxPathOf | backend/internal/models/sop_category.go:141-146 | The stored folder when there is one, otherwise "SOPS/" followed by the name. |
| SopHandler.CreateStatus | backend/internal/handlers/sop_category_handler.go:48-76 | 403 for a missing right, 409 for a taken slug, 400 for the rest. |
| SopHandler.UpdateStatus | backend/internal/handlers/sop_category_handler.go:185-222 | 403, 404 and 409 for the missing right, the unknown category and the taken slug; 400 for invalid input. |
| SopHandler.DeleteStatus | backend/internal/handlers/sop_category_handler.go:237-266 | 403 and 404 for the missing right and the unknown category, 500 for anything else. |
| SopHandler.GetStatus | backend/internal/handlers/sop_category_handler.go:90-115 | 404 exactly for an unknown category, 500 for anything else. |
| SopHandler.DeleteNeverInternal | backend/internal/handlers/sop_category_handler.go:237-266 | Every refused delete answers 403 or 404, never 500. |
| SopHandler.HiddenLooksMissing | backend/internal/handlers/sop_category_handler.go:90-115 | A hidden category is answered 404 to a caller without the right, as if it did not exist. |
| SopHandler.ListWindow | backend/internal/handlers/sop_category_handler.go:139-147 | The page is at least 1 and the limit between 1 and 100. A page that does not parse or is below 1 becomes 1, and a bad limit becomes 20. |
| SopHandler.ListWindowDefaults | backend/internal/handlers/sop_category_handler.go:139-147 | Without parameters the window is the first page of twenty. |
| SopHandler.ListWindowStable | backend/internal/handlers/sop_category_handler.go:139-147 | The window echoed in a response, sent back, is read the same. |
| SopHandler.AdminTotalIsSize | backend/internal/handlers/sop_category_handler.go:129-167 | For a caller with the right and no search, the total reported is the number of categories stored. |
| SopHandler.SeedOne | backend/internal/handlers/sop_category_handler.go:507-522 | A seed is skipped exactly when category creation refuses it. A seeded category takes a fresh slug and the given identifier and is what its seed request describes. |
| SopHandler.SeedAll | backend/internal/handlers/sop_category_handler.go:507-522 | At most one category per seed, each from a seed, with unique keys. When the caller has the right, every seed is valid with a non-empty slug, and slugs and identifiers are distinct, every seed is created, in order, under its identifier. |
| SopHandler.SeedStepAdmitted | backend/internal/handlers/sop_category_handler.go:507-522 | With admissible seeds, the next seed is created on top of those before it, keeping the order. |
| SopHandler.PlainSeedsAdmissible | backend/internal/handlers/sop_category_handler.go:480-522 | Seeds whose names are short, start with different letters and need no trimming are all admissible for a caller with the right and distinct identifiers. |
| SopHandler.SlugHead | backend/internal/models/sop_category.go:118-138 | A name that starts with a letter has a non-empty slug starting with that letter in lower case. |
| SopHandler.SeedCategories | backend/internal/handlers/sop_category_handler.go:448-529 | Refused without a user, forbidden without the right, and a no-op on a non-empty store, which reports its size. A caller with the right on an empty store, with distinct identifiers, gets Anemia, Lymphoma, Myeloma and General Business created in that order, and the store becomes exactly them. |
| SopService.FolderOf | backend/internal/service/sop_category_service.go:79 | A category's folder is "SOPS/" followed by its name. |
| SopService.NewCategory | backend/internal/service/sop_category_service.go:73-84 | The built record carries the request's fields, the slug of the name, the name's folder, the active flag and the creator. |
| SopService.Insert | backend/internal/service/sop_category_service.go:86-106 | An empty slug fails the record's validation, and a taken identifier is refused as a duplicate. Otherwise the record is appended with its identifier and creation time, under a fresh slug. |
| SopService.Admit | backend/internal/service/sop_category_service.go:62-106 | A slug already taken is refused as a duplicate; otherwise the record is inserted. |
| SopService.CreateCategory | backend/internal/service/sop_category_service.go:45-122 | Checks, in order: the request, then the right, then the slug. A success appends a category built from the request, with a fresh non-empty slug. |
| SopService.CreatedIsValid | backend/internal/service/sop_category_service.go:86-88 | A created category passes the record's own validation. |
| SopService.CreateRefusals | backend/internal/service/sop_category_service.go:62-106 | With a valid request, the right and a fresh identifier, creation fails exactly when the slug is taken or empty. An empty slug on its own is reported as invalid. |
| SopService.SecondNameWithSameSlugRefused | backend/internal/service/sop_category_service.go:62-71 | Two names with the same slug cannot both be created: the second is a duplicate. |
| SopService.GetCategory | backend/internal/service/sop_category_service.go:125-140 | Found exactly when stored and visible to the caller, that is active or the caller holds the right. Anything else reads as not found. |
| SopService.GetCategoryBySlug | backend/internal/service/sop_category_service.go:143-158 | The same rule, looked up by slug. |
| SopService.LookupsAgree | backend/internal/service/sop_category_service.go:125-158 | With unique keys, the lookups by identifier and by slug agree on every stored category. |
| SopService.ListFilter | backend/internal/service/sop_category_service.go:161-178 | Only categories the caller may see are kept, and without a search exactly those. |
| SopService.ListCategories | backend/internal/service/sop_category_service.go:161-191 | A page holds at most the limit, in listing order, of stored categories the caller may see. The total is at least the page's size and at most the store's. |
| SopService.ListedCanBeFetched | backend/internal/service/sop_category_service.go:125-191 | Every listed category can be fetched by the same caller. |
| SopService.Merged | backend/internal/service/sop_category_service.go:220-258 | Present fields are written and absent ones kept. A rename also sets the slug and folder, and the keys and creation data stay. |
| SopService.MergeIdempotent | backend/internal/service/sop_category_service.go:220-258 | Applying the same update twice is applying it once. |
| SopService.MergeIsUpdate | backend/internal/service/sop_category_service.go:220-301 | The stored record after the update keeps the promise of the update, and so does the unchanged category when nothing is written. |
| SopService.Commit | backend/internal/service/sop_category_service.go:259-301 | When nothing is written the category comes back unchanged. Otherwise the returned category keeps the update's promise and is what is now stored. |
| SopService.UpdateCategory | backend/internal/service/sop_category_service.go:194-302 | Checks, in order: the request, then the right, then the category. A success returns what is now stored, keeping the update's promise, and an update writing nothing changes nothing. |
| SopService.UpdateExisting | backend/internal/service/sop_category_service.go:211-301 | An unknown category is not found, and failures are only not-found or duplicate. A success keeps the update's promise. |
| SopService.UpdateKeepsKeysUnique | backend/internal/service/sop_category_service.go:225-270 | An update the slug check lets through succeeds and keeps both keys unique. |
| SopService.SameNameUpdateUnchanged | backend/internal/service/sop_category_service.go:220-261 | Sending a category's own name back, and nothing else, changes nothing. |
| SopService.DeleteCategory | backend/internal/service/sop_category_service.go:305-348 | Refused exactly without the right, not found exactly for an unknown category, and a success removes one stored category. |
| SopService.DeletedIsNotFound | backend/internal/service/sop_category_service.go:305-348 | A deleted category is not found by anyone afterwards. |
| SopStore.Create | backend/internal/repository/sop_category_repository.go:64-81 | Refused as a duplicate exactly when the slug or identifier is taken. Otherwise the record is appended with both times stamped and the caller's identifier, or a new one when none is set. |
| SopStore.AppendKeepsKeysUnique | backend/internal/repository/sop_category_repository.go:64-81 | Appending a category with new keys keeps both keys unique. |
| SopStore.CreateKeepsKeysUnique | backend/internal/repository/sop_category_repository.go:64-81 | An accepted insert keeps both keys unique. |
| SopStore.FindById | backend/internal/repository/sop_category_repository.go:84-96 | Not found exactly when no category has the identifier, and otherwise the first that does. |
| SopStore.MemberIsFound | backend/internal/repository/sop_category_repository.go:84-96 | With unique keys a stored category is what its identifier finds. |
| SopStore.FindBySlug | backend/internal/repository/sop_category_repository.go:99-111 | Not found exactly when no category has the slug, and otherwise the first that does. |
| SopStore.CreatedIsFoundBySlug | backend/internal/repository/sop_category_repository.go:64-111 | A created category is found again by its slug and by its identifier. |
| SopStore.CategoryFilter | backend/internal/repository/sop_category_repository.go:120-134 | A category is kept exactly when it has the requested active flag, if one is given, and its name or description matches the search, if one is given. |
| SopStore.OrderIsTotal | backend/internal/repository/sop_category_repository.go:138-142 | The listing order, display order then name, is a total preorder. |
| SopStore.List | backend/internal/repository/sop_category_repository.go:120-156 | A page holds at most the limit and at most the count of matches, all matching stored categories, in listing order. |
| SopStore.CountIsUnpaginatedList | backend/internal/repository/sop_category_repository.go:120-179 | The count is the size of the listing without a limit. |
| SopStore.Update | backend/internal/repository/sop_category_repository.go:182-203 | Not found exactly for an unknown identifier, and a duplicate exactly when the new slug belongs to another category. Otherwise only that category changes, stamped with the time. |
| SopStore.UpdateKeepsKeysUnique | backend/internal/repository/sop_category_repository.go:182-203 | An accepted update that keeps the identifier keeps both keys unique. |
| SopStore.SetActive | backend/internal/repository/sop_category_repository.go:220-227 | Activation and deactivation change only the flag and update time of the one category, and fail only for an unknown identifier. |
| SopStore.RemoveAt | backend/internal/repository/sop_category_repository.go:206-217 | The collection without one category, the rest in order. |
| SopStore.RemoveAtKeepsKeysUnique | backend/internal/repository/sop_category_repository.go:206-217 | Removing a category keeps keys unique and leaves no category with its identifier. |
| SopStore.Delete | backend/internal/repository/sop_category_repository.go:206-217 | Not found exactly for an unknown identifier. Otherwise one category is removed, and with unique keys none with the identifier remains. |
| SopStore.ExistsBySlug | backend/internal/repository/sop_category_repository.go:230-243 | True exactly when some category other than the excluded one has the slug. |
| SopStore.ExistsBySlugMatchesIndex | backend/internal/repository/sop_category_repository.go:230-243 | The existence check answers what the unique index would: without an exclusion it is slug membership. Excluding the category itself, it asks whether another category has the slug. |
| SubmissionStore.Create | backend/internal/repository/registry_submission_repository.go:61-74 | The stored submission is the given one with the new identifier, both times stamped and the status forced to "submitted", a valid status, appended at the end. |
| SubmissionStore.FindById | backend/internal/repository/registry_submission_repository.go:77-87 | Not found exactly when no submission has the identifier; otherwise a stored submission with it. |
| SubmissionStore.CreatedIsFound | backend/internal/repository/registry_submission_repository.go:61-87 | A submission created under a fresh identifier is found by it, with status "submitted". |
| SubmissionStore.ListWhere | backend/internal/repository/registry_submission_repository.go:90-151 | A page holds at most the limit of matching stored submissions, newest first, and the total is the number of all matches. |
| SubmissionStore.FindByUser | backend/internal/repository/registry_submission_repository.go:90-118 | A page holds at most the limit of the user's own submissions, newest first. |
| SubmissionStore.List | backend/internal/repository/registry_submission_repository.go:121-151 | A page holds at most the limit of stored submissions that match the filter. |
| SubmissionStore.FindByUserTotal | backend/internal/repository/registry_submission_repository.go:90-118 | The user's total and everyone else's add up to the collection, and a user with a submission has a total of at least one. |
| SubmissionStore.Update | backend/internal/repository/registry_submission_repository.go:154-169 | Not found exactly for an unknown identifier; otherwise only that submission changes, stamped with the time. |
| SubmissionStore.Reviewed | backend/internal/repository/registry_submission_repository.go:172-197 | A review writes the status, reviewer, review time and update time, and the notes only when some are given. Nothing else changes. |
| SubmissionStore.UpdateStatus | backend/internal/repository/registry_submission_repository.go:172-197 | Not found exactly for an unknown identifier; otherwise only that submission is reviewed. |
| SubmissionStore.NotesSurviveLaterReview | backend/internal/repository/registry_submission_repository.go:172-197 | A later review without notes keeps the notes of an earlier one and records its own status, reviewer and time. |
| SubmissionStore.Delete | backend/internal/repository/registry_submission_repository.go:200-209 | Not found exactly for an unknown identifier. Otherwise one submission is removed, and with unique identifiers none with it remains. |
| SubmissionStore.Count | backend/internal/repository/registry_submission_repository.go:212-214 | The count is the size of the collection. |
| Uploads.Ext | backend/internal/handlers/institution_handler.go:519 | The extension is empty or a suffix of the name that starts with its only dot and holds no separator. |
| Uploads.ExtOfSuffix | backend/internal/handlers/institution_handler.go:519 | A name ending in a dot and a plain suffix has that extension. |
| Uploads.ScanExtensions | backend/internal/handlers/institution_handler.go:592-599 | The loop finds exactly the listed extensions. |
| Uploads.ExtensionChecksAgree | backend/internal/handlers/institution_handler.go:519-601 | The map lookup of the admin endpoints and the list scan of the user endpoint accept exactly the same four extensions. |
| Uploads.CheckFile | backend/internal/handlers/institution_handler.go:506-530 | A missing file and one over 5 MiB are refused as such. Otherwise the file passes exactly when its lower-cased extension is accepted. |
| Uploads.CheckAdminUpload | backend/internal/handlers/institution_handler.go:492-556 | Unauthenticated exactly without a user, forbidden exactly without the needed right. A pass has both and a present file of at most 5 MiB. |
| Uploads.CheckUserUpload | backend/internal/handlers/institution_handler.go:570-629 | Unauthenticated exactly without a user, and never refused for a missing right. |
| Uploads.AdminAndUserUploadsAgree | backend/internal/handlers/sop_category_handler.go:372-436 | Past the right check, the admin and user endpoints treat every file alike. |
| Uploads.SizeBoundary | backend/internal/handlers/institution_handler.go:513 | The size bound is inclusive: exactly 5 MiB passes and one byte more is too large. |
| Uploads.LoweredJpg | backend/internal/handlers/institution_handler.go:519 | A name ending in ".JPG" has the extension ".jpg" once lower-cased. |
| Uploads.UpperCaseImageAccepted | backend/internal/handlers/sop_category_handler.go:399-407 | An upper-case image extension is accepted. |
| Uploads.GenerateRandomString | backend/internal/handlers/sop_category_handler.go:532-539 | The string has the requested length, each character drawn from the lower-case letters and digits at the drawn position. |
| UserHandler.CreateStatus | backend/internal/handlers/user_handler.go:41-69 | 403 exactly for a missing right, 409 exactly for a taken email or username, 400 for the rest. |
| UserHandler.UpdateStatus | backend/internal/handlers/user_handler.go:118-153 | 403 exactly for a missing right or a change of one's own admin level, 404 exactly for an unknown user, 400 for the rest. |
| UserHandler.RemovalStatus | backend/internal/handlers/user_handler.go:168-285 | Delete, deactivate and activate: 403 exactly for a missing right, 404 exactly for an unknown user, 400 for the rest. |
| UserHandler.InvalidCreateIsBadRequest | backend/internal/handlers/user_handler.go:41-69 | An invalid request is answered 400 whoever sends it, since it is checked before the right. |
| UserHandler.ManagerCreatingAdminIsBadRequest | backend/internal/handlers/user_handler.go:41-69 | A user manager asking for an admin account is answered 400, not 403. |
| UserHandler.TakenEmailConflicts | backend/internal/handlers/user_handler.go:41-69 | A valid request from a creator with the right whose email is taken is answered 409. |
| UserHandler.SelfDeleteIsBadRequest | backend/internal/handlers/user_handler.go:168-197 | Deleting one's own account is answered 400, not 403. |
| UserHandler.GetUserStatus | backend/internal/handlers/user_handler.go:82-101 | 200 exactly for a stored user, 404 otherwise. |
| UserHandler.ParseListQuery | backend/internal/handlers/user_handler.go:302-333 | A role filter only for a valid role, and an active filter whenever the parameter is given, true only for "true". A limit that is not a positive integer is 20, and a skip that is not a non-negative integer is 0. |
| UserHandler.ListQueryStable | backend/internal/handlers/user_handler.go:321-345 | The limit and skip echoed in the answer, sent back, are read the same. |
| UserHandler.ListUsersAnswer | backend/internal/handlers/user_handler.go:302-347 | The answer holds at most the limit of users, at most the total, which is at most the number stored. |
| UserHandler.InvalidRoleIgnored | backend/internal/handlers/user_handler.go:304-310 | An invalid role filter is ignored: the answer is the unfiltered one. |
| UserService.NormalizeEmail | backend/internal/service/user_service.go:59 | The stored email is the trimmed one up to letter case, and no longer than the given one. |
| UserService.Register | backend/internal/service/user_service.go:59-113 | A failed email query is reported as a store failure. An email the written pattern finds is DuplicateEmail, and then a taken username is DuplicateUsername. A success means the pattern matched no stored email and no stored user shares the email, the username or the identifier. The store gains exactly the new user: active, unlocked, no failed logins, the request's fields and the normalised email. |
| UserService.CreateUser | backend/internal/service/user_service.go:42-129 | The request is checked before the creator's right. A success has a creator with the right who, as a user manager, is not creating an admin. Once those pass, the answer is the registration step's. The new user is appended as the registration step promises. |
| UserService.CreatedUserIsFound | backend/internal/service/user_service.go:42-129 | The new user is what a lookup by its identifier finds. It is also what the written email lookup finds, for any query equal to its email up to case without metacharacters other than dots. |
| UserService.LookalikeBlocksRegistration | backend/internal/service/user_service.go:58-68 | As written, a stored "aab@x.org" makes registering "a+b@x.org" fail with DuplicateEmail. |
| UserService.ApplyUpdate | backend/internal/service/user_service.go:153-204 | An update never touches the identifier, email, username, password, creation time or lock state. Without the right it leaves role, level and active flag alone. |
| UserService.ApplyUpdateIdempotent | backend/internal/service/user_service.go:153-204 | Applying an update twice is applying it once, and the empty update changes nothing. |
| UserService.PlanUpdate | backend/internal/service/user_service.go:139-199 | An update passes only for oneself or a user one manages. A level change is refused for oneself and allowed only to super admins. A user manager may not grant the admin role, and the privileged fields apply exactly when the updater has the right. |
| UserService.UpdateUser | backend/internal/service/user_service.go:132-224 | An unknown target is not found, and a refused plan is reported. An update writing nothing returns the stored user unchanged; otherwise the target alone is rewritten and returned. |
| UserService.UpdateUserRules | backend/internal/service/user_service.go:132-224 | After a successful update the updater is the target or manages it, and one's own level is unchanged. Without the right, role, level and flag are kept. Only a super admin changes a level or makes someone an admin. |
| UserService.UpdatedUserReRead | backend/internal/service/user_service.go:207-223 | Re-reading the record after an update returns the user the update returned. |
| UserService.EmptyUpdateChangesNothing | backend/internal/service/user_service.go:207-223 | An update with no field present changes nothing, whoever makes it. |
| UserService.SelfDeactivationThroughUpdate | backend/internal/service/user_service.go:132-308 | A user manager may deactivate themselves through an update although the deactivation endpoint refuses them. |
| UserService.DeleteUser | backend/internal/service/user_service.go:227-265 | Only a super admin may delete, never themselves, and only a stored user. A success removes the user and keeps every other. |
| UserService.DeactivateUser | backend/internal/service/user_service.go:268-308 | Allowed exactly for a stored user other than oneself whom the actor manages, and then the user is deactivated. |
| UserService.ActivateUser | backend/internal/service/user_service.go:311-346 | Allowed exactly for a stored user the actor manages, oneself included, and then the user is activated. |
| UserService.ListUsers | backend/internal/service/user_service.go:354-387 | A page holds at most the limit of stored users with the requested role and active flag, and the total is between the page's size and the store's. |
| UserService.UnfilteredListCountsAll | backend/internal/service/user_service.go:390-396 | Without any filter the total is the number of users. |
| Users.ScanFlags | backend/internal/models/user.go:169-185 | The loop over the runes sets each flag exactly when the password holds a character of that class. |
| Users.ValidatePassword | backend/internal/models/user.go:162-192 | A password passes exactly when it is at least 8 bytes long and holds an upper-case letter, a lower-case letter, a digit and a special character. |
| Users.PasswordExampleAccepted | backend/internal/models/user_test.go:17 | "Abcdef1@" is accepted. |
| Users.NoUpperInExample | backend/internal/models/user_test.go:19 | "nouppercas1!" has no upper-case letter. |
| Users.NoSpecialInExample | backend/internal/models/user_test.go:22 | "NoSpecialChar1" has no special character. |
| Users.PasswordExamplesRejected | backend/internal/models/user_test.go:18-23 | The empty, short, no-upper-case and no-special examples are rejected. |
| Users.ValidateCreateUser | backend/internal/models/user.go:109-159 | A request passes only when no check fails, and a failure is the first failing check in the order of the code. |
| Users.ValidateCreateUserIff | backend/internal/models/user.go:109-159 | A request is valid exactly when no check fails. |
| Users.ValidRequestAdminLevel | backend/internal/models/user.go:126-141 | A valid admin request names user manager or super admin; a valid non-admin request is clinical and has no level. |
| Users.IsLocked | backend/internal/models/user.go:195-200 | A user is locked exactly while a lock deadline is set and still ahead. |
| Users.CanManageUser | backend/internal/models/user.go:213-230 | Super admins manage everyone and user managers every non-admin; nobody else manages anyone, and managing implies the manage-users right. |
| Users.FullName | backend/internal/models/user.go:233-235 | The first name, one space, then the last name. |
| UserStore.PlusEmailAccepted | backend/internal/models/user.go:111-114 | The counterexample "a+b@x.org" is an email that user creation accepts. |
| UserStore.PlusEmailMissed | backend/internal/repository/user_repository.go:96-108 | As written, the lookup of "a+b@x.org" does not find a user stored under that very email, and it does find one stored as "aab@x.org". |
| UserStore.QuoteMeta | backend/internal/repository/user_repository.go:99 | Quoting never starts with a repetition operator and never shortens the text. |
| UserStore.CompileQuoteMeta | backend/internal/repository/user_repository.go:99 | A quoted string always compiles, to its own characters each matched once. |
| UserStore.MatchesLiterals | backend/internal/repository/user_repository.go:99 | Such a pattern matches exactly the strings equal to it up to letter case. |
| UserStore.QuotedPatternMatchesIff | backend/internal/repository/user_repository.go:96-108 | With the whole query quoted, the lookup always compiles and finds exactly the emails equal to the query up to letter case. |
| UserStore.FindById | backend/internal/repository/user_repository.go:83-93 | Not found exactly when no user has the identifier; otherwise a stored user with it. |
| UserStore.FindByEmail | backend/internal/repository/user_repository.go:96-108 | The pattern `^` + email + `$` with only dots escaped, as written. A pattern outside the modelled fragment is QueryFailed. Otherwise not found exactly when the pattern matches no stored email, and a found user is stored and matched by it. |
| UserStore.FindByEmailQuoted | backend/internal/repository/user_repository.go:96-108 | Corrected: not found exactly when no stored email equals the query up to case; otherwise a stored user whose email does. |
| UserStore.PlainEmailMatchesIff | backend/internal/repository/user_repository.go:99 | For an email whose only metacharacters are dots, the written pattern compiles and matches exactly the emails equal to it up to case. |
| UserStore.PlainEmailLookupsAgree | backend/internal/repository/user_repository.go:96-234 | For such an email the written and the corrected lookups, and the two existence checks, agree. |
| UserStore.FindByUsername | backend/internal/repository/user_repository.go:111-121 | Not found exactly when no user has the username; otherwise a stored user with it. |
| UserStore.FindAppended | backend/internal/repository/user_repository.go:63-108 | A user appended under a fresh identifier, whose email the query pattern matches while it matches no stored email, is what both lookups find. |
| UserStore.FindByIdAfterMap | backend/internal/repository/user_repository.go:124-139 | After an update of a record that keeps its identifier, the lookup finds the updated record. |
| UserStore.FindByEmailAfterMap | backend/internal/repository/user_repository.go:96-139 | For the written pattern, an update that leaves emails alone leaves the email lookup on the same record, now updated if it was the target. |
| UserStore.EmailExists | backend/internal/repository/user_repository.go:226-234 | The written pattern, as in the lookup. A pattern outside the modelled fragment is QueryFailed. Otherwise true exactly when the pattern matches some stored email. |
| UserStore.EmailExistsQuoted | backend/internal/repository/user_repository.go:226-234 | Corrected: true exactly when some stored email equals the query up to case. |
| UserStore.UsernameExists | backend/internal/repository/user_repository.go:237-243 | True exactly when some user has the username. |
| UserStore.Create | backend/internal/repository/user_repository.go:63-80 | Refused exactly when a unique index clashes; otherwise the stamped record is appended. |
| UserStore.MapId | backend/internal/repository/user_repository.go:124-139 | Exactly the records with the identifier are changed and stamped. |
| UserStore.Update | backend/internal/repository/user_repository.go:124-139 | Not found exactly for an unknown identifier; otherwise only its record changes. |
| UserStore.Bump | backend/internal/repository/user_repository.go:200-210 | The counter goes up by one and nothing else changes. |
| UserStore.UpdateLastLogin | backend/internal/repository/user_repository.go:190-197 | The login time is recorded, the failed-login counter and lock are cleared, and the update time is stamped on the user with that identifier. Every other field of it and every other record are unchanged. |
| UserStore.IncrementFailedLoginAttempts | backend/internal/repository/user_repository.go:200-210 | The user's counter goes up by one and the update time is stamped. Every other field of it and every other record are unchanged, and an unknown identifier changes nothing. |
| UserStore.LockAccount | backend/internal/repository/user_repository.go:213-215 | The user is locked until the deadline and the update time is stamped. Every other field of it, the counter included, and every other record are unchanged. |
| UserStore.UnlockAccount | backend/internal/repository/user_repository.go:218-223 | The lock and the counter are cleared and the update time is stamped. Every other field of it and every other record are unchanged. |
| UserStore.Deactivate | backend/internal/repository/user_repository.go:154-156 | Only the user's active flag is cleared, with the update time. |
| UserStore.Activate | backend/internal/repository/user_repository.go:159-161 | Only the user's active flag is set, with the update time. |
| UserStore.ActivateUndoesDeactivate | backend/internal/repository/user_repository.go:154-161 | Re-activating a deactivated user restores every field but the update time. |
| UserStore.UnlockUndoesLock | backend/internal/repository/user_repository.go:213-223 | Unlocking after a lock leaves the user unlocked at every time, with no failed logins. |
| UserStore.Without | backend/internal/repository/user_repository.go:142-151 | The records other than those with the identifier remain, and no other record. |
| UserStore.Delete | backend/internal/repository/user_repository.go:142-151 | Not found exactly for an unknown identifier. Otherwise the collection shrinks, no record with the identifier remains and every other record is kept. |
| UserStore.List | backend/internal/repository/user_repository.go:164-182 | At most the limit of matching stored users, newest first, and no more than the count. |
| UserStore.Count | backend/internal/repository/user_repository.go:185-187 | The count is at most the number of users. |
| ApiClient.Split | frontend/src/services/apiService.ts:11 | Splitting gives at least one part, and no part contains the separator. |
| ApiClient.SplitJoin | frontend/src/services/apiService.ts:11 | Splitting loses nothing: joining the parts with the separator gives back the token, and there is one more part than separators. |
| ApiClient.ToStandardBase64 | frontend/src/services/apiService.ts:17-23 | The URL alphabet is mapped to the standard one character by character, and '=' pads the result to a multiple of four with fewer than four added. |
| ApiClient.NoUrlCharactersLeft | frontend/src/services/apiService.ts:19 | After the conversion no '-' or '_' is left. |
| ApiClient.StandardUnchanged | frontend/src/services/apiService.ts:17-23 | Standard base64 of a proper length passes through unchanged. |
| ApiClient.ConversionIdempotent | frontend/src/services/apiService.ts:17-23 | Converting twice is converting once. |
| ApiClient.DecodeJwt | frontend/src/services/apiService.ts:9-33 | A token without exactly three parts or with an empty payload part is not decoded. A decoded payload is the parse of the decoded, converted middle part. |
| ApiClient.DecodedHasTwoDots | frontend/src/services/apiService.ts:9-33 | A decodable token has exactly two dots. |
| ApiClient.IsTokenExpired | frontend/src/services/apiService.ts:38-56 | No token, an undecodable token, and a missing or zero expiry count as expired. Otherwise a token expires five minutes before its expiry time. |
| ApiClient.ExpiryMonotone | frontend/src/services/apiService.ts:38-56 | Once expired, a token stays expired. |
| ApiClient.UsableMeansMarginLeft | frontend/src/services/apiService.ts:38-56 | A usable token decodes, has an expiry, and is more than five minutes from it. |
| ApiClient.OutgoingHeaders | frontend/src/services/apiService.ts:80-90 | A held token is sent as a bearer token. A given content type is kept, and otherwise JSON is set exactly for POST, PUT and PATCH. |
| ApiClient.Request | frontend/src/services/apiService.ts:65-111 | An expired token logs out and fails without sending anything. Otherwise the request is sent with the outgoing headers. A 401 fails as an expired session, logging out exactly when a token was held; any other status is returned. |
| ApiClient.SentRequestsCarryToken | frontend/src/services/apiService.ts:65-111 | Every request that reaches the server carries the bearer token, and every expired-session failure logs the user out. |
| ClientUsers.PermissionsForRole | frontend/src/types/user.ts:116-144 | The client computes the same list, in the same order, as the backend for the corresponding level. |
| ClientUsers.HasPermission | frontend/src/types/user.ts:147-150 | A permission is held exactly when it is in the role's list. |
| ClientUsers.HasPermissionAgrees | frontend/src/types/user.ts:147-150 | The client grants a permission exactly when the backend does for the same user. |
| ClientUsers.CanManageUser | frontend/src/types/user.ts:153-167 | A super admin manages everyone and a user manager every non-admin. |
| ClientUsers.CanManageUserAgrees | frontend/src/types/user.ts:153-167 | The client's management rule is the backend's. |
| ClientUsers.FullName | frontend/src/types/user.ts:90-92 | The first name, a space, then the last name. |
| ClientUsers.FullNameAgrees | frontend/src/types/user.ts:90-92 | The client shows the name the backend computes. |
| ClientUsers.RoleDisplayName | frontend/src/types/user.ts:95-103 | Every role has a non-empty display name. |
| ClientUsers.RoleDisplayNameInjective | frontend/src/types/user.ts:95-103 | Distinct roles are shown under distinct names. |
| ClientUsers.AdminLevelDisplayName | frontend/src/types/user.ts:106-113 | The display name is empty exactly when there is no level. |
| ClientAuth.Store | frontend/src/stores/auth.ts:40-47 | The session is held in the store and written under the three storage keys; every other key is untouched. |
| ClientAuth.Login | frontend/src/stores/auth.ts:20-54 | A success holds and stores the session, signed in when the token is non-empty. A failure records the server's message, or "Login failed", and changes nothing else. |
| ClientAuth.Logout | frontend/src/stores/auth.ts:56-83 | The server is told only when a token is held. Whatever it answers, the store is reset and exactly the three session keys are removed. |
| ClientAuth.RefreshAccessToken | frontend/src/stores/auth.ts:85-117 | Without a refresh token it fails before any request. A success stores the new session. A failure signs out as a logout does and rethrows: a network error with its own message, a refused reply with "Failed to refresh token". |
| ClientAuth.FailedRefreshSignsOut | frontend/src/stores/auth.ts:85-117 | A failed refresh leaves nobody signed in and nothing to restore. |
| ClientAuth.FetchCurrentUser | frontend/src/stores/auth.ts:119-147 | Nothing happens without a token. A success replaces the user in the store and in storage. A failure records and throws the error's own message, or "Failed to fetch user" for a refused reply. |
| ClientAuth.ChangePassword | frontend/src/stores/auth.ts:149-177 | Refused without a token before any request; otherwise it succeeds exactly when the server accepts, recording the message of a failure. |
| ClientAuth.InitializeFromStorage | frontend/src/stores/auth.ts:179-194 | Only a complete stored session is restored. A stored user that does not parse is removed from storage and leaves the user as it was. |
| ClientAuth.LoginThenRestore | frontend/src/stores/auth.ts:20-54 | After a login with non-empty tokens a reload restores the same session, signed in. |
| ClientAuth.LogoutThenRestoreNothing | frontend/src/stores/auth.ts:56-83 | After a logout a reload restores nothing. |
| ClientAuth.UnparsableUserSignedOut | frontend/src/stores/auth.ts:179-194 | A stored user that does not parse leaves a fresh store with a token but signed out, and the stored user removed. |
| ClientAuth.ClearError | frontend/src/stores/auth.ts:196-198 | Only the error is cleared. |
| ClientLists.ErrorMessage | frontend/src/stores/users.ts:46-55 | A network error keeps its message, and a JSON error body gives its non-empty error or the fallback. A non-JSON body gives the action's special message for its one status, else the fallback. |
| ClientLists.Lookup | frontend/src/stores/users.ts:36-40 | A key is missing exactly when no pair has it, and a value found is one given under the key. |
| ClientLists.LookupAppend | frontend/src/stores/users.ts:36-40 | A key is looked up in the first list before the second. |
| ClientLists.StringParam | frontend/src/stores/users.ts:36-40 | A parameter is present exactly when its value is a non-empty string. |
| ClientLists.NumberValue | frontend/src/stores/institutions.ts:41-42 | A numeric option is sent exactly when it is present and non-zero. |
| ClientLists.NumberReadBack | frontend/src/stores/institutions.ts:41-42 | A number the backend can hold is read back as sent. |
| ClientLists.FlagValue | frontend/src/stores/users.ts:36-40 | A flag is sent whenever it is defined, false included. |
| ClientLists.FlagReadBack | frontend/src/stores/users.ts:36-40 | The flag's parameter reads "true" exactly for true. |
| ClientLists.BuildParamsAbsent | frontend/src/stores/users.ts:36-40 | A key that is not given is not in the query string. |
| ClientLists.BuildParamsLookup | frontend/src/stores/users.ts:36-40 | With distinct keys each key is read back as given when truthy, and is missing otherwise. |
| ClientLists.FindFirst | frontend/src/stores/users.ts:168-171 | The first position whose key is the identifier, or none when no entry has it. |
| ClientLists.UpdateFirst | frontend/src/stores/users.ts:168-171 | Only the first entry with the identifier changes, and nothing changes when there is none. |
| ClientLists.RemoveAll | frontend/src/stores/users.ts:208 | Exactly the entries with the identifier are removed. |
| ClientLists.RemoveAllAbsent | frontend/src/stores/users.ts:208 | Removing an identifier nobody has changes nothing. |
| ClientLists.RemoveAllAppend | frontend/src/stores/users.ts:208 | Removal distributes over concatenation. |
| ClientLists.RemoveAddedEntry | frontend/src/stores/users.ts:128-132 | An entry added at either end under a new identifier is removed again without disturbing the rest. |
| ClientUsersStore.Failed | frontend/src/stores/users.ts:135-140 | A failed action records its message, stops loading and changes nothing else. |
| ClientUsersStore.UsersParams | frontend/src/stores/users.ts:36-40 | The role is sent when given, the activity flag whenever defined, and limit and skip when non-zero. |
| ClientUsersStore.UsersParamsReadBack | frontend/src/stores/users.ts:26-67 | The backend's list endpoint reads back exactly the role, flag, limit and skip the client asked for, with its defaults for omitted ones. |
| ClientUsersStore.FetchUsers | frontend/src/stores/users.ts:26-67 | A success replaces the cached page and total. A failure records the server's message, "Session expired" for a non-JSON 401, or the fallback. |
| ClientUsersStore.FetchUser | frontend/src/stores/users.ts:69-98 | A success makes the user the one being viewed, and a non-JSON 404 reads "User not found". |
| ClientUsersStore.CreateFailureMessage | frontend/src/stores/users.ts:111-123 | A non-JSON body reads as a permission problem for 403, a taken email or username for 409, and the fallback otherwise. |
| ClientUsersStore.CreateUser | frontend/src/stores/users.ts:100-141 | A new user is put first and counted only when a page is cached; a failure records its message. |
| ClientUsersStore.UpdateUser | frontend/src/stores/users.ts:143-184 | The first cached entry with the identifier, and the viewed user if it is that user, are replaced; the total is kept. |
| ClientUsersStore.DeleteUser | frontend/src/stores/users.ts:186-220 | Every cached entry with the identifier is removed and the total goes down by one. The viewed user is cleared when it is the one deleted. |
| ClientUsersStore.SetActive | frontend/src/stores/users.ts:222-302 | Deactivation and activation set the flag on the first cached entry with the identifier and on the viewed user if it is that user. |
| ClientUsersStore.CreateThenDeleteRestores | frontend/src/stores/users.ts:100-220 | Creating a user and deleting it again restores the cached page and total. |
| ClientUsersStore.DeleteWithoutPageGoesNegative | frontend/src/stores/users.ts:206-209 | Deleting with nothing cached drives the total to -1: the decrement is unconditional. |
| ClientUsersStore.UpdateKeepsIds | frontend/src/stores/users.ts:166-171 | An update keeps the page's identifiers distinct and its length, and an updated cached user is on the page. |
| ClientUsersStore.DeactivateThenActivateRestores | frontend/src/stores/users.ts:222-302 | Deactivating and then activating a cached active user gives the page back. |
| ClientUsersStore.ClearError | frontend/src/stores/users.ts:304-306 | Only the error is cleared. |
| ClientUsersStore.ClearCurrentUser | frontend/src/stores/users.ts:308-310 | Only the viewed user is cleared. |
| ClientInstitutionsStore.Failed | frontend/src/stores/institutions.ts:167-171 | A failed write records its message, stops loading and changes nothing else. |
| ClientInstitutionsStore.InstitutionsParams | frontend/src/stores/institutions.ts:37-42 | The type and search are sent when non-empty, the activity flag whenever defined, and limit and skip when non-zero. |
| ClientInstitutionsStore.InstitutionsParamsReadBack | frontend/src/stores/institutions.ts:26-71 | The backend's list endpoint reads back exactly the type, flag, search, limit and skip asked for, with its defaults for omitted ones. |
| ClientInstitutionsStore.FetchInstitutions | frontend/src/stores/institutions.ts:26-109 | A success caches the list and total, a null field reading as empty or zero. A failure empties the cache and records the message. |
| ClientInstitutionsStore.FetchInstitution | frontend/src/stores/institutions.ts:110-140 | A success makes the institution the one being viewed; a failure clears it and records the message. |
| ClientInstitutionsStore.CreateInstitution | frontend/src/stores/institutions.ts:142-207 | A new institution is appended to the cached list, and the total is not changed. |
| ClientInstitutionsStore.UpdateInstitution | frontend/src/stores/institutions.ts:209-280 | The first cached entry with the identifier is replaced. |
| ClientInstitutionsStore.DeleteInstitution | frontend/src/stores/institutions.ts:282-310 | Every cached entry with the identifier is removed; the total is not changed. |
| ClientInstitutionsStore.SetActive | frontend/src/stores/institutions.ts:312-376 | Activation and deactivation set the flag on the first cached entry with the identifier. |
| ClientInstitutionsStore.CreateThenDeleteRestores | frontend/src/stores/institutions.ts:142-310 | Creating an institution and deleting it again restores the cached list and total. |
| ClientInstitutionsStore.FailedFetchEmpties | frontend/src/stores/institutions.ts:26-71 | A failed fetch leaves nothing cached, whatever was cached before. |
| ClientInstitutionsStore.SetActiveKeepsIdentity | frontend/src/stores/institutions.ts:312-376 | Activation changes only the flag of a cached entry: identifiers, order and every other field stay. |
| ClientForgotPassword.StepErrorMessage | frontend/src/stores/forgotPassword.ts:35-51 | The server's error when present; for a non-JSON body, the step's message for its statuses, the connection message for status 0, or the fallback. |
| ClientForgotPassword.Failed | frontend/src/stores/forgotPassword.ts:57-65 | A failed step records and rethrows its message and keeps the step and token. |
| ClientForgotPassword.RequestPasswordReset | frontend/src/stores/forgotPassword.ts:21-69 | A success moves the wizard to the code step and keeps the server's message; a failure records the step's message. |
| ClientForgotPassword.ValidateResetCode | frontend/src/stores/forgotPassword.ts:71-116 | A success keeps the reset token and moves to the password step. |
| ClientForgotPassword.ResetPassword | frontend/src/stores/forgotPassword.ts:118-169 | Without a token it throws before touching the state; a success finishes the wizard. |
| ClientForgotPassword.ClearError | frontend/src/stores/forgotPassword.ts:171-173 | Only the error is cleared. |
| ClientForgotPassword.ClearSuccess | frontend/src/stores/forgotPassword.ts:175-177 | Only the success message is cleared. |
| ClientForgotPassword.Reset | frontend/src/stores/forgotPassword.ts:179-185 | The wizard is back at the email step with no token, message or error. |
| ClientForgotPassword.RequestKeepsValid | frontend/src/stores/forgotPassword.ts:21-69 | Requesting a code keeps the wizard's invariant: the password step only with a token, the done step only after a usable one. |
| ClientForgotPassword.ValidateKeepsValid | frontend/src/stores/forgotPassword.ts:71-116 | Validating a code keeps the invariant. |
| ClientForgotPassword.ResetPasswordKeepsValid | frontend/src/stores/forgotPassword.ts:118-169 | Resetting the password keeps the invariant. |
| ClientForgotPassword.ClearingKeepsValid | frontend/src/stores/forgotPassword.ts:171-185 | Clearing and resetting keep the invariant. |
| ClientForgotPassword.HappyPath | frontend/src/stores/forgotPassword.ts:21-169 | Three successful replies with a non-empty token take a fresh wizard to the done step. |
| ClientForgotPassword.NoWayBackToEmail | frontend/src/stores/forgotPassword.ts:21-169 | No reply moves a wizard that has left the email step back to it; only a reset does. |

## Left out

- Network and SDK calls: the Dropbox SDK, the OAuth token exchange and refresh over HTTP (section 6 of RFC 6749), SMTP sending and the browser's `fetch`. Each reaches the model only as an outcome passed in as a parameter (`DropboxRetry.WithClientRetry` takes the outcomes of its runs and of the refresh; the client stores take a `Reply`).
- Concurrency: the cache and refresh mutexes of `dropbox_service.go` and the refresh ticker run no differently in a sequential model, so they are not modelled.
- Cryptography and randomness: bcrypt hashing and comparison, JWT signing and verification, AES-GCM and crypto/rand. Hashes, issued tokens, password checks and random draws are parameters; `AuthService.PasswordCheck` stands for bcrypt's comparison.
- Library parsers: `url.Parse` (`ReferralConfig.UrlParser`), `primitive.ObjectIDFromHex` (`HexParser`), `regexp.Compile` of user-supplied field patterns (`RegistryForm.PatternCheck`), `ValidateEmail` (`RegistryConfig.EmailCheck`), Mongo's case-insensitive regular-expression search (`UserService.SearchMatcher`), and the browser's `atob` and `JSON.parse` (`ApiClient.Base64Decoder`, `ApiClient.PayloadParser`, `ClientAuth.ParseUser`). The model proves what holds for every behaviour of these functions.
- The JWT payload's `exp` is a number read from the parsed payload. The structure of JSON is not modelled.
- Floating point: `formatTimeAgo` converts the age to float64 hours with `Duration.Hours()` and divides those. Here exact integer nanoseconds are divided. The two agree on the minute, hour, day and week bands, but not always on months (next line).
- Audit.TimeAgo (and Audit.FormatTimeAgo, which renders it): the month count truncates the exact age in nanoseconds. Go's `int(diff.Hours() / 24 / 30)` (audit_service.go:207) goes through float64 hours, which from about 4096 hours on cannot hold a few nanoseconds. So an age just below a 30-day multiple, from 180 days on, rounds up to the next month in Go and not here: at 180 days less 1 ns Go prints "6 months ago" and the model 5. Near such multiples `count × unit ≤ age` holds of the model but not of Go. Float64 rounding is not modelled.
- Calendar arithmetic: the start-of-day, week and month computations of `stats_handler.go` need Go's time library.
- Wiring, scripts and configuration: the route table, server start-up, the database connection, and the seed and migration programs under `backend/cmd/`. The institution matching in the migration depends on Go's map iteration order and is nondeterministic.
- Thin wrappers: `audit_repository.go` forwards to Mongo. `smtp_handler.go` and `dropbox_admin_handler.go` forward to the services. The frontend's fetch-only services and type-only files contain no logic. The remaining stores and the views are also left out.
- The SOP file listing and download link (`sop_category_service.go:351-410`) are Dropbox SDK calls wrapped in the retry, which `DropboxRetry.WithClientRetry` already covers.
- `CountByStatus` and `CountByUser` of `registry_submission_repository.go` are single Mongo counts that no modelled operation uses.
- The client's image uploads (`uploadImage` and `uploadUserImage` in `institutions.ts`) post a form and return a URL; the size and extension checks that decide them are on the server and are modelled in `Uploads`.
- A JavaScript `throw` of something that is not an `Error` (such values have no `message`) is not modelled. Every failed reply is an HTTP error with a body or a network error with a message.
- In the client user store, `currentUser` and list entries are separate values. The objects they share in JavaScript are not modelled, so an edit through one is not seen through the other unless the store makes it.
- PathUnescape (`DropboxPaths.PathUnescape`): each `%XX` becomes the one character with that code, below 256. Go's `url.PathUnescape` yields bytes, so "%C3%A9" is the UTF-8 encoding of "é" in Go and the two characters "Ã©" here. Strings here are sequences of characters, not bytes.
- IsAuthError (`DropboxRetry.IsAuthError`): lower-casing maps only the ASCII letters. Go's `strings.ToLower` also maps other letters, such as the Kelvin sign to "k", so a message that reaches a marker only through such a letter is an authentication error in Go and not here. Unicode case tables are not modelled.
- FilterBySearch (`RegistryService.FilterBySearch`, with `MatchesSearch`): the same ASCII-only lower-casing, so the search "é" does not find "Émile" here, where Go's `strings.ToLower` finds it.
- Hyphenate (`SopCategory.Hyphenate`): the same ASCII-only lower-casing. Upper-case letters outside ASCII stay as they are.
- GenerateSlug (`SopCategory.GenerateSlug`): follows `Hyphenate`, so a non-ASCII upper-case letter is stripped rather than lowered ("İstanbul" gives "stanbul" here and "istanbul" in Go). The slug shape it promises holds either way.
- NormalizeEmail (`UserService.NormalizeEmail`): the same ASCII-only lower-casing. User creation only accepts ASCII addresses, but the password-reset request also normalises its email, where Go would lower "\u212A@x.org" to "k@x.org" and the model does not.
- Users.ScanFlags: the character classes are the ASCII ranges and ASCII punctuation and symbols. Go's `unicode.IsUpper`, `IsLower`, `IsNumber`, `IsPunct` and `IsSymbol` also count letters, digits and symbols outside ASCII, such as 'É', '٣' and '€'.
- Users.ValidatePassword: inherits the ASCII classes of `Users.ScanFlags`, so "Abcdefg1€" is refused here and accepted in Go.
- SessionStore: the TTL index on `expires_at` lets the database delete a session at an unspecified moment after its access deadline. The model has no clock-driven deletion; `SessionStore.DeleteExpired` is that sweep, and `SessionStore.RefreshAfterSweepFails` shows that a refresh then fails. `SessionStore.RefreshIgnoresAccessExpiry` and the refresh flow built on it hold only until the sweep runs.
- Paging.SkipOf: `(page-1)*limit` is computed on unbounded integers. In Go it is an int64, and the registry handler clamps only a page below 1, so a page near 10^17 with limit 100 wraps to a negative skip that Mongo refuses. The model returns an empty page instead.
- UserStore.FindByEmail: patterns outside the modelled fragment, such as "a++b" or an address with parentheses, are reported as `QueryFailed`. The Go server would reject some of them and interpret others.
- UserService.CreatedUserIsFound: stated only for queries whose metacharacters are dots. For any other email the written lookup may miss the new user, as `UserStore.PlusEmailMissed` shows.
- PasswordReset.Apply: `ResetPassword` calls `s.userRepo.UpdatePassword` (`password_reset_service.go:291`), which `user_repository.go` does not define. The model reads it as a write of the new hash to the user's record, which `PasswordReset.ResetStoresHash` states.
- Source inconsistencies that do not compile as shown: the route table passes eight arguments to the seven-parameter registry service constructor, and `registry_handler.go:544` omits the search argument. `institution_handler.go:104,154` call service methods that `institution_service.go` does not define, and `user_test.go` uses profile fields that `user.go` no longer has. `password_reset_service.go:291` calls an undefined `UpdatePassword` (see `PasswordReset.Apply` above). The model follows the service and model files as written.

## Findings

| source | as written | input that shows it | evidently intended | confidence | as-written member | corrected member |
|---|---|---|---|---|---|---|
| backend/internal/repository/user_repository.go:96-108 | The email lookup pattern is `^` + email + `$` with only `.` escaped, so other regular-expression metacharacters in an address keep their meaning | Stored "a+b@x.org", looked up as "a+b@x.org": the `+` repeats the `a`, so the address misses itself and "aab@x.org" matches in its place. Through `EmailExists`, a stored "aab@x.org" also blocks registering "a+b@x.org" (`UserService.LookalikeBlocksRegistration`) | The whole address quoted, matching exactly the addresses equal to it up to letter case | not executed | UserStore.PlusEmailMissed | UserStore.FindByEmailQuoted |
| backend/internal/handlers/registry_handler.go:451-459 | The handler compares the submit error with `==` against the readiness sentinels. The service wraps every readiness failure under `ErrFormNotReady` with `%w` and only formats the cause with `%v`, so the error is never equal to either sentinel | A submission while no form is active: the service returns a new error wrapping `ErrFormNotReady`, which is not `==` to it, so the handler answers 400 | `errors.Is` against `ErrFormNotReady`, answering 412 for the readiness failures | not executed | RegistryHandler.PreconditionFailedUnreachable | RegistryHandler.NoActiveFormIsPreconditionFailed |
| backend/internal/service/password_reset_service.go:257-323 | `ResetPassword` hashes and stores any new password the request binding lets through, without the strength check of user creation and password change | A valid reset token with the new password "aaaaaaaa": the reset succeeds, although `ValidatePassword` refuses it, and the handler answers 200 (`PasswordReset.WeakResetStatus`) | The new password checked by `ValidatePassword` before it is stored | not executed | PasswordReset.WeakResetAccepted | PasswordReset.ResetPassword |
| backend/internal/service/password_reset_service.go:227-254 | `ValidateResetCode` takes the first stored document with the code. Codes are six random digits and are not unique | A used document with code "123456" stored before a live one with the same code: the live code is refused as used, and the validation endpoint answers 404 (`PasswordReset.ShadowedCodeStatus`) | A live document with the code accepted, whatever older documents share it | not executed | PasswordReset.CollidingCodeRefused | PasswordReset.ValidateAgreesOnDistinctCodes |

=== FILE: dafny/api_client.dfy ===
/** The frontend's request helper (`frontend/src/services/apiService.ts`):
    reading the expiry out of a JWT without verifying it, the five-minute
    early expiry, and what `ApiService.request` does before and after the
    fetch. The browser's `atob` and `JSON.parse` are library functions
    supplied by the caller; the fetch itself is reduced to its status. */
module ApiClient {
  import opened Wrappers

  // ---------------------------------------------------------------------
  // String.prototype.split on one character

  /** `s.split(c)` for a one-character separator. */
  function Split(s: string, c: char): (parts: seq<string>)
    ensures |parts| >= 1
    ensures forall i :: 0 <= i < |parts| ==> c !in parts[i]
  {
    if s == [] then [""]
    else
      var rest := Split(s[1..], c);
      if s[0] == c then [""] + rest
      else [[s[0]] + rest[0]] + rest[1..]
  }

  /** `parts.join(c)`. */
  function Join(parts: seq<string>, c: char): string
    requires |parts| >= 1
  {
    if |parts| == 1 then parts[0] else parts[0] + [c] + Join(parts[1..], c)
  }

  /** The number of occurrences of `c` in `s`. */
  function Occurrences(s: string, c: char): nat {
    if s == [] then 0 else (if s[0] == c then 1 else 0) + Occurrences(s[1..], c)
  }

  /** Splitting loses nothing: joining the parts with the separator gives
      the string back, and there is one part more than separators. */
  lemma {:induction false} SplitJoin(s: string, c: char)
    ensures Join(Split(s, c), c) == s
    ensures |Split(s, c)| == Occurrences(s, c) + 1
  {
    if s != [] {
      SplitJoin(s[1..], c);
      var rest := Split(s[1..], c);
      if s[0] != c {
        var parts := Split(s, c);
        assert parts[0] == [s[0]] + rest[0];
        if |rest| > 1 {
          assert parts[1..] == rest[1..];
          assert Join(rest, c) == rest[0] + [c] + Join(rest[1..], c);
        }
      }
    }
  }

  // ---------------------------------------------------------------------
  // base64url to base64

  /** The character map of the conversion: '-' to '+', '_' to '/'. */
  function UrlCharToStandard(ch: char): char {
    if ch == '-' then '+' else if ch == '_' then '/' else ch
  }

  /** `'='` repeated `n` times. */
  function Padding(n: nat): (p: string)
    ensures |p| == n && forall i :: 0 <= i < n ==> p[i] == '='
  {
    if n == 0 then "" else Padding(n - 1) + "="
  }

  /** The conversion `decodeJWT` applies before `atob`: the alphabet of
      section 5 of RFC 4648 mapped back to the one of section 4, then '='
      appended until the length is a multiple of four. */
  function ToStandardBase64(payload: string): (b: string)
    ensures |b| % 4 == 0 && |payload| <= |b| < |payload| + 4
    ensures forall i :: 0 <= i < |payload| ==> b[i] == UrlCharToStandard(payload[i])
    ensures forall i :: |payload| <= i < |b| ==> b[i] == '='
  {
    var mapped := seq(|payload|, i requires 0 <= i < |payload| => UrlCharToStandard(payload[i]));
    mapped + Padding((4 - |payload| % 4) % 4)
  }

  /** After the conversion no character of the URL alphabet is left. */
  lemma NoUrlCharactersLeft(payload: string)
    ensures '-' !in ToStandardBase64(payload) && '_' !in ToStandardBase64(payload)
  {
    var b := ToStandardBase64(payload);
    forall i | 0 <= i < |b|
      ensures b[i] != '-' && b[i] != '_'
    {
    }
  }

  /** Standard base64 of a proper length passes through unchanged, so the
      conversion is idempotent. */
  lemma StandardUnchanged(b: string)
    requires '-' !in b && '_' !in b && |b| % 4 == 0
    ensures ToStandardBase64(b) == b
  {
    var r := ToStandardBase64(b);
    assert |r| == |b|;
    forall i | 0 <= i < |b|
      ensures r[i] == b[i]
    {
      assert b[i] != '-' && b[i] != '_';
    }
  }

  lemma ConversionIdempotent(payload: string)
    ensures ToStandardBase64(ToStandardBase64(payload)) == ToStandardBase64(payload)
  {
    NoUrlCharactersLeft(payload);
    StandardUnchanged(ToStandardBase64(payload));
  }

  // ---------------------------------------------------------------------
  // decodeJWT and isTokenExpired

  /** The payload fields the client reads: `exp` when it is a number. */
  datatype Payload = Payload(exp: Option<int>)

  /** `atob`: `None` when it throws. */
  type Base64Decoder = string -> Option<string>

  /** `JSON.parse` of the payload: `None` when it throws or gives `null`. */
  type PayloadParser = string -> Option<Payload>

  /** `decodeJWT`: exactly three dot-separated parts with a non-empty
      middle one, which must decode and parse. */
  function DecodeJwt(token: string, atob: Base64Decoder, parse: PayloadParser): (r: Option<Payload>)
    ensures var parts := Split(token, '.');
      (|parts| != 3 || parts[1] == "") ==> r.None?
    ensures r.Some? ==>
      var parts := Split(token, '.');
      |parts| == 3 && parts[1] != "" && atob(ToStandardBase64(parts[1])).Some?
      && r == parse(atob(ToStandardBase64(parts[1])).value)
  {
    var parts := Split(token, '.');
    if |parts| != 3 || parts[1] == "" then None
    else match atob(ToStandardBase64(parts[1]))
      case None => None
      case Some(text) => parse(text)
  }

  /** A decodable token has exactly two dots. */
  lemma DecodedHasTwoDots(token: string, atob: Base64Decoder, parse: PayloadParser)
    requires DecodeJwt(token, atob, parse).Some?
    ensures Occurrences(token, '.') == 2
  {
    SplitJoin(token, '.');
  }

  /** JavaScript truthiness of a string that may be `null`. */
  predicate Truthy(s: Option<string>) {
    s.Some? && s.value != ""
  }

  /** The margin, in milliseconds, by which the client expires a token early. */
  const ExpiryBufferMs: int := 5 * 60 * 1000

  /** `isTokenExpired` at `nowMs` (`Date.now()`): no token, an undecodable
      one, or one without a non-zero `exp` is expired; otherwise expiry is
      reached five minutes before `exp`. */
  function IsTokenExpired(token: Option<string>, nowMs: int, atob: Base64Decoder, parse: PayloadParser): (b: bool)
    ensures !Truthy(token) ==> b
    ensures Truthy(token) && DecodeJwt(token.value, atob, parse).None? ==> b
    ensures Truthy(token) && DecodeJwt(token.value, atob, parse).Some? ==>
      var p := DecodeJwt(token.value, atob, parse).value;
      (p.exp.None? || p.exp == Some(0) ==> b)
      && (p.exp.Some? && p.exp.value != 0 ==> (b <==> nowMs >= p.exp.value * 1000 - 300000))
  {
    if !Truthy(token) then true
    else match DecodeJwt(token.value, atob, parse)
      case None => true
      case Some(p) =>
        if p.exp.None? || p.exp.value == 0 then true
        else nowMs >= p.exp.value * 1000 - ExpiryBufferMs
  }

  /** Once expired, a token stays expired. */
  lemma ExpiryMonotone(token: Option<string>, nowMs: int, laterMs: int, atob: Base64Decoder, parse: PayloadParser)
    requires nowMs <= laterMs
    ensures IsTokenExpired(token, nowMs, atob, parse) ==> IsTokenExpired(token, laterMs, atob, parse)
  {
  }

  /** A token is usable only while the clock is more than five minutes
      before its `exp`. */
  lemma UsableMeansMarginLeft(token: Option<string>, nowMs: int, atob: Base64Decoder, parse: PayloadParser)
    requires !IsTokenExpired(token, nowMs, atob, parse)
    ensures Truthy(token) && DecodeJwt(token.value, atob, parse).Some?
    ensures var e := DecodeJwt(token.value, atob, parse).value.exp;
      e.Some? && e.value != 0 && nowMs + ExpiryBufferMs < e.value * 1000
  {
  }

  // ---------------------------------------------------------------------
  // ApiService.request

  /** The headers the client sets or reads. */
  datatype Headers = Headers(authorization: Option<string>, contentType: Option<string>)

  /** What `request` did: the headers it fetched with (`None` when no
      request was sent), whether it logged out, and the response status or
      the message it threw. */
  datatype RequestTrace = RequestTrace(sent: Option<Headers>, loggedOut: bool, result: Result<int, string>)

  const SessionExpired: string := "Session expired. Please login again."

  /** Whether the method is one that carries a JSON body. */
  predicate HasBody(m: Option<string>) {
    m.Some? && m.value in {"POST", "PUT", "PATCH"}
  }

  /** The headers of the fetch: the bearer token when one is held, and a
      JSON content type for a body-carrying method without one. */
  function OutgoingHeaders(token: Option<string>, verb: Option<string>, given: Headers): (h: Headers)
    ensures Truthy(token) ==> h.authorization == Some("Bearer " + token.value)
    ensures !Truthy(token) ==> h.authorization == given.authorization
    ensures given.contentType.Some? ==> h.contentType == given.contentType
    ensures given.contentType.None? ==> (h.contentType == Some("application/json") <==> HasBody(verb))
    ensures given.contentType.None? && !HasBody(verb) ==> h.contentType.None?
  {
    var auth := if Truthy(token) then Some("Bearer " + token.value) else given.authorization;
    var ct := if HasBody(verb) && given.contentType.None? then Some("application/json") else given.contentType;
    Headers(auth, ct)
  }

  /** `ApiService.request`, with `status` the status of the response the
      fetch would get. */
  function Request(token: Option<string>, nowMs: int, atob: Base64Decoder, parse: PayloadParser,
                   verb: Option<string>, given: Headers, status: int): (t: RequestTrace)
    ensures IsTokenExpired(token, nowMs, atob, parse) ==>
      t == RequestTrace(None, true, Failure(SessionExpired))
    ensures !IsTokenExpired(token, nowMs, atob, parse) ==>
      t.sent == Some(OutgoingHeaders(token, verb, given))
      && (status == 401 ==> t.result == Failure(SessionExpired) && (t.loggedOut <==> Truthy(token)))
      && (status != 401 ==> t.result == Success(status) && !t.loggedOut)
  {
    if IsTokenExpired(token, nowMs, atob, parse) then RequestTrace(None, true, Failure(SessionExpired))
    else
      var h := OutgoingHeaders(token, verb, given);
      if status == 401 then RequestTrace(Some(h), Truthy(token), Failure(SessionExpired))
      else RequestTrace(Some(h), false, Success(status))
  }

  /** Every request that reaches the server carries the bearer token, and a
      401 answer always logs out: the "only with a token" guard of the 401
      branch can never be false there, because an absent token already
      counts as expired. */
  lemma SentRequestsCarryToken(token: Option<string>, nowMs: int, atob: Base64Decoder, parse: PayloadParser,
                               verb: Option<string>, given: Headers, status: int)
    ensures var t := Request(token, nowMs, atob, parse, verb, given, status);
      t.sent.Some? ==> t.sent.value.authorization == Some("Bearer " + token.value)
    ensures var t := Request(token, nowMs, atob, parse, verb, given, status);
      t.result == Failure(SessionExpired) ==> t.loggedOut
  {
  }
}

=== FILE: dafny/audit.dfy ===
/** The presentation of audit-log entries as recent activity: relative
    times, role display names and the per-action title and description
    (`service/audit_service.go`). */
module Audit {
  import opened Base
  import opened GoStrings
  import Roles

  // ---------------------------------------------------------------------
  // formatTimeAgo

  datatype TimeUnit = Minutes | Hours | Days | Weeks | Months {

    /** The length of one unit; a month counts as thirty days. */
    function Length(): (n: int)
      ensures n >= Minute
    {
      match this
      case Minutes => Minute
      case Hours => Hour
      case Days => Day
      case Weeks => 7 * Day
      case Months => 30 * Day
    }

    /** The smallest age reported in this unit. */
    function From(): int {
      match this
      case Minutes => Minute
      case Hours => Hour
      case Days => Day
      case Weeks => 7 * Day
      case Months => 30 * Day
    }

    /** The word for one unit. */
    function Word(): string {
      match this
      case Minutes => "minute"
      case Hours => "hour"
      case Days => "day"
      case Weeks => "week"
      case Months => "month"
    }
  }

  /** The next unit's threshold: ages at or beyond it use a larger unit. */
  function Until(u: TimeUnit): (t: int)
    requires !u.Months?
  {
    match u
    case Minutes => Hour
    case Hours => Day
    case Days => 7 * Day
    case Weeks => 30 * Day
  }

  /** A relative time before it is rendered. */
  datatype Ago = JustNow | Ago(count: nat, unit: TimeUnit)

  /** The bucketing of `formatTimeAgo`, for an age of `diff` nanoseconds:
      under a minute (negative ages included) is "just now"; otherwise the
      largest unit whose threshold is reached, counted in whole units. */
  function TimeAgo(diff: int): (a: Ago)
    ensures a.JustNow? <==> diff < Minute
    ensures a.Ago? ==> a.unit.From() <= diff && (!a.unit.Months? ==> diff < Until(a.unit))
    ensures a.Ago? ==> a.count * a.unit.Length() <= diff < (a.count + 1) * a.unit.Length()
    ensures a.Ago? ==> a.count >= 1
    ensures a.Ago? && a.unit.Weeks? ==> a.count <= 4
  {
    if diff < Minute then JustNow
    else if diff < Hour then Ago(diff / Minute, Minutes)
    else if diff < Day then Ago(diff / Hour, Hours)
    else if diff < 7 * Day then Ago(diff / Day, Days)
    else if diff < 30 * Day then Ago(diff / (7 * Day), Weeks)
    else Ago(diff / (30 * Day), Months)
  }

  /** The text of a relative time: "1 <unit> ago" for one unit, "<n> <unit>s ago" otherwise. */
  function Render(a: Ago): string {
    match a
    case JustNow => "just now"
    case Ago(n, u) => NatToString(n) + Tail(n, u)
  }

  /** `formatTimeAgo`, for the age `now - t`. */
  function FormatTimeAgo(now: Time, t: Time): (s: string)
    ensures now - t < Minute <==> s == "just now"
  {
    var a := TimeAgo(now - t);
    assert a.Ago? ==> IsDigit(NatToString(a.count)[0]) && Render(a)[0] != 'j';
    Render(a)
  }

  /** The words after the number of a rendered time. */
  function Tail(n: nat, u: TimeUnit): string {
    " " + u.Word() + (if n == 1 then "" else "s") + " ago"
  }

  /** The plural "s" appears exactly when the count is not one. */
  lemma TailPlural(n: nat, u: TimeUnit)
    ensures HasSuffix(Tail(n, u), "s ago") <==> n != 1
  {
    var w := u.Word();
    var t := Tail(n, u);
    assert |w| >= 3 && w[|w| - 1] != 's';
    if n == 1 {
      assert t[|t| - 5] == w[|w| - 1];
    } else {
      assert t == " " + w + "s ago";
      assert t[|t| - 5..] == "s ago";
    }
  }

  /** The number in front of a rendered time reads back as the count, and
      the plural "s" appears exactly when the count is not one. */
  lemma RenderReadsBack(n: nat, u: TimeUnit)
    ensures var s := Render(Ago(n, u));
      var d := NatToString(n);
      |d| < |s| && DigitsValue(s[..|d|]) == n && s[|d|] == ' '
      && (HasSuffix(s, "s ago") <==> n != 1)
  {
    var s := Render(Ago(n, u));
    var d := NatToString(n);
    var t := Tail(n, u);
    assert s == d + t;
    assert s[..|d|] == d;
    NatToStringRoundTrip(n);
    TailPlural(n, u);
    assert s[|s| - 5..] == t[|t| - 5..];
  }

  // ---------------------------------------------------------------------
  // getRoleFromDetails

  /** A value in an entry's free-form details: only strings are distinguished. */
  datatype DetailValue = StrValue(s: string) | OtherValue

  /** `getRoleFromDetails`: the display name of a known role, an unknown
      role string as it is, and "User" when there is no string role. */
  function RoleFromDetails(details: map<string, DetailValue>): (name: string)
    ensures "role" !in details || details["role"].OtherValue? ==> name == "User"
    ensures "role" in details && details["role"].StrValue? && !Roles.IsValidRole(details["role"].s)
      ==> name == details["role"].s
  {
    if "role" in details && details["role"].StrValue? then
      match details["role"].s
      case "haematologist" => "Haematologist"
      case "physician" => "Physician"
      case "data_capturer" => "Data Capturer"
      case "admin" => "Admin"
      case other => other
    else "User"
  }

  /** A role string is renamed exactly when it is a valid role, and distinct
      valid roles get distinct display names. */
  lemma RoleDisplayNames(details: map<string, DetailValue>, other: map<string, DetailValue>)
    requires "role" in details && details["role"].StrValue?
    requires "role" in other && other["role"].StrValue?
    requires Roles.IsValidRole(details["role"].s) && Roles.IsValidRole(other["role"].s)
    ensures RoleFromDetails(details) != details["role"].s
    ensures RoleFromDetails(details) == RoleFromDetails(other) ==> details["role"].s == other["role"].s
  {
  }

  // ---------------------------------------------------------------------
  // enrichAuditLog

  const ActionUserCreated: string := "user_created"
  const ActionLoginSuccess: string := "login_success"
  const ActionUserUpdated: string := "user_updated"
  const ActionUserDeactivated: string := "user_deactivated"
  const ActionUserActivated: string := "user_activated"
  const ActionUserDeleted: string := "user_deleted"
  const ActionPasswordChanged: string := "password_changed"
  const ActionRoleChanged: string := "role_changed"

  /** The actions with a dedicated presentation. */
  const DescribedActions: set<string> :=
    {ActionUserCreated, ActionLoginSuccess, ActionUserUpdated, ActionUserDeactivated,
     ActionUserActivated, ActionUserDeleted, ActionPasswordChanged, ActionRoleChanged}

  /** The sentence of an activity, before rendering. */
  datatype Description =
    | Joined(user: string, role: string)
    | LoggedIn(user: string)
    | UpdatedOther(performer: string, user: string)
    | UpdatedOwn(user: string)
    | Deactivated(user: string)
    | Activated(user: string)
    | Removed(user: string)
    | ChangedPassword(user: string)
    | RoleUpdated(user: string)
    | Raw(text: string)
  {
    function Text(): string {
      match this
      case Joined(u, r) => u + " joined as " + r
      case LoggedIn(u) => u + " logged in"
      case UpdatedOther(p, u) => p + " updated " + u + "'s profile"
      case UpdatedOwn(u) => u + " updated their profile"
      case Deactivated(u) => u + " was deactivated"
      case Activated(u) => u + " was activated"
      case Removed(u) => u + " was removed from the system"
      case ChangedPassword(u) => u + " changed their password"
      case RoleUpdated(u) => u + "'s role was updated"
      case Raw(t) => t
    }
  }

  datatype Activity = Activity(title: string, description: Description, icon: string)

  /** The title, sentence and icon of an entry with action `action`, whose
      subject's and performer's full names are `user` and `performer` (""
      when absent or not found). */
  function Describe(action: string, user: string, performer: string, details: map<string, DetailValue>)
    : (a: Activity)
    ensures action !in DescribedActions ==> a == Activity("System activity", Raw(action), "activity")
    ensures action == ActionUserUpdated ==>
      (a.description.UpdatedOther? <==> performer != "" && user != "" && performer != user)
    ensures action == ActionUserCreated ==> a.description == Joined(user, RoleFromDetails(details))
  {
    match action
    case "user_created" => Activity("New user registered", Joined(user, RoleFromDetails(details)), "user-plus")
    case "login_success" => Activity("User login", LoggedIn(user), "login")
    case "user_updated" =>
      var d := if performer != "" && user != "" && performer != user then UpdatedOther(performer, user)
               else UpdatedOwn(user);
      Activity("Profile updated", d, "settings")
    case "user_deactivated" => Activity("User deactivated", Deactivated(user), "user-x")
    case "user_activated" => Activity("User activated", Activated(user), "user-check")
    case "user_deleted" => Activity("User deleted", Removed(user), "trash")
    case "password_changed" => Activity("Password changed", ChangedPassword(user), "key")
    case "role_changed" => Activity("Role changed", RoleUpdated(user), "shield")
    case _ => Activity("System activity", Raw(action), "activity")
  }

  /** Only unknown actions are presented as system activity, and their
      sentence is the action itself. */
  lemma SystemActivityIffUnknown(action: string, user: string, performer: string,
                                 details: map<string, DetailValue>)
    ensures Describe(action, user, performer, details).title == "System activity"
      <==> action !in DescribedActions
  {
  }
}

=== FILE: dafny/auth_service.dfy ===
/** Authentication (`service/auth_service.go`): the login decision sequence
    with its lockout counter, session issue and refresh-token rotation,
    logout, and the resolution of a verified access token to its user.
    Signing, password hashing and random tokens are outcomes supplied by
    the caller. */
module AuthService {
  import opened Wrappers
  import opened Base
  import opened Users
  import opened UserStore
  import opened Session
  import opened SessionStore

  /** Access tokens live a day, refresh tokens thirty days. */
  const TokenExpiry: int := 24 * Hour
  const RefreshTokenExpiry: int := 30 * Day

  /** The fifth consecutive failure locks the account for half an hour. */
  const MaxFailedAttempts: int := 5
  const AccountLockDuration: int := 30 * Minute

  datatype AuthError =
    | InvalidCredentials
    | AccountLocked
    | AccountInactive
    | InvalidToken
    | TokenGenerationFailed
    | UserFailure(storeError: StoreError)
    | SessionFailure(sessionError: SessionError)

  /** `CheckPassword`: whether a plaintext matches a stored bcrypt hash. */
  type PasswordCheck = (string, string) -> bool

  /** What signing a fresh access token and drawing a random refresh token
      produced; `None` is a failure of either. */
  datatype Issued = Issued(token: Option<string>, refreshToken: Option<string>)

  datatype LoginRequest = LoginRequest(email: string, password: string)

  datatype LoginResponse = LoginResponse(token: string, refreshToken: string, user: User, expiresAt: Time)

  /** The two collections authentication writes to. */
  datatype AuthState = AuthState(users: Store, sessions: Sessions)

  /** The state after a call, whatever it answered: failures write too. */
  datatype Outcome = Outcome(state: AuthState, result: Result<LoginResponse, AuthError>)

  /** The record a failed password leaves behind: one more failure, and a
      lock from `now` when that makes `MaxFailedAttempts`. */
  function AfterFailure(u: User, now: Time): (v: User)
    ensures v.failedLoginAttempts == u.failedLoginAttempts + 1
    ensures v.lockedUntil == (if u.failedLoginAttempts + 1 >= MaxFailedAttempts
                              then Some(now + AccountLockDuration) else u.lockedUntil)
    ensures v.(failedLoginAttempts := u.failedLoginAttempts, lockedUntil := u.lockedUntil, updatedAt := u.updatedAt) == u
    ensures v.passwordHash == u.passwordHash && v.isActive == u.isActive
  {
    var bumped := Bump(u).(updatedAt := now);
    if u.failedLoginAttempts + 1 >= MaxFailedAttempts
    then LockUntil(now + AccountLockDuration)(bumped).(updatedAt := now)
    else bumped
  }

  /** The wrong-password branch of `Login`: the counter is incremented in
      the store and, at the limit, the account is locked; errors of either
      write are ignored. */
  function RecordFailure(users: Store, u: User, now: Time): (r: (Store, AuthError))
    ensures r.1 == (if u.failedLoginAttempts + 1 >= MaxFailedAttempts then AccountLocked else InvalidCredentials)
    ensures |r.0| == |users|
  {
    var counted := IncrementFailedLoginAttempts(users, u.id, now);
    if u.failedLoginAttempts + 1 >= MaxFailedAttempts then
      match LockAccount(counted, u.id, now + AccountLockDuration, now)
      case Success(locked) => (locked, AccountLocked)
      case Failure(_) => (counted, AccountLocked)
    else (counted, InvalidCredentials)
  }

  /** The session `Login` and `RefreshToken` create for `u`. */
  function NewSession(u: User, token: string, refreshToken: string, now: Time, ip: string, agent: string)
    : (s: Session)
    ensures s.userId == u.id && s.token == token && s.refreshToken == refreshToken
    ensures !IsExpired(s, now + TokenExpiry) && IsExpired(s, now + TokenExpiry + 1)
    ensures !IsRefreshExpired(s, now + RefreshTokenExpiry) && IsRefreshExpired(s, now + RefreshTokenExpiry + 1)
  {
    Session(NilId, u.id, token, refreshToken, now + TokenExpiry, now + RefreshTokenExpiry, now, ip, agent)
  }

  /** The successful tail of `Login`: tokens, the session, then the login
      stamp on the user. */
  function Establish(st: AuthState, u: User, issued: Issued, sessionId: ObjectId, now: Time,
                     ip: string, agent: string): (o: Outcome)
    ensures o.result.Success? ==>
      issued.token.Some? && issued.refreshToken.Some?
      && o.result.value == LoginResponse(issued.token.value, issued.refreshToken.value, u, now + TokenExpiry)
      && o.state.sessions == st.sessions
           + [NewSession(u, issued.token.value, issued.refreshToken.value, now, ip, agent).(id := sessionId)]
      && UpdateLastLogin(st.users, u.id, now) == Success(o.state.users)
    ensures issued.token.None? || issued.refreshToken.None? ==>
      o == Outcome(st, Failure(TokenGenerationFailed))
    ensures issued.token.Some? && issued.refreshToken.Some? && HasId(st.users, u.id)
      && !HasToken(st.sessions, issued.token.value) && !HasRefreshToken(st.sessions, issued.refreshToken.value)
      ==> o.result.Success?
  {
    if issued.token.None? || issued.refreshToken.None? then Outcome(st, Failure(TokenGenerationFailed))
    else
      var token := issued.token.value;
      var refresh := issued.refreshToken.value;
      match SessionStore.Create(st.sessions, NewSession(u, token, refresh, now, ip, agent), sessionId, now)
      case Failure(e) => Outcome(st, Failure(SessionFailure(e)))
      case Success(sessions) =>
        match UpdateLastLogin(st.users, u.id, now)
        case Failure(e) => Outcome(st.(sessions := sessions), Failure(UserFailure(e)))
        case Success(users) =>
          Outcome(AuthState(users, sessions), Success(LoginResponse(token, refresh, u, now + TokenExpiry)))
  }

  /** `Login`: an unknown email, a locked account, an inactive account and
      a wrong password are refused in that order. */
  function Login(st: AuthState, req: LoginRequest, check: PasswordCheck, issued: Issued,
                 sessionId: ObjectId, now: Time, ip: string, agent: string): (o: Outcome)
    ensures FindByEmail(st.users, req.email).Failure? ==> o == Outcome(st, Failure(InvalidCredentials))
    ensures o.result.Success? ==>
      var u := FindByEmail(st.users, req.email).value;
      FindByEmail(st.users, req.email).Success?
      && !IsLocked(u, now) && u.isActive && check(u.passwordHash, req.password)
      && o.result.value.user == u && o.result.value.expiresAt == now + TokenExpiry
    ensures o.result == Failure(AccountLocked) ==>
      var u := FindByEmail(st.users, req.email).value;
      FindByEmail(st.users, req.email).Success?
      && (IsLocked(u, now) || u.failedLoginAttempts + 1 >= MaxFailedAttempts)
    ensures o.state.sessions != st.sessions ==> o.result.Success? || o.result.error.UserFailure?
    ensures FindByEmail(st.users, req.email).Success? ==>
      var u := FindByEmail(st.users, req.email).value;
      !IsLocked(u, now) && !u.isActive ==> o == Outcome(st, Failure(AccountInactive))
    ensures FindByEmail(st.users, req.email).Success? ==>
      var u := FindByEmail(st.users, req.email).value;
      !IsLocked(u, now) && u.isActive && check(u.passwordHash, req.password)
      && issued.token.Some? && issued.refreshToken.Some?
      && !HasToken(st.sessions, issued.token.value) && !HasRefreshToken(st.sessions, issued.refreshToken.value)
      ==> o.result.Success?
  {
    match FindByEmail(st.users, req.email)
    case Failure(_) => Outcome(st, Failure(InvalidCredentials))
    case Success(u) =>
      if IsLocked(u, now) then Outcome(st, Failure(AccountLocked))
      else if !u.isActive then Outcome(st, Failure(AccountInactive))
      else if !check(u.passwordHash, req.password) then
        var (users, e) := RecordFailure(st.users, u, now);
        Outcome(st.(users := users), Failure(e))
      else Establish(st, u, issued, sessionId, now, ip, agent)
  }

  /** A locked account is refused whatever the password, and nothing is written. */
  lemma LockedAccountRefused(st: AuthState, req: LoginRequest, check: PasswordCheck, issued: Issued,
                             sessionId: ObjectId, now: Time, ip: string, agent: string)
    requires FindByEmail(st.users, req.email).Success?
    requires IsLocked(FindByEmail(st.users, req.email).value, now)
    ensures Login(st, req, check, issued, sessionId, now, ip, agent) == Outcome(st, Failure(AccountLocked))
  {
  }

  /** After a recorded failure, the email that found `u` finds the record
      with the new counter and, at the limit, the lock. */
  lemma RecordFailureFound(users: Store, u: User, email: string, now: Time)
    requires FindByEmail(users, email) == Success(u)
    ensures FindByEmail(RecordFailure(users, u, now).0, email) == Success(AfterFailure(u, now))
  {
    var counted := MapId(users, u.id, Bump, now);
    assert forall v :: Bump(v).email == v.email;
    FindByEmailAfterMap(users, u.id, Bump, now, email);
    assert FindByEmail(counted, email) == Success(Bump(u).(updatedAt := now));
    if u.failedLoginAttempts + 1 >= MaxFailedAttempts {
      var f := LockUntil(now + AccountLockDuration);
      assert forall v :: f(v).email == v.email;
      FindByEmailAfterMap(counted, u.id, f, now, email);
      assert HasId(counted, u.id) by {
        var i :| 0 <= i < |users| && users[i] == u;
        assert counted[i].id == u.id;
      }
    }
  }

  /** A wrong password on an open, active account: the answer is
      `AccountLocked` exactly when the incremented counter reaches the
      limit, and the same email now finds the record with the new counter
      and, at the limit, the lock. */
  lemma WrongPasswordStep(st: AuthState, req: LoginRequest, check: PasswordCheck, issued: Issued,
                          sessionId: ObjectId, now: Time, ip: string, agent: string)
    requires FindByEmail(st.users, req.email).Success?
    requires var u := FindByEmail(st.users, req.email).value;
      !IsLocked(u, now) && u.isActive && !check(u.passwordHash, req.password)
    ensures var u := FindByEmail(st.users, req.email).value;
      var o := Login(st, req, check, issued, sessionId, now, ip, agent);
      o.result == Failure(if u.failedLoginAttempts + 1 >= MaxFailedAttempts then AccountLocked else InvalidCredentials)
      && o.state.sessions == st.sessions
      && FindByEmail(o.state.users, req.email) == Success(AfterFailure(u, now))
  {
    var u := FindByEmail(st.users, req.email).value;
    var r := RecordFailure(st.users, u, now);
    assert Login(st, req, check, issued, sessionId, now, ip, agent) == Outcome(st.(users := r.0), Failure(r.1));
    RecordFailureFound(st.users, u, req.email, now);
  }

  /** One attempt with `req` at `now` whose tokens could not be issued:
      only its effect on the state is kept. */
  function Attempt(st: AuthState, req: LoginRequest, check: PasswordCheck, now: Time): AuthState {
    Login(st, req, check, Issued(None, None), NilId, now, "", "").state
  }

  /** `k` attempts in a row at the same instant. */
  function Hammer(st: AuthState, req: LoginRequest, check: PasswordCheck, k: nat, now: Time): (r: AuthState)
    ensures k == 0 ==> r == st
  {
    if k == 0 then st else Attempt(Hammer(st, req, check, k - 1, now), req, check, now)
  }

  /** The account of `email` is open and active, with password hash `hash`
      and `n` failures on record. */
  predicate OpenWithFailures(users: Store, email: string, hash: string, n: int) {
    FindByEmail(users, email).Success?
    && FindByEmail(users, email).value.failedLoginAttempts == n
    && FindByEmail(users, email).value.lockedUntil.None?
    && FindByEmail(users, email).value.passwordHash == hash
    && FindByEmail(users, email).value.isActive
  }

  /** Below the limit, a wrong password only adds one failure. */
  lemma AttemptCounts(st: AuthState, req: LoginRequest, check: PasswordCheck, now: Time, hash: string, n: int)
    requires OpenWithFailures(st.users, req.email, hash, n)
    requires n + 1 < MaxFailedAttempts && !check(hash, req.password)
    ensures OpenWithFailures(Attempt(st, req, check, now).users, req.email, hash, n + 1)
  {
    WrongPasswordStep(st, req, check, Issued(None, None), NilId, now, "", "");
  }

  /** From a clean record, the first four wrong passwords only count, and
      after them the counter stands at four with the account still open. */
  lemma FourFailuresCount(st: AuthState, req: LoginRequest, check: PasswordCheck, now: Time, hash: string)
    requires OpenWithFailures(st.users, req.email, hash, 0) && !check(hash, req.password)
    ensures OpenWithFailures(Hammer(st, req, check, 4, now).users, req.email, hash, 4)
  {
    var s1 := Attempt(st, req, check, now);
    AttemptCounts(st, req, check, now, hash, 0);
    var s2 := Attempt(s1, req, check, now);
    AttemptCounts(s1, req, check, now, hash, 1);
    var s3 := Attempt(s2, req, check, now);
    AttemptCounts(s2, req, check, now, hash, 2);
    var s4 := Attempt(s3, req, check, now);
    AttemptCounts(s3, req, check, now, hash, 3);
    assert Hammer(st, req, check, 1, now) == s1;
    assert Hammer(st, req, check, 2, now) == s2;
    assert Hammer(st, req, check, 3, now) == s3;
    assert Hammer(st, req, check, 4, now) == s4;
  }

  /** The fifth consecutive wrong password locks the account for thirty
      minutes: until then even the right password is refused. */
  lemma FifthFailureLocks(st: AuthState, req: LoginRequest, check: PasswordCheck, now: Time,
                          later: Time, right: LoginRequest, issued: Issued, sessionId: ObjectId)
    requires FindByEmail(st.users, req.email).Success?
    requires var u := FindByEmail(st.users, req.email).value;
      u.failedLoginAttempts == 0 && u.lockedUntil.None? && u.isActive && !check(u.passwordHash, req.password)
    requires right.email == req.email
    requires now <= later < now + AccountLockDuration
    ensures var fourth := Hammer(st, req, check, 4, now);
      Login(fourth, req, check, Issued(None, None), NilId, now, "", "").result == Failure(AccountLocked)
    ensures var locked := Hammer(st, req, check, 5, now);
      Login(locked, right, check, issued, sessionId, later, "", "") == Outcome(locked, Failure(AccountLocked))
  {
    var fourth := Hammer(st, req, check, 4, now);
    FourFailuresCount(st, req, check, now, FindByEmail(st.users, req.email).value.passwordHash);
    WrongPasswordStep(fourth, req, check, Issued(None, None), NilId, now, "", "");
  }

  /** A session appended to a store it does not clash with is what both of
      its tokens find while they are live. */
  lemma AppendedSessionFound(s: Sessions, x: Session, at: Time)
    requires !HasToken(s, x.token) && !HasRefreshToken(s, x.refreshToken)
    requires !IsExpired(x, at) && !IsRefreshExpired(x, at)
    ensures FindByToken(s + [x], x.token, at) == Success(x)
    ensures FindByRefreshToken(s + [x], x.refreshToken, at) == Success(x)
  {
    var t := s + [x];
    assert t[|s|] == x;
    assert forall i :: 0 <= i < |s| ==> t[i] == s[i];
    assert FirstWithToken(t, x.token) == Some(|s|);
    assert FirstWithRefreshToken(t, x.refreshToken) == Some(|s|);
  }

  /** A successful login clears the lockout and is found again by both of
      its tokens for as long as the access token is live. */
  lemma LoginSessionFound(st: AuthState, req: LoginRequest, check: PasswordCheck, issued: Issued,
                          sessionId: ObjectId, now: Time, ip: string, agent: string, at: Time)
    requires Login(st, req, check, issued, sessionId, now, ip, agent).result.Success?
    requires now <= at <= now + TokenExpiry
    ensures var o := Login(st, req, check, issued, sessionId, now, ip, agent);
      var resp := o.result.value;
      FindByToken(o.state.sessions, resp.token, at).Success?
      && FindByToken(o.state.sessions, resp.token, at).value.userId == resp.user.id
      && FindByRefreshToken(o.state.sessions, resp.refreshToken, at).Success?
      && FindById(o.state.users, resp.user.id).Success?
      && FindById(o.state.users, resp.user.id).value.failedLoginAttempts == 0
      && FindById(o.state.users, resp.user.id).value.lockedUntil.None?
  {
    var u := FindByEmail(st.users, req.email).value;
    var o := Establish(st, u, issued, sessionId, now, ip, agent);
    var x := NewSession(u, issued.token.value, issued.refreshToken.value, now, ip, agent);
    assert SessionStore.Create(st.sessions, x, sessionId, now).Success?;
    AppendedSessionFound(st.sessions, x.(id := sessionId), at);
    LastLoginFound(st.users, u, now);
  }

  /** After the login stamp the user's record is found with the lockout cleared. */
  lemma LastLoginFound(users: Store, u: User, now: Time)
    requires u in users
    ensures UpdateLastLogin(users, u.id, now).Success?
    ensures var r := FindById(UpdateLastLogin(users, u.id, now).value, u.id);
      r.Success? && r.value.failedLoginAttempts == 0 && r.value.lockedUntil.None?
      && r.value.lastLoginAt == Some(now)
  {
    assert HasId(users, u.id) by {
      var i :| 0 <= i < |users| && users[i] == u;
    }
    FindByIdAfterMap(users, u.id, LoginRecorded(now), now);
  }

  /** `Logout`: deletes the session of the access token; a missing one is an error. */
  function Logout(st: AuthState, token: string): (o: Result<AuthState, AuthError>)
    ensures o.Failure? <==> !HasToken(st.sessions, token)
    ensures o.Success? ==> o.value.users == st.users && |o.value.sessions| == |st.sessions| - 1
  {
    match SessionStore.Delete(st.sessions, token)
    case Failure(e) => Failure(SessionFailure(e))
    case Success(sessions) => Success(st.(sessions := sessions))
  }

  /** `RefreshToken`: a live refresh token of an active user is traded for
      a new session carrying the previous one's client details; the previous session
      is deleted first, and a failure to delete it is ignored. */
  function RefreshToken(st: AuthState, refreshToken: string, issued: Issued, sessionId: ObjectId,
                        now: Time): (o: Outcome)
    ensures FindByRefreshToken(st.sessions, refreshToken, now).Failure? ==> o == Outcome(st, Failure(InvalidToken))
    ensures o.result.Success? ==>
      var prev := FindByRefreshToken(st.sessions, refreshToken, now).value;
      FindByRefreshToken(st.sessions, refreshToken, now).Success?
      && FindById(st.users, prev.userId) == Success(o.result.value.user)
      && o.result.value.user.isActive
      && o.state.users == st.users
      && issued.token.Some? && issued.refreshToken.Some?
      && o.result.value.refreshToken == issued.refreshToken.value
      && o.state.sessions == SessionStore.Delete(st.sessions, prev.token).value
           + [Session(sessionId, prev.userId, issued.token.value, issued.refreshToken.value,
                      now + TokenExpiry, now + RefreshTokenExpiry, now, prev.ipAddress, prev.userAgent)]
    ensures o.result == Failure(AccountInactive) ==>
      FindById(st.users, FindByRefreshToken(st.sessions, refreshToken, now).value.userId).Success?
      && !FindById(st.users, FindByRefreshToken(st.sessions, refreshToken, now).value.userId).value.isActive
  {
    match FindByRefreshToken(st.sessions, refreshToken, now)
    case Failure(_) => Outcome(st, Failure(InvalidToken))
    case Success(prev) =>
      match FindById(st.users, prev.userId)
      case Failure(e) => Outcome(st, Failure(UserFailure(e)))
      case Success(u) =>
        if !u.isActive then Outcome(st, Failure(AccountInactive))
        else if issued.token.None? || issued.refreshToken.None? then Outcome(st, Failure(TokenGenerationFailed))
        else
          var remaining := match SessionStore.Delete(st.sessions, prev.token)
                           case Success(s) => s
                           case Failure(_) => st.sessions;
          var renewed := NewSession(u, issued.token.value, issued.refreshToken.value, now, prev.ipAddress, prev.userAgent);
          match SessionStore.Create(remaining, renewed, sessionId, now)
          case Failure(e) => Outcome(st.(sessions := remaining), Failure(SessionFailure(e)))
          case Success(sessions) =>
            Outcome(st.(sessions := sessions),
                    Success(LoginResponse(issued.token.value, issued.refreshToken.value, u, now + TokenExpiry)))
  }

  /** Rotation: after a refresh the old refresh token is dead (unless the
      new one happens to equal it), the new one is live for thirty days,
      and the tokens stay unique. */
  lemma RefreshRotates(st: AuthState, refreshToken: string, issued: Issued, sessionId: ObjectId,
                       now: Time, at: Time)
    requires UniqueTokens(st.sessions)
    requires RefreshToken(st, refreshToken, issued, sessionId, now).result.Success?
    requires now <= at <= now + RefreshTokenExpiry
    ensures var o := RefreshToken(st, refreshToken, issued, sessionId, now);
      UniqueTokens(o.state.sessions)
      && |o.state.sessions| == |st.sessions|
      && FindByRefreshToken(o.state.sessions, o.result.value.refreshToken, at).Success?
      && (o.result.value.refreshToken != refreshToken ==>
            FindByRefreshToken(o.state.sessions, refreshToken, at) == Failure(SessionNotFound))
  {
    var o := RefreshToken(st, refreshToken, issued, sessionId, now);
    var prev := FindByRefreshToken(st.sessions, refreshToken, now).value;
    var i := FirstWithRefreshToken(st.sessions, refreshToken).value;
    assert st.sessions[i] == prev;
    DeletePreservesUnique(st.sessions, prev.token);
    var j := FirstWithToken(st.sessions, prev.token).value;
    assert j == i;
    ReplaceOne(st.sessions, i, o.state.sessions[|o.state.sessions| - 1]);
  }

  /** Dropping the session at `i` and appending `x`, whose refresh token is
      new, keeps the length, finds `x` by its refresh token and loses the
      dropped one's refresh token unless `x` reuses it. */
  lemma ReplaceOne(s: Sessions, i: nat, x: Session)
    requires i < |s|
    requires !HasRefreshToken(s[..i] + s[i + 1..], x.refreshToken)
    ensures var r := s[..i] + s[i + 1..] + [x];
      |r| == |s|
      && FirstWithRefreshToken(r, x.refreshToken) == Some(|s| - 1)
      && (x.refreshToken != s[i].refreshToken && UniqueTokens(s) ==> !HasRefreshToken(r, s[i].refreshToken))
  {
    var rem := s[..i] + s[i + 1..];
    var r := rem + [x];
    assert forall k :: 0 <= k < |rem| ==> r[k] == rem[k];
    assert r[|rem|] == x;
    assert forall k :: 0 <= k < |rem| ==> r[k].refreshToken != x.refreshToken;
    if x.refreshToken != s[i].refreshToken && UniqueTokens(s) {
      forall k | 0 <= k < |r| ensures r[k].refreshToken != s[i].refreshToken {
        if k < i {
          assert r[k] == s[k];
        } else if k < |rem| {
          assert r[k] == s[k + 1];
        }
      }
    }
  }

  /** What a structurally valid access token says about its subject: the
      `user_id` claim when it is a string. */
  datatype Claims = Claims(userId: Option<string>)

  /** `GetUserFromToken`: `verified` is the outcome of checking the token's
      signature and expiry (`None` when that fails); the subject must be a
      well-formed hex id of an existing user. */
  function GetUserFromToken(users: Store, verified: Option<Claims>, parse: HexParser): (r: Result<User, AuthError>)
    ensures r.Success? <==>
      verified.Some? && verified.value.userId.Some? && parse(verified.value.userId.value).Some?
      && HasId(users, parse(verified.value.userId.value).value)
    ensures r.Success? ==> r.value in users && r.value.id == parse(verified.value.userId.value).value
  {
    match verified
    case None => Failure(InvalidToken)
    case Some(claims) =>
      match claims.userId
      case None => Failure(InvalidToken)
      case Some(hex) =>
        match parse(hex)
        case None => Failure(InvalidToken)
        case Some(id) =>
          match FindById(users, id)
          case Failure(e) => Failure(UserFailure(e))
          case Success(u) => Success(u)
  }

  /** Signing out does not revoke the access token: its resolution to a
      user reads the user collection only, never the sessions. */
  lemma LogoutKeepsAccessToken(st: AuthState, token: string, verified: Option<Claims>, parse: HexParser)
    requires Logout(st, token).Success?
    ensures GetUserFromToken(Logout(st, token).value.users, verified, parse)
         == GetUserFromToken(st.users, verified, parse)
  {
  }

  /** The login endpoint's status: 403 for a locked account, 401 for every
      other failure. */
  function LoginStatus(r: Result<LoginResponse, AuthError>): (code: int)
    ensures code == 200 <==> r.Success?
    ensures code == 403 <==> r == Failure(AccountLocked)
    ensures r.Failure? && r.error != AccountLocked ==> code == 401
  {
    match r
    case Success(_) => 200
    case Failure(AccountLocked) => 403
    case Failure(_) => 401
  }

  /** The refresh endpoint answers 401 for every failure. */
  function RefreshStatus(r: Result<LoginResponse, AuthError>): (code: int)
    ensures code == 200 <==> r.Success?
    ensures r.Failure? ==> code == 401
  {
    if r.Success? then 200 else 401
  }

  /** The login request's binding: `required,email` on the email and
      `required` on the password. `emailOk` is the validator's email syntax. */
  predicate LoginBound(req: LoginRequest, emailOk: string -> bool) {
    req.email != "" && emailOk(req.email) && req.password != ""
  }

  /** The login endpoint: a request the binding refuses is answered 400
      before the service is called; otherwise the service's answer is
      mapped by `LoginStatus`. */
  function LoginEndpoint(st: AuthState, req: LoginRequest, emailOk: string -> bool, check: PasswordCheck,
                         issued: Issued, sessionId: ObjectId, now: Time, ip: string, agent: string)
    : (r: (AuthState, int))
    ensures r.1 == 400 <==> !LoginBound(req, emailOk)
    ensures !LoginBound(req, emailOk) ==> r.0 == st
    ensures LoginBound(req, emailOk) ==> r.0 == Login(st, req, check, issued, sessionId, now, ip, agent).state
    ensures r.1 == 200 <==>
      LoginBound(req, emailOk) && Login(st, req, check, issued, sessionId, now, ip, agent).result.Success?
    ensures r.1 == 403 <==>
      LoginBound(req, emailOk) && Login(st, req, check, issued, sessionId, now, ip, agent).result == Failure(AccountLocked)
  {
    if !LoginBound(req, emailOk) then (st, 400)
    else
      var o := Login(st, req, check, issued, sessionId, now, ip, agent);
      (o.state, LoginStatus(o.result))
  }

  /** The answer of the change-password endpoint. */
  datatype ChangeAnswer =
    | MissingField
    | NoUser
    | WrongOldPassword
    | WeakNewPassword
    | HashFailed
    | Changed(newHash: string)

  /** `ChangePassword` in the authentication handler: both passwords are
      required by the binding, then the caller must be known; the old
      password is checked before the new one's strength, and the new hash
      is only returned, never stored. */
  function ChangePassword(user: Option<User>, oldPassword: string, newPassword: string, check: PasswordCheck,
                          hash: Option<string>): (r: ChangeAnswer)
    ensures r == MissingField <==> oldPassword == "" || newPassword == ""
    ensures r == NoUser <==> oldPassword != "" && newPassword != "" && user.None?
    ensures r == WrongOldPassword <==>
      oldPassword != "" && newPassword != "" && user.Some? && !check(user.value.passwordHash, oldPassword)
    ensures r == WeakNewPassword <==>
      oldPassword != "" && newPassword != "" && user.Some? && check(user.value.passwordHash, oldPassword)
      && ValidatePassword(newPassword).Fail?
    ensures r.Changed? <==>
      oldPassword != "" && newPassword != "" && user.Some? && check(user.value.passwordHash, oldPassword)
      && ValidatePassword(newPassword).Pass? && hash.Some?
    ensures r.Changed? ==> Some(r.newHash) == hash
  {
    if oldPassword == "" || newPassword == "" then MissingField
    else if user.None? then NoUser
    else if !check(user.value.passwordHash, oldPassword) then WrongOldPassword
    else if ValidatePassword(newPassword).Fail? then WeakNewPassword
    else match hash
      case None => HashFailed
      case Some(h) => Changed(h)
  }

  /** The status of a change-password answer. */
  function ChangeStatus(a: ChangeAnswer): (code: int)
    ensures code == 400 <==> a.MissingField? || a.WeakNewPassword?
    ensures code == 401 <==> a.NoUser? || a.WrongOldPassword?
    ensures code == 500 <==> a.HashFailed?
    ensures code == 200 <==> a.Changed?
  {
    match a
    case MissingField => 400
    case NoUser => 401
    case WrongOldPassword => 401
    case WeakNewPassword => 400
    case HashFailed => 500
    case Changed(_) => 200
  }

  /** An empty old password is refused by the binding with 400, whoever
      asks and whatever the new password, before it is ever checked. */
  lemma EmptyOldPasswordIsBadRequest(user: Option<User>, newPassword: string, check: PasswordCheck,
                                     hash: Option<string>)
    ensures ChangeStatus(ChangePassword(user, "", newPassword, check, hash)) == 400
  {
  }
}

=== FILE: dafny/client_auth.dfy ===
/** The client's session store (`frontend/src/stores/auth.ts`): the signed-in
    user and the two tokens, mirrored into local storage so that a reload
    can restore them. Each action is a function from the store and the
    storage before it to those after it, with the server's answer given as
    a parameter; a thrown error is a `Fail` outcome. */
module ClientAuth {
  import opened Wrappers
  import opened Roles
  import opened ClientUsers
  import opened ApiClient

  datatype AuthState = AuthState(
    user: Option<ClientUser>,
    token: Option<string>,
    refreshToken: Option<string>,
    isLoading: bool,
    error: Option<string>)

  /** The store when the page loads. */
  const Initial: AuthState := AuthState(None, None, None, false, None)

  /** `localStorage`: string keys to string values. */
  type Storage = map<string, string>

  const TokenKey: string := "token"
  const RefreshTokenKey: string := "refreshToken"
  const UserKey: string := "user"

  /** `JSON.stringify` of a user. */
  type Stringify = ClientUser -> string

  /** What `JSON.parse` gives for the stored user: a user, `null`, or a throw. */
  datatype ParsedUser = UserValue(u: ClientUser) | NullValue | Unparsable

  type ParseUser = string -> ParsedUser

  /** The body of a successful login or refresh. */
  datatype LoginResponse = LoginResponse(token: string, refreshToken: string, user: ClientUser)

  /** `isAuthenticated`: a user and a non-empty token. */
  predicate IsAuthenticated(st: AuthState) {
    st.user.Some? && Truthy(st.token)
  }

  /** `isAdmin`, `isSuperAdmin` and `isUserManager` read the user record only. */
  predicate IsAdmin(st: AuthState) {
    st.user.Some? && st.user.value.role == Admin
  }

  predicate IsSuperAdmin(st: AuthState) {
    st.user.Some? && st.user.value.adminLevel == Some(LevelSuperAdmin)
  }

  predicate IsUserManager(st: AuthState) {
    st.user.Some? && st.user.value.adminLevel == Some(LevelUserManager)
  }

  /** The state and storage after a session is received: both tokens and
      the user held and written to storage. */
  function Store(st: AuthState, storage: Storage, data: LoginResponse, stringify: Stringify): (r: (AuthState, Storage))
    ensures r.0.user == Some(data.user) && r.0.token == Some(data.token) && r.0.refreshToken == Some(data.refreshToken)
    ensures r.1.Keys == storage.Keys + {TokenKey, RefreshTokenKey, UserKey}
    ensures r.1[TokenKey] == data.token && r.1[RefreshTokenKey] == data.refreshToken && r.1[UserKey] == stringify(data.user)
    ensures forall k :: k in storage && k !in {TokenKey, RefreshTokenKey, UserKey} ==> r.1[k] == storage[k]
  {
    (st.(user := Some(data.user), token := Some(data.token), refreshToken := Some(data.refreshToken)),
     storage[TokenKey := data.token][RefreshTokenKey := data.refreshToken][UserKey := stringify(data.user)])
  }

  /** `login`: on success the session is held and stored; on failure the
      message is recorded and rethrown and nothing else changes. The
      server's message is used when it gives one. */
  function Login(st: AuthState, storage: Storage, response: Result<LoginResponse, Option<string>>,
                 stringify: Stringify): (r: (AuthState, Storage, Outcome<string>))
    ensures !r.0.isLoading
    ensures response.Success? ==>
      r.2 == Pass && r.0.error == None
      && (r.0, r.1) == Store(st.(isLoading := false, error := None), storage, response.value, stringify)
    ensures response.Success? && response.value.token != "" ==> IsAuthenticated(r.0)
    ensures response.Failure? ==>
      r.2.Fail? && r.0.error == Some(r.2.error) && r.1 == storage
      && r.0.(isLoading := st.isLoading, error := st.error) == st
    ensures response.Failure? && Truthy(response.error) ==> r.2 == Fail(response.error.value)
    ensures response.Failure? && !Truthy(response.error) ==> r.2 == Fail("Login failed")
  {
    match response
    case Success(data) =>
      var (s2, storage2) := Store(st.(isLoading := false, error := None), storage, data, stringify);
      (s2, storage2, Pass)
    case Failure(msg) =>
      var m := if Truthy(msg) then msg.value else "Login failed";
      (st.(isLoading := false, error := Some(m)), storage, Fail(m))
  }

  /** `logout`: the server is told only when a token is held, and whatever
      it answers the session is cleared from the store and from storage. */
  function Logout(st: AuthState, storage: Storage): (r: (AuthState, Storage, bool))
    ensures r.2 <==> Truthy(st.token)
    ensures r.0 == Initial
    ensures r.1.Keys == storage.Keys - {TokenKey, RefreshTokenKey, UserKey}
    ensures forall k :: k in r.1 ==> r.1[k] == storage[k]
  {
    (Initial, storage - {TokenKey, RefreshTokenKey, UserKey}, Truthy(st.token))
  }

  /** The message a failed request throws: `None` for an answer that is not
      ok, which throws the action's own message; `Some(m)` for an `Error`
      with message `m` thrown by the request or the JSON parse. */
  function Thrown(failure: Option<string>, fallback: string): (m: string)
    ensures failure.None? ==> m == fallback
    ensures failure.Some? ==> m == failure.value
  {
    match failure
    case None => fallback
    case Some(msg) => msg
  }

  /** `refreshAccessToken`: refused without a refresh token, before any
      request; a new session on success; a failed refresh signs out and
      rethrows what was thrown. */
  function RefreshAccessToken(st: AuthState, storage: Storage, response: Result<LoginResponse, Option<string>>,
                              stringify: Stringify): (r: (AuthState, Storage, Outcome<string>))
    ensures !Truthy(st.refreshToken) ==> r == (st, storage, Fail("No refresh token available"))
    ensures Truthy(st.refreshToken) && response.Success? ==>
      r.2 == Pass && (r.0, r.1) == Store(st, storage, response.value, stringify)
    ensures Truthy(st.refreshToken) && response.Failure? ==>
      r.2 == Fail(Thrown(response.error, "Failed to refresh token"))
      && (r.0, r.1) == (Logout(st, storage).0, Logout(st, storage).1)
    ensures Truthy(st.refreshToken) && response == Failure(None) ==> r.2 == Fail("Failed to refresh token")
  {
    if !Truthy(st.refreshToken) then (st, storage, Fail("No refresh token available"))
    else match response
      case Success(data) =>
        var (s2, storage2) := Store(st, storage, data, stringify);
        (s2, storage2, Pass)
      case Failure(e) =>
        var (s2, storage2, _) := Logout(st, storage);
        (s2, storage2, Fail(Thrown(e, "Failed to refresh token")))
  }

  /** A failed refresh, whatever failed, leaves nobody signed in and
      nothing to restore. */
  lemma FailedRefreshSignsOut(st: AuthState, storage: Storage, failure: Option<string>, stringify: Stringify)
    requires Truthy(st.refreshToken)
    ensures var r := RefreshAccessToken(st, storage, Failure(failure), stringify);
      !IsAuthenticated(r.0) && TokenKey !in r.1 && UserKey !in r.1
  {
  }

  /** `fetchCurrentUser`: nothing without a token; otherwise the user is
      replaced and stored, or the failure recorded and rethrown. */
  function FetchCurrentUser(st: AuthState, storage: Storage, response: Result<ClientUser, Option<string>>,
                            stringify: Stringify): (r: (AuthState, Storage, Outcome<string>))
    ensures !Truthy(st.token) ==> r == (st, storage, Pass)
    ensures Truthy(st.token) && response.Success? ==>
      r.2 == Pass && r.0 == st.(user := Some(response.value), isLoading := false, error := None)
      && r.1 == storage[UserKey := stringify(response.value)]
    ensures Truthy(st.token) && response.Failure? ==>
      var m := Thrown(response.error, "Failed to fetch user");
      r == (st.(isLoading := false, error := Some(m)), storage, Fail(m))
    ensures Truthy(st.token) && response == Failure(None) ==>
      r.0.error == Some("Failed to fetch user") && r.2 == Fail("Failed to fetch user")
  {
    if !Truthy(st.token) then (st, storage, Pass)
    else match response
      case Success(u) => (st.(user := Some(u), isLoading := false, error := None), storage[UserKey := stringify(u)], Pass)
      case Failure(e) =>
        var m := Thrown(e, "Failed to fetch user");
        (st.(isLoading := false, error := Some(m)), storage, Fail(m))
  }

  /** `changePassword`: refused without a token, before any request; the
      session itself is never changed. */
  function ChangePassword(st: AuthState, response: Result<(), Option<string>>): (r: (AuthState, Outcome<string>))
    ensures !Truthy(st.token) ==> r == (st, Fail("Not authenticated"))
    ensures Truthy(st.token) ==>
      r.0.(isLoading := st.isLoading, error := st.error) == st && !r.0.isLoading
      && (response.Success? <==> r.1 == Pass)
      && (r.1.Fail? ==> r.0.error == Some(r.1.error))
  {
    if !Truthy(st.token) then (st, Fail("Not authenticated"))
    else match response
      case Success(_) => (st.(isLoading := false, error := None), Pass)
      case Failure(msg) =>
        var m := if Truthy(msg) then msg.value else "Failed to change password";
        (st.(isLoading := false, error := Some(m)), Fail(m))
  }

  /** Whether all three keys are present with non-empty values. */
  predicate SessionStored(storage: Storage) {
    TokenKey in storage && storage[TokenKey] != ""
    && RefreshTokenKey in storage && storage[RefreshTokenKey] != ""
    && UserKey in storage && storage[UserKey] != ""
  }

  /** `initializeFromStorage`: only a complete stored session is taken; a
      stored user that does not parse is dropped from storage and leaves
      the user as it was. */
  function InitializeFromStorage(st: AuthState, storage: Storage, parse: ParseUser): (r: (AuthState, Storage))
    ensures !SessionStored(storage) ==> r == (st, storage)
    ensures SessionStored(storage) ==>
      r.0.token == Some(storage[TokenKey]) && r.0.refreshToken == Some(storage[RefreshTokenKey])
      && (parse(storage[UserKey]).UserValue? ==> r.0.user == Some(parse(storage[UserKey]).u) && r.1 == storage)
      && (parse(storage[UserKey]).NullValue? ==> r.0.user == None && r.1 == storage)
      && (parse(storage[UserKey]).Unparsable? ==> r.0.user == st.user && r.1 == storage - {UserKey})
  {
    if !SessionStored(storage) then (st, storage)
    else
      var s2 := st.(token := Some(storage[TokenKey]), refreshToken := Some(storage[RefreshTokenKey]));
      match parse(storage[UserKey])
      case UserValue(u) => (s2.(user := Some(u)), storage)
      case NullValue => (s2.(user := None), storage)
      case Unparsable => (s2, storage - {UserKey})
  }

  /** A stored session survives a reload: after a login with non-empty
      tokens, a fresh store restored from storage holds the same session. */
  lemma LoginThenRestore(storage: Storage, data: LoginResponse, stringify: Stringify, parse: ParseUser)
    requires data.token != "" && data.refreshToken != ""
    requires parse(stringify(data.user)) == UserValue(data.user)
    requires stringify(data.user) != ""
    ensures var (s1, storage1, _) := Login(Initial, storage, Success(data), stringify);
      var (s2, _) := InitializeFromStorage(Initial, storage1, parse);
      s2.user == s1.user && s2.token == s1.token && s2.refreshToken == s1.refreshToken && IsAuthenticated(s2)
  {
  }

  /** After logging out a reload restores nothing. */
  lemma LogoutThenRestoreNothing(st: AuthState, storage: Storage, parse: ParseUser)
    ensures var (_, storage1, _) := Logout(st, storage);
      InitializeFromStorage(Initial, storage1, parse).0 == Initial
  {
  }

  /** A stored user that does not parse leaves a fresh store signed out,
      though it holds the stored tokens. */
  lemma UnparsableUserSignedOut(storage: Storage, parse: ParseUser)
    requires SessionStored(storage) && parse(storage[UserKey]).Unparsable?
    ensures var (s, storage1) := InitializeFromStorage(Initial, storage, parse);
      !IsAuthenticated(s) && Truthy(s.token) && UserKey !in storage1
  {
  }

  /** `clearError`. */
  function ClearError(st: AuthState): (r: AuthState)
    ensures r.error.None? && r.(error := st.error) == st
  {
    st.(error := None)
  }
}

=== FILE: dafny/client_forgot_password.dfy ===
/** The client's three-step password reset (`frontend/src/stores/forgotPassword.ts`):
    ask for a code by email, exchange the code for a reset token, then set
    the new password with that token. Each successful step moves the
    wizard on; a failure records its message and leaves the step as it
    was. */
module ClientForgotPassword {
  import opened Wrappers
  import opened ClientLists

  /** `currentStep`. */
  datatype Step = EmailStep | CodeStep | PasswordStep | SuccessStep

  datatype ResetState = ResetState(
    isLoading: bool,
    error: Option<string>,
    success: Option<string>,
    step: Step,
    resetToken: Option<string>)

  /** The store when the page loads, and after `reset`. */
  const Initial: ResetState := ResetState(false, None, None, EmailStep, None)

  const CannotConnect: string := "Cannot connect to server. Please check your connection"

  /** The message of a failed step: the server's `error` when it is a
      non-empty string; for a body that is not JSON, the step's message for
      the statuses it names, the connection message for status 0, and the
      step's fallback otherwise. */
  function StepErrorMessage<T>(reply: Reply<T>, fallback: string, byStatus: map<int, string>): (m: string)
    requires !reply.Ok?
    ensures reply.HttpError? && reply.body.NotJson? && reply.status in byStatus ==> m == byStatus[reply.status]
    ensures reply.HttpError? && reply.body.NotJson? && reply.status !in byStatus && reply.status == 0 ==> m == CannotConnect
    ensures reply.HttpError? && reply.body.JsonBody? ==> m == ErrorMessage(reply, fallback, None)
    ensures reply.NetworkError? ==> m == reply.message
  {
    if reply.HttpError? && reply.body.NotJson? then
      if reply.status in byStatus then byStatus[reply.status]
      else if reply.status == 0 then CannotConnect
      else fallback
    else ErrorMessage(reply, fallback, None)
  }

  const RequestMessages: map<int, string> := map[
    404 := "No account found with this email address",
    429 := "Too many requests. Please wait before trying again",
    403 := "Account is inactive. Please contact an administrator"]

  /** The state after a failed step: the message recorded and rethrown,
      the step and token kept. */
  function Failed(st: ResetState, message: string): (r: (ResetState, Outcome<string>))
    ensures r.1 == Fail(message) && r.0.error == Some(message)
    ensures r.0.step == st.step && r.0.resetToken == st.resetToken && r.0.success.None? && !r.0.isLoading
  {
    (st.(isLoading := false, error := Some(message), success := None), Fail(message))
  }

  /** `requestPasswordReset`: on success the wizard asks for the code. */
  function RequestPasswordReset(st: ResetState, reply: Reply<string>): (r: (ResetState, Outcome<string>))
    ensures reply.Ok? ==>
      r.1 == Pass && r.0.step == CodeStep && r.0.success == Some(reply.data) && r.0.error.None?
      && r.0.resetToken == st.resetToken && !r.0.isLoading
    ensures !reply.Ok? ==> r == Failed(st, StepErrorMessage(reply, "Failed to send password reset code", RequestMessages))
  {
    match reply
    case Ok(message) => (st.(isLoading := false, error := None, success := Some(message), step := CodeStep), Pass)
    case _ => Failed(st, StepErrorMessage(reply, "Failed to send password reset code", RequestMessages))
  }

  /** `validateResetCode`: on success the token is kept and the wizard asks
      for the new password. The reply carries the token and a message. */
  function ValidateResetCode(st: ResetState, reply: Reply<(string, string)>): (r: (ResetState, Outcome<string>))
    ensures reply.Ok? ==>
      r.1 == Pass && r.0.step == PasswordStep && r.0.resetToken == Some(reply.data.0)
      && r.0.success == Some(reply.data.1) && r.0.error.None? && !r.0.isLoading
    ensures !reply.Ok? ==>
      r == Failed(st, StepErrorMessage(reply, "Invalid or expired reset code", map[404 := "Invalid or expired reset code"]))
  {
    match reply
    case Ok((token, message)) =>
      (st.(isLoading := false, error := None, success := Some(message), step := PasswordStep, resetToken := Some(token)), Pass)
    case _ => Failed(st, StepErrorMessage(reply, "Invalid or expired reset code", map[404 := "Invalid or expired reset code"]))
  }

  /** Whether a reset token is held: JavaScript truthiness of it. */
  predicate HasToken(st: ResetState) {
    st.resetToken.Some? && st.resetToken.value != ""
  }

  /** `resetPassword`: without a token it throws before touching the state
      or sending anything; on success the wizard is done. */
  function ResetPassword(st: ResetState, reply: Reply<string>): (r: (ResetState, Outcome<string>))
    ensures !HasToken(st) ==> r == (st, Fail("No reset token available"))
    ensures HasToken(st) && reply.Ok? ==>
      r.1 == Pass && r.0.step == SuccessStep && r.0.success == Some(reply.data) && r.0.error.None?
      && r.0.resetToken == st.resetToken && !r.0.isLoading
    ensures HasToken(st) && !reply.Ok? ==>
      r == Failed(st, StepErrorMessage(reply, "Failed to reset password", map[404 := "Invalid or expired reset token"]))
  {
    if !HasToken(st) then (st, Fail("No reset token available"))
    else match reply
      case Ok(message) => (st.(isLoading := false, error := None, success := Some(message), step := SuccessStep), Pass)
      case _ => Failed(st, StepErrorMessage(reply, "Failed to reset password", map[404 := "Invalid or expired reset token"]))
  }

  /** `clearError`, `clearSuccess` and `reset`. */
  function ClearError(st: ResetState): (r: ResetState)
    ensures r.error.None? && r.(error := st.error) == st
  {
    st.(error := None)
  }

  function ClearSuccess(st: ResetState): (r: ResetState)
    ensures r.success.None? && r.(success := st.success) == st
  {
    st.(success := None)
  }

  function Reset(st: ResetState): (r: ResetState)
    ensures r.step == EmailStep && r.resetToken.None? && r.error.None? && r.success.None? && !r.isLoading
  {
    Initial
  }

  // ---------------------------------------------------------------------
  // The wizard's invariant

  /** The password page is shown only with a token in hand, and the done
      page only after a usable token was spent. */
  predicate Valid(st: ResetState) {
    (st.step == PasswordStep ==> st.resetToken.Some?) && (st.step == SuccessStep ==> HasToken(st))
  }

  /** Every action keeps the invariant, success or failure. */
  lemma RequestKeepsValid(st: ResetState, reply: Reply<string>)
    requires Valid(st)
    ensures Valid(RequestPasswordReset(st, reply).0)
  {
  }

  lemma ValidateKeepsValid(st: ResetState, reply: Reply<(string, string)>)
    requires Valid(st)
    ensures Valid(ValidateResetCode(st, reply).0)
  {
  }

  lemma ResetPasswordKeepsValid(st: ResetState, reply: Reply<string>)
    requires Valid(st)
    ensures Valid(ResetPassword(st, reply).0)
  {
  }

  lemma ClearingKeepsValid(st: ResetState)
    requires Valid(st)
    ensures Valid(ClearError(st)) && Valid(ClearSuccess(st)) && Valid(Reset(st))
  {
  }

  /** The happy path: three successful replies, with a non-empty token,
      take a fresh wizard to the done page. */
  lemma HappyPath(sent: string, token: string, validated: string, done: string)
    requires token != ""
    ensures var s1 := RequestPasswordReset(Initial, Ok(sent)).0;
      var s2 := ValidateResetCode(s1, Ok((token, validated))).0;
      var s3 := ResetPassword(s2, Ok(done));
      s1.step == CodeStep && s2.step == PasswordStep && s3 == (s2.(success := Some(done), step := SuccessStep), Pass)
  {
  }

  /** Only `reset` leads back to the email page: no reply moves a wizard
      that has left it back there. */
  lemma NoWayBackToEmail(st: ResetState, r1: Reply<string>, r2: Reply<(string, string)>, r3: Reply<string>)
    requires st.step != EmailStep
    ensures RequestPasswordReset(st, r1).0.step != EmailStep
    ensures ValidateResetCode(st, r2).0.step != EmailStep
    ensures ResetPassword(st, r3).0.step != EmailStep
  {
  }
}

=== FILE: dafny/client_institutions_store.dfy ===
/** The client's institution store (`frontend/src/stores/institutions.ts`):
    a cached list, its total and the institution being viewed. Unlike the
    user store, a failed list fetch empties the cache, a creation is
    appended at the end whether or not a list is cached, and neither a
    creation nor a deletion touches the total. */
module ClientInstitutionsStore {
  import opened Wrappers
  import opened GoStrings
  import opened ClientLists
  import InstitutionHandler
  import Institution

  /** The fields of an institution that the store reads or edits. */
  datatype ClientInstitution = ClientInstitution(
    id: string,
    name: string,
    instType: string,
    country: string,
    city: string,
    isActive: bool,
    createdBy: Option<string>)

  datatype InstitutionsState = InstitutionsState(
    institutions: seq<ClientInstitution>,
    currentInstitution: Option<ClientInstitution>,
    total: int,
    isLoading: bool,
    error: Option<string>)

  const Initial: InstitutionsState := InstitutionsState([], None, 0, false, None)

  function InstitutionId(i: ClientInstitution): string {
    i.id
  }

  /** A failed write: the message recorded, nothing else changed. */
  function Failed(st: InstitutionsState, message: string): (r: (InstitutionsState, Outcome<string>))
    ensures r.1 == Fail(message) && r.0.error == Some(message) && !r.0.isLoading
    ensures r.0.(isLoading := st.isLoading, error := st.error) == st
  {
    (st.(isLoading := false, error := Some(message)), Fail(message))
  }

  // ---------------------------------------------------------------------
  // Fetching

  /** The options of `fetchInstitutions`. */
  datatype InstitutionsQuery = InstitutionsQuery(
    instType: Option<string>, isActive: Option<bool>, search: Option<string>, limit: Option<int>, skip: Option<int>)

  function InstitutionsOptions(q: InstitutionsQuery): seq<(string, Option<string>)> {
    [("type", q.instType), ("is_active", FlagValue(q.isActive)), ("search", q.search),
     ("limit", NumberValue(q.limit)), ("skip", NumberValue(q.skip))]
  }

  /** The query string of `fetchInstitutions`: each option only when
      truthy, the flag whenever it is given. */
  function InstitutionsParams(q: InstitutionsQuery): (ps: Params)
    ensures Lookup(ps, "type") == (if q.instType.Some? && q.instType.value != "" then q.instType else None)
    ensures Lookup(ps, "is_active") == FlagValue(q.isActive)
    ensures Lookup(ps, "search") == (if q.search.Some? && q.search.value != "" then q.search else None)
    ensures Lookup(ps, "limit") == NumberValue(q.limit)
    ensures Lookup(ps, "skip") == NumberValue(q.skip)
  {
    var es := InstitutionsOptions(q);
    assert DistinctKeys(es);
    BuildParamsLookup(es, 0);
    BuildParamsLookup(es, 1);
    BuildParamsLookup(es, 2);
    BuildParamsLookup(es, 3);
    BuildParamsLookup(es, 4);
    BuildParams(es)
  }

  /** The backend reads back what the client asked for; an omitted limit
      gets the backend's 100 and an omitted skip 0. */
  lemma InstitutionsParamsReadBack(q: InstitutionsQuery)
    requires q.instType.Some? ==> Institution.IsValidType(q.instType.value)
    requires q.limit.Some? ==> 0 < q.limit.value <= MaxInt64
    requires q.skip.Some? ==> 0 <= q.skip.value <= MaxInt64
    ensures var ps := InstitutionsParams(q);
      var parsed := InstitutionHandler.ParseListQuery(Lookup(ps, "type"), Lookup(ps, "is_active"), Lookup(ps, "search"),
                                                      Lookup(ps, "limit"), Lookup(ps, "skip"));
      parsed.instType == q.instType && parsed.isActive == q.isActive && parsed.search == q.search.GetOr("")
      && parsed.limit == q.limit.GetOr(100) && parsed.skip == q.skip.GetOr(0)
  {
    var ps := InstitutionsParams(q);
    var parsed := InstitutionHandler.ParseListQuery(Lookup(ps, "type"), Lookup(ps, "is_active"), Lookup(ps, "search"),
                                                    Lookup(ps, "limit"), Lookup(ps, "skip"));
    FlagReadBack(q.isActive);
    NumberReadBack(q.limit);
    NumberReadBack(q.skip);
    assert parsed.instType == q.instType;
    assert parsed.isActive == q.isActive;
    assert parsed.search == q.search.GetOr("");
    assert parsed.limit == q.limit.GetOr(100);
    assert parsed.skip == q.skip.GetOr(0);
  }

  /** The body of a list answer; either field may be null. */
  datatype ListBody = ListBody(institutions: Option<seq<ClientInstitution>>, total: Option<int>)

  /** `fetchInstitutions` and `fetchPublicInstitutions` (which has no status
      of its own in its message, hence `special`): the list and total
      replace the cached ones, a null list or total counting as empty or
      zero; a failure empties the cache. */
  function FetchInstitutions(st: InstitutionsState, reply: Reply<ListBody>, special: Option<(int, string)>)
    : (r: (InstitutionsState, Outcome<string>))
    ensures !r.0.isLoading && r.0.currentInstitution == st.currentInstitution
    ensures reply.Ok? ==>
      r.1 == Pass && r.0.error == None
      && r.0.institutions == reply.data.institutions.GetOr([]) && r.0.total == reply.data.total.GetOr(0)
    ensures !reply.Ok? ==>
      r.1 == Fail(ErrorMessage(reply, "Failed to fetch institutions", special))
      && r.0.error == Some(r.1.error) && r.0.institutions == [] && r.0.total == 0
  {
    match reply
    case Ok(body) =>
      (st.(institutions := body.institutions.GetOr([]), total := body.total.GetOr(0), isLoading := false, error := None), Pass)
    case _ =>
      var m := ErrorMessage(reply, "Failed to fetch institutions", special);
      (st.(institutions := [], total := 0, isLoading := false, error := Some(m)), Fail(m))
  }

  /** The authenticated fetch names the expired session; the public one
      never does. */
  const AuthenticatedSpecial: Option<(int, string)> := Some((401, "Session expired"))
  const PublicSpecial: Option<(int, string)> := None

  /** `fetchInstitution`: the institution becomes the one being viewed; a
      failure clears it. */
  function FetchInstitution(st: InstitutionsState, reply: Reply<ClientInstitution>): (r: (InstitutionsState, Outcome<string>))
    ensures reply.Ok? ==> r == (st.(currentInstitution := Some(reply.data), isLoading := false, error := None), Pass)
    ensures !reply.Ok? ==>
      r.1 == Fail(ErrorMessage(reply, "Failed to fetch institution", Some((404, "Institution not found"))))
      && r.0 == st.(currentInstitution := None, isLoading := false, error := Some(r.1.error))
  {
    match reply
    case Ok(i) => (st.(currentInstitution := Some(i), isLoading := false, error := None), Pass)
    case _ =>
      var m := ErrorMessage(reply, "Failed to fetch institution", Some((404, "Institution not found")));
      (st.(currentInstitution := None, isLoading := false, error := Some(m)), Fail(m))
  }

  // ---------------------------------------------------------------------
  // Writes

  /** `createInstitution` and `createUserInstitution`: appended at the end,
      the total untouched. */
  function CreateInstitution(st: InstitutionsState, reply: Reply<ClientInstitution>): (r: (InstitutionsState, Outcome<string>))
    ensures reply.Ok? ==>
      r == (st.(institutions := st.institutions + [reply.data], isLoading := false, error := None), Pass)
    ensures !reply.Ok? ==> r == Failed(st, ErrorMessage(reply, "Failed to create institution", Some((409, "Institution already exists"))))
  {
    match reply
    case Ok(i) => (st.(institutions := st.institutions + [i], isLoading := false, error := None), Pass)
    case _ => Failed(st, ErrorMessage(reply, "Failed to create institution", Some((409, "Institution already exists"))))
  }

  /** `updateInstitution` and `updateUserInstitution`: the first cached
      entry with the identifier becomes the server's copy; the viewed
      institution is left alone. */
  function UpdateInstitution(st: InstitutionsState, id: string, reply: Reply<ClientInstitution>)
    : (r: (InstitutionsState, Outcome<string>))
    ensures reply.Ok? ==>
      r == (st.(institutions := UpdateFirst(st.institutions, InstitutionId, id, _ => reply.data),
                isLoading := false, error := None), Pass)
    ensures !reply.Ok? ==> r == Failed(st, ErrorMessage(reply, "Failed to update institution", Some((404, "Institution not found"))))
  {
    match reply
    case Ok(i) =>
      (st.(institutions := UpdateFirst(st.institutions, InstitutionId, id, _ => i), isLoading := false, error := None), Pass)
    case _ => Failed(st, ErrorMessage(reply, "Failed to update institution", Some((404, "Institution not found"))))
  }

  /** `deleteInstitution`: every cached entry with the identifier goes; the
      total and the viewed institution are left alone. */
  function DeleteInstitution(st: InstitutionsState, id: string, reply: Reply<()>): (r: (InstitutionsState, Outcome<string>))
    ensures reply.Ok? ==>
      r == (st.(institutions := RemoveAll(st.institutions, InstitutionId, id), isLoading := false, error := None), Pass)
    ensures !reply.Ok? ==> r == Failed(st, ErrorMessage(reply, "Failed to delete institution", Some((404, "Institution not found"))))
  {
    match reply
    case Ok(_) => (st.(institutions := RemoveAll(st.institutions, InstitutionId, id), isLoading := false, error := None), Pass)
    case _ => Failed(st, ErrorMessage(reply, "Failed to delete institution", Some((404, "Institution not found"))))
  }

  function WithActive(i: ClientInstitution, active: bool): ClientInstitution {
    i.(isActive := active)
  }

  /** `activateInstitution` and `deactivateInstitution`: the flag is set on
      the first cached entry with the identifier. */
  function SetActive(st: InstitutionsState, id: string, active: bool, reply: Reply<()>): (r: (InstitutionsState, Outcome<string>))
    ensures reply.Ok? ==>
      r == (st.(institutions := UpdateFirst(st.institutions, InstitutionId, id, i => WithActive(i, active)),
                isLoading := false, error := None), Pass)
    ensures !reply.Ok? ==>
      r == Failed(st, ErrorMessage(reply, if active then "Failed to activate institution" else "Failed to deactivate institution",
                                   Some((404, "Institution not found"))))
  {
    match reply
    case Ok(_) =>
      (st.(institutions := UpdateFirst(st.institutions, InstitutionId, id, i => WithActive(i, active)),
           isLoading := false, error := None), Pass)
    case _ =>
      Failed(st, ErrorMessage(reply, if active then "Failed to activate institution" else "Failed to deactivate institution",
                              Some((404, "Institution not found"))))
  }

  // ---------------------------------------------------------------------
  // Properties across actions

  /** Creating an institution and deleting it again restores the cached
      list; the total never moved. */
  lemma CreateThenDeleteRestores(st: InstitutionsState, i: ClientInstitution)
    requires forall k :: 0 <= k < |st.institutions| ==> st.institutions[k].id != i.id
    ensures var (s1, _) := CreateInstitution(st, Ok(i));
      var (s2, _) := DeleteInstitution(s1, i.id, Ok(()));
      s2.institutions == st.institutions && s2.total == st.total
  {
    RemoveAddedEntry(st.institutions, i, InstitutionId);
  }

  /** A failed fetch leaves nothing cached, whatever was cached before. */
  lemma FailedFetchEmpties(st: InstitutionsState, status: int, body: ErrorBody, special: Option<(int, string)>)
    ensures var (s1, _) := FetchInstitutions(st, HttpError(status, body), special);
      s1.institutions == [] && s1.total == 0 && s1.error.Some?
  {
  }

  /** Activation changes only the flag of one cached entry: identifiers,
      names and the list's length are kept. */
  lemma SetActiveKeepsIdentity(st: InstitutionsState, id: string, active: bool)
    ensures var s1 := SetActive(st, id, active, Ok(())).0;
      |s1.institutions| == |st.institutions|
      && forall k :: 0 <= k < |st.institutions| ==>
           s1.institutions[k].id == st.institutions[k].id
           && s1.institutions[k].(isActive := st.institutions[k].isActive) == st.institutions[k]
  {
  }
}

=== FILE: dafny/client_lists.dfy ===
/** What the client's list stores (`frontend/src/stores/users.ts`,
    `frontend/src/stores/institutions.ts`) share: the error message of a
    failed request, the query string of a list fetch, and the edits made
    to the cached list after a successful write. */
module ClientLists {
  import opened Wrappers
  import opened Seqs
  import opened GoStrings

  // ---------------------------------------------------------------------
  // Replies and their error messages

  /** The body of a failed response: JSON with an optional `error` field,
      or something that is not JSON. */
  datatype ErrorBody = JsonBody(error: Option<string>) | NotJson

  /** The outcome of a `fetch`: a successful body, an HTTP error, or a
      network error that rejects the fetch with its own message. */
  datatype Reply<+T> = Ok(data: T) | HttpError(status: int, body: ErrorBody) | NetworkError(message: string)

  /** The message a store throws and records for a failed reply: the
      server's `error` when it is a non-empty string; for a body that is not
      JSON, the action's message for the one status it singles out;
      otherwise the action's fallback. */
  function ErrorMessage<T>(reply: Reply<T>, fallback: string, special: Option<(int, string)>): (m: string)
    requires !reply.Ok?
    ensures reply.NetworkError? ==> m == reply.message
    ensures reply.HttpError? && reply.body.JsonBody? ==>
      m == (if reply.body.error.Some? && reply.body.error.value != "" then reply.body.error.value else fallback)
    ensures reply.HttpError? && reply.body.NotJson? ==>
      (special.Some? && special.value.0 == reply.status ==> m == special.value.1)
      && (!(special.Some? && special.value.0 == reply.status) ==> m == fallback)
  {
    match reply
    case NetworkError(msg) => msg
    case HttpError(status, body) =>
      match body
      case JsonBody(e) => if e.Some? && e.value != "" then e.value else fallback
      case NotJson => if special.Some? && special.value.0 == status then special.value.1 else fallback
  }

  // ---------------------------------------------------------------------
  // Query strings

  /** `URLSearchParams` in insertion order. */
  type Params = seq<(string, string)>

  /** `params.get(key)`: the first value under `key`. */
  function Lookup(ps: Params, key: string): (v: Option<string>)
    ensures v.None? <==> forall i :: 0 <= i < |ps| ==> ps[i].0 != key
    ensures v.Some? ==> exists i :: 0 <= i < |ps| && ps[i] == (key, v.value)
  {
    if ps == [] then None
    else if ps[0].0 == key then Some(ps[0].1)
    else
      var v := Lookup(ps[1..], key);
      assert v.Some? ==> exists i :: 0 <= i < |ps[1..]| && ps[1..][i] == (key, v.value);
      v
  }

  /** A key is looked up in the first list before the second. */
  lemma {:induction false} LookupAppend(xs: Params, ys: Params, key: string)
    ensures Lookup(xs + ys, key) == if Lookup(xs, key).Some? then Lookup(xs, key) else Lookup(ys, key)
  {
    if xs == [] {
      assert xs + ys == ys;
    } else {
      assert (xs + ys)[0] == xs[0];
      assert (xs + ys)[1..] == xs[1..] + ys;
      LookupAppend(xs[1..], ys, key);
    }
  }

  /** JavaScript's `String(n)` for an integer. */
  function IntToString(n: int): (s: string)
    ensures |s| >= 1
  {
    if n < 0 then "-" + NatToString(-n) else NatToString(n)
  }

  /** JavaScript's `String(b)` for a boolean. */
  function BoolToString(b: bool): string {
    if b then "true" else "false"
  }

  /** One optional parameter: present only when its value is truthy, a
      non-empty string. */
  function StringParam(key: string, v: Option<string>): (ps: Params)
    ensures ps == [] <==> v.None? || v.value == ""
    ensures ps != [] ==> ps == [(key, v.value)]
  {
    if v.Some? && v.value != "" then [(key, v.value)] else []
  }

  /** A numeric option as a parameter value: absent when zero, as zero is
      falsy. */
  function NumberValue(v: Option<int>): (r: Option<string>)
    ensures r.None? <==> v.None? || v.value == 0
    ensures r.Some? ==> r.value == IntToString(v.value) && r.value != ""
  {
    if v.Some? && v.value != 0 then Some(IntToString(v.value)) else None
  }

  /** A number the backend can hold is parsed back from its parameter. */
  lemma NumberReadBack(v: Option<int>)
    requires v.Some? ==> 0 <= v.value <= MaxInt64
    ensures NumberValue(v).Some? ==> ParseInt(NumberValue(v).value) == Parsed(v.value, true)
  {
    if v.Some? && v.value != 0 {
      ParseIntOfNatToString(v.value);
    }
  }

  /** A flag as a parameter value: present whenever it is defined, `false`
      included. */
  function FlagValue(v: Option<bool>): (r: Option<string>)
    ensures r.None? <==> v.None?
    ensures r.Some? ==> r.value == BoolToString(v.value) && r.value != ""
  {
    if v.Some? then Some(BoolToString(v.value)) else None
  }

  /** The flag's parameter reads `true` exactly for true. */
  lemma FlagReadBack(v: Option<bool>)
    ensures FlagValue(v).Some? ==> (FlagValue(v).value == "true" <==> v.value)
  {
  }

  /** The query string built from `(key, value)` options in order, each
      appended only when truthy. */
  function BuildParams(es: seq<(string, Option<string>)>): Params {
    if es == [] then [] else StringParam(es[0].0, es[0].1) + BuildParams(es[1..])
  }

  /** Whether no key is given twice. */
  predicate DistinctKeys(es: seq<(string, Option<string>)>) {
    forall i, j :: 0 <= i < j < |es| ==> es[i].0 != es[j].0
  }

  /** A key that is not given is not in the query string. */
  lemma {:induction false} BuildParamsAbsent(es: seq<(string, Option<string>)>, key: string)
    requires forall i :: 0 <= i < |es| ==> es[i].0 != key
    ensures Lookup(BuildParams(es), key).None?
  {
    if es != [] {
      BuildParamsAbsent(es[1..], key);
      LookupAppend(StringParam(es[0].0, es[0].1), BuildParams(es[1..]), key);
    }
  }

  /** With distinct keys, each key is read back as given when it is truthy
      and is missing otherwise. */
  lemma {:induction false} BuildParamsLookup(es: seq<(string, Option<string>)>, i: nat)
    requires DistinctKeys(es) && i < |es|
    ensures Lookup(BuildParams(es), es[i].0) == if es[i].1.Some? && es[i].1.value != "" then es[i].1 else None
  {
    var key := es[i].0;
    LookupAppend(StringParam(es[0].0, es[0].1), BuildParams(es[1..]), key);
    if i == 0 {
      BuildParamsAbsent(es[1..], key);
    } else {
      BuildParamsLookup(es[1..], i - 1);
    }
  }

  // ---------------------------------------------------------------------
  // Edits of a cached list

  /** `findIndex` of the first element whose key is `id`. */
  function FindFirst<T>(xs: seq<T>, key: T -> string, id: string): (r: Option<nat>)
    ensures r.None? <==> forall i :: 0 <= i < |xs| ==> key(xs[i]) != id
    ensures r.Some? ==>
      r.value < |xs| && key(xs[r.value]) == id
      && forall j :: 0 <= j < r.value ==> key(xs[j]) != id
  {
    FirstWhere(xs, x => key(x) == id)
  }

  /** Apply `f` to the first element whose key is `id`, if any. */
  function UpdateFirst<T>(xs: seq<T>, key: T -> string, id: string, f: T -> T): (r: seq<T>)
    ensures |r| == |xs|
    ensures FindFirst(xs, key, id).None? ==> r == xs
    ensures FindFirst(xs, key, id).Some? ==>
      var i := FindFirst(xs, key, id).value;
      r[i] == f(xs[i]) && forall j :: 0 <= j < |xs| && j != i ==> r[j] == xs[j]
  {
    match FindFirst(xs, key, id)
    case None => xs
    case Some(i) => xs[i := f(xs[i])]
  }

  /** `filter` of the elements whose key is not `id`. */
  function RemoveAll<T(==,!new)>(xs: seq<T>, key: T -> string, id: string): (r: seq<T>)
    ensures |r| <= |xs|
    ensures forall i :: 0 <= i < |r| ==> key(r[i]) != id
    ensures forall x :: x in r <==> x in xs && key(x) != id
  {
    if xs == [] then []
    else if key(xs[0]) == id then RemoveAll(xs[1..], key, id)
    else [xs[0]] + RemoveAll(xs[1..], key, id)
  }

  /** Removing a key nobody has changes nothing. */
  lemma {:induction false} RemoveAllAbsent<T(!new)>(xs: seq<T>, key: T -> string, id: string)
    requires forall i :: 0 <= i < |xs| ==> key(xs[i]) != id
    ensures RemoveAll(xs, key, id) == xs
  {
    if xs != [] {
      RemoveAllAbsent(xs[1..], key, id);
      assert xs == [xs[0]] + xs[1..];
    }
  }

  /** Removing distributes over concatenation. */
  lemma {:induction false} RemoveAllAppend<T(!new)>(xs: seq<T>, ys: seq<T>, key: T -> string, id: string)
    ensures RemoveAll(xs + ys, key, id) == RemoveAll(xs, key, id) + RemoveAll(ys, key, id)
  {
    if xs == [] {
      assert xs + ys == ys;
    } else {
      assert (xs + ys)[0] == xs[0];
      assert (xs + ys)[1..] == xs[1..] + ys;
      RemoveAllAppend(xs[1..], ys, key, id);
    }
  }

  /** An entry added under a new key, at either end, is removed again
      without disturbing the rest. */
  lemma RemoveAddedEntry<T(!new)>(xs: seq<T>, x: T, key: T -> string)
    requires forall i :: 0 <= i < |xs| ==> key(xs[i]) != key(x)
    ensures RemoveAll([x] + xs, key, key(x)) == xs
    ensures RemoveAll(xs + [x], key, key(x)) == xs
  {
    RemoveAllAbsent(xs, key, key(x));
    RemoveAllAppend(xs, [x], key, key(x));
    assert RemoveAll([x], key, key(x)) == [];
    assert ([x] + xs)[1..] == xs;
  }
}

=== FILE: dafny/client_users.dfy ===
/** The browser's copy of the user model and its permission helpers
    (`frontend/src/types/user.ts`). The client recomputes permissions from
    role and level on its own; this module shows that it computes the
    backend's table (`Roles`) and the backend's management rule (`Users`). */
module ClientUsers {
  import opened Wrappers
  import opened Roles
  import Users

  /** The profile as the client receives it. */
  datatype ClientProfile = ClientProfile(firstName: string, lastName: string, institutionId: Option<string>)

  /** The user as the client receives it: identifiers are hex strings and
      an empty admin level is absent (the field is omitted when empty). */
  datatype ClientUser = ClientUser(
    id: string,
    username: string,
    email: string,
    role: string,
    adminLevel: Option<string>,
    isActive: bool,
    profile: ClientProfile)

  /** The admin level as the backend stores it: absent is the empty level. */
  function BackendLevel(level: Option<string>): string {
    level.GetOr(LevelNone)
  }

  /** The client record `c` is the JSON form of the backend record `u` in
      the fields the helpers read. */
  predicate Corresponds(c: ClientUser, u: Users.User) {
    c.role == u.role
    && c.adminLevel == (if u.adminLevel == LevelNone then None else Some(u.adminLevel))
    && c.profile.firstName == u.profile.firstName && c.profile.lastName == u.profile.lastName
  }

  /** `getPermissionsForRole`: the same list, in the same order, as the
      backend's table for the corresponding level. */
  function PermissionsForRole(role: string, level: Option<string>): (ps: seq<Permission>)
    ensures ps == Roles.PermissionsForRole(role, BackendLevel(level))
    ensures forall p :: p in ps <==> Grants(role, BackendLevel(level), p)
  {
    if role != Admin then ClinicalPermissions
    else match level
      case Some(l) =>
        if l == LevelUserManager then ClinicalPermissions + [ManageUsers, AssignRoles]
        else if l == LevelSuperAdmin then
          ClinicalPermissions + [ManageUsers, AssignRoles, ViewAuditLogs, ManageSystem, DeleteUsers]
        else ClinicalPermissions
      case None => ClinicalPermissions
  }

  /** `hasPermission`. */
  function HasPermission(u: ClientUser, p: Permission): (b: bool)
    ensures b <==> p in PermissionsForRole(u.role, u.adminLevel)
  {
    Member(PermissionsForRole(u.role, u.adminLevel), p)
  }

  /** The client grants a permission exactly when the backend does. */
  lemma HasPermissionAgrees(c: ClientUser, u: Users.User, p: Permission)
    requires Corresponds(c, u)
    ensures HasPermission(c, p) <==> u.Has(p)
  {
    assert BackendLevel(c.adminLevel) == u.adminLevel;
  }

  /** `canManageUser`: a super admin manages everyone, a user manager
      everyone but admins, nobody else anyone. */
  function CanManageUser(current: ClientUser, target: ClientUser): (b: bool)
    ensures b <==>
      current.role == Admin
      && (current.adminLevel == Some(LevelSuperAdmin)
          || (current.adminLevel == Some(LevelUserManager) && target.role != Admin))
  {
    if !HasPermission(current, ManageUsers) then false
    else if current.adminLevel == Some(LevelSuperAdmin) then true
    else if current.adminLevel == Some(LevelUserManager) then target.role != Admin
    else false
  }

  /** The client's management rule is the backend's. */
  lemma CanManageUserAgrees(c: ClientUser, t: ClientUser, u: Users.User, v: Users.User)
    requires Corresponds(c, u) && Corresponds(t, v)
    ensures CanManageUser(c, t) <==> Users.CanManageUser(u, v)
  {
  }

  /** `getUserFullName`. */
  function FullName(u: ClientUser): (name: string)
    ensures |name| == |u.profile.firstName| + 1 + |u.profile.lastName|
    ensures name[|u.profile.firstName|] == ' '
  {
    u.profile.firstName + " " + u.profile.lastName
  }

  /** The client shows the name the backend computes. */
  lemma FullNameAgrees(c: ClientUser, u: Users.User)
    requires Corresponds(c, u)
    ensures FullName(c) == Users.FullName(u)
  {
  }

  /** `getUserRoleDisplayName`, defined on the four roles. */
  function RoleDisplayName(role: string): (name: string)
    requires IsValidRole(role)
    ensures name != ""
  {
    if role == Haematologist then "Haematologist"
    else if role == Physician then "Physician"
    else if role == DataCapturer then "Data Capturer"
    else "Administrator"
  }

  /** Distinct roles are shown under distinct names. */
  lemma RoleDisplayNameInjective(r1: string, r2: string)
    requires IsValidRole(r1) && IsValidRole(r2)
    ensures RoleDisplayName(r1) == RoleDisplayName(r2) <==> r1 == r2
  {
  }

  /** `getAdminLevelDisplayName`: empty for no level. */
  function AdminLevelDisplayName(level: Option<string>): (name: string)
    requires level.Some? ==> level.value in {LevelUserManager, LevelSuperAdmin}
    ensures name == "" <==> level.None?
  {
    match level
    case None => ""
    case Some(l) => if l == LevelUserManager then "User Manager" else "Super Admin"
  }
}

=== FILE: dafny/client_users_store.dfy ===
/** The client's user-management store (`frontend/src/stores/users.ts`): a
    cached page of users, its total, and the user being viewed, edited
    locally after each successful write. Every action ends with
    `isLoading` false; a failed reply records its message and changes
    nothing else. */
module ClientUsersStore {
  import opened Wrappers
  import opened GoStrings
  import opened Roles
  import opened ClientUsers
  import opened ClientLists
  import UserHandler

  datatype UsersState = UsersState(
    users: seq<ClientUser>,
    currentUser: Option<ClientUser>,
    total: int,
    isLoading: bool,
    error: Option<string>)

  const Initial: UsersState := UsersState([], None, 0, false, None)

  /** The key the cached list is searched by. */
  function UserId(u: ClientUser): string {
    u.id
  }

  /** The state after a failed reply: the message recorded, nothing else changed. */
  function Failed(st: UsersState, message: string): (r: (UsersState, Outcome<string>))
    ensures r.1 == Fail(message) && r.0.error == Some(message) && !r.0.isLoading
    ensures r.0.(isLoading := st.isLoading, error := st.error) == st
  {
    (st.(isLoading := false, error := Some(message)), Fail(message))
  }

  // ---------------------------------------------------------------------
  // fetchUsers

  /** The options of `fetchUsers`. */
  datatype UsersQuery = UsersQuery(role: Option<string>, isActive: Option<bool>, limit: Option<int>, skip: Option<int>)

  /** The options of `fetchUsers` in the order they are appended. */
  function UsersOptions(q: UsersQuery): seq<(string, Option<string>)> {
    [("role", q.role), ("is_active", FlagValue(q.isActive)), ("limit", NumberValue(q.limit)), ("skip", NumberValue(q.skip))]
  }

  /** The query string of `fetchUsers`: each option only when truthy, the
      flag whenever it is given. */
  function UsersParams(q: UsersQuery): (ps: Params)
    ensures Lookup(ps, "role") == (if q.role.Some? && q.role.value != "" then q.role else None)
    ensures Lookup(ps, "is_active") == FlagValue(q.isActive)
    ensures Lookup(ps, "limit") == NumberValue(q.limit)
    ensures Lookup(ps, "skip") == NumberValue(q.skip)
  {
    var es := UsersOptions(q);
    assert DistinctKeys(es);
    BuildParamsLookup(es, 0);
    BuildParamsLookup(es, 1);
    BuildParamsLookup(es, 2);
    BuildParamsLookup(es, 3);
    BuildParams(es)
  }

  /** The backend reads back what the client asked for: a valid role, the
      flag, a positive limit and a non-negative skip arrive as given, and an
      omitted limit or skip gets the backend's defaults. */
  lemma UsersParamsReadBack(q: UsersQuery)
    requires q.role.Some? ==> IsValidRole(q.role.value)
    requires q.limit.Some? ==> 0 < q.limit.value <= MaxInt64
    requires q.skip.Some? ==> 0 <= q.skip.value <= MaxInt64
    ensures var ps := UsersParams(q);
      var parsed := UserHandler.ParseListQuery(Lookup(ps, "role"), Lookup(ps, "is_active"), None,
                                               Lookup(ps, "limit"), Lookup(ps, "skip"));
      parsed.role == q.role && parsed.isActive == q.isActive
      && parsed.limit == q.limit.GetOr(20) && parsed.skip == q.skip.GetOr(0)
  {
    var ps := UsersParams(q);
    var parsed := UserHandler.ParseListQuery(Lookup(ps, "role"), Lookup(ps, "is_active"), None,
                                             Lookup(ps, "limit"), Lookup(ps, "skip"));
    FlagReadBack(q.isActive);
    NumberReadBack(q.limit);
    NumberReadBack(q.skip);
    assert parsed.role == q.role;
    assert parsed.isActive == q.isActive;
    assert parsed.limit == q.limit.GetOr(20);
    assert parsed.skip == q.skip.GetOr(0);
  }

  /** `fetchUsers`: the page and total replace the cached ones. */
  function FetchUsers(st: UsersState, reply: Reply<(seq<ClientUser>, int)>): (r: (UsersState, Outcome<string>))
    ensures reply.Ok? ==>
      r == (st.(users := reply.data.0, total := reply.data.1, isLoading := false, error := None), Pass)
    ensures !reply.Ok? ==> r == Failed(st, ErrorMessage(reply, "Failed to fetch users", Some((401, "Session expired"))))
  {
    match reply
    case Ok((users, total)) => (st.(users := users, total := total, isLoading := false, error := None), Pass)
    case _ => Failed(st, ErrorMessage(reply, "Failed to fetch users", Some((401, "Session expired"))))
  }

  /** `fetchUser`: the user becomes the one being viewed. */
  function FetchUser(st: UsersState, reply: Reply<ClientUser>): (r: (UsersState, Outcome<string>))
    ensures reply.Ok? ==> r == (st.(currentUser := Some(reply.data), isLoading := false, error := None), Pass)
    ensures !reply.Ok? ==> r == Failed(st, ErrorMessage(reply, "Failed to fetch user", Some((404, "User not found"))))
  {
    match reply
    case Ok(u) => (st.(currentUser := Some(u), isLoading := false, error := None), Pass)
    case _ => Failed(st, ErrorMessage(reply, "Failed to fetch user", Some((404, "User not found"))))
  }

  // ---------------------------------------------------------------------
  // Writes

  /** The message a failed creation shows for a body that is not JSON. */
  function CreateFailureMessage(reply: Reply<ClientUser>): (m: string)
    requires !reply.Ok?
    ensures reply.HttpError? && reply.body.NotJson? && reply.status == 403 ==> m == "Insufficient permissions to create users"
    ensures reply.HttpError? && reply.body.NotJson? && reply.status == 409 ==> m == "Email or username already exists"
    ensures reply.HttpError? && reply.body.NotJson? && reply.status != 403 && reply.status != 409 ==> m == "Failed to create user"
  {
    if reply.HttpError? && reply.body.NotJson? && reply.status == 403 then "Insufficient permissions to create users"
    else ErrorMessage(reply, "Failed to create user", Some((409, "Email or username already exists")))
  }

  /** `createUser`: the new user is put first, and counted, only when a
      page is cached. */
  function CreateUser(st: UsersState, reply: Reply<ClientUser>): (r: (UsersState, Outcome<string>))
    ensures reply.Ok? && |st.users| > 0 ==>
      r.1 == Pass && r.0.users == [reply.data] + st.users && r.0.total == st.total + 1
    ensures reply.Ok? && |st.users| == 0 ==> r.1 == Pass && r.0.users == [] && r.0.total == st.total
    ensures reply.Ok? ==> r.0.currentUser == st.currentUser && !r.0.isLoading && r.0.error == None
    ensures !reply.Ok? ==> r == Failed(st, CreateFailureMessage(reply))
  {
    match reply
    case Ok(u) =>
      if |st.users| > 0 then (st.(users := [u] + st.users, total := st.total + 1, isLoading := false, error := None), Pass)
      else (st.(isLoading := false, error := None), Pass)
    case _ => Failed(st, CreateFailureMessage(reply))
  }

  /** `updateUser`: the first cached entry with the identifier, and the
      viewed user if it is that one, become the server's copy. */
  function UpdateUser(st: UsersState, id: string, reply: Reply<ClientUser>): (r: (UsersState, Outcome<string>))
    ensures reply.Ok? ==>
      r.1 == Pass && r.0.total == st.total && !r.0.isLoading && r.0.error == None
      && r.0.users == UpdateFirst(st.users, UserId, id, _ => reply.data)
      && r.0.currentUser == (if st.currentUser.Some? && st.currentUser.value.id == id then Some(reply.data) else st.currentUser)
    ensures !reply.Ok? ==> r == Failed(st, ErrorMessage(reply, "Failed to update user", Some((403, "Insufficient permissions"))))
  {
    match reply
    case Ok(u) =>
      var current := if st.currentUser.Some? && st.currentUser.value.id == id then Some(u) else st.currentUser;
      (st.(users := UpdateFirst(st.users, UserId, id, _ => u), currentUser := current, isLoading := false, error := None), Pass)
    case _ => Failed(st, ErrorMessage(reply, "Failed to update user", Some((403, "Insufficient permissions"))))
  }

  /** `deleteUser`: every cached entry with the identifier goes, the total
      drops by one whether or not one was cached, and the viewed user is
      cleared if it is that one. */
  function DeleteUser(st: UsersState, id: string, reply: Reply<()>): (r: (UsersState, Outcome<string>))
    ensures reply.Ok? ==>
      r.1 == Pass && r.0.users == RemoveAll(st.users, UserId, id) && r.0.total == st.total - 1
      && (st.currentUser.Some? && st.currentUser.value.id == id ==> r.0.currentUser.None?)
      && (!(st.currentUser.Some? && st.currentUser.value.id == id) ==> r.0.currentUser == st.currentUser)
    ensures !reply.Ok? ==> r == Failed(st, ErrorMessage(reply, "Failed to delete user", Some((403, "Insufficient permissions"))))
  {
    match reply
    case Ok(_) =>
      var current := if st.currentUser.Some? && st.currentUser.value.id == id then None else st.currentUser;
      (st.(users := RemoveAll(st.users, UserId, id), total := st.total - 1, currentUser := current,
           isLoading := false, error := None), Pass)
    case _ => Failed(st, ErrorMessage(reply, "Failed to delete user", Some((403, "Insufficient permissions"))))
  }

  /** A user with the given activity. */
  function WithActive(u: ClientUser, active: bool): ClientUser {
    u.(isActive := active)
  }

  /** `deactivateUser` (`active` false) and `activateUser` (`active` true):
      the flag is set on the first cached entry with the identifier and on
      the viewed user if it is that one. */
  function SetActive(st: UsersState, id: string, active: bool, reply: Reply<()>): (r: (UsersState, Outcome<string>))
    ensures reply.Ok? ==>
      r.1 == Pass && r.0.total == st.total
      && r.0.users == UpdateFirst(st.users, UserId, id, u => WithActive(u, active))
      && (st.currentUser.Some? && st.currentUser.value.id == id ==> r.0.currentUser == Some(WithActive(st.currentUser.value, active)))
      && (!(st.currentUser.Some? && st.currentUser.value.id == id) ==> r.0.currentUser == st.currentUser)
    ensures !reply.Ok? ==>
      r == Failed(st, ErrorMessage(reply, if active then "Failed to activate user" else "Failed to deactivate user",
                                   Some((403, "Insufficient permissions"))))
  {
    match reply
    case Ok(_) =>
      var current := if st.currentUser.Some? && st.currentUser.value.id == id
                     then Some(WithActive(st.currentUser.value, active)) else st.currentUser;
      (st.(users := UpdateFirst(st.users, UserId, id, u => WithActive(u, active)), currentUser := current,
           isLoading := false, error := None), Pass)
    case _ =>
      Failed(st, ErrorMessage(reply, if active then "Failed to activate user" else "Failed to deactivate user",
                              Some((403, "Insufficient permissions"))))
  }

  // ---------------------------------------------------------------------
  // Properties across actions

  /** Whether no identifier is cached twice. */
  predicate DistinctIds(users: seq<ClientUser>) {
    forall i, j :: 0 <= i < j < |users| ==> users[i].id != users[j].id
  }

  /** Creating a user and deleting it again restores the cached page and
      its total. */
  lemma CreateThenDeleteRestores(st: UsersState, u: ClientUser)
    requires |st.users| > 0 && forall i :: 0 <= i < |st.users| ==> st.users[i].id != u.id
    ensures var (s1, _) := CreateUser(st, Ok(u));
      var (s2, _) := DeleteUser(s1, u.id, Ok(()));
      s2.users == st.users && s2.total == st.total
  {
    RemoveAddedEntry(st.users, u, UserId);
  }

  /** Deleting from a store that has cached nothing drives the total below
      zero, because the total is decremented unconditionally. */
  lemma DeleteWithoutPageGoesNegative(id: string)
    ensures DeleteUser(Initial, id, Ok(())).0.total == -1
  {
  }

  /** A successful update keeps the page's identifiers, so it keeps them
      distinct, and a cached user with that identifier is afterwards the
      server's copy. */
  lemma UpdateKeepsIds(st: UsersState, u: ClientUser)
    requires DistinctIds(st.users)
    ensures var (s1, _) := UpdateUser(st, u.id, Ok(u));
      DistinctIds(s1.users) && |s1.users| == |st.users|
      && ((exists i :: 0 <= i < |st.users| && st.users[i].id == u.id) ==> u in s1.users)
  {
    var s1 := UpdateUser(st, u.id, Ok(u)).0;
    match FindFirst(st.users, UserId, u.id)
    case None =>
    case Some(k) =>
      assert s1.users[k] == u;
      forall i, j | 0 <= i < j < |s1.users|
        ensures s1.users[i].id != s1.users[j].id
      {
        assert s1.users[i].id == st.users[i].id && s1.users[j].id == st.users[j].id;
      }
  }

  /** Deactivating and then activating a cached active user gives the page
      back as it was. */
  lemma DeactivateThenActivateRestores(st: UsersState, id: string)
    requires FindFirst(st.users, UserId, id).Some? && st.users[FindFirst(st.users, UserId, id).value].isActive
    ensures var (s1, _) := SetActive(st, id, false, Ok(()));
      var (s2, _) := SetActive(s1, id, true, Ok(()));
      s2.users == st.users
  {
    var k := FindFirst(st.users, UserId, id).value;
    var s1 := SetActive(st, id, false, Ok(())).0;
    assert s1.users == st.users[k := WithActive(st.users[k], false)];
    assert FindFirst(s1.users, UserId, id) == Some(k) by {
      assert UserId(s1.users[k]) == id;
      assert forall j :: 0 <= j < k ==> s1.users[j] == st.users[j];
    }
    var s2 := SetActive(s1, id, true, Ok(())).0;
    assert s2.users == s1.users[k := WithActive(s1.users[k], true)];
    assert WithActive(WithActive(st.users[k], false), true) == st.users[k];
  }

  /** `clearError` and `clearCurrentUser`. */
  function ClearError(st: UsersState): (r: UsersState)
    ensures r.error.None? && r.(error := st.error) == st
  {
    st.(error := None)
  }

  function ClearCurrentUser(st: UsersState): (r: UsersState)
    ensures r.currentUser.None? && r.(currentUser := st.currentUser) == st
  {
    st.(currentUser := None)
  }
}

=== FILE: dafny/dropbox_config.dfy ===
/** The Dropbox connection singleton: token expiry, reconnection and the
    public status view (`models/dropbox_config.go`). */
module DropboxConfig {
  import opened Wrappers
  import opened Base

  /** A zero `time.Time` is `None`. */
  datatype Config = Config(
    id: ObjectId,
    appKey: string,
    appSecret: string,
    refreshToken: string,
    accessToken: string,
    tokenExpiry: Option<Time>,
    parentFolder: string,
    isConnected: bool,
    lastRefreshSuccess: Option<Time>,
    lastRefreshAttempt: Option<Time>,
    consecutiveFailures: int,
    lastError: string,
    createdAt: Time,
    updatedAt: Time,
    createdBy: Option<ObjectId>)

  /** The margin before expiry at which a token is already treated as expired. */
  const ExpiryMargin: int := 5 * Minute

  /** `DropboxConfig.IsTokenExpired`: no expiry recorded, or fewer than five
      minutes left. */
  function IsTokenExpired(c: Config, now: Time): (b: bool)
    ensures c.tokenExpiry.None? ==> b
    ensures c.tokenExpiry.Some? ==> (b <==> c.tokenExpiry.value - now < 5 * 60 * 1_000_000_000)
  {
    match c.tokenExpiry
    case None => true
    case Some(expiry) => now + ExpiryMargin > expiry
  }

  /** Expiry is monotone in time. */
  lemma TokenExpiryMonotone(c: Config, now: Time, later: Time)
    requires now <= later
    ensures IsTokenExpired(c, now) ==> IsTokenExpired(c, later)
  {
  }

  /** `DropboxConfig.NeedsReconnection`. */
  function NeedsReconnection(c: Config): (b: bool)
    ensures b <==> c.consecutiveFailures >= 3 || c.refreshToken == ""
  {
    c.consecutiveFailures >= 3 || c.refreshToken == ""
  }

  /** The map `GetPublicStatus` returns, one field per key. */
  datatype PublicStatus = PublicStatus(
    isConnected: bool,
    tokenExpiry: Option<Time>,
    lastRefreshSuccess: Option<Time>,
    lastRefreshAttempt: Option<Time>,
    consecutiveFailures: int,
    lastError: string,
    needsReconnection: bool,
    parentFolder: string)

  /** `DropboxConfig.GetPublicStatus`. */
  function GetPublicStatus(c: Config): (st: PublicStatus)
    ensures st.needsReconnection == NeedsReconnection(c)
    ensures st.isConnected == c.isConnected && st.consecutiveFailures == c.consecutiveFailures
  {
    PublicStatus(c.isConnected, c.tokenExpiry, c.lastRefreshSuccess, c.lastRefreshAttempt,
                 c.consecutiveFailures, c.lastError, NeedsReconnection(c), c.parentFolder)
  }

  /** The status discloses nothing of the secret and the tokens beyond whether
      a refresh token is held: configurations that differ only there give
      the same status. */
  lemma PublicStatusHidesSecrets(c: Config, secret: string, refresh: string, access: string)
    requires (refresh == "") == (c.refreshToken == "")
    ensures GetPublicStatus(c.(appSecret := secret, refreshToken := refresh, accessToken := access))
         == GetPublicStatus(c)
  {
  }
}

=== FILE: dafny/dropbox_config_store.dfy ===
/** The `dropbox_config` collection (`repository/dropbox_config_repository.go`):
    a singleton holding the Dropbox connection, created once, whose tokens
    and health counters are updated in place. Every update of a missing
    configuration is `ErrDropboxConfigNotFound`. */
module DropboxConfigStore {
  import opened Wrappers
  import opened Base
  import opened DropboxConfig

  /** The collection: no document, or the one configuration. */
  type Store = Option<Config>

  datatype StoreError = ConfigNotFound | AlreadyExists

  /** The fields that only the token updates write. */
  predicate SameTokens(a: Config, b: Config) {
    a.accessToken == b.accessToken && a.refreshToken == b.refreshToken && a.tokenExpiry == b.tokenExpiry
  }

  /** The fields that only the health updates write. */
  predicate SameHealth(a: Config, b: Config) {
    a.isConnected == b.isConnected && a.lastRefreshSuccess == b.lastRefreshSuccess
    && a.lastRefreshAttempt == b.lastRefreshAttempt && a.consecutiveFailures == b.consecutiveFailures
    && a.lastError == b.lastError
  }

  /** The fields no update writes. */
  predicate SameSetup(a: Config, b: Config) {
    a.id == b.id && a.appKey == b.appKey && a.appSecret == b.appSecret
    && a.parentFolder == b.parentFolder && a.createdAt == b.createdAt && a.createdBy == b.createdBy
  }

  /** `GetConfig`. */
  function GetConfig(s: Store): (r: Result<Config, StoreError>)
    ensures r.Success? <==> s.Some?
    ensures r.Success? ==> r.value == s.value
    ensures r.Failure? ==> r.error == ConfigNotFound
  {
    match s
    case Some(c) => Success(c)
    case None => Failure(ConfigNotFound)
  }

  /** `CreateConfig`: refused while a configuration exists; otherwise the
      given one is stored with its three timestamps set to now and the
      identifier the insert assigns. */
  function CreateConfig(s: Store, c: Config, newId: ObjectId, now: Time): (r: Result<(Store, Config), StoreError>)
    ensures r.Failure? <==> s.Some?
    ensures r.Failure? ==> r.error == AlreadyExists
    ensures r.Success? ==>
      r.value.0 == Some(r.value.1) && r.value.1.id == newId
      && r.value.1.createdAt == now && r.value.1.updatedAt == now && r.value.1.lastRefreshAttempt == Some(now)
      && SameTokens(r.value.1, c) && r.value.1.appKey == c.appKey && r.value.1.appSecret == c.appSecret
      && r.value.1.parentFolder == c.parentFolder
  {
    if s.Some? then Failure(AlreadyExists)
    else
      var stored := c.(id := newId, createdAt := now, updatedAt := now, lastRefreshAttempt := Some(now));
      Success((Some(stored), stored))
  }

  /** A created configuration is what `GetConfig` then reads, and a second
      creation is refused. */
  lemma CreateThenGet(s: Store, c: Config, newId: ObjectId, now: Time, c2: Config, id2: ObjectId, later: Time)
    requires CreateConfig(s, c, newId, now).Success?
    ensures var t := CreateConfig(s, c, newId, now).value;
      GetConfig(t.0) == Success(t.1) && CreateConfig(t.0, c2, id2, later) == Failure(AlreadyExists)
  {
  }

  /** `UpdateTokens`: the access token, an expiry `expiresIn` seconds from
      now and the update time are written; the refresh token only when a
      non-empty one is given, since Dropbox returns it only on the first
      authorisation. */
  function UpdateTokens(s: Store, accessToken: string, refreshToken: string, expiresIn: int, now: Time)
    : (r: Result<Config, StoreError>)
    ensures r.Failure? <==> s.None?
    ensures r.Failure? ==> r.error == ConfigNotFound
    ensures r.Success? ==>
      r.value.accessToken == accessToken && r.value.tokenExpiry == Some(now + expiresIn * Second)
      && r.value.updatedAt == now
      && (refreshToken != "" ==> r.value.refreshToken == refreshToken)
      && (refreshToken == "" ==> r.value.refreshToken == s.value.refreshToken)
      && SameHealth(r.value, s.value) && SameSetup(r.value, s.value)
  {
    match s
    case None => Failure(ConfigNotFound)
    case Some(c) =>
      var c1 := c.(accessToken := accessToken, tokenExpiry := Some(now + expiresIn * Second), updatedAt := now);
      Success(if refreshToken != "" then c1.(refreshToken := refreshToken) else c1)
  }

  /** A token stored with more than five minutes of life is not expired
      at the instant it was stored, and stays unexpired until five
      minutes before its end. */
  lemma FreshTokenNotExpired(s: Store, accessToken: string, refreshToken: string, expiresIn: int, now: Time, at: Time)
    requires UpdateTokens(s, accessToken, refreshToken, expiresIn, now).Success?
    requires now <= at && at + ExpiryMargin <= now + expiresIn * Second
    ensures !IsTokenExpired(UpdateTokens(s, accessToken, refreshToken, expiresIn, now).value, at)
  {
  }

  /** An empty refresh token never disconnects a configuration that held
      one: reconnection stays decided by the failure count alone. */
  lemma EmptyRefreshKeepsConnection(s: Store, accessToken: string, expiresIn: int, now: Time)
    requires s.Some? && s.value.refreshToken != ""
    ensures var r := UpdateTokens(s, accessToken, "", expiresIn, now);
      r.Success? && (NeedsReconnection(r.value) <==> s.value.consecutiveFailures >= 3)
  {
  }

  /** `UpdateConfig`: replaces the document with the same identifier. */
  function UpdateConfig(s: Store, c: Config, now: Time): (r: Result<Config, StoreError>)
    ensures r.Success? <==> s.Some? && s.value.id == c.id
    ensures r.Failure? ==> r.error == ConfigNotFound
    ensures r.Success? ==> r.value.updatedAt == now && r.value.(updatedAt := c.updatedAt) == c
  {
    if s.Some? && s.value.id == c.id then Success(c.(updatedAt := now)) else Failure(ConfigNotFound)
  }

  /** `UpdateHealth`: the connection flag, the attempt time and the last
      error are written; the success time only when connected. */
  function UpdateHealth(s: Store, isConnected: bool, lastError: string, now: Time): (r: Result<Config, StoreError>)
    ensures r.Failure? <==> s.None?
    ensures r.Failure? ==> r.error == ConfigNotFound
    ensures r.Success? ==>
      r.value.isConnected == isConnected && r.value.lastError == lastError
      && r.value.lastRefreshAttempt == Some(now) && r.value.updatedAt == now
      && (isConnected ==> r.value.lastRefreshSuccess == Some(now))
      && (!isConnected ==> r.value.lastRefreshSuccess == s.value.lastRefreshSuccess)
      && r.value.consecutiveFailures == s.value.consecutiveFailures
      && SameTokens(r.value, s.value) && SameSetup(r.value, s.value)
  {
    match s
    case None => Failure(ConfigNotFound)
    case Some(c) =>
      var c1 := c.(isConnected := isConnected, lastRefreshAttempt := Some(now), lastError := lastError, updatedAt := now);
      Success(if isConnected then c1.(lastRefreshSuccess := Some(now)) else c1)
  }

  /** `IncrementFailures`: one more consecutive failure, and disconnected. */
  function IncrementFailures(s: Store, now: Time): (r: Result<Config, StoreError>)
    ensures r.Failure? <==> s.None?
    ensures r.Failure? ==> r.error == ConfigNotFound
    ensures r.Success? ==>
      r.value.consecutiveFailures == s.value.consecutiveFailures + 1 && !r.value.isConnected
      && r.value.updatedAt == now && r.value.lastRefreshSuccess == s.value.lastRefreshSuccess
      && SameTokens(r.value, s.value) && SameSetup(r.value, s.value)
  {
    match s
    case None => Failure(ConfigNotFound)
    case Some(c) =>
      Success(c.(consecutiveFailures := c.consecutiveFailures + 1, isConnected := false, updatedAt := now))
  }

  /** `ResetFailures`: no failure, connected, and a success recorded now. */
  function ResetFailures(s: Store, now: Time): (r: Result<Config, StoreError>)
    ensures r.Failure? <==> s.None?
    ensures r.Failure? ==> r.error == ConfigNotFound
    ensures r.Success? ==>
      r.value.consecutiveFailures == 0 && r.value.isConnected
      && r.value.lastRefreshSuccess == Some(now) && r.value.updatedAt == now
      && SameTokens(r.value, s.value) && SameSetup(r.value, s.value)
  {
    match s
    case None => Failure(ConfigNotFound)
    case Some(c) =>
      Success(c.(consecutiveFailures := 0, isConnected := true, lastRefreshSuccess := Some(now), updatedAt := now))
  }

  /** `k` failed refreshes in a row, each one stored. */
  function FailTimes(c: Config, k: nat, now: Time): (r: Config)
    decreases k
  {
    if k == 0 then c else IncrementFailures(Some(FailTimes(c, k - 1, now)), now).value
  }

  /** `k` failures in a row add `k` to the counter and leave the tokens and
      the setup alone. */
  lemma {:induction false} FailTimesCounts(c: Config, k: nat, now: Time)
    ensures FailTimes(c, k, now).consecutiveFailures == c.consecutiveFailures + k
    ensures SameTokens(FailTimes(c, k, now), c) && SameSetup(FailTimes(c, k, now), c)
    ensures k > 0 ==> !FailTimes(c, k, now).isConnected
    decreases k
  {
    if k > 0 {
      FailTimesCounts(c, k - 1, now);
    }
  }

  /** From a reset, three failed refreshes in a row make the connection
      need a manual reconnection, and two do not while a refresh token is
      held. */
  lemma ThreeFailuresNeedReconnection(c: Config, now: Time)
    requires c.refreshToken != ""
    ensures var z := ResetFailures(Some(c), now).value;
      !NeedsReconnection(FailTimes(z, 2, now)) && NeedsReconnection(FailTimes(z, 3, now))
  {
    var z := ResetFailures(Some(c), now).value;
    FailTimesCounts(z, 2, now);
    FailTimesCounts(z, 3, now);
  }

  /** A reset undoes any run of failures, except for the times it records. */
  lemma ResetUndoesFailures(c: Config, k: nat, now: Time, later: Time)
    ensures var a := ResetFailures(Some(FailTimes(c, k, now)), later).value;
      var b := ResetFailures(Some(c), later).value;
      a.consecutiveFailures == b.consecutiveFailures && a.isConnected == b.isConnected
      && SameTokens(a, b) && SameSetup(a, b)
  {
    FailTimesCounts(c, k, now);
  }

  /** `DeleteConfig`. */
  function DeleteConfig(s: Store): (r: Result<Store, StoreError>)
    ensures r.Success? <==> s.Some?
    ensures r.Success? ==> r.value.None?
    ensures r.Failure? ==> r.error == ConfigNotFound
  {
    if s.Some? then Success(None) else Failure(ConfigNotFound)
  }

  /** After a delete, the configuration may be created again. */
  lemma DeleteAllowsCreate(s: Store, c: Config, newId: ObjectId, now: Time)
    requires s.Some?
    ensures CreateConfig(DeleteConfig(s).value, c, newId, now).Success?
  {
  }
}

=== FILE: dafny/dropbox_paths.dfy ===
/** Dropbox paths: `getFullPath` of the Dropbox service, with the pieces of
    Go's `url.PathUnescape` and `filepath.Join`/`Clean` it relies on
    (`service/dropbox_service.go`). Paths use '/' as separator, as on Unix. */
module DropboxPaths {
  import opened Wrappers
  import opened GoStrings

  // ---------------------------------------------------------------------
  // Segments

  /** `strings.Split(s, "/")`: never empty; the empty string gives `[""]`. */
  function SplitSlash(s: string): (segs: seq<string>)
    ensures |segs| >= 1
    ensures forall i :: 0 <= i < |segs| ==> '/' !in segs[i]
    decreases |s|
  {
    match IndexOf(s, '/')
    case None => [s]
    case Some(i) => [s[..i]] + SplitSlash(s[i + 1..])
  }

  /** `strings.Join(segs, "/")`. */
  function JoinSlash(segs: seq<string>): string {
    if |segs| == 0 then ""
    else if |segs| == 1 then segs[0]
    else segs[0] + "/" + JoinSlash(segs[1..])
  }

  /** Splitting a join of slash-free segments gives the segments back. */
  lemma {:induction false} SplitJoin(segs: seq<string>)
    requires |segs| >= 1
    requires forall i :: 0 <= i < |segs| ==> '/' !in segs[i]
    ensures SplitSlash(JoinSlash(segs)) == segs
  {
    if |segs| == 1 {
      assert IndexOf(segs[0], '/').None?;
    } else {
      var s := JoinSlash(segs);
      var rest := JoinSlash(segs[1..]);
      assert s == segs[0] + "/" + rest;
      var i := |segs[0]|;
      assert s[i] == '/' && s[..i] == segs[0];
      assert '/' !in s[..i];
      assert IndexOf(s, '/') == Some(i);
      assert s[i + 1..] == rest;
      SplitJoin(segs[1..]);
    }
  }

  /** A path element that `Clean` leaves alone. */
  predicate IsPlainName(s: string) {
    s != "" && s != "." && s != ".." && '/' !in s
  }

  /** The element-by-element pass of `filepath.Clean`: empty and "."
      elements vanish, ".." removes the element before it, and a ".." that
      would climb above the root of a rooted path is dropped. */
  function Resolve(segs: seq<string>, stack: seq<string>, rooted: bool): seq<string> {
    if |segs| == 0 then stack
    else
      var s := segs[0];
      if s == "" || s == "." then Resolve(segs[1..], stack, rooted)
      else if s == ".." then
        if |stack| > 0 && stack[|stack| - 1] != ".." then Resolve(segs[1..], stack[..|stack| - 1], rooted)
        else if rooted then Resolve(segs[1..], stack, rooted)
        else Resolve(segs[1..], stack + [".."], rooted)
      else Resolve(segs[1..], stack + [s], rooted)
  }

  /** Plain elements are kept as they are, in order. */
  lemma {:induction false} ResolvePlain(segs: seq<string>, stack: seq<string>, rooted: bool)
    requires forall i :: 0 <= i < |segs| ==> IsPlainName(segs[i])
    ensures Resolve(segs, stack, rooted) == stack + segs
  {
    if |segs| > 0 {
      ResolvePlain(segs[1..], stack + [segs[0]], rooted);
      assert stack + [segs[0]] + segs[1..] == stack + segs;
    }
  }

  /** `filepath.Clean`: the shortest lexically equivalent path, "." for
      nothing, and "/" alone for the root. */
  function Clean(path: string): (r: string)
    ensures r != ""
    ensures |path| > 0 && path[0] == '/' ==> r[0] == '/'
  {
    if path == "" then "."
    else
      var rooted := path[0] == '/';
      var out := JoinSlash(Resolve(SplitSlash(path), [], rooted));
      if rooted then "/" + out
      else if out == "" then "."
      else out
  }

  /** A rooted path of plain elements splits into an empty first element and the elements. */
  lemma SplitRootedPlain(segs: seq<string>)
    requires |segs| >= 1
    requires forall i :: 0 <= i < |segs| ==> IsPlainName(segs[i])
    ensures SplitSlash("/" + JoinSlash(segs)) == [""] + segs
  {
    var all := [""] + segs;
    assert all[0] == "" && all[1..] == segs;
    assert "" + "/" + JoinSlash(segs) == "/" + JoinSlash(segs);
    assert JoinSlash(all) == "/" + JoinSlash(segs);
    forall i | 0 <= i < |all| ensures '/' !in all[i] {
      if i > 0 {
        assert all[i] == segs[i - 1];
      }
    }
    SplitJoin(all);
  }

  /** A rooted path of plain elements is already clean. */
  lemma CleanOfPlainPath(segs: seq<string>)
    requires |segs| >= 1
    requires forall i :: 0 <= i < |segs| ==> IsPlainName(segs[i])
    ensures Clean("/" + JoinSlash(segs)) == "/" + JoinSlash(segs)
  {
    var path := "/" + JoinSlash(segs);
    SplitRootedPlain(segs);
    assert Resolve([""] + segs, [], true) == Resolve(segs, [], true) by {
      assert ([""] + segs)[1..] == segs;
    }
    ResolvePlain(segs, [], true);
    assert [] + segs == segs;
  }

  /** `filepath.Join` of two elements: empty elements are skipped and the
      joined path is cleaned. */
  function Join(a: string, b: string): (r: string)
    ensures a != "" || b != "" ==> r != ""
  {
    if a == "" && b == "" then ""
    else if a == "" then Clean(b)
    else Clean(a + "/" + b)
  }

  // ---------------------------------------------------------------------
  // Percent-decoding

  predicate IsHexDigit(c: char) {
    IsDigit(c) || 'a' <= c <= 'f' || 'A' <= c <= 'F'
  }

  function HexValue(c: char): (v: nat)
    requires IsHexDigit(c)
    ensures v < 16
  {
    if IsDigit(c) then c as int - '0' as int
    else if 'a' <= c <= 'f' then c as int - 'a' as int + 10
    else c as int - 'A' as int + 10
  }

  /** `url.PathUnescape`: each "%XX" becomes the byte 0xXX (a character
      below 256 here); a '%' without two hex digits after it is an error. */
  function PathUnescape(s: string): (r: Option<string>)
    ensures r.Some? ==> |r.value| <= |s| && (|s| > 0 ==> |r.value| > 0)
    ensures '%' !in s ==> r == Some(s)
  {
    if |s| == 0 then Some("")
    else if s[0] == '%' then
      if |s| < 3 || !IsHexDigit(s[1]) || !IsHexDigit(s[2]) then None
      else
        var c := (HexValue(s[1]) * 16 + HexValue(s[2])) as char;
        match PathUnescape(s[3..])
        case None => None
        case Some(rest) => Some([c] + rest)
    else
      assert s == [s[0]] + s[1..];
      match PathUnescape(s[1..])
      case None => None
      case Some(rest) => Some([s[0]] + rest)
  }

  /** A space written as "%20" is decoded. */
  lemma UnescapeSpace()
    ensures PathUnescape("a%20b") == Some("a b")
  {
    assert "a%20b"[1..] == "%20b";
    assert "%20b"[3..] == "b";
    assert PathUnescape("b") == Some("b");
    var c := (HexValue('2') * 16 + HexValue('0')) as char;
    assert c == ' ';
    var t := "%20b";
    assert t[0] == '%' && |t| >= 3 && IsHexDigit(t[1]) && IsHexDigit(t[2]);
    assert PathUnescape(t) == Some([c] + "b");
    assert [c] + "b" == " b";
    assert ['a'] + " b" == "a b";
  }

  // ---------------------------------------------------------------------
  // getFullPath

  /** The relative part after one leading and one trailing '/' are removed. */
  function TrimmedRelative(rel: string): string {
    TrimSuffix(TrimPrefix(rel, "/"), "/")
  }

  /** `getFullPath`: the relative path, trimmed and percent-decoded when that
      succeeds, under the parent folder ("/" if none); a path made
      absolute. */
  function FullPath(rel: string, parent: string): (r: string)
    ensures TrimmedRelative(rel) == "" ==> r == (if parent == "" then "/" else parent)
    ensures TrimmedRelative(rel) != "" ==> HasPrefix(r, "/")
  {
    var trimmed := TrimmedRelative(rel);
    var decoded := match PathUnescape(trimmed) case Some(d) => d case None => trimmed;
    var root := if parent == "" then "/" else parent;
    if decoded == "" then root
    else
      var joined := Join(root, decoded);
      if HasPrefix(joined, "/") then joined else "/" + joined
  }

  /** Trimming leaves a plain name alone and strips one slash from each end. */
  lemma TrimmedPlainName(name: string)
    requires IsPlainName(name)
    ensures TrimmedRelative(name) == name
    ensures TrimmedRelative("/" + name + "/") == name
  {
    assert name[0] != '/' && name[|name| - 1] != '/';
    var wrapped := "/" + name + "/";
    assert HasPrefix(wrapped, "/");
    assert wrapped[1..] == name + "/";
    assert HasSuffix(name + "/", "/");
    assert (name + "/")[..|name|] == name;
  }

  /** A rooted path of plain elements, however it is spelled, is clean. */
  lemma CleanFixed(p: string, segs: seq<string>)
    requires |segs| >= 1
    requires forall i :: 0 <= i < |segs| ==> IsPlainName(segs[i])
    requires p == "/" + JoinSlash(segs)
    ensures Clean(p) == p
  {
    CleanOfPlainPath(segs);
  }

  /** Joining a plain name under a rooted parent of plain elements appends it. */
  lemma JoinPlainName(parent: string, segs: seq<string>, name: string)
    requires |segs| >= 1
    requires forall i :: 0 <= i < |segs| ==> IsPlainName(segs[i])
    requires IsPlainName(name)
    requires parent == "/" + JoinSlash(segs)
    ensures Join(parent, name) == parent + "/" + name
  {
    SnocPlainPath(parent, segs, name);
    CleanFixed(parent + "/" + name, segs + [name]);
  }

  /** A rooted path of plain elements, one more plain element appended. */
  lemma SnocPlainPath(parent: string, segs: seq<string>, name: string)
    requires |segs| >= 1
    requires forall i :: 0 <= i < |segs| ==> IsPlainName(segs[i])
    requires IsPlainName(name)
    requires parent == "/" + JoinSlash(segs)
    ensures forall i :: 0 <= i < |segs + [name]| ==> IsPlainName((segs + [name])[i])
    ensures parent + "/" + name == "/" + JoinSlash(segs + [name])
  {
    JoinSlashSnoc(segs, name);
    assert parent + "/" + name == "/" + (JoinSlash(segs) + "/" + name);
  }

  /** Under a rooted parent of plain elements, a plain name without '%',
      with or without surrounding slashes, is simply appended. */
  lemma FullPathOfPlainName(segs: seq<string>, name: string)
    requires |segs| >= 1
    requires forall i :: 0 <= i < |segs| ==> IsPlainName(segs[i])
    requires IsPlainName(name) && '%' !in name
    ensures FullPath(name, "/" + JoinSlash(segs)) == "/" + JoinSlash(segs) + "/" + name
    ensures FullPath("/" + name + "/", "/" + JoinSlash(segs)) == "/" + JoinSlash(segs) + "/" + name
  {
    TrimmedPlainName(name);
    JoinPlainName("/" + JoinSlash(segs), segs, name);
    var parent := "/" + JoinSlash(segs);
    assert PathUnescape(name) == Some(name);
    assert HasPrefix(parent + "/" + name, "/");
  }

  lemma {:induction false} JoinSlashSnoc(segs: seq<string>, name: string)
    requires |segs| >= 1
    ensures JoinSlash(segs + [name]) == JoinSlash(segs) + "/" + name
  {
    if |segs| == 1 {
      assert segs + [name] == [segs[0], name];
      assert [segs[0], name][1..] == [name];
    } else {
      assert (segs + [name])[1..] == segs[1..] + [name];
      JoinSlashSnoc(segs[1..], name);
    }
  }
}

=== FILE: dafny/dropbox_retry.dfy ===
/** The Dropbox service's token check, authentication-error detection and
    single retry after a refresh (`service/dropbox_service.go`). Network
    calls are not modelled: each call's outcome is an input, `None` meaning
    success and `Some(msg)` an error with that message. */
module DropboxRetry {
  import opened Wrappers
  import opened Base
  import opened GoStrings
  import DropboxConfig

  /** The message of `ErrDropboxNotConfigured`. */
  const NotConfiguredMessage: string := "dropbox is not properly configured"

  /** `ensureValidToken`: an unconfigured service fails at once; an expired
      token is refreshed and the refresh's outcome returned; otherwise
      nothing happens. */
  function EnsureValidToken(configured: bool, cfg: DropboxConfig.Config, now: Time, refresh: Option<string>)
    : (err: Option<string>)
    ensures !configured ==> err == Some(NotConfiguredMessage)
    ensures configured && !DropboxConfig.IsTokenExpired(cfg, now) ==> err.None?
    ensures configured && DropboxConfig.IsTokenExpired(cfg, now) ==> err == refresh
  {
    if !configured then Some(NotConfiguredMessage)
    else if DropboxConfig.IsTokenExpired(cfg, now) then refresh
    else None
  }

  /** The fragments whose presence in a lower-cased error message marks an
      authentication failure. */
  const AuthMarkers: seq<string> := ["invalid_access_token", "expired_access_token", "invalid grant", "401"]

  /** `isAuthError`: no error is not one; otherwise the lower-cased message
      must contain one of the markers. */
  function IsAuthError(err: Option<string>): (b: bool)
    ensures err.None? ==> !b
    ensures err.Some? ==>
      (b <==> exists k :: 0 <= k < |AuthMarkers| && Contains(ToLower(err.value), AuthMarkers[k]))
  {
    match err
    case None => false
    case Some(msg) =>
      var m := ToLower(msg);
      assert AuthMarkers[0] == "invalid_access_token" && AuthMarkers[1] == "expired_access_token";
      assert AuthMarkers[2] == "invalid grant" && AuthMarkers[3] == "401";
      Contains(m, "invalid_access_token") || Contains(m, "expired_access_token")
      || Contains(m, "invalid grant") || Contains(m, "401")
  }

  /** The detection ignores letter case. */
  lemma AuthErrorIgnoresCase(msg: string)
    ensures IsAuthError(Some(ToLower(msg))) == IsAuthError(Some(msg))
  {
    ToLowerIdempotent(msg);
  }

  /** A message mentioning status 401 anywhere is an authentication error. */
  lemma StatusCodeIsAuthError(before: string, after: string)
    ensures IsAuthError(Some(before + "401" + after))
  {
    ToLowerAppend(before, "401");
    ToLowerAppend(before + "401", after);
    assert ToLower("401") == "401";
    var m := ToLower(before + "401" + after);
    assert m == ToLower(before) + "401" + ToLower(after);
    assert m[|before|..|before| + 3] == "401";
    assert OccursAt(m, AuthMarkers[3], |before|);
  }

  /** What one call of `withClientRetry` did: its error and how many times
      the operation ran. */
  datatype RetryRun = RetryRun(err: Option<string>, runs: nat)

  /** `withClientRetry`: after a successful token check the operation runs;
      an authentication error triggers one refresh, and after a successful
      refresh one more run whose outcome is returned; a failed refresh
      returns the operation's first error. */
  function WithClientRetry(tokenCheck: Option<string>, first: Option<string>, refresh: Option<string>,
                           second: Option<string>): (r: RetryRun)
    ensures r.runs <= 2
    ensures tokenCheck.Some? ==> r == RetryRun(tokenCheck, 0)
    ensures r.runs == 2 <==> tokenCheck.None? && IsAuthError(first) && refresh.None?
    ensures r.runs == 2 ==> r.err == second
    ensures r.runs == 1 ==> r.err == first
    ensures tokenCheck.None? ==> r.runs >= 1
  {
    if tokenCheck.Some? then RetryRun(tokenCheck, 0)
    else if first.None? then RetryRun(None, 1)
    else if IsAuthError(first) then
      if refresh.Some? then RetryRun(first, 1)
      else RetryRun(second, 2)
    else RetryRun(first, 1)
  }

  /** The call succeeds iff the token check passes and either the first run
      succeeds, or it fails on authentication, the refresh succeeds and the
      second run succeeds. */
  lemma RetrySucceedsIff(tokenCheck: Option<string>, first: Option<string>, refresh: Option<string>,
                         second: Option<string>)
    ensures WithClientRetry(tokenCheck, first, refresh, second).err.None? <==>
      tokenCheck.None? && (first.None? || (IsAuthError(first) && refresh.None? && second.None?))
  {
  }

  /** The refresh's own error never surfaces: the error returned is the
      token check's or one of the operation's. */
  lemma RefreshErrorHidden(tokenCheck: Option<string>, first: Option<string>, refresh: Option<string>,
                           second: Option<string>)
    ensures var r := WithClientRetry(tokenCheck, first, refresh, second);
      r.err == tokenCheck || r.err == first || r.err == second
  {
  }

  /** Errors that are not about authentication are returned after one run,
      whatever a refresh would have done. */
  lemma NonAuthErrorNotRetried(first: Option<string>, refresh: Option<string>, second: Option<string>)
    requires first.Some? && !IsAuthError(first)
    ensures WithClientRetry(None, first, refresh, second) == RetryRun(first, 1)
  {
  }
}

=== FILE: dafny/dropbox_tree.dfy ===
/** Dropbox listings as trees: converting SDK metadata to file entries and
    pruning folders that hold no file (`service/dropbox_service.go`). */
module DropboxTree {
  import opened Wrappers
  import opened Base

  /** `DropboxFileInfo`; a zero modification time is `None`. */
  datatype FileInfo = FileInfo(
    name: string,
    path: string,
    size: nat,
    modified: Option<Time>,
    isFolder: bool,
    children: seq<FileInfo>)

  /** The SDK's metadata variants; `Deleted` stands for every other kind. */
  datatype Metadata =
    | FileMeta(name: string, pathDisplay: string, size: nat, serverModified: Time)
    | FolderMeta(name: string, pathDisplay: string)
    | Deleted(name: string)

  /** `entryToFileInfo`: files keep size and time, folders start with no
      children, anything else converts to nothing. */
  function EntryToFileInfo(m: Metadata): (r: Option<FileInfo>)
    ensures r.Some? <==> !m.Deleted?
    ensures r.Some? ==> r.value.name == m.name && r.value.path == m.pathDisplay && r.value.children == []
    ensures r.Some? ==> (r.value.isFolder <==> m.FolderMeta?)
    ensures m.FileMeta? ==> r.value.size == m.size && r.value.modified == Some(m.serverModified)
    ensures m.FolderMeta? ==> r.value.size == 0 && r.value.modified.None?
  {
    match m
    case FileMeta(name, path, size, time) => Some(FileInfo(name, path, size, Some(time), false, []))
    case FolderMeta(name, path) => Some(FileInfo(name, path, 0, None, true, []))
    case Deleted(_) => None
  }

  /** One page of a listing: the converted entries, in order, with the
      unconvertible ones skipped. */
  function ConvertEntries(ms: seq<Metadata>): (r: seq<FileInfo>)
    ensures |r| <= |ms|
    ensures forall i :: 0 <= i < |r| ==> r[i].children == []
  {
    if |ms| == 0 then []
    else
      match EntryToFileInfo(ms[0])
      case Some(f) => [f] + ConvertEntries(ms[1..])
      case None => ConvertEntries(ms[1..])
  }

  /** The number of entries that are not deleted. */
  function LiveCount(ms: seq<Metadata>): nat {
    if |ms| == 0 then 0 else (if ms[0].Deleted? then 0 else 1) + LiveCount(ms[1..])
  }

  /** Exactly the live entries survive conversion. */
  lemma {:induction false} ConvertEntriesCount(ms: seq<Metadata>)
    ensures |ConvertEntries(ms)| == LiveCount(ms)
  {
    if |ms| > 0 {
      ConvertEntriesCount(ms[1..]);
    }
  }

  // ---------------------------------------------------------------------
  // Files at any depth

  /** `folderHasFiles`: a search through the entries, descending into each
      folder before moving on, that stops at the first file. */
  function HasFiles(es: seq<FileInfo>): bool
    decreases es
  {
    if |es| == 0 then false
    else if !es[0].isFolder then true
    else if HasFiles(es[0].children) then true
    else HasFiles(es[1..])
  }

  /** The files of a listing at every depth, in depth-first order: the
      reference against which the filter is judged. */
  function Files(es: seq<FileInfo>): seq<FileInfo>
    decreases es
  {
    if |es| == 0 then []
    else (if es[0].isFolder then Files(es[0].children) else [es[0]]) + Files(es[1..])
  }

  /** `folderHasFiles` holds iff some file lies below, at any depth. */
  lemma {:induction false} HasFilesIff(es: seq<FileInfo>)
    ensures HasFiles(es) <==> |Files(es)| > 0
    decreases es
  {
    if |es| > 0 {
      if es[0].isFolder {
        HasFilesIff(es[0].children);
      }
      HasFilesIff(es[1..]);
    }
  }

  /** Every folder, at every depth, has a file below it. */
  predicate NoEmptyFolders(es: seq<FileInfo>)
    decreases es
  {
    forall i :: 0 <= i < |es| ==>
      (es[i].isFolder ==> HasFiles(es[i].children) && NoEmptyFolders(es[i].children))
  }

  // ---------------------------------------------------------------------
  // filterEmptyFolders

  /** `filterEmptyFolders`: files stay; a folder stays, with its children
      filtered, when it has a file below it or its filtered children are not
      empty; order is kept. */
  function FilterEmptyFolders(es: seq<FileInfo>): (r: seq<FileInfo>)
    ensures |r| <= |es|
    ensures Files(r) == Files(es)
    ensures |r| > 0 <==> HasFiles(es)
    ensures NoEmptyFolders(r)
    decreases es
  {
    if |es| == 0 then []
    else
      var e := es[0];
      var rest := FilterEmptyFolders(es[1..]);
      if !e.isFolder then
        [e] + rest
      else
        var kids := FilterEmptyFolders(e.children);
        HasFilesIff(e.children);
        HasFilesIff(kids);
        if HasFiles(e.children) || |kids| > 0 then
          var kept := e.(children := kids);
          assert ([kept] + rest)[0] == kept;
          assert ([kept] + rest)[1..] == rest;
          [kept] + rest
        else
          rest
  }

  /** The entry a surviving entry becomes: a folder with its children filtered. */
  function Prune(e: FileInfo): (p: FileInfo)
    ensures p.name == e.name && p.path == e.path && p.isFolder == e.isFolder
    ensures !e.isFolder ==> p == e
  {
    if e.isFolder then e.(children := FilterEmptyFolders(e.children)) else e
  }

  /** Whether an entry survives: a file, or a folder with a file below it. */
  predicate Survives(e: FileInfo) {
    !e.isFolder || HasFiles(e.children)
  }

  /** The surviving entries, pruned, in their original order. */
  function Select(es: seq<FileInfo>): seq<FileInfo> {
    if |es| == 0 then []
    else (if Survives(es[0]) then [Prune(es[0])] else []) + Select(es[1..])
  }

  /** The filter keeps exactly the entries with a file below them (every
      file among them), in their original order, and nothing else. */
  lemma {:induction false} FilterIsSelect(es: seq<FileInfo>)
    ensures FilterEmptyFolders(es) == Select(es)
  {
    if |es| > 0 {
      FilterIsSelect(es[1..]);
    }
  }

  /** Every file entry of the listing is kept. */
  lemma FilesAreKept(es: seq<FileInfo>, i: nat)
    requires i < |es| && !es[i].isFolder
    ensures es[i] in FilterEmptyFolders(es)
  {
    assert es[i] in Files(es) by {
      FileInFiles(es, i);
    }
    FilterIsSelect(es);
    SelectKeeps(es, i);
  }

  lemma {:induction false} FileInFiles(es: seq<FileInfo>, i: nat)
    requires i < |es| && !es[i].isFolder
    ensures es[i] in Files(es)
  {
    if i > 0 {
      FileInFiles(es[1..], i - 1);
    }
  }

  /** A surviving entry appears, pruned, in the selection. */
  lemma {:induction false} SelectKeeps(es: seq<FileInfo>, i: nat)
    requires i < |es| && Survives(es[i])
    ensures Prune(es[i]) in Select(es)
  {
    if i > 0 {
      SelectKeeps(es[1..], i - 1);
    }
  }

  /** A listing without empty folders is left as it is. */
  lemma {:induction false} FilterFixesClean(es: seq<FileInfo>)
    requires NoEmptyFolders(es)
    ensures FilterEmptyFolders(es) == es
    decreases es
  {
    if |es| > 0 {
      var e := es[0];
      assert NoEmptyFolders(es[1..]) by {
        forall i | 0 <= i < |es| - 1
          ensures es[1..][i].isFolder ==>
            HasFiles(es[1..][i].children) && NoEmptyFolders(es[1..][i].children)
        {
          assert es[1..][i] == es[i + 1];
        }
      }
      FilterFixesClean(es[1..]);
      if e.isFolder {
        FilterFixesClean(e.children);
        assert e.(children := e.children) == e;
      }
    }
  }

  /** Filtering twice is filtering once. */
  lemma FilterIdempotent(es: seq<FileInfo>)
    ensures FilterEmptyFolders(FilterEmptyFolders(es)) == FilterEmptyFolders(es)
  {
    FilterFixesClean(FilterEmptyFolders(es));
  }
}

=== FILE: dafny/form_store.dfy ===
/** The `registry_form_schemas` collection (`repository/registry_form_repository.go`):
    new schemas start inactive, `SetActive` leaves exactly one schema
    active, and the listing is newest first. */
module FormStore {
  import opened Wrappers
  import opened Seqs
  import opened Base
  import opened Paging
  import opened RegistryForm

  /** The collection, in natural order. */
  type Forms = seq<Schema>

  datatype FormStoreError = FormSchemaNotFound | NoActiveForm

  predicate HasId(s: Forms, id: ObjectId) {
    exists i :: 0 <= i < |s| && s[i].id == id
  }

  /** At most one schema is active: the invariant the repository keeps. */
  predicate AtMostOneActive(s: Forms) {
    forall i, j :: 0 <= i < j < |s| ==> !(s[i].isActive && s[j].isActive)
  }

  /** The first schema with identifier `id`, if any. */
  function FirstWithId(s: Forms, id: ObjectId): (r: Option<nat>)
    ensures r.Some? ==> r.value < |s| && s[r.value].id == id
    ensures r.Some? ==> forall j :: 0 <= j < r.value ==> s[j].id != id
    ensures r.None? <==> !HasId(s, id)
  {
    FirstWhere(s, (x: Schema) => x.id == id)
  }

  /** `Create`: stamps both times, assigns `id`, and stores the schema
      inactive whatever the caller set. */
  function Create(s: Forms, schema: Schema, id: ObjectId, now: Time): (r: (Forms, Schema))
    ensures !r.1.isActive && r.1.id == id && r.1.createdAt == now && r.1.updatedAt == now
    ensures r.1.(isActive := schema.isActive, id := schema.id, createdAt := schema.createdAt,
                 updatedAt := schema.updatedAt) == schema
    ensures r.0 == s + [r.1]
  {
    var stored := schema.(id := id, isActive := false, createdAt := now, updatedAt := now);
    (s + [stored], stored)
  }

  /** Creating a schema never changes which schema is active. */
  lemma CreateKeepsActive(s: Forms, schema: Schema, id: ObjectId, now: Time)
    requires AtMostOneActive(s)
    ensures AtMostOneActive(Create(s, schema, id, now).0)
    ensures FindActive(Create(s, schema, id, now).0) == FindActive(s)
  {
    var r := Create(s, schema, id, now).0;
    assert forall i :: 0 <= i < |s| ==> r[i] == s[i];
    FindActiveAppendInactive(s, r[|s|]);
  }

  /** `FindByID`. */
  function FindById(s: Forms, id: ObjectId): (r: Result<Schema, FormStoreError>)
    ensures r.Failure? <==> !HasId(s, id)
    ensures r.Failure? ==> r.error == FormSchemaNotFound
    ensures r.Success? ==> r.value in s && r.value.id == id
  {
    match FirstWithId(s, id)
    case None => Failure(FormSchemaNotFound)
    case Some(k) => Success(s[k])
  }

  /** The first active schema, if any. */
  function FirstActive(s: Forms): (r: Option<nat>)
    ensures r.Some? ==> r.value < |s| && s[r.value].isActive
    ensures r.Some? ==> forall j :: 0 <= j < r.value ==> !s[j].isActive
    ensures r.None? <==> forall i :: 0 <= i < |s| ==> !s[i].isActive
  {
    FirstWhere(s, (x: Schema) => x.isActive)
  }

  /** `FindActive`: an active schema, or `ErrNoActiveForm` when none is. */
  function FindActive(s: Forms): (r: Result<Schema, FormStoreError>)
    ensures r.Failure? <==> forall i :: 0 <= i < |s| ==> !s[i].isActive
    ensures r.Failure? ==> r.error == NoActiveForm
    ensures r.Success? ==> r.value in s && r.value.isActive
  {
    match FirstActive(s)
    case None => Failure(NoActiveForm)
    case Some(k) => Success(s[k])
  }

  /** Appending an inactive schema does not change the active lookup. */
  lemma FindActiveAppendInactive(s: Forms, x: Schema)
    requires !x.isActive
    ensures FindActive(s + [x]) == FindActive(s)
  {
    var r := s + [x];
    assert forall i :: 0 <= i < |s| ==> r[i] == s[i];
    match FirstActive(s)
    case None =>
    case Some(k) =>
      assert FirstActive(r) == Some(k);
  }

  /** The change `DeactivateAll` makes to one schema. */
  function Deactivated(x: Schema, now: Time): Schema {
    x.(isActive := false, updatedAt := now)
  }

  /** `DeactivateAll`: every schema inactive, stamped `now`. */
  function DeactivateAll(s: Forms, now: Time): (r: Forms)
    ensures |r| == |s|
    ensures forall i :: 0 <= i < |s| ==> r[i] == Deactivated(s[i], now)
  {
    seq(|s|, i requires 0 <= i < |s| => Deactivated(s[i], now))
  }

  /** After `DeactivateAll` no schema is active and `FindActive` reports it. */
  lemma NothingActiveAfterDeactivateAll(s: Forms, now: Time)
    ensures FindActive(DeactivateAll(s, now)) == Failure(NoActiveForm)
    ensures AtMostOneActive(DeactivateAll(s, now))
  {
  }

  /** `SetActive`: every schema is deactivated first, then the one with
      `id` is activated; when there is none, all stay inactive and the
      error is reported. */
  function SetActive(s: Forms, id: ObjectId, now: Time): (r: (Forms, Outcome<FormStoreError>))
    ensures |r.0| == |s|
    ensures r.1.Pass? <==> HasId(s, id)
    ensures r.1.Fail? ==> r.1.error == FormSchemaNotFound && r.0 == DeactivateAll(s, now)
    ensures r.1.Pass? ==>
      var k := FirstWithId(s, id).value;
      r.0[k] == s[k].(isActive := true, updatedAt := now)
      && forall i :: 0 <= i < |s| && i != k ==> r.0[i] == Deactivated(s[i], now)
  {
    var off := DeactivateAll(s, now);
    match FirstWithId(off, id)
    case None => (off, Fail(FormSchemaNotFound))
    case Some(k) => (off[k := off[k].(isActive := true)], Pass)
  }

  /** After a successful `SetActive` exactly one schema is active, it is
      the first with the identifier, and `FindActive` finds it; with unique
      identifiers the active schema is the one with `id`. */
  lemma SetActiveExactlyOne(s: Forms, id: ObjectId, now: Time)
    requires SetActive(s, id, now).1.Pass?
    ensures var r := SetActive(s, id, now).0;
      AtMostOneActive(r)
      && FindActive(r).Success? && FindActive(r).value.id == id
    ensures var r := SetActive(s, id, now).0;
      (forall i, j :: 0 <= i < j < |s| ==> s[i].id != s[j].id) ==>
        forall i :: 0 <= i < |r| ==> (r[i].isActive <==> r[i].id == id)
  {
    var r := SetActive(s, id, now).0;
    var k := FirstWithId(s, id).value;
    assert forall i :: 0 <= i < |r| ==> (r[i].isActive <==> i == k);
    assert FirstActive(r) == Some(k);
  }

  /** `Update`: a `$set` on the schema with `id`, stamped `now`. */
  function Update(s: Forms, id: ObjectId, change: Schema -> Schema, now: Time): (r: Result<Forms, FormStoreError>)
    ensures r.Failure? <==> !HasId(s, id)
    ensures r.Failure? ==> r.error == FormSchemaNotFound
    ensures r.Success? ==>
      var k := FirstWithId(s, id).value;
      |r.value| == |s| && r.value[k] == change(s[k]).(updatedAt := now)
      && forall i :: 0 <= i < |s| && i != k ==> r.value[i] == s[i]
  {
    match FirstWithId(s, id)
    case None => Failure(FormSchemaNotFound)
    case Some(k) => Success(s[k := change(s[k]).(updatedAt := now)])
  }

  /** `Delete`: removes the schema with `id`. */
  function Delete(s: Forms, id: ObjectId): (r: Result<Forms, FormStoreError>)
    ensures r.Failure? <==> !HasId(s, id)
    ensures r.Failure? ==> r.error == FormSchemaNotFound
    ensures r.Success? ==> |r.value| == |s| - 1
    ensures r.Success? ==> forall i :: 0 <= i < |r.value| ==> r.value[i] in s
    ensures r.Success? && (forall i, j :: 0 <= i < j < |s| ==> s[i].id != s[j].id) ==> !HasId(r.value, id)
  {
    match FirstWithId(s, id)
    case None => Failure(FormSchemaNotFound)
    case Some(k) =>
      var rest := s[..k] + s[k + 1..];
      assert forall i :: 0 <= i < |rest| ==> rest[i] == (if i < k then s[i] else s[i + 1]);
      Success(rest)
  }

  /** The sort key of the listing. */
  function CreatedKey(x: Schema): int {
    x.createdAt
  }

  /** `List`: newest first, skipping `(page - 1) * limit` schemas and
      keeping at most `limit`; the total counts the whole collection. The
      handler has clamped `page` to at least 1 and `limit` to 1..100. */
  function List(s: Forms, page: nat, limit: nat): (r: (seq<Schema>, nat))
    requires page >= 1 && limit >= 1
    ensures |r.0| <= limit && r.1 == |s|
    ensures Descending(r.0, CreatedKey)
    ensures forall i :: 0 <= i < |r.0| ==> r.0[i] in s
    ensures SkipOf(page, limit) + limit <= |s| ==> |r.0| == limit
  {
    (PageDesc(s, CreatedKey, SkipOf(page, limit), limit), |s|)
  }
}

=== FILE: dafny/gostrings.dfy ===
/** The parts of Go's `strings` and `strconv` packages, and of UTF-8 length,
    that the backend's validators and formatters rely on. Strings are
    sequences of Unicode scalar values; `len` on a Go string counts UTF-8
    bytes and is modelled by `Utf8Len`. */
module GoStrings {
  import opened Wrappers

  // ---------------------------------------------------------------------
  // Character classes

  /** Go's `unicode.IsSpace`: the ASCII white space, NEL, NBSP and the
      other characters with the Unicode White_Space property. */
  predicate IsSpace(c: char) {
    c == ' ' || ('\t' <= c <= '\r') || c == '\U{0085}' || c == '\U{00A0}'
    || c == '\U{1680}' || ('\U{2000}' <= c <= '\U{200A}') || c == '\U{2028}'
    || c == '\U{2029}' || c == '\U{202F}' || c == '\U{205F}' || c == '\U{3000}'
  }

  predicate IsAsciiUpper(c: char) { 'A' <= c <= 'Z' }
  predicate IsAsciiLower(c: char) { 'a' <= c <= 'z' }
  predicate IsDigit(c: char) { '0' <= c <= '9' }
  predicate IsAsciiLetter(c: char) { IsAsciiUpper(c) || IsAsciiLower(c) }

  /** The regular-expression class `[a-zA-Z0-9_]`. */
  predicate IsWordChar(c: char) { IsAsciiLetter(c) || IsDigit(c) || c == '_' }

  predicate AllChars(s: string, p: char -> bool) {
    forall i :: 0 <= i < |s| ==> p(s[i])
  }

  // ---------------------------------------------------------------------
  // Case mapping

  function LowerChar(c: char): (d: char)
    ensures !IsAsciiUpper(d)
    ensures IsAsciiUpper(c) ==> IsAsciiLower(d)
    ensures !IsAsciiUpper(c) ==> d == c
  {
    if IsAsciiUpper(c) then (c as int + 32) as char else c
  }

  /** `strings.ToLower` restricted to the ASCII letters. */
  function ToLower(s: string): (r: string)
    ensures |r| == |s|
    ensures forall i :: 0 <= i < |s| ==> r[i] == LowerChar(s[i])
  {
    if s == [] then [] else [LowerChar(s[0])] + ToLower(s[1..])
  }

  lemma ToLowerIdempotent(s: string)
    ensures ToLower(ToLower(s)) == ToLower(s)
  {
  }

  /** Lower-casing distributes over concatenation. */
  lemma ToLowerAppend(a: string, b: string)
    ensures ToLower(a + b) == ToLower(a) + ToLower(b)
  {
    assert forall i :: 0 <= i < |a + b| ==> ToLower(a + b)[i] == (ToLower(a) + ToLower(b))[i];
  }

  // ---------------------------------------------------------------------
  // Trimming, prefixes and searching

  /** Removes leading white space: the result is the longest suffix of `s`
      that does not start with a space. */
  function TrimLeftSpace(s: string): (r: string)
    ensures |r| <= |s| && r == s[|s| - |r|..]
    ensures r == [] || !IsSpace(r[0])
    ensures forall i :: 0 <= i < |s| - |r| ==> IsSpace(s[i])
  {
    if |s| > 0 && IsSpace(s[0]) then TrimLeftSpace(s[1..]) else s
  }

  /** Removes trailing white space: the result is the longest prefix of `s`
      that does not end with a space. */
  function TrimRightSpace(s: string): (r: string)
    ensures |r| <= |s| && r == s[..|r|]
    ensures r == [] || !IsSpace(r[|r| - 1])
    ensures forall i :: |r| <= i < |s| ==> IsSpace(s[i])
  {
    if |s| > 0 && IsSpace(s[|s| - 1]) then TrimRightSpace(s[..|s| - 1]) else s
  }

  /** `strings.TrimSpace`. */
  function TrimSpace(s: string): (r: string)
    ensures |r| <= |s|
    ensures r == [] || (!IsSpace(r[0]) && !IsSpace(r[|r| - 1]))
  {
    TrimRightSpace(TrimLeftSpace(s))
  }

  /** A string trims to empty exactly when every character is white space. */
  lemma TrimSpaceEmpty(s: string)
    ensures TrimSpace(s) == [] <==> forall i :: 0 <= i < |s| ==> IsSpace(s[i])
  {
    var l := TrimLeftSpace(s);
    if TrimSpace(s) == [] {
      assert TrimRightSpace(l) == [];
      // `l` cannot keep a character: its first one is not a space, and
      // trimming on the right removed only spaces.
      if l != [] {
        assert false;
      }
    }
  }

  /** Trimming leaves a string that has no outer white space unchanged. */
  lemma TrimSpaceNoOuterSpace(s: string)
    requires s == [] || (!IsSpace(s[0]) && !IsSpace(s[|s| - 1]))
    ensures TrimSpace(s) == s
  {
  }

  /** Trimming only removes characters. */
  lemma TrimSpaceInside(s: string, c: char)
    requires c in TrimSpace(s)
    ensures c in s
  {
    var l := TrimLeftSpace(s);
    var r := TrimRightSpace(l);
    var k :| 0 <= k < |r| && r[k] == c;
    assert r[k] == l[k];
    assert l[k] == s[|s| - |l| + k];
  }

  predicate HasPrefix(s: string, p: string) {
    |p| <= |s| && s[..|p|] == p
  }

  predicate HasSuffix(s: string, p: string) {
    |p| <= |s| && s[|s| - |p|..] == p
  }

  /** `strings.TrimPrefix`: removes one occurrence of `p` at the start. */
  function TrimPrefix(s: string, p: string): (r: string)
    ensures HasPrefix(s, p) ==> s == p + r
    ensures !HasPrefix(s, p) ==> r == s
  {
    if HasPrefix(s, p) then s[|p|..] else s
  }

  /** `strings.TrimSuffix`: removes one occurrence of `p` at the end. */
  function TrimSuffix(s: string, p: string): (r: string)
    ensures HasSuffix(s, p) ==> s == r + p
    ensures !HasSuffix(s, p) ==> r == s
  {
    if HasSuffix(s, p) then s[..|s| - |p|] else s
  }

  /** `strings.Contains`. */
  predicate Contains(s: string, sub: string) {
    exists i :: 0 <= i <= |s| - |sub| && OccursAt(s, sub, i)
  }

  predicate OccursAt(s: string, sub: string, i: int) {
    0 <= i <= |s| - |sub| && s[i..i + |sub|] == sub
  }

  /** The index of the first occurrence of `c`, as `strings.IndexByte`. */
  function IndexOf(s: string, c: char): (r: Option<nat>)
    ensures r.None? ==> c !in s
    ensures r.Some? ==> r.value < |s| && s[r.value] == c && c !in s[..r.value]
  {
    if s == [] then None
    else if s[0] == c then Some(0)
    else match IndexOf(s[1..], c)
      case None => None
      case Some(k) => Some(k + 1)
  }

  // ---------------------------------------------------------------------
  // UTF-8 length

  /** Number of bytes of `c` in UTF-8. */
  function RuneLen(c: char): nat {
    if c as int < 0x80 then 1
    else if c as int < 0x800 then 2
    else if c as int < 0x10000 then 3
    else 4
  }

  /** Go's `len` of a string: its length in UTF-8 bytes. */
  function Utf8Len(s: string): (n: nat)
    ensures |s| <= n <= 4 * |s|
  {
    if s == [] then 0 else RuneLen(s[0]) + Utf8Len(s[1..])
  }

  predicate IsAscii(s: string) {
    forall i :: 0 <= i < |s| ==> s[i] as int < 0x80
  }

  /** For ASCII text the byte length is the character count. */
  lemma {:induction false} Utf8LenAscii(s: string)
    requires IsAscii(s)
    ensures Utf8Len(s) == |s|
  {
    if s != [] {
      Utf8LenAscii(s[1..]);
    }
  }

  // ---------------------------------------------------------------------
  // Decimal numbers

  function DigitChar(d: nat): (c: char)
    requires d < 10
    ensures IsDigit(c) && c as int - '0' as int == d
  {
    (d + '0' as int) as char
  }

  function DigitValue(c: char): (d: nat)
    requires IsDigit(c)
    ensures d < 10 && DigitChar(d) == c
  {
    c as int - '0' as int
  }

  predicate AllDigits(s: string) {
    forall i :: 0 <= i < |s| ==> IsDigit(s[i])
  }

  /** The decimal rendering of a natural number, as `%d` prints it. */
  function NatToString(n: nat): (r: string)
    ensures 1 <= |r| && AllDigits(r)
    ensures r[0] == '0' ==> n == 0
  {
    if n < 10 then [DigitChar(n)] else NatToString(n / 10) + [DigitChar(n % 10)]
  }

  /** The value of a non-empty string of decimal digits. */
  function DigitsValue(s: string): (n: nat)
    requires AllDigits(s)
  {
    if s == [] then 0 else DigitsValue(s[..|s| - 1]) * 10 + DigitValue(s[|s| - 1])
  }

  /** Reading back a rendered number gives the number. */
  lemma {:induction false} NatToStringRoundTrip(n: nat)
    ensures DigitsValue(NatToString(n)) == n
  {
    var r := NatToString(n);
    if n >= 10 {
      NatToStringRoundTrip(n / 10);
      assert r[..|r| - 1] == NatToString(n / 10);
    }
  }

  const MaxInt64: int := 0x7FFF_FFFF_FFFF_FFFF
  const MinInt64: int := -0x8000_0000_0000_0000

  /** The two results of `strconv.ParseInt(s, 10, 64)`: the value and
      whether the error was nil. A syntax error yields 0; an out-of-range
      number yields the nearest 64-bit bound together with an error. */
  datatype Parsed = Parsed(value: int, ok: bool)

  function ParseInt(s: string): (p: Parsed)
    ensures MinInt64 <= p.value <= MaxInt64
    ensures p.ok ==> |s| > 0
    ensures !p.ok && p.value != MinInt64 && p.value != MaxInt64 ==> p.value == 0
  {
    var neg := |s| > 0 && s[0] == '-';
    var digits := if |s| > 0 && (s[0] == '+' || s[0] == '-') then s[1..] else s;
    if digits == [] || !AllDigits(digits) then Parsed(0, false)
    else
      var m: int := DigitsValue(digits);
      var v: int := if neg then -m else m;
      if v > MaxInt64 then Parsed(MaxInt64, false)
      else if v < MinInt64 then Parsed(MinInt64, false)
      else Parsed(v, true)
  }

  /** Every rendered number in 64-bit range parses back to itself. */
  lemma ParseIntOfNatToString(n: nat)
    requires n <= MaxInt64
    ensures ParseInt(NatToString(n)) == Parsed(n, true)
  {
    NatToStringRoundTrip(n);
  }
}

=== FILE: dafny/institution.dfy ===
/** Institutions: type check, create-request validator and display helpers
    (`models/institution.go`). */
module Institution {
  import opened Wrappers
  import opened Base
  import opened GoStrings

  const TypeUniversity: string := "university"
  const TypeHospital: string := "hospital"
  const TypeLaboratory: string := "laboratory"
  const TypeResearchCenter: string := "research_center"
  const TypeGovernment: string := "government"
  const TypePrivatePractice: string := "private_practice"
  const TypeNgo: string := "ngo"
  const TypeOther: string := "other"

  const InstitutionTypes: set<string> :=
    {TypeUniversity, TypeHospital, TypeLaboratory, TypeResearchCenter,
     TypeGovernment, TypePrivatePractice, TypeNgo, TypeOther}

  /** `InstitutionType.IsValid`. */
  predicate IsValidType(t: string) {
    t in InstitutionTypes
  }

  /** Exactly eight institution types are valid. */
  lemma EightInstitutionTypes()
    ensures |InstitutionTypes| == 8
  {
  }

  datatype Institution = Institution(
    id: ObjectId,
    name: string,
    shortName: string,
    instType: string,
    country: string,
    province: string,
    city: string,
    address: string,
    postalCode: string,
    phone: string,
    email: string,
    website: string,
    imagePath: string,
    isActive: bool,
    createdAt: Time,
    updatedAt: Time,
    createdBy: Option<ObjectId>)

  datatype CreateRequest = CreateRequest(
    name: string,
    shortName: string,
    instType: string,
    country: string,
    province: string,
    city: string,
    address: string,
    postalCode: string,
    phone: string,
    email: string,
    website: string,
    imagePath: string)

  /** `UpdateInstitutionRequest`: every field optional. */
  datatype UpdateRequest = UpdateRequest(
    name: Option<string>,
    shortName: Option<string>,
    instType: Option<string>,
    country: Option<string>,
    province: Option<string>,
    city: Option<string>,
    address: Option<string>,
    postalCode: Option<string>,
    phone: Option<string>,
    email: Option<string>,
    website: Option<string>,
    imagePath: Option<string>,
    isActive: Option<bool>)

  datatype InstitutionError =
    | NameRequired | NameTooShort | NameTooLong | InvalidType | CountryRequired | CityRequired
  {
    function Rank(): nat {
      match this
      case NameRequired => 0
      case NameTooShort => 1
      case NameTooLong => 2
      case InvalidType => 3
      case CountryRequired => 4
      case CityRequired => 5
    }
  }

  /** Each create-request check on its own. */
  predicate CreateCheckFails(req: CreateRequest, e: InstitutionError) {
    match e
    case NameRequired => req.name == ""
    case NameTooShort => Utf8Len(req.name) < 2
    case NameTooLong => Utf8Len(req.name) > 200
    case InvalidType => !IsValidType(req.instType)
    case CountryRequired => req.country == ""
    case CityRequired => req.city == ""
  }

  /** `CreateInstitutionRequest.Validate`: name present, 2..200 bytes, valid
      type, country, city; the first failing check is reported. */
  function ValidateCreate(req: CreateRequest): (r: Outcome<InstitutionError>)
    ensures r.Pass? ==> forall e :: !CreateCheckFails(req, e)
    ensures r.Fail? ==> CreateCheckFails(req, r.error)
    ensures r.Fail? ==> forall e: InstitutionError :: e.Rank() < r.error.Rank() ==> !CreateCheckFails(req, e)
  {
    if req.name == "" then Fail(NameRequired)
    else if Utf8Len(req.name) < 2 then Fail(NameTooShort)
    else if Utf8Len(req.name) > 200 then Fail(NameTooLong)
    else if !IsValidType(req.instType) then Fail(InvalidType)
    else if req.country == "" then Fail(CountryRequired)
    else if req.city == "" then Fail(CityRequired)
    else Pass
  }

  /** An empty name is reported as missing, not as too short. */
  lemma EmptyNameIsRequired(req: CreateRequest)
    requires req.name == ""
    ensures ValidateCreate(req) == Fail(NameRequired)
    ensures CreateCheckFails(req, NameTooShort)
  {
  }

  /** The strings joined with ", ", the reference form of a location. */
  function JoinComma(parts: seq<string>): string {
    if |parts| == 0 then ""
    else if |parts| == 1 then parts[0]
    else parts[0] + ", " + JoinComma(parts[1..])
  }

  /** The non-empty strings of `parts`, in order. */
  function NonEmpty(parts: seq<string>): (r: seq<string>)
    ensures forall i :: 0 <= i < |r| ==> r[i] != ""
  {
    if |parts| == 0 then []
    else if parts[0] == "" then NonEmpty(parts[1..])
    else [parts[0]] + NonEmpty(parts[1..])
  }

  /** `Institution.GetFullLocation`: the city, then the non-empty province
      and country, each after ", ". */
  function FullLocation(inst: Institution): (loc: string)
    ensures HasPrefix(loc, inst.city)
    ensures |loc| == |inst.city| + (if inst.province != "" then 2 + |inst.province| else 0)
                                 + (if inst.country != "" then 2 + |inst.country| else 0)
  {
    var withProvince := if inst.province != "" then inst.city + ", " + inst.province else inst.city;
    var loc := if inst.country != "" then withProvince + ", " + inst.country else withProvince;
    assert loc[..|inst.city|] == inst.city;
    loc
  }

  /** The location is the city and the non-empty parts of province and
      country, joined with ", ". */
  lemma FullLocationIsJoin(inst: Institution)
    ensures FullLocation(inst) == JoinComma([inst.city] + NonEmpty([inst.province, inst.country]))
  {
    assert [inst.province, inst.country][1..] == [inst.country];
    assert [inst.country][1..] == [];
    assert NonEmpty([inst.country]) == (if inst.country != "" then [inst.country] else []);
    var rest := NonEmpty([inst.province, inst.country]);
    assert rest == (if inst.province != "" then [inst.province] else []) + NonEmpty([inst.country]);
    if inst.province != "" && inst.country != "" {
      assert rest == [inst.province, inst.country];
      assert ([inst.city] + rest)[1..] == rest;
      assert rest[1..] == [inst.country];
      assert JoinComma(rest) == inst.province + ", " + inst.country;
      assert JoinComma([inst.city] + rest) == inst.city + ", " + JoinComma(rest);
      assert FullLocation(inst) == inst.city + ", " + inst.province + ", " + inst.country;
    } else if inst.province != "" {
      assert rest == [inst.province];
      assert ([inst.city] + rest)[1..] == [inst.province];
    } else if inst.country != "" {
      assert rest == [inst.country];
      assert ([inst.city] + rest)[1..] == [inst.country];
    } else {
      assert rest == [];
      assert [inst.city] + rest == [inst.city];
    }
  }

  /** `Institution.GetDisplayName`: the short name when set, else the name. */
  function DisplayName(inst: Institution): (name: string)
    ensures name == inst.shortName || name == inst.name
    ensures inst.shortName != "" ==> name == inst.shortName
    ensures name == "" <==> inst.shortName == "" && inst.name == ""
  {
    if inst.shortName != "" then inst.shortName else inst.name
  }
}

=== FILE: dafny/institution_handler.dfy ===
/** The HTTP layer of institutions (`handlers/institution_handler.go`): the
    statuses of the service's errors and the query parameters of the list
    endpoint. The image uploads are in `Uploads`. */
module InstitutionHandler {
  import opened Wrappers
  import opened GoStrings
  import opened Institution
  import opened InstitutionStore
  import opened InstitutionService

  /** `CreateInstitution`: 403 for the missing right, 409 for a taken name,
      otherwise 400. */
  function CreateStatus(e: ServiceError): (code: int)
    ensures code == 403 <==> e == Unauthorized
    ensures code == 409 <==> e == Store(DuplicateInstitution)
    ensures code == 400 <==> e != Unauthorized && e != Store(DuplicateInstitution)
  {
    if e == Unauthorized then 403
    else if e == Store(DuplicateInstitution) then 409
    else 400
  }

  /** `UpdateInstitution`: 403, 404, 409, otherwise 400. */
  function UpdateStatus(e: ServiceError): (code: int)
    ensures code == 403 <==> e == Unauthorized
    ensures code == 404 <==> e == Store(InstitutionNotFound)
    ensures code == 409 <==> e == Store(DuplicateInstitution)
    ensures code == 400 <==> e.Invalid? || e == HasUsers
  {
    match e
    case Unauthorized => 403
    case Store(InstitutionNotFound) => 404
    case Store(DuplicateInstitution) => 409
    case _ => 400
  }

  /** `DeleteInstitution`: 403, 404, 409 while users remain, otherwise 400. */
  function DeleteStatus(e: ServiceError): (code: int)
    ensures code == 403 <==> e == Unauthorized
    ensures code == 404 <==> e == Store(InstitutionNotFound)
    ensures code == 409 <==> e == HasUsers
    ensures code == 400 <==> e.Invalid? || e == Store(DuplicateInstitution)
  {
    match e
    case Unauthorized => 403
    case Store(InstitutionNotFound) => 404
    case HasUsers => 409
    case _ => 400
  }

  /** `ActivateInstitution` and `DeactivateInstitution`: 403, 404, otherwise 400. */
  function ActivationStatus(e: ServiceError): (code: int)
    ensures code == 403 <==> e == Unauthorized
    ensures code == 404 <==> e == Store(InstitutionNotFound)
    ensures code == 400 <==> e != Unauthorized && e != Store(InstitutionNotFound)
  {
    if e == Unauthorized then 403
    else if e == Store(InstitutionNotFound) then 404
    else 400
  }

  /** A referenced institution is answered 409 by the delete endpoint,
      whatever else holds, once the caller has the right and it exists. */
  lemma ReferencedDeleteConflicts(s: Institutions, users: seq<Users.User>, id: Base.ObjectId, actor: Users.User)
    requires actor.Has(Roles.DeleteUsers) && HasId(s, id) && Referenced(users, id)
    ensures DeleteStatus(DeleteInstitution(s, users, id, actor).error) == 409
  {
  }

  // ---------------------------------------------------------------------
  // List parameters

  /** The query of `ListInstitutions` after parsing. */
  datatype ListQuery = ListQuery(instType: Option<string>, isActive: Option<bool>, search: string, limit: int, skip: int)

  /** A parameter as `c.Query` gives it: "" when absent. */
  function Param(p: Option<string>): string {
    p.GetOr("")
  }

  /** The list endpoint's parameters: an invalid type is dropped, any
      non-empty `is_active` other than "true" means false, the limit is
      100 unless a positive number is given, and the skip is 0 unless a
      non-negative number is given. */
  function ParseListQuery(typeParam: Option<string>, activeParam: Option<string>, search: Option<string>,
                          limitParam: Option<string>, skipParam: Option<string>): (q: ListQuery)
    ensures q.instType.Some? <==> IsValidType(Param(typeParam))
    ensures q.instType.Some? ==> q.instType.value == Param(typeParam)
    ensures q.isActive.None? <==> Param(activeParam) == ""
    ensures q.isActive == Some(true) <==> Param(activeParam) == "true"
    ensures q.search == Param(search)
    ensures q.limit >= 1 && q.skip >= 0
    ensures ParseInt(Param(limitParam)).ok && ParseInt(Param(limitParam)).value > 0 ==> q.limit == ParseInt(Param(limitParam)).value
    ensures !(ParseInt(Param(limitParam)).ok && ParseInt(Param(limitParam)).value > 0) ==> q.limit == 100
    ensures ParseInt(Param(skipParam)).ok && ParseInt(Param(skipParam)).value >= 0 ==> q.skip == ParseInt(Param(skipParam)).value
    ensures !(ParseInt(Param(skipParam)).ok && ParseInt(Param(skipParam)).value >= 0) ==> q.skip == 0
  {
    var t := Param(typeParam);
    var a := Param(activeParam);
    var l := ParseInt(Param(limitParam));
    var k := ParseInt(Param(skipParam));
    ListQuery(
      if t != "" && IsValidType(t) then Some(t) else None,
      if a != "" then Some(a == "true") else None,
      Param(search),
      if Param(limitParam) != "" && l.ok && l.value > 0 then l.value else 100,
      if Param(skipParam) != "" && k.ok && k.value >= 0 then k.value else 0)
  }

  /** The limit and skip echoed in a response, sent back, are read the
      same way: the parsing is a fixed point on its own output. */
  lemma ListQueryStable(typeParam: Option<string>, activeParam: Option<string>, search: Option<string>,
                        limitParam: Option<string>, skipParam: Option<string>)
    ensures var q := ParseListQuery(typeParam, activeParam, search, limitParam, skipParam);
      var q2 := ParseListQuery(typeParam, activeParam, search, Some(NatToString(q.limit)), Some(NatToString(q.skip)));
      q2.limit == q.limit && q2.skip == q.skip
  {
    var q := ParseListQuery(typeParam, activeParam, search, limitParam, skipParam);
    ParseIntOfNatToString(q.limit);
    ParseIntOfNatToString(q.skip);
  }

  /** The public listing: the active institutions, up to 1000, from the start. */
  function ListPublic(s: Institutions, matches: (string, string) -> bool): (r: (seq<Institution>, nat))
    ensures |r.0| <= 1000 && |r.0| <= r.1
    ensures forall i :: 0 <= i < |r.0| ==> r.0[i] in s && r.0[i].isActive
  {
    ListInstitutions(s, None, Some(true), "", matches, 1000, 0)
  }
}

=== FILE: dafny/institution_service.dfy ===
/** Institution management (`service/institution_service.go`): who may
    create, change, delete and (de)activate institutions, how an update
    request is merged, and the existence check behind user profiles. */
module InstitutionService {
  import opened Wrappers
  import opened Base
  import opened Roles
  import opened Users
  import opened Institution
  import opened InstitutionStore

  datatype ServiceError =
    | Unauthorized
    | Invalid(reason: InstitutionError)
    | Store(cause: InstitutionStoreError)
    | HasUsers

  /** The record `CreateInstitution` stores: the request's fields, active,
      created by the caller; the request's image path is not copied. */
  function NewInstitution(req: CreateRequest, actor: User): (x: Institution)
    ensures x.isActive && x.createdBy == Some(actor.id) && x.imagePath == ""
    ensures x.name == req.name && x.instType == req.instType && x.city == req.city && x.country == req.country
  {
    Institution(NilId, req.name, req.shortName, req.instType, req.country, req.province, req.city,
                req.address, req.postalCode, req.phone, req.email, req.website, "", true, 0, 0, Some(actor.id))
  }

  /** `CreateInstitution`: the permission first, then the request, then the
      repository's duplicate-name check. */
  function CreateInstitution(s: Institutions, req: CreateRequest, actor: User, id: ObjectId, now: Time)
    : (r: Result<(Institutions, Institution), ServiceError>)
    ensures r == Failure(Unauthorized) <==> !actor.Has(ManageUsers)
    ensures actor.Has(ManageUsers) && ValidateCreate(req).Fail? ==> r == Failure(Invalid(ValidateCreate(req).error))
    ensures r == Failure(Store(DuplicateInstitution)) <==>
      actor.Has(ManageUsers) && ValidateCreate(req).Pass? && HasName(s, req.name)
    ensures r.Success? ==>
      var (t, x) := r.value;
      t == s + [x] && x.id == id && x.isActive && x.createdBy == Some(actor.id) && x.imagePath == ""
      && x.name == req.name && x.createdAt == now
  {
    if !actor.Has(ManageUsers) then Failure(Unauthorized)
    else if ValidateCreate(req).Fail? then Failure(Invalid(ValidateCreate(req).error))
    else match InstitutionStore.Create(s, NewInstitution(req, actor), id, now)
      case Failure(e) => Failure(Store(e))
      case Success(v) => Success(v)
  }

  /** `ValidateInstitutionID`'s two refusals. */
  datatype IdError = NotFound | NotActive

  /** `ValidateInstitutionID`: the institution exists and is active. */
  function ValidateInstitutionId(s: Institutions, id: ObjectId): (r: Outcome<IdError>)
    ensures r == Fail(NotFound) <==> !HasId(s, id)
    ensures r == Fail(NotActive) <==> HasId(s, id) && !FindById(s, id).value.isActive
    ensures r.Pass? <==> HasId(s, id) && FindById(s, id).value.isActive
  {
    match FindById(s, id)
    case Failure(_) => Fail(NotFound)
    case Success(x) => if !x.isActive then Fail(NotActive) else Pass
  }

  /** A created institution can be chosen in a profile at once: it is
      found under its new identifier and is active. */
  lemma CreatedInstitutionIsUsable(s: Institutions, req: CreateRequest, actor: User, id: ObjectId, now: Time)
    requires !HasId(s, id)
    requires CreateInstitution(s, req, actor, id, now).Success?
    ensures ValidateInstitutionId(CreateInstitution(s, req, actor, id, now).value.0, id).Pass?
  {
    var (t, x) := CreateInstitution(s, req, actor, id, now).value;
    assert t == s + [x] && x.id == id && x.isActive;
    FindAppended(s, x);
  }

  /** An institution appended under a new identifier is the one found under it. */
  lemma FindAppended(s: Institutions, x: Institution)
    requires !HasId(s, x.id)
    ensures FindById(s + [x], x.id) == Success(x)
  {
    var t := s + [x];
    assert forall j :: 0 <= j < |s| ==> t[j].id != x.id;
    assert t[|s|] == x;
    assert FirstWithId(t, x.id) == Some(|s|);
  }

  // ---------------------------------------------------------------------
  // Updating

  /** Whether the request writes anything: a name different from the
      current one, or any other field (the image path is never written). */
  predicate Writes(x: Institution, req: UpdateRequest) {
    (req.name.Some? && req.name.value != x.name)
    || req.shortName.Some? || req.instType.Some? || req.country.Some? || req.province.Some?
    || req.city.Some? || req.address.Some? || req.postalCode.Some? || req.phone.Some?
    || req.email.Some? || req.website.Some? || req.isActive.Some?
  }

  /** The present fields of the request written over `x`; the image path
      stays as it is. */
  function Merge(x: Institution, req: UpdateRequest): (y: Institution)
    ensures y.imagePath == x.imagePath && y.id == x.id && y.createdAt == x.createdAt
    ensures y.createdBy == x.createdBy && y.updatedAt == x.updatedAt
  {
    x.(name := req.name.GetOr(x.name),
       shortName := req.shortName.GetOr(x.shortName),
       instType := req.instType.GetOr(x.instType),
       country := req.country.GetOr(x.country),
       province := req.province.GetOr(x.province),
       city := req.city.GetOr(x.city),
       address := req.address.GetOr(x.address),
       postalCode := req.postalCode.GetOr(x.postalCode),
       phone := req.phone.GetOr(x.phone),
       email := req.email.GetOr(x.email),
       website := req.website.GetOr(x.website),
       isActive := req.isActive.GetOr(x.isActive))
  }

  /** The update as a change function for the repository. */
  function MergeWith(req: UpdateRequest): Institution -> Institution {
    (x: Institution) => Merge(x, req)
  }

  /** Merging the same request twice changes nothing more. */
  lemma MergeIdempotent(x: Institution, req: UpdateRequest)
    ensures Merge(Merge(x, req), req) == Merge(x, req)
    ensures !Writes(Merge(x, req), req) <==> req.(name := None) == UpdateRequest(None, None, None, None, None, None, None, None, None, None, None, req.imagePath, None)
  {
  }

  /** The write of `UpdateInstitution`: the merged record replaces the
      stored one, which is then read back. */
  function Commit(s: Institutions, id: ObjectId, req: UpdateRequest, x: Institution, now: Time)
    : (r: (Institutions, Institution))
    requires FindById(s, id) == Success(x)
    ensures |r.0| == |s| && r.1 == Merge(x, req).(updatedAt := now)
  {
    var t := InstitutionStore.Update(s, id, MergeWith(req), now).value;
    assert forall j :: 0 <= j < |s| ==> t[j].id == s[j].id;
    assert FirstWithId(t, id) == FirstWithId(s, id);
    (t, FindById(t, id).value)
  }

  /** `UpdateInstitution`: the permission, the institution, then a changed
      name must be free and a given type valid; a request that writes
      nothing returns the institution untouched. */
  function UpdateInstitution(s: Institutions, id: ObjectId, req: UpdateRequest, actor: User, now: Time)
    : (r: Result<(Institutions, Institution), ServiceError>)
    ensures r == Failure(Unauthorized) <==> !actor.Has(ManageUsers)
    ensures r == Failure(Store(InstitutionNotFound)) <==> actor.Has(ManageUsers) && !HasId(s, id)
    ensures r == Failure(Store(DuplicateInstitution)) <==>
      actor.Has(ManageUsers) && HasId(s, id)
      && req.name.Some? && req.name.value != FindById(s, id).value.name && NameExists(s, req.name.value, Some(id))
    ensures r.Success? ==>
      var x := FindById(s, id).value;
      var (t, y) := r.value;
      y.imagePath == x.imagePath && y.createdBy == x.createdBy
      && (req.instType.Some? ==> IsValidType(req.instType.value))
      && (Writes(x, req) ==> y == Merge(x, req).(updatedAt := now) && |t| == |s|)
      && (!Writes(x, req) ==> t == s && y == x)
  {
    if !actor.Has(ManageUsers) then Failure(Unauthorized)
    else match FindById(s, id)
      case Failure(e) => Failure(Store(e))
      case Success(x) =>
        if req.name.Some? && req.name.value != x.name && NameExists(s, req.name.value, Some(id)) then
          Failure(Store(DuplicateInstitution))
        else if req.instType.Some? && !IsValidType(req.instType.value) then
          Failure(Invalid(InvalidType))
        else if !Writes(x, req) then Success((s, x))
        else Success(Commit(s, id, req, x, now))
  }

  /** An empty request succeeds without touching anything, whoever asks
      with the right, once the institution exists. */
  lemma EmptyUpdateUnchanged(s: Institutions, id: ObjectId, actor: User, image: Option<string>, now: Time)
    requires actor.Has(ManageUsers) && HasId(s, id)
    ensures var req := UpdateRequest(None, None, None, None, None, None, None, None, None, None, None, image, None);
      UpdateInstitution(s, id, req, actor, now) == Success((s, FindById(s, id).value))
  {
  }

  // ---------------------------------------------------------------------
  // Deleting and (de)activating

  /** Whether some user's profile names the institution. */
  predicate Referenced(users: seq<User>, id: ObjectId) {
    exists i :: 0 <= i < |users| && users[i].profile.institutionId == Some(id)
  }

  /** `DeleteInstitution`: only with `PermDeleteUsers`, and never while a
      user's profile still names the institution. */
  function DeleteInstitution(s: Institutions, users: seq<User>, id: ObjectId, actor: User)
    : (r: Result<Institutions, ServiceError>)
    ensures r == Failure(Unauthorized) <==> !actor.Has(DeleteUsers)
    ensures r == Failure(Store(InstitutionNotFound)) <==> actor.Has(DeleteUsers) && !HasId(s, id)
    ensures r == Failure(HasUsers) <==> actor.Has(DeleteUsers) && HasId(s, id) && Referenced(users, id)
    ensures r.Success? ==> InstitutionStore.Delete(s, id) == Success(r.value) && |r.value| == |s| - 1
  {
    if !actor.Has(DeleteUsers) then Failure(Unauthorized)
    else if !HasId(s, id) then Failure(Store(InstitutionNotFound))
    else if Referenced(users, id) then Failure(HasUsers)
    else Success(InstitutionStore.Delete(s, id).value)
  }

  /** `ActivateInstitution` (`active`) and `DeactivateInstitution` (`!active`). */
  function SetInstitutionActive(s: Institutions, id: ObjectId, active: bool, actor: User, now: Time)
    : (r: Result<Institutions, ServiceError>)
    ensures r == Failure(Unauthorized) <==> !actor.Has(ManageUsers)
    ensures r == Failure(Store(InstitutionNotFound)) <==> actor.Has(ManageUsers) && !HasId(s, id)
    ensures r.Success? ==> ValidateInstitutionId(r.value, id) == (if active then Pass else Fail(NotActive))
  {
    if !actor.Has(ManageUsers) then Failure(Unauthorized)
    else match InstitutionStore.SetActive(s, id, active, now)
      case Failure(e) => Failure(Store(e))
      case Success(t) =>
        assert forall j :: 0 <= j < |s| ==> t[j].id == s[j].id;
        assert FirstWithId(t, id) == FirstWithId(s, id);
        Success(t)
  }

  // ---------------------------------------------------------------------
  // Listing

  /** The filter `ListInstitutions` builds: the type and the active flag
      when given, and a search that some of name, short name, city,
      province or country matches (`matches` stands for MongoDB's
      case-insensitive `$regex`). */
  function ListFilter(instType: Option<string>, isActive: Option<bool>, search: string,
                      matches: (string, string) -> bool): Institution -> bool
  {
    (x: Institution) =>
      (instType.None? || x.instType == instType.value)
      && (isActive.None? || x.isActive == isActive.value)
      && (search == "" || matches(search, x.name) || matches(search, x.shortName)
          || matches(search, x.city) || matches(search, x.province) || matches(search, x.country))
  }

  /** `ListInstitutions`: one page in name order and the number of matches. */
  function ListInstitutions(s: Institutions, instType: Option<string>, isActive: Option<bool>, search: string,
                            matches: (string, string) -> bool, limit: nat, skip: nat): (r: (seq<Institution>, nat))
    ensures limit > 0 ==> |r.0| <= limit
    ensures |r.0| <= r.1 <= |s|
    ensures forall i :: 0 <= i < |r.0| ==> r.0[i] in s
    ensures instType.Some? ==> forall i :: 0 <= i < |r.0| ==> r.0[i].instType == instType.value
    ensures isActive.Some? ==> forall i :: 0 <= i < |r.0| ==> r.0[i].isActive == isActive.value
  {
    var keep := ListFilter(instType, isActive, search, matches);
    var page := InstitutionStore.List(s, keep, limit, skip);
    assert forall i :: 0 <= i < |page| ==> keep(page[i]);
    (page, InstitutionStore.Count(s, keep))
  }

  /** `CountInstitutions`: by the active flag when it is given. */
  function CountInstitutions(s: Institutions, isActive: Option<bool>, matches: (string, string) -> bool): (n: nat)
    ensures n <= |s|
    ensures n == ListInstitutions(s, None, isActive, "", matches, 0, 0).1
  {
    InstitutionStore.Count(s, ListFilter(None, isActive, "", matches))
  }
}

=== FILE: dafny/institution_store.dfy ===
/** The `institutions` collection (`repository/institution_repository.go`):
    names are unique on creation, `NameExists` can leave one record out,
    and listings are ordered by name. */
module InstitutionStore {
  import opened Wrappers
  import opened Seqs
  import opened Base
  import opened Paging
  import opened Institution

  /** The collection, in natural order. */
  type Institutions = seq<Institution>

  datatype InstitutionStoreError = InstitutionNotFound | DuplicateInstitution

  predicate HasId(s: Institutions, id: ObjectId) {
    exists i :: 0 <= i < |s| && s[i].id == id
  }

  predicate HasName(s: Institutions, name: string) {
    exists i :: 0 <= i < |s| && s[i].name == name
  }

  /** The first institution with identifier `id`, if any. */
  function FirstWithId(s: Institutions, id: ObjectId): (r: Option<nat>)
    ensures r.Some? ==> r.value < |s| && s[r.value].id == id
    ensures r.Some? ==> forall j :: 0 <= j < r.value ==> s[j].id != id
    ensures r.None? <==> !HasId(s, id)
  {
    FirstWhere(s, (x: Institution) => x.id == id)
  }

  /** The first institution named `name`, if any. */
  function FirstWithName(s: Institutions, name: string): (r: Option<nat>)
    ensures r.Some? ==> r.value < |s| && s[r.value].name == name
    ensures r.None? <==> !HasName(s, name)
  {
    FirstWhere(s, (x: Institution) => x.name == name)
  }

  /** `FindByID`. */
  function FindById(s: Institutions, id: ObjectId): (r: Result<Institution, InstitutionStoreError>)
    ensures r.Failure? <==> !HasId(s, id)
    ensures r.Failure? ==> r.error == InstitutionNotFound
    ensures r.Success? ==> r.value == s[FirstWithId(s, id).value]
  {
    match FirstWithId(s, id)
    case None => Failure(InstitutionNotFound)
    case Some(k) => Success(s[k])
  }

  /** `FindByName`: an exact match on the name. */
  function FindByName(s: Institutions, name: string): (r: Result<Institution, InstitutionStoreError>)
    ensures r.Failure? <==> !HasName(s, name)
    ensures r.Success? ==> r.value in s && r.value.name == name
  {
    match FirstWithName(s, name)
    case None => Failure(InstitutionNotFound)
    case Some(k) => Success(s[k])
  }

  /** `Create`: refused when the name is taken; otherwise stored under `id`
      with both times stamped. */
  function Create(s: Institutions, inst: Institution, id: ObjectId, now: Time)
    : (r: Result<(Institutions, Institution), InstitutionStoreError>)
    ensures r.Failure? <==> HasName(s, inst.name)
    ensures r.Failure? ==> r.error == DuplicateInstitution
    ensures r.Success? ==>
      var (t, stored) := r.value;
      t == s + [stored] && stored.id == id && stored.createdAt == now && stored.updatedAt == now
      && stored.(id := inst.id, createdAt := inst.createdAt, updatedAt := inst.updatedAt) == inst
  {
    if FindByName(s, inst.name).Success? then Failure(DuplicateInstitution)
    else
      var stored := inst.(id := id, createdAt := now, updatedAt := now);
      Success((s + [stored], stored))
  }

  /** Creating never introduces a second institution of the same name. */
  lemma CreateKeepsNamesUnique(s: Institutions, inst: Institution, id: ObjectId, now: Time)
    requires forall i, j :: 0 <= i < j < |s| ==> s[i].name != s[j].name
    requires Create(s, inst, id, now).Success?
    ensures var t := Create(s, inst, id, now).value.0;
      forall i, j :: 0 <= i < j < |t| ==> t[i].name != t[j].name
  {
    var t := Create(s, inst, id, now).value.0;
    assert forall i :: 0 <= i < |s| ==> t[i] == s[i];
  }

  /** Whether `s[i]` counts for `NameExists`. */
  predicate NameClash(x: Institution, name: string, exclude: Option<ObjectId>) {
    x.name == name && (exclude.None? || x.id != exclude.value)
  }

  /** `NameExists`: some institution has the name, the excluded one aside. */
  function NameExists(s: Institutions, name: string, exclude: Option<ObjectId>): (b: bool)
    ensures b <==> exists i :: 0 <= i < |s| && NameClash(s[i], name, exclude)
  {
    if |s| == 0 then false
    else if NameClash(s[0], name, exclude) then true
    else
      var b := NameExists(s[1..], name, exclude);
      assert forall i :: 1 <= i < |s| ==> s[i] == s[1..][i - 1];
      b
  }

  /** Without an exclusion `NameExists` is the plain name test, and the
      excluded institution never makes its own name count as taken. */
  lemma NameExistsExclusion(s: Institutions, name: string, x: Institution)
    ensures NameExists(s, name, None) <==> HasName(s, name)
    ensures NameExists(s + [x], name, Some(x.id)) <==> NameExists(s, name, Some(x.id))
  {
    var t := s + [x];
    assert forall i :: 0 <= i < |s| ==> t[i] == s[i];
    if NameExists(s, name, None) {
      var i :| 0 <= i < |s| && NameClash(s[i], name, None);
    }
    if HasName(s, name) {
      var i :| 0 <= i < |s| && s[i].name == name;
      assert NameClash(s[i], name, None);
    }
  }

  /** `Update`: a `$set` on the institution with `id`, stamped `now`. */
  function Update(s: Institutions, id: ObjectId, change: Institution -> Institution, now: Time)
    : (r: Result<Institutions, InstitutionStoreError>)
    ensures r.Failure? <==> !HasId(s, id)
    ensures r.Success? ==>
      var k := FirstWithId(s, id).value;
      |r.value| == |s| && r.value[k] == change(s[k]).(updatedAt := now)
      && forall i :: 0 <= i < |s| && i != k ==> r.value[i] == s[i]
  {
    match FirstWithId(s, id)
    case None => Failure(InstitutionNotFound)
    case Some(k) => Success(s[k := change(s[k]).(updatedAt := now)])
  }

  /** The change `Activate` (`active`) or `Deactivate` (`!active`) makes. */
  function WithActive(active: bool): Institution -> Institution {
    (x: Institution) => x.(isActive := active)
  }

  /** `Activate` and `Deactivate`: only the flag and the update time change. */
  function SetActive(s: Institutions, id: ObjectId, active: bool, now: Time)
    : (r: Result<Institutions, InstitutionStoreError>)
    ensures r.Failure? <==> !HasId(s, id)
    ensures r.Success? ==>
      var k := FirstWithId(s, id).value;
      |r.value| == |s| && r.value[k].isActive == active
      && r.value[k].(isActive := s[k].isActive, updatedAt := s[k].updatedAt) == s[k]
      && forall i :: 0 <= i < |s| && i != k ==> r.value[i] == s[i]
  {
    Update(s, id, WithActive(active), now)
  }

  /** Deactivating and reactivating restores the record but for its update time. */
  lemma ReactivateRestores(s: Institutions, id: ObjectId, t1: Time, t2: Time)
    requires HasId(s, id)
    ensures var k := FirstWithId(s, id).value;
      var r := SetActive(SetActive(s, id, false, t1).value, id, true, t2).value;
      s[k].isActive ==> r == s[k := s[k].(updatedAt := t2)]
  {
    var k := FirstWithId(s, id).value;
    var r1 := SetActive(s, id, false, t1).value;
    assert forall j :: 0 <= j < |s| ==> r1[j].id == s[j].id;
    assert FirstWithId(r1, id) == Some(k);
  }

  /** `Delete`: removes the institution with `id`. */
  function Delete(s: Institutions, id: ObjectId): (r: Result<Institutions, InstitutionStoreError>)
    ensures r.Failure? <==> !HasId(s, id)
    ensures r.Success? ==> |r.value| == |s| - 1 && forall i :: 0 <= i < |r.value| ==> r.value[i] in s
    ensures r.Success? && (forall i, j :: 0 <= i < j < |s| ==> s[i].id != s[j].id) ==> !HasId(r.value, id)
  {
    match FirstWithId(s, id)
    case None => Failure(InstitutionNotFound)
    case Some(k) =>
      var rest := s[..k] + s[k + 1..];
      assert forall i :: 0 <= i < |rest| ==> rest[i] == (if i < k then s[i] else s[i + 1]);
      Success(rest)
  }

  /** The listing order: by name, ascending. */
  predicate NameLe(a: Institution, b: Institution) {
    StrLe(a.name, b.name)
  }

  lemma NameOrderIsTotal()
    ensures IsTotalPreorder(NameLe)
  {
    forall a: Institution, b: Institution ensures NameLe(a, b) || NameLe(b, a) {
      StrLeTotal(a.name, b.name);
    }
    forall a: Institution, b: Institution, c: Institution | NameLe(a, b) && NameLe(b, c)
      ensures NameLe(a, c)
    {
      StrLeTrans(a.name, b.name, c.name);
    }
  }

  /** `List`: the matching institutions ordered by name, after skipping
      `skip` of them and keeping at most `limit` (0 for no limit). */
  function List(s: Institutions, keep: Institution -> bool, limit: nat, skip: nat): (r: seq<Institution>)
    ensures limit > 0 ==> |r| <= limit
    ensures |r| <= Count(s, keep)
    ensures SortedBy(r, NameLe)
    ensures forall i :: 0 <= i < |r| ==> r[i] in s && keep(r[i])
  {
    NameOrderIsTotal();
    var matching := Filter(s, keep);
    var sorted := SortBy(matching, NameLe);
    var r := Page(sorted, skip, limit);
    assert |sorted| == |matching| by { assert |multiset(sorted)| == |multiset(matching)|; }
    assert forall i :: 0 <= i < |r| ==> r[i] == sorted[skip + i];
    assert forall i :: 0 <= i < |r| ==> r[i] in multiset(matching);
    r
  }

  /** `Count` with the same filter. */
  function Count(s: Institutions, keep: Institution -> bool): (n: nat)
    ensures n <= |s|
  {
    |Filter(s, keep)|
  }

  /** Without skip or limit the listing holds every match: `Count` is the
      size of the unpaginated listing. */
  lemma CountIsUnpaginatedList(s: Institutions, keep: Institution -> bool)
    ensures |List(s, keep, 0, 0)| == Count(s, keep)
  {
    NameOrderIsTotal();
    var sorted := SortBy(Filter(s, keep), NameLe);
    assert |sorted| == |Filter(s, keep)| by { assert |multiset(sorted)| == |multiset(Filter(s, keep))|; }
  }
}

=== FILE: dafny/middleware.dfy ===
/** The request guards of the API (`middleware/auth.go`, `middleware/rbac.go`):
    bearer-token authentication, the client address behind proxies, and
    the permission, role and admin-level gates. */
module Middleware {
  import opened Wrappers
  import opened GoStrings
  import opened Roles
  import opened Users
  import opened UserStore
  import opened AuthService

  // ---------------------------------------------------------------------
  // Authentication

  /** The token of an `Authorization` header: `strings.SplitN(h, " ", 2)`
      must give exactly the scheme "Bearer" (letter case significant) and
      a remainder, which is the token as it is, spaces included. */
  function ParseBearer(header: string): (r: Option<string>)
    ensures r.Some? ==> header == "Bearer " + r.value
  {
    match IndexOf(header, ' ')
    case None => None
    case Some(i) =>
      if header[..i] == "Bearer" then
        assert header == header[..i] + [' '] + header[i + 1..];
        Some(header[i + 1..])
      else None
  }

  /** Every header of the form "Bearer <token>" is accepted with that token. */
  lemma ParseBearerComplete(token: string)
    ensures ParseBearer("Bearer " + token) == Some(token)
  {
    var h := "Bearer " + token;
    assert h[..6] == "Bearer" && h[6] == ' ';
    assert ' ' !in h[..6];
    assert IndexOf(h, ' ') == Some(6);
    assert h[7..] == token;
  }

  /** Why a request was turned away; every rejection is a 401. */
  datatype Rejection = MissingHeader | BadHeaderFormat | BadToken | NotActive

  datatype Gate = Reject(reason: Rejection) | Admit(user: User, token: string)

  /** `AuthMiddleware`: `verify` checks a token's signature and expiry and
      yields its claims. */
  function Authenticate(header: string, verify: string -> Option<Claims>, parse: HexParser, users: Store)
    : (g: Gate)
    ensures g == Reject(MissingHeader) <==> header == ""
    ensures g.Admit? ==>
      header == "Bearer " + g.token && g.user.isActive
      && GetUserFromToken(users, verify(g.token), parse) == Success(g.user)
    ensures g == Reject(NotActive) ==>
      exists t :: header == "Bearer " + t && GetUserFromToken(users, verify(t), parse).Success?
  {
    if header == "" then Reject(MissingHeader)
    else match ParseBearer(header)
      case None => Reject(BadHeaderFormat)
      case Some(token) =>
        match GetUserFromToken(users, verify(token), parse)
        case Failure(_) => Reject(BadToken)
        case Success(u) => if !u.isActive then Reject(NotActive) else Admit(u, token)
  }

  /** A well-formed bearer header with a token that resolves to an active
      user is admitted, and one that resolves to an inactive user is not. */
  lemma AuthenticateIff(token: string, verify: string -> Option<Claims>, parse: HexParser, users: Store)
    ensures var r := GetUserFromToken(users, verify(token), parse);
      Authenticate("Bearer " + token, verify, parse, users).Admit? <==> r.Success? && r.value.isActive
  {
    ParseBearerComplete(token);
  }

  /** The status of the gate's answer: every rejection is a 401, and
      only an admitted request goes on. */
  function GateStatus(g: Gate): (code: int)
    ensures code == 401 <==> g.Reject?
    ensures code == 200 <==> g.Admit?
  {
    if g.Reject? then 401 else 200
  }

  // ---------------------------------------------------------------------
  // Client address

  /** The first comma-separated field of `s`, as `strings.Split(s, ",")[0]`. */
  function FirstField(s: string): (r: string)
    ensures ',' !in r
    ensures |r| <= |s| && r == s[..|r|]
    ensures |r| < |s| ==> s[|r|] == ','
  {
    match IndexOf(s, ',')
    case None => s
    case Some(i) => s[..i]
  }

  /** `GetIPAddress`: the first `X-Forwarded-For` entry, trimmed; else
      `X-Real-IP`; else the connection's address. */
  function ClientAddress(forwarded: string, realIp: string, remote: string): (ip: string)
    ensures forwarded != "" ==> ip == TrimSpace(FirstField(forwarded))
    ensures forwarded != "" ==> ',' !in ip && (ip == [] || (!IsSpace(ip[0]) && !IsSpace(ip[|ip| - 1])))
    ensures forwarded == "" && realIp != "" ==> ip == realIp
    ensures forwarded == "" && realIp == "" ==> ip == remote
  {
    if forwarded != "" then
      var ip := TrimSpace(FirstField(forwarded));
      assert ',' !in ip by {
        if ',' in ip { TrimSpaceInside(FirstField(forwarded), ','); }
      }
      ip
    else if realIp != "" then realIp
    else remote
  }

  /** A proxy chain "client, proxy1, ..." yields the client entry, trimmed,
      whatever follows the first comma and whatever the other headers hold;
      a single non-empty entry is taken, trimmed, as it is. */
  lemma ClientAddressFirstHop(client: string, rest: string, realIp: string, remote: string)
    requires ',' !in client
    ensures ClientAddress(client + "," + rest, realIp, remote) == TrimSpace(client)
    ensures client != "" ==> ClientAddress(client, realIp, remote) == TrimSpace(client)
  {
    var s := client + "," + rest;
    assert s[|client|] == ',';
    assert s[..|client|] == client;
    assert FirstField(s) == client;
  }

  // ---------------------------------------------------------------------
  // Authorization gates

  /** The result of a gate: 401 without an authenticated user, 403 without
      the right, otherwise the request proceeds. */
  datatype Verdict = Unauthorized | Forbidden | Proceed {
    function Status(): int {
      match this
      case Unauthorized => 401
      case Forbidden => 403
      case Proceed => 200
    }
  }

  /** `RequirePermission`. */
  function RequirePermission(user: Option<User>, p: Permission): (v: Verdict)
    ensures v == Unauthorized <==> user.None?
    ensures v == Proceed <==> user.Some? && user.value.Has(p)
  {
    match user
    case None => Unauthorized
    case Some(u) => if u.Has(p) then Proceed else Forbidden
  }

  /** Whether `u` holds some permission of `ps`: the early-exit loop. */
  function HoldsAny(u: User, ps: seq<Permission>): (b: bool)
    ensures b <==> exists i :: 0 <= i < |ps| && u.Has(ps[i])
  {
    if |ps| == 0 then false
    else if u.Has(ps[0]) then true
    else
      var b := HoldsAny(u, ps[1..]);
      assert forall i :: 1 <= i < |ps| ==> ps[i] == ps[1..][i - 1];
      b
  }

  /** Whether `u` holds every permission of `ps`. */
  function HoldsAll(u: User, ps: seq<Permission>): (b: bool)
    ensures b <==> forall i :: 0 <= i < |ps| ==> u.Has(ps[i])
  {
    if |ps| == 0 then true
    else if !u.Has(ps[0]) then false
    else
      var b := HoldsAll(u, ps[1..]);
      assert forall i :: 1 <= i < |ps| ==> ps[i] == ps[1..][i - 1];
      b
  }

  /** `RequireAnyPermission`. */
  function RequireAnyPermission(user: Option<User>, ps: seq<Permission>): (v: Verdict)
    ensures v == Unauthorized <==> user.None?
    ensures v == Proceed <==> user.Some? && exists i :: 0 <= i < |ps| && user.value.Has(ps[i])
  {
    match user
    case None => Unauthorized
    case Some(u) => if HoldsAny(u, ps) then Proceed else Forbidden
  }

  /** `RequireAllPermissions`. */
  function RequireAllPermissions(user: Option<User>, ps: seq<Permission>): (v: Verdict)
    ensures v == Unauthorized <==> user.None?
    ensures v == Proceed <==> user.Some? && forall i :: 0 <= i < |ps| ==> user.value.Has(ps[i])
  {
    match user
    case None => Unauthorized
    case Some(u) => if HoldsAll(u, ps) then Proceed else Forbidden
  }

  /** The list gates at their edges: an empty "any" list refuses every
      user, an empty "all" list admits every user, and a one-element list
      is the single-permission gate either way. */
  lemma ListGateEdges(u: User, p: Permission)
    ensures RequireAnyPermission(Some(u), []) == Forbidden
    ensures RequireAllPermissions(Some(u), []) == Proceed
    ensures RequireAnyPermission(Some(u), [p]) == RequirePermission(Some(u), p)
    ensures RequireAllPermissions(Some(u), [p]) == RequirePermission(Some(u), p)
  {
  }

  /** "All" admits whoever "any" admits, when the list is non-empty. */
  lemma AllImpliesAny(user: Option<User>, ps: seq<Permission>)
    requires |ps| > 0
    requires RequireAllPermissions(user, ps) == Proceed
    ensures RequireAnyPermission(user, ps) == Proceed
  {
    assert user.value.Has(ps[0]);
  }

  /** `RequireRole`; `RequireAdmin` is its instance for the admin role. */
  function RequireRole(user: Option<User>, role: string): (v: Verdict)
    ensures v == Unauthorized <==> user.None?
    ensures v == Proceed <==> user.Some? && user.value.role == role
  {
    match user
    case None => Unauthorized
    case Some(u) => if u.role == role then Proceed else Forbidden
  }

  /** `RequireAnyRole`. */
  function RequireAnyRole(user: Option<User>, roles: seq<string>): (v: Verdict)
    ensures v == Unauthorized <==> user.None?
    ensures v == Proceed <==> user.Some? && user.value.role in roles
  {
    match user
    case None => Unauthorized
    case Some(u) => if u.role in roles then Proceed else Forbidden
  }

  /** `RequireAdminLevel`: the admin role and exactly that level. */
  function RequireAdminLevel(user: Option<User>, level: string): (v: Verdict)
    ensures v == Unauthorized <==> user.None?
    ensures v == Proceed <==> user.Some? && user.value.role == Admin && user.value.adminLevel == level
  {
    match user
    case None => Unauthorized
    case Some(u) => if u.role != Admin || u.adminLevel != level then Forbidden else Proceed
  }

  /** `RequireSuperAdmin`. */
  function RequireSuperAdmin(user: Option<User>): (v: Verdict)
    ensures v == RequireAdminLevel(user, LevelSuperAdmin)
  {
    RequireAdminLevel(user, LevelSuperAdmin)
  }

  /** The level gates agree with the permission table: a super admin holds
      every permission, a user manager can manage users but not delete
      them, and the empty level admits no admin with a real level. */
  lemma LevelGatesAndPermissions(user: Option<User>, p: Permission)
    ensures RequireSuperAdmin(user) == Proceed ==> RequirePermission(user, p) == Proceed
    ensures RequireAdminLevel(user, LevelUserManager) == Proceed ==>
      RequirePermission(user, ManageUsers) == Proceed && RequirePermission(user, DeleteUsers) == Forbidden
    ensures RequireAdminLevel(user, LevelNone) == Proceed ==> RequirePermission(user, ManageUsers) == Forbidden
  {
  }
}

=== FILE: dafny/paging.dfy ===
/** Listing helpers shared by the repositories: MongoDB's skip/limit window
    and sorting of a collection by a numeric key. */
module Paging {

  /** A `Find` window: drop the first `skip` documents, then keep at most
      `limit` of them; a limit of 0 means no limit. */
  function Page<T(==)>(xs: seq<T>, skip: nat, limit: nat): (r: seq<T>)
    ensures limit > 0 ==> |r| <= limit
    ensures skip <= |xs| ==> HasPrefixSeq(xs[skip..], r)
    ensures skip >= |xs| ==> r == []
    ensures limit == 0 || skip + limit >= |xs| ==> r == (if skip >= |xs| then [] else xs[skip..])
  {
    if skip >= |xs| then []
    else if limit == 0 || skip + limit >= |xs| then xs[skip..]
    else xs[skip..skip + limit]
  }

  predicate HasPrefixSeq<T(==)>(xs: seq<T>, p: seq<T>) {
    |p| <= |xs| && xs[..|p|] == p
  }

  /** Two consecutive pages of the same size read the collection without gap or overlap. */
  lemma ConsecutivePages<T>(xs: seq<T>, page: nat, size: nat)
    requires size > 0
    requires (page + 2) * size <= |xs|
    ensures Page(xs, page * size, size) + Page(xs, (page + 1) * size, size)
      == xs[page * size..(page + 2) * size]
  {
    var a := page * size;
    assert (page + 1) * size == a + size;
    assert (page + 2) * size == a + size + size;
    assert xs[a..a + size] + xs[a + size..a + size + size] == xs[a..a + size + size];
  }

  /** `(page - 1) * limit`, the skip of a one-based page number. */
  function SkipOf(page: nat, limit: nat): (skip: nat)
    requires page >= 1
    ensures skip + limit == page * limit
  {
    (page - 1) * limit
  }

  // ---------------------------------------------------------------------
  // Sorting

  /** `key` does not increase along `xs`: the order of a descending sort. */
  predicate Descending<T(==)>(xs: seq<T>, key: T -> int) {
    forall i, j :: 0 <= i < j < |xs| ==> key(xs[i]) >= key(xs[j])
  }

  /** Inserts `x` before the first element with a smaller key. */
  function InsertDesc<T(==)>(x: T, xs: seq<T>, key: T -> int): (r: seq<T>)
    requires Descending(xs, key)
    ensures multiset(r) == multiset(xs) + multiset{x}
    ensures Descending(r, key)
  {
    if |xs| == 0 then [x]
    else if key(x) >= key(xs[0]) then
      DescendingCons(x, xs, key);
      [x] + xs
    else
      var rest := InsertDesc(x, xs[1..], key);
      assert xs == [xs[0]] + xs[1..];
      forall j | 0 <= j < |rest| ensures key(rest[j]) <= key(xs[0]) {
        assert rest[j] in multiset(rest);
        assert rest[j] == x || rest[j] in multiset(xs[1..]);
      }
      DescendingCons(xs[0], rest, key);
      [xs[0]] + rest
  }

  /** A sequence stays in descending order when an element no smaller
      than all of its elements is put in front. */
  lemma DescendingCons<T>(y: T, ys: seq<T>, key: T -> int)
    requires Descending(ys, key)
    requires forall j :: 0 <= j < |ys| ==> key(y) >= key(ys[j])
    ensures Descending([y] + ys, key)
  {
    var r := [y] + ys;
    forall i, j | 0 <= i < j < |r| ensures key(r[i]) >= key(r[j]) {
      assert r[j] == ys[j - 1];
      if i > 0 {
        assert r[i] == ys[i - 1];
      }
    }
  }

  /** The collection sorted by `key`, largest first: `SetSort` with -1. */
  function SortDesc<T(==)>(xs: seq<T>, key: T -> int): (r: seq<T>)
    ensures multiset(r) == multiset(xs)
    ensures Descending(r, key)
  {
    if |xs| == 0 then []
    else
      assert xs == [xs[0]] + xs[1..];
      InsertDesc(xs[0], SortDesc(xs[1..], key), key)
  }

  /** Each element of a window is the one `skip` places further on. */
  lemma PageElements<T>(xs: seq<T>, skip: nat, limit: nat)
    ensures forall i :: 0 <= i < |Page(xs, skip, limit)| ==>
      skip + i < |xs| && Page(xs, skip, limit)[i] == xs[skip + i]
  {
    var r := Page(xs, skip, limit);
    if skip < |xs| {
      forall i | 0 <= i < |r| ensures skip + i < |xs| && r[i] == xs[skip + i] {
        assert r[i] == xs[skip..][i];
      }
    }
  }

  /** A window of the collection sorted by `key`, largest first: what a
      `Find` with a descending sort, a skip and a limit returns. */
  function PageDesc<T(==)>(xs: seq<T>, key: T -> int, skip: nat, limit: nat): (r: seq<T>)
    ensures limit > 0 ==> |r| <= limit
    ensures |r| <= |xs|
    ensures limit > 0 && skip + limit <= |xs| ==> |r| == limit
    ensures Descending(r, key)
    ensures forall i :: 0 <= i < |r| ==> r[i] in xs
  {
    var sorted := SortDesc(xs, key);
    assert |sorted| == |xs| by {
      assert |multiset(sorted)| == |multiset(xs)|;
    }
    var r := Page(sorted, skip, limit);
    PageElements(sorted, skip, limit);
    forall i | 0 <= i < |r| ensures r[i] in xs {
      assert r[i] in multiset(sorted);
    }
    r
  }

  /** `le` orders every pair and is transitive: a sort order. */
  ghost predicate IsTotalPreorder<T(!new)>(le: (T, T) -> bool) {
    (forall a, b :: le(a, b) || le(b, a))
    && (forall a, b, c :: le(a, b) && le(b, c) ==> le(a, c))
  }

  /** Every element is `le` every later one. */
  predicate SortedBy<T>(xs: seq<T>, le: (T, T) -> bool) {
    forall i, j :: 0 <= i < j < |xs| ==> le(xs[i], xs[j])
  }

  /** Inserts `x` before the first element it is `le`. */
  function InsertBy<T(==,!new)>(x: T, xs: seq<T>, le: (T, T) -> bool): (r: seq<T>)
    requires IsTotalPreorder(le) && SortedBy(xs, le)
    ensures multiset(r) == multiset(xs) + multiset{x}
    ensures SortedBy(r, le)
  {
    if |xs| == 0 then [x]
    else if le(x, xs[0]) then
      LeadBelowSorted(x, xs, le);
      [x] + xs
    else
      var rest := InsertBy(x, xs[1..], le);
      assert xs == [xs[0]] + xs[1..];
      LeadBelowInserted(x, xs, rest, le);
      SortedCons(xs[0], rest, le);
      [xs[0]] + rest
  }

  /** A sorted sequence stays sorted behind an element below all of it. */
  lemma SortedCons<T>(y: T, ys: seq<T>, le: (T, T) -> bool)
    requires SortedBy(ys, le)
    requires forall j :: 0 <= j < |ys| ==> le(y, ys[j])
    ensures SortedBy([y] + ys, le)
  {
    var r := [y] + ys;
    forall i, j | 0 <= i < j < |r| ensures le(r[i], r[j]) {
      assert r[j] == ys[j - 1];
      if i > 0 { assert r[i] == ys[i - 1]; }
    }
  }

  /** An element `le` the head of a sorted sequence is `le` all of it. */
  lemma LeadBelowSorted<T(!new)>(x: T, xs: seq<T>, le: (T, T) -> bool)
    requires IsTotalPreorder(le) && SortedBy(xs, le)
    requires |xs| > 0 && le(x, xs[0])
    ensures SortedBy([x] + xs, le)
  {
    forall j | 0 <= j < |xs| ensures le(x, xs[j]) {
      if j > 0 { assert le(xs[0], xs[j]); }
    }
    SortedCons(x, xs, le);
  }

  /** The head of a sorted sequence is `le` everything inserted behind it. */
  lemma LeadBelowInserted<T(!new)>(x: T, xs: seq<T>, rest: seq<T>, le: (T, T) -> bool)
    requires IsTotalPreorder(le) && SortedBy(xs, le)
    requires |xs| > 0 && !le(x, xs[0])
    requires multiset(rest) == multiset(xs[1..]) + multiset{x}
    ensures forall j :: 0 <= j < |rest| ==> le(xs[0], rest[j])
  {
    forall j | 0 <= j < |rest| ensures le(xs[0], rest[j]) {
      var y := rest[j];
      assert y in multiset(rest);
      if y != x {
        assert y in multiset(xs[1..]);
        var k :| 0 <= k < |xs[1..]| && xs[1..][k] == y;
        assert xs[k + 1] == y;
      }
    }
  }

  /** The collection sorted by the order `le`, stably from the back. */
  function SortBy<T(==,!new)>(xs: seq<T>, le: (T, T) -> bool): (r: seq<T>)
    requires IsTotalPreorder(le)
    ensures multiset(r) == multiset(xs)
    ensures SortedBy(r, le)
  {
    if |xs| == 0 then []
    else
      assert xs == [xs[0]] + xs[1..];
      InsertBy(xs[0], SortBy(xs[1..], le), le)
  }

  /** MongoDB's default string order: code point by code point, a proper
      prefix first. */
  predicate StrLe(a: string, b: string) {
    if |a| == 0 then true
    else if |b| == 0 then false
    else if a[0] != b[0] then a[0] < b[0]
    else StrLe(a[1..], b[1..])
  }

  /** Any two strings are ordered one way or the other. */
  lemma {:induction false} StrLeTotal(a: string, b: string)
    ensures StrLe(a, b) || StrLe(b, a)
  {
    if |a| > 0 && |b| > 0 && a[0] == b[0] {
      StrLeTotal(a[1..], b[1..]);
    }
  }

  /** The string order is transitive. */
  lemma {:induction false} StrLeTrans(a: string, b: string, c: string)
    requires StrLe(a, b) && StrLe(b, c)
    ensures StrLe(a, c)
  {
    if |a| > 0 && |b| > 0 && |c| > 0 && a[0] == b[0] && b[0] == c[0] {
      StrLeTrans(a[1..], b[1..], c[1..]);
    }
  }

  // ---------------------------------------------------------------------
  // Filtering

  /** The documents that satisfy a filter, in collection order. */
  function Filter<T(==)>(xs: seq<T>, keep: T -> bool): (r: seq<T>)
    ensures |r| <= |xs|
    ensures forall i :: 0 <= i < |r| ==> keep(r[i])
    ensures forall i :: 0 <= i < |r| ==> r[i] in xs
    ensures forall i :: 0 <= i < |xs| && keep(xs[i]) ==> xs[i] in r
  {
    if |xs| == 0 then []
    else (if keep(xs[0]) then [xs[0]] else []) + Filter(xs[1..], keep)
  }

  /** The complement of a filter. */
  function Not<T>(keep: T -> bool): T -> bool {
    (x: T) => !keep(x)
  }

  /** A filter and its complement split the collection: what one keeps
      and what the other keeps add up to the whole. */
  lemma {:induction false} FilterPartition<T>(xs: seq<T>, keep: T -> bool)
    ensures |Filter(xs, keep)| + |Filter(xs, Not(keep))| == |xs|
  {
    if |xs| > 0 {
      FilterPartition(xs[1..], keep);
    }
  }

  /** A filter that keeps everything keeps the whole collection. */
  lemma {:induction false} FilterAll<T>(xs: seq<T>, keep: T -> bool)
    requires forall x :: keep(x)
    ensures Filter(xs, keep) == xs
  {
    if |xs| > 0 {
      FilterAll(xs[1..], keep);
      assert xs == [xs[0]] + xs[1..];
    }
  }
}

=== FILE: dafny/password_reset.dfy ===
/** The forgot-password flow (`service/password_reset_service.go` and
    `handlers/password_reset_handler.go`): a request stores a six-digit
    code valid for fifteen minutes, subject to per-user and per-address
    rate limits; the code is traded for the reset token, and the token for
    a new password hash. */
module PasswordReset {
  import opened Wrappers
  import opened Base
  import opened GoStrings
  import opened Users
  import UserStore
  import UserService
  import opened Session
  import opened ResetStore

  const ResetTokenExpiry: int := 15 * Minute
  const MaxRequestsPerHour: nat := 3
  const MaxRequestsPerHourPerIp: nat := 5
  const CodeLength: nat := 6

  /** The service's errors; the last four stand for the wrapped errors of
      failing helpers, and `WeakNewPassword` for the strength check that the
      corrected reset adds. */
  datatype ResetError =
    | UserNotFound | UserInactive | TooManyRequests | InvalidResetCode | ResetTokenUsed
    | SmtpNotConfigured | ResetTokenExpired
    | CodeGenerationFailed | TokenGenerationFailed | HashFailed | UpdateFailed
    | WeakNewPassword

  datatype ResetState = ResetState(users: UserStore.Store, tokens: Tokens)

  // ---------------------------------------------------------------------
  // Verification codes

  /** `generateVerificationCode`: `draw(i)` is the outcome of the i-th call
      to `rand.Int(rand.Reader, 10)`, `None` when it fails; each digit is
      rendered with `big.Int.String`. */
  method GenerateVerificationCode(draw: nat -> Option<nat>) returns (code: Option<string>)
    requires forall i :: draw(i).Some? ==> draw(i).value < 10
    ensures code.Some? <==> forall i :: 0 <= i < CodeLength ==> draw(i).Some?
    ensures code.Some? ==> |code.value| == CodeLength && AllDigits(code.value)
    ensures code.Some? ==> forall i :: 0 <= i < CodeLength ==> code.value[i] == DigitChar(draw(i).value)
  {
    var s := "";
    var i := 0;
    while i < CodeLength
      invariant 0 <= i <= CodeLength && |s| == i
      invariant forall j :: 0 <= j < i ==> draw(j).Some? && s[j] == DigitChar(draw(j).value)
    {
      match draw(i)
      case None =>
        return None;
      case Some(n) =>
        s := s + NatToString(n);
        i := i + 1;
    }
    return Some(s);
  }

  // ---------------------------------------------------------------------
  // Requesting a code

  /** The window of the rate limits: requests created in the last hour. */
  function WindowStart(now: Time): Time {
    now - Hour
  }

  /** Both rate limits leave room for one more request. */
  predicate WithinLimits(tokens: Tokens, u: User, ip: string, now: Time) {
    CountRecentRequests(tokens, u.id, WindowStart(now)) < MaxRequestsPerHour
    && CountRecentRequestsByIp(tokens, ip, WindowStart(now)) < MaxRequestsPerHourPerIp
  }

  /** The document a request stores. */
  function NewResetToken(u: User, id: ObjectId, token: string, code: string, ip: string, now: Time): ResetToken {
    ResetToken(id, u.id, token, code, now + ResetTokenExpiry, false, ip, now)
  }

  /** The user a request is for: the lookup of the trimmed, lower-cased email. */
  function Requested(users: UserStore.Store, email: string): Result<User, UserStore.StoreError> {
    UserStore.FindByEmail(users, UserService.NormalizeEmail(email))
  }

  datatype RequestOutcome = RequestOutcome(tokens: Tokens, result: Outcome<ResetError>)

  /** `RequestPasswordReset`. `code` and `token` are the outcomes of code
      generation and of signing the reset token, `id` the new document's
      identifier, `smtpReady` whether the SMTP settings could be loaded and
      `delivered` whether the email went out. */
  function RequestPasswordReset(st: ResetState, email: string, ip: string, code: Option<string>,
                                token: Option<string>, id: ObjectId, smtpReady: bool, delivered: bool,
                                now: Time): (o: RequestOutcome)
    ensures Requested(st.users, email).Failure? ==> o == RequestOutcome(st.tokens, Fail(UserNotFound))
    ensures Requested(st.users, email).Success? && !Requested(st.users, email).value.isActive ==>
      o == RequestOutcome(st.tokens, Fail(UserInactive))
    ensures o.result == Fail(TooManyRequests) <==>
      var r := Requested(st.users, email);
      r.Success? && r.value.isActive && !WithinLimits(st.tokens, r.value, ip, now)
    ensures |o.tokens| != |st.tokens| <==>
      var r := Requested(st.users, email);
      r.Success? && r.value.isActive && WithinLimits(st.tokens, r.value, ip, now) && code.Some? && token.Some?
    ensures |o.tokens| == |st.tokens| ==> o.tokens == st.tokens && o.result.Fail? && o.result.error != SmtpNotConfigured
    ensures |o.tokens| != |st.tokens| ==>
      var u := Requested(st.users, email).value;
      o.tokens == st.tokens + [NewResetToken(u, id, token.value, code.value, ip, now)]
      && o.result == (if smtpReady then Pass else Fail(SmtpNotConfigured))
  {
    match Requested(st.users, email)
    case Failure(_) => RequestOutcome(st.tokens, Fail(UserNotFound))
    case Success(u) =>
      if !u.isActive then RequestOutcome(st.tokens, Fail(UserInactive))
      else if CountRecentRequests(st.tokens, u.id, WindowStart(now)) >= MaxRequestsPerHour then
        RequestOutcome(st.tokens, Fail(TooManyRequests))
      else if CountRecentRequestsByIp(st.tokens, ip, WindowStart(now)) >= MaxRequestsPerHourPerIp then
        RequestOutcome(st.tokens, Fail(TooManyRequests))
      else if code.None? then RequestOutcome(st.tokens, Fail(CodeGenerationFailed))
      else if token.None? then RequestOutcome(st.tokens, Fail(TokenGenerationFailed))
      else
        var tokens := st.tokens + [NewResetToken(u, id, token.value, code.value, ip, now)];
        if !smtpReady then RequestOutcome(tokens, Fail(SmtpNotConfigured))
        else RequestOutcome(tokens, Pass)
  }

  /** The outcome of sending the email never changes the answer. */
  lemma DeliveryIgnored(st: ResetState, email: string, ip: string, code: Option<string>,
                        token: Option<string>, id: ObjectId, smtpReady: bool, now: Time)
    ensures RequestPasswordReset(st, email, ip, code, token, id, smtpReady, true, now)
         == RequestPasswordReset(st, email, ip, code, token, id, smtpReady, false, now)
  {
  }

  /** The rate limits hold as an invariant: if no user has more than three
      and no address more than five requests in the window ending now, a
      further request keeps it so. */
  lemma RequestKeepsLimits(st: ResetState, email: string, ip: string, code: Option<string>,
                           token: Option<string>, id: ObjectId, smtpReady: bool, delivered: bool,
                           now: Time, userId: ObjectId, addr: string)
    requires CountRecentRequests(st.tokens, userId, WindowStart(now)) <= MaxRequestsPerHour
    requires CountRecentRequestsByIp(st.tokens, addr, WindowStart(now)) <= MaxRequestsPerHourPerIp
    ensures var o := RequestPasswordReset(st, email, ip, code, token, id, smtpReady, delivered, now);
      CountRecentRequests(o.tokens, userId, WindowStart(now)) <= MaxRequestsPerHour
      && CountRecentRequestsByIp(o.tokens, addr, WindowStart(now)) <= MaxRequestsPerHourPerIp
  {
    var o := RequestPasswordReset(st, email, ip, code, token, id, smtpReady, delivered, now);
    if |o.tokens| != |st.tokens| {
      var u := Requested(st.users, email).value;
      var t := NewResetToken(u, id, token.value, code.value, ip, now);
      CountAfterInsert(st.tokens, t, userId, addr, WindowStart(now));
    }
  }

  /** Once a user has three requests in the last hour, a fourth is refused
      and stores nothing, whatever the address. */
  lemma FourthRequestRefused(st: ResetState, email: string, ip: string, code: Option<string>,
                             token: Option<string>, id: ObjectId, smtpReady: bool, delivered: bool, now: Time)
    requires Requested(st.users, email).Success? && Requested(st.users, email).value.isActive
    requires CountRecentRequests(st.tokens, Requested(st.users, email).value.id, WindowStart(now)) >= MaxRequestsPerHour
    ensures RequestPasswordReset(st, email, ip, code, token, id, smtpReady, delivered, now)
         == RequestOutcome(st.tokens, Fail(TooManyRequests))
  {
  }

  // ---------------------------------------------------------------------
  // Token checks

  /** The classification of an unusable document: an expired one is
      reported as expired even when it was also used. */
  function CheckUsable(t: ResetToken, now: Time): (r: Outcome<ResetError>)
    ensures r.Pass? <==> TokenValid(t, now)
    ensures r == Fail(ResetTokenExpired) <==> TokenExpired(t, now)
    ensures r == Fail(ResetTokenUsed) <==> t.used && !TokenExpired(t, now)
  {
    if !TokenValid(t, now) then
      if TokenExpired(t, now) then Fail(ResetTokenExpired)
      else if t.used then Fail(ResetTokenUsed)
      else Fail(InvalidResetCode)
    else Pass
  }

  /** `ValidateResetCode` as written: the first document with the code
      decides, so a stale document shadows a fresh one with the same code. */
  function ValidateResetCodeAsWritten(tokens: Tokens, code: string, now: Time): (r: Result<string, ResetError>)
    ensures r == Failure(InvalidResetCode) <==> forall i :: 0 <= i < |tokens| ==> tokens[i].code != code
    ensures r.Success? ==>
      var k := FirstWithCode(tokens, code).value;
      TokenValid(tokens[k], now) && r.value == tokens[k].token
    ensures r.Failure? ==> r.error in {InvalidResetCode, ResetTokenExpired, ResetTokenUsed}
  {
    match FindByCode(tokens, code)
    case Failure(_) => Failure(InvalidResetCode)
    case Success(t) =>
      match CheckUsable(t, now)
      case Fail(e) => Failure(e)
      case Pass => Success(t.token)
  }

  /** A code issued twice: a used document with the code, then a live one
      with the same code, is refused as used. */
  lemma CollidingCodeRefused(stale: ResetToken, live: ResetToken, now: Time)
    requires stale.code == live.code && stale.used && now <= stale.expiresAt
    requires TokenValid(live, now)
    ensures ValidateResetCodeAsWritten([stale, live], live.code, now) == Failure(ResetTokenUsed)
  {
    assert FirstWithCode([stale, live], live.code) == Some(0);
  }

  /** The first usable document with the code, if any. */
  function FirstUsableWithCode(s: Tokens, code: string, now: Time): (r: Option<nat>)
    ensures r.Some? ==> r.value < |s| && s[r.value].code == code && TokenValid(s[r.value], now)
    ensures r.None? <==> forall i :: 0 <= i < |s| ==> !(s[i].code == code && TokenValid(s[i], now))
  {
    if |s| == 0 then None
    else if s[0].code == code && TokenValid(s[0], now) then Some(0)
    else
      match FirstUsableWithCode(s[1..], code, now)
      case None =>
        assert forall i :: 1 <= i < |s| ==> s[i] == s[1..][i - 1];
        None
      case Some(k) => Some(k + 1)
  }

  /** `ValidateResetCode`, corrected: a usable document with the code is
      preferred; only when there is none does the first document with the
      code say why the code is refused. */
  function ValidateResetCode(tokens: Tokens, code: string, now: Time): (r: Result<string, ResetError>)
    ensures r.Success? <==> exists i :: 0 <= i < |tokens| && tokens[i].code == code && TokenValid(tokens[i], now)
    ensures r.Success? ==> exists i :: 0 <= i < |tokens| && tokens[i].code == code && tokens[i].token == r.value
    ensures r == Failure(InvalidResetCode) <==> forall i :: 0 <= i < |tokens| ==> tokens[i].code != code
  {
    match FirstUsableWithCode(tokens, code, now)
    case Some(k) => Success(tokens[k].token)
    case None => ValidateResetCodeAsWritten(tokens, code, now)
  }

  /** Where the documents' codes are distinct the correction changes nothing. */
  lemma ValidateAgreesOnDistinctCodes(tokens: Tokens, code: string, now: Time)
    requires forall i, j :: 0 <= i < j < |tokens| ==> tokens[i].code != tokens[j].code
    ensures ValidateResetCode(tokens, code, now) == ValidateResetCodeAsWritten(tokens, code, now)
  {
    match FirstUsableWithCode(tokens, code, now)
    case None =>
    case Some(k) =>
      var f := FirstWithCode(tokens, code).value;
      assert f == k;
  }

  // ---------------------------------------------------------------------
  // Resetting the password

  datatype ResetOutcome = ResetOutcome(state: ResetState, result: Outcome<ResetError>)

  /** The change `UpdatePassword` makes to a user's record. */
  function SetPasswordHash(hash: string): User -> User {
    (u: User) => u.(passwordHash := hash)
  }

  /** The writes of a reset whose checks passed: the user's hash, then the
      `used` flag, whose own failure would be ignored. */
  function Apply(st: ResetState, t: ResetToken, hash: Option<string>, now: Time): (o: ResetOutcome)
    ensures o.result.Fail? ==> o.state == st
    ensures o.result.Pass? <==> UserStore.HasId(st.users, t.userId) && hash.Some?
    ensures o.result.Pass? ==>
      o.state.tokens == MarkAsUsed(st.tokens, t.id)
      && o.state.users == UserStore.MapId(st.users, t.userId, SetPasswordHash(hash.value), now)
  {
    match UserStore.FindById(st.users, t.userId)
    case Failure(_) => ResetOutcome(st, Fail(UpdateFailed))
    case Success(u) =>
      if hash.None? then ResetOutcome(st, Fail(HashFailed))
      else
        match UserStore.Update(st.users, u.id, SetPasswordHash(hash.value), now)
        case Failure(_) => ResetOutcome(st, Fail(UpdateFailed))
        case Success(users) => ResetOutcome(ResetState(users, MarkAsUsed(st.tokens, t.id)), Pass)
  }

  /** `ResetPassword` as written: any new password that reaches the service
      is hashed and stored, without the strength check of user creation. */
  function ResetPasswordAsWritten(st: ResetState, token: string, newPassword: string, hash: Option<string>,
                                  now: Time): (o: ResetOutcome)
    ensures FindByToken(st.tokens, token).Failure? ==> o == ResetOutcome(st, Fail(InvalidResetCode))
    ensures o.result.Fail? ==> o.state == st
    ensures FindByToken(st.tokens, token).Success? && !TokenValid(FindByToken(st.tokens, token).value, now) ==>
      o == ResetOutcome(st, CheckUsable(FindByToken(st.tokens, token).value, now))
    ensures o.result.Pass? <==>
      var f := FindByToken(st.tokens, token);
      f.Success? && TokenValid(f.value, now) && UserStore.HasId(st.users, f.value.userId) && hash.Some?
    ensures o.result.Pass? ==>
      var t := FindByToken(st.tokens, token).value;
      o.state.tokens == MarkAsUsed(st.tokens, t.id)
      && o.state.users == UserStore.MapId(st.users, t.userId, SetPasswordHash(hash.value), now)
  {
    match FindByToken(st.tokens, token)
    case Failure(_) => ResetOutcome(st, Fail(InvalidResetCode))
    case Success(t) =>
      match CheckUsable(t, now)
      case Fail(e) => ResetOutcome(st, Fail(e))
      case Pass => Apply(st, t, hash, now)
  }

  /** `ResetPassword`, corrected: after the token checks the new password
      must pass `ValidatePassword`, as it must on creation and on change. */
  function ResetPassword(st: ResetState, token: string, newPassword: string, hash: Option<string>,
                         now: Time): (o: ResetOutcome)
    ensures FindByToken(st.tokens, token).Failure? ==> o == ResetOutcome(st, Fail(InvalidResetCode))
    ensures FindByToken(st.tokens, token).Success? && !TokenValid(FindByToken(st.tokens, token).value, now) ==>
      o == ResetOutcome(st, CheckUsable(FindByToken(st.tokens, token).value, now))
    ensures o.result.Fail? ==> o.state == st
    ensures o.result.Pass? ==>
      var t := FindByToken(st.tokens, token).value;
      FindByToken(st.tokens, token).Success? && TokenValid(t, now) && IsStrongPassword(newPassword)
      && hash.Some? && o.state.tokens == MarkAsUsed(st.tokens, t.id)
      && o.state.users == UserStore.MapId(st.users, t.userId, SetPasswordHash(hash.value), now)
    ensures o.result.Pass? <==>
      ResetPasswordAsWritten(st, token, newPassword, hash, now).result.Pass? && IsStrongPassword(newPassword)
  {
    match FindByToken(st.tokens, token)
    case Failure(_) => ResetOutcome(st, Fail(InvalidResetCode))
    case Success(t) =>
      match CheckUsable(t, now)
      case Fail(e) => ResetOutcome(st, Fail(e))
      case Pass =>
        if ValidatePassword(newPassword).Fail? then ResetOutcome(st, Fail(WeakNewPassword))
        else Apply(st, t, hash, now)
  }

  /** Eight lower-case letters: long enough for the request binding, too weak for `ValidatePassword`. */
  const WeakExample: string := "aaaaaaaa"

  /** The as-written reset stores a password that user creation would
      refuse, where the corrected one refuses it and changes nothing. */
  lemma WeakResetAccepted(st: ResetState, token: string, hash: string, now: Time)
    requires FindByToken(st.tokens, token).Success?
    requires TokenValid(FindByToken(st.tokens, token).value, now)
    requires UserStore.HasId(st.users, FindByToken(st.tokens, token).value.userId)
    ensures |WeakExample| >= 8 && !IsStrongPassword(WeakExample)
    ensures ResetPasswordAsWritten(st, token, WeakExample, Some(hash), now).result.Pass?
    ensures ResetPassword(st, token, WeakExample, Some(hash), now) == ResetOutcome(st, Fail(WeakNewPassword))
  {
    assert !HasClass(WeakExample, Upper) by {
      forall i | 0 <= i < |WeakExample| ensures ClassOf(WeakExample[i]) != Upper {
      }
    }
  }

  /** A reset token works once: after a successful reset the same token is
      refused at any later instant, as used or, past its deadline, as expired. */
  lemma ResetTokenSingleUse(st: ResetState, token: string, pw: string, hash: Option<string>, now: Time,
                            pw2: string, hash2: Option<string>, later: Time)
    requires forall i, j :: 0 <= i < j < |st.tokens| ==> st.tokens[i].id != st.tokens[j].id
    requires ResetPasswordAsWritten(st, token, pw, hash, now).result.Pass?
    ensures var next := ResetPasswordAsWritten(st, token, pw, hash, now).state;
      ResetPasswordAsWritten(next, token, pw2, hash2, later).result in {Fail(ResetTokenUsed), Fail(ResetTokenExpired)}
  {
    var next := ResetPasswordAsWritten(st, token, pw, hash, now).state;
    var k := FirstWithToken(st.tokens, token).value;
    var t := st.tokens[k];
    assert FirstWithId(st.tokens, t.id) == Some(k);
    MarkAsUsedKeepsKeys(st.tokens, t.id, token);
    assert next.tokens[k] == t.(used := true);
    assert FindByToken(next.tokens, token) == Success(t.(used := true));
  }

  /** After a successful reset the user's record carries the new hash. */
  lemma ResetStoresHash(st: ResetState, token: string, pw: string, hash: Option<string>, now: Time)
    requires ResetPasswordAsWritten(st, token, pw, hash, now).result.Pass?
    ensures var t := FindByToken(st.tokens, token).value;
      var users := ResetPasswordAsWritten(st, token, pw, hash, now).state.users;
      UserStore.FindById(users, t.userId).Success?
      && UserStore.FindById(users, t.userId).value.passwordHash == hash.value
  {
    var t := FindByToken(st.tokens, token).value;
    UserStore.FindByIdAfterMap(st.users, t.userId, SetPasswordHash(hash.value), now);
  }

  // ---------------------------------------------------------------------
  // Handlers

  /** `ForgotPassword`: the status of the service's answer. */
  function ForgotPasswordStatus(r: Outcome<ResetError>): (code: int)
    ensures code == 200 <==> r.Pass?
    ensures code == 404 <==> r == Fail(UserNotFound)
    ensures code == 429 <==> r == Fail(TooManyRequests)
    ensures code == 403 <==> r == Fail(UserInactive)
    ensures code == 400 <==> r.Fail? && r.error !in {UserNotFound, TooManyRequests, UserInactive}
  {
    match r
    case Pass => 200
    case Fail(e) =>
      if e == UserNotFound then 404
      else if e == TooManyRequests then 429
      else if e == UserInactive then 403
      else 400
  }

  /** The binding of `ForgotPasswordRequest`: the email is required and must
      look like an address (`emailOk` stands for the validator's check). */
  predicate ForgotBound(email: string, emailOk: string -> bool) {
    email != "" && emailOk(email)
  }

  /** The forgot-password endpoint: a body the binding refuses is answered 400
      before the service is called, so nothing is stored; otherwise the status
      of the service's answer. */
  function ForgotPassword(st: ResetState, email: string, emailOk: string -> bool, ip: string,
                          code: Option<string>, token: Option<string>, id: ObjectId,
                          smtpReady: bool, delivered: bool, now: Time): (r: (Tokens, int))
    ensures !ForgotBound(email, emailOk) ==> r == (st.tokens, 400)
    ensures ForgotBound(email, emailOk) ==>
      var o := RequestPasswordReset(st, email, ip, code, token, id, smtpReady, delivered, now);
      r.0 == o.tokens && r.1 == ForgotPasswordStatus(o.result)
    ensures r.1 == 404 <==>
      ForgotBound(email, emailOk) && Requested(st.users, email).Failure?
    ensures r.1 == 200 ==> ForgotBound(email, emailOk) && |r.0| == |st.tokens| + 1
  {
    if !ForgotBound(email, emailOk) then (st.tokens, 400)
    else
      var o := RequestPasswordReset(st, email, ip, code, token, id, smtpReady, delivered, now);
      (o.tokens, ForgotPasswordStatus(o.result))
  }

  /** An address the binding refuses is 400, never the 404 of an unknown
      user, whatever is stored. */
  lemma MalformedEmailIsBadRequest(st: ResetState, email: string, emailOk: string -> bool, ip: string,
                                   code: Option<string>, token: Option<string>, id: ObjectId,
                                   smtpReady: bool, delivered: bool, now: Time)
    requires !emailOk(email)
    ensures ForgotPassword(st, email, emailOk, ip, code, token, id, smtpReady, delivered, now) == (st.tokens, 400)
  {
  }

  /** A request that stored its code but found no SMTP settings is still
      answered 400, though the code now counts against the limits. */
  lemma SmtpFailureKeepsCode(st: ResetState, email: string, ip: string, code: Option<string>,
                             token: Option<string>, id: ObjectId, delivered: bool, now: Time)
    requires var r := Requested(st.users, email);
      r.Success? && r.value.isActive && WithinLimits(st.tokens, r.value, ip, now) && code.Some? && token.Some?
    ensures var o := RequestPasswordReset(st, email, ip, code, token, id, false, delivered, now);
      ForgotPasswordStatus(o.result) == 400
      && CountRecentRequests(o.tokens, Requested(st.users, email).value.id, WindowStart(now))
         == CountRecentRequests(st.tokens, Requested(st.users, email).value.id, WindowStart(now)) + 1
  {
    var u := Requested(st.users, email).value;
    CountAfterInsert(st.tokens, NewResetToken(u, id, token.value, code.value, ip, now), u.id, ip, WindowStart(now));
  }

  /** The status shared by the code-validation and reset handlers. */
  function TokenStepStatus(r: Outcome<ResetError>): (code: int)
    ensures code == 200 <==> r.Pass?
    ensures code == 404 <==> r.Fail? && r.error in {InvalidResetCode, ResetTokenExpired, ResetTokenUsed}
    ensures code == 400 <==> r.Fail? && r.error !in {InvalidResetCode, ResetTokenExpired, ResetTokenUsed}
  {
    match r
    case Pass => 200
    case Fail(e) =>
      if e == InvalidResetCode || e == ResetTokenExpired || e == ResetTokenUsed then 404 else 400
  }

  /** `ValidateResetCode` handler: the binding wants exactly six
      characters, then the first document with the code decides. */
  function ValidateCodeStatus(tokens: Tokens, code: string, now: Time): (status: int)
    ensures status == 400 <==> |code| != CodeLength
    ensures status == 200 <==>
      |code| == CodeLength && FirstWithCode(tokens, code).Some?
      && TokenValid(tokens[FirstWithCode(tokens, code).value], now)
    ensures status == 404 <==>
      |code| == CodeLength
      && (FirstWithCode(tokens, code).None? || !TokenValid(tokens[FirstWithCode(tokens, code).value], now))
  {
    if |code| != CodeLength then 400
    else
      match ValidateResetCodeAsWritten(tokens, code, now)
      case Success(_) => 200
      case Failure(e) => TokenStepStatus(Fail(e))
  }

  /** The handler over the corrected validation: a code is accepted exactly
      when some usable document carries it. */
  function ValidateCodeStatusCorrected(tokens: Tokens, code: string, now: Time): (status: int)
    ensures status == 400 <==> |code| != CodeLength
    ensures status == 200 <==>
      |code| == CodeLength && exists i :: 0 <= i < |tokens| && tokens[i].code == code && TokenValid(tokens[i], now)
  {
    if |code| != CodeLength then 400
    else
      match ValidateResetCode(tokens, code, now)
      case Success(_) => 200
      case Failure(e) => TokenStepStatus(Fail(e))
  }

  /** A live code behind a used one with the same code is answered 404 as
      written and 200 once corrected. */
  lemma ShadowedCodeStatus(stale: ResetToken, live: ResetToken, now: Time)
    requires stale.code == live.code && |live.code| == CodeLength
    requires stale.used && now <= stale.expiresAt && TokenValid(live, now)
    ensures ValidateCodeStatus([stale, live], live.code, now) == 404
    ensures ValidateCodeStatusCorrected([stale, live], live.code, now) == 200
  {
    assert FirstWithCode([stale, live], live.code) == Some(0);
    assert [stale, live][1] == live;
  }

  /** `ResetPassword` handler: the binding wants a token and a new password
      of at least eight characters before the service is called. */
  function ResetPasswordHandler(st: ResetState, token: string, newPassword: string, hash: Option<string>,
                                now: Time): (r: (ResetState, int))
    ensures token == "" || |newPassword| < 8 ==> r == (st, 400)
    ensures r.1 == 200 <==>
      token != "" && |newPassword| >= 8 && ResetPasswordAsWritten(st, token, newPassword, hash, now).result.Pass?
    ensures r.1 == 200 ==>
      var t := FindByToken(st.tokens, token).value;
      r.0.tokens == MarkAsUsed(st.tokens, t.id)
      && r.0.users == UserStore.MapId(st.users, t.userId, SetPasswordHash(hash.value), now)
    ensures r.1 != 200 ==> r.0 == st
  {
    if token == "" || |newPassword| < 8 then (st, 400)
    else
      var o := ResetPasswordAsWritten(st, token, newPassword, hash, now);
      (o.state, TokenStepStatus(o.result))
  }

  /** The handler over the corrected reset: only a strong password is stored. */
  function ResetPasswordHandlerCorrected(st: ResetState, token: string, newPassword: string, hash: Option<string>,
                                         now: Time): (r: (ResetState, int))
    ensures token == "" || |newPassword| < 8 ==> r == (st, 400)
    ensures r.1 == 200 ==> IsStrongPassword(newPassword) && r.0 == ResetPassword(st, token, newPassword, hash, now).state
    ensures r.1 != 200 ==> r.0 == st
  {
    if token == "" || |newPassword| < 8 then (st, 400)
    else
      var o := ResetPassword(st, token, newPassword, hash, now);
      (o.state, TokenStepStatus(o.result))
  }

  /** With a usable token, "aaaaaaaa" is answered 200 as written and 400
      once corrected. */
  lemma WeakResetStatus(st: ResetState, token: string, hash: string, now: Time)
    requires token != ""
    requires FindByToken(st.tokens, token).Success?
    requires TokenValid(FindByToken(st.tokens, token).value, now)
    requires UserStore.HasId(st.users, FindByToken(st.tokens, token).value.userId)
    ensures ResetPasswordHandler(st, token, WeakExample, Some(hash), now).1 == 200
    ensures ResetPasswordHandlerCorrected(st, token, WeakExample, Some(hash), now) == (st, 400)
  {
    WeakResetAccepted(st, token, hash, now);
  }
}

=== FILE: dafny/referral_config.dfy ===
/** The REDCap referral configuration and its URL check (`models/referral_config.go`). */
module ReferralConfig {
  import opened Wrappers
  import opened Base

  datatype Config = Config(
    id: ObjectId,
    redcapUrl: string,
    isEnabled: bool,
    isConfigured: bool,
    createdAt: Time,
    updatedAt: Time,
    updatedBy: Option<ObjectId>)

  datatype UpdateRequest = UpdateRequest(redcapUrl: Option<string>, isEnabled: Option<bool>)

  /** The parts of a parsed URL that the check reads; Go's parser lower-cases the scheme. */
  datatype ParsedUrl = ParsedUrl(scheme: string, host: string)

  /** `url.Parse`, a library parser supplied by the caller: `None` is a parse error. */
  type UrlParser = string -> Option<ParsedUrl>

  /** Why `validateURL` refused a URL. */
  datatype UrlError = EmptyUrl | Unparsable | BadScheme | NoHost

  /** `validateURL`: non-empty, parsable, scheme http or https, non-empty host. */
  function ValidateUrl(url: string, parse: UrlParser): (r: Outcome<UrlError>)
    ensures r.Pass? <==>
      (url != "" && parse(url).Some? && parse(url).value.scheme in {"http", "https"} && parse(url).value.host != "")
    ensures url == "" ==> r == Fail(EmptyUrl)
  {
    if url == "" then Fail(EmptyUrl)
    else match parse(url)
      case None => Fail(Unparsable)
      case Some(u) =>
        if u.scheme != "http" && u.scheme != "https" then Fail(BadScheme)
        else if u.host == "" then Fail(NoHost)
        else Pass
  }

  datatype ConfigError = RedCapUrlRequired | InvalidRedCapUrl

  /** `ReferralConfig.Validate`: only an enabled configuration is checked;
      it needs a URL, and every URL failure is reported alike. */
  function ValidateConfig(c: Config, parse: UrlParser): (r: Outcome<ConfigError>)
    ensures !c.isEnabled ==> r.Pass?
    ensures c.isEnabled && c.redcapUrl == "" ==> r == Fail(RedCapUrlRequired)
    ensures c.isEnabled && c.redcapUrl != "" ==>
      (r.Pass? <==> ValidateUrl(c.redcapUrl, parse).Pass?)
      && (r.Fail? ==> r.error == InvalidRedCapUrl)
  {
    if c.isEnabled then
      if c.redcapUrl == "" then Fail(RedCapUrlRequired)
      else if ValidateUrl(c.redcapUrl, parse).Fail? then Fail(InvalidRedCapUrl)
      else Pass
    else Pass
  }

  /** An enabled configuration is valid iff its URL is an http(s) URL with a host. */
  lemma EnabledValidIff(c: Config, parse: UrlParser)
    requires c.isEnabled
    ensures ValidateConfig(c, parse).Pass? <==>
      (c.redcapUrl != "" && parse(c.redcapUrl).Some?
       && parse(c.redcapUrl).value.scheme in {"http", "https"} && parse(c.redcapUrl).value.host != "")
  {
  }
}

=== FILE: dafny/referral_service.dfy ===
/** The REDCap referral service (`service/referral_service.go`): reading the
    configuration with `IsConfigured` recomputed from the URL, merging an
    update into it, and the access log and URL lookup that require the
    system to be enabled. Audit entries are returned as values; the store
    call that writes them is an outcome supplied by the caller. */
module ReferralService {
  import opened Wrappers
  import opened Base
  import opened ReferralConfig
  import RS = ReferralStore

  datatype ReferralError =
    | NotConfigured
    | Disabled
    | Invalid(reason: ConfigError)
    | Store(cause: RS.StoreError)
    | AuditFailed

  /** The details of a `referral_config_updated` audit entry. */
  datatype UpdateAudit = UpdateAudit(userId: ObjectId, oldUrl: string, newUrl: string, oldEnabled: bool, newEnabled: bool, ip: string)

  /** A `referral_accessed` audit entry. */
  datatype AccessAudit = AccessAudit(userId: ObjectId, redcapUrl: string, ip: string, userAgent: string)

  /** `GetReferralConfig`: the stored configuration with `IsConfigured`
      recomputed; no configuration is `ErrReferralNotConfigured`. */
  function GetReferralConfig(s: RS.Store): (r: Result<Config, ReferralError>)
    ensures r.Failure? <==> s.None?
    ensures r.Failure? ==> r.error == NotConfigured
    ensures r.Success? ==> (r.value.isConfigured <==> r.value.redcapUrl != "")
    ensures r.Success? ==> r.value.(isConfigured := s.value.isConfigured) == s.value
  {
    match RS.GetConfig(s)
    case Failure(_) => Failure(NotConfigured)
    case Success(c) => Success(c.(isConfigured := c.redcapUrl != ""))
  }

  /** The configuration an update starts from: the stored one, or an empty
      disabled one with the nil identifier. */
  function Starting(s: RS.Store): (c: Config)
    ensures s.Some? ==> c == s.value
    ensures s.None? ==> c.id == NilId && c.redcapUrl == "" && !c.isEnabled
  {
    match s
    case Some(c) => c
    case None => Config(NilId, "", false, false, 0, 0, None)
  }

  /** The merge of `UpdateReferralConfig`: only the fields the request
      carries are overwritten; the flag follows the URL and the updater is
      recorded. */
  function Merge(c: Config, req: UpdateRequest, userId: ObjectId): (m: Config)
    ensures req.redcapUrl.Some? ==> m.redcapUrl == req.redcapUrl.value
    ensures req.redcapUrl.None? ==> m.redcapUrl == c.redcapUrl
    ensures req.isEnabled.Some? ==> m.isEnabled == req.isEnabled.value
    ensures req.isEnabled.None? ==> m.isEnabled == c.isEnabled
    ensures m.isConfigured <==> m.redcapUrl != ""
    ensures m.updatedBy == Some(userId)
    ensures m.id == c.id && m.createdAt == c.createdAt && m.updatedAt == c.updatedAt
  {
    var url := req.redcapUrl.GetOr(c.redcapUrl);
    c.(redcapUrl := url, isEnabled := req.isEnabled.GetOr(c.isEnabled), isConfigured := url != "", updatedBy := Some(userId))
  }

  /** Merging the same request twice is merging it once. */
  lemma MergeIdempotent(c: Config, req: UpdateRequest, userId: ObjectId)
    ensures Merge(Merge(c, req, userId), req, userId) == Merge(c, req, userId)
  {
  }

  datatype Updated = Updated(store: RS.Store, config: Config, audit: UpdateAudit)

  /** `UpdateReferralConfig`: merge, validate, then create (nil identifier)
      or update; a configuration that fails validation is not saved. The
      audit write's failure is ignored, so the entry is simply returned. */
  function UpdateReferralConfig(s: RS.Store, req: UpdateRequest, userId: ObjectId, ip: string,
                                parse: UrlParser, newId: ObjectId, now: Time): (r: Result<Updated, ReferralError>)
    ensures var m := Merge(Starting(s), req, userId);
      (ValidateConfig(m, parse).Fail? ==> r == Failure(Invalid(ValidateConfig(m, parse).error)))
      && (r.Success? ==>
            ValidateConfig(m, parse).Pass?
            && r.value.config.(id := m.id, createdAt := m.createdAt, updatedAt := m.updatedAt) == m
            && r.value.config.updatedAt == now)
    ensures s.None? && r.Success? ==> r.value.config.id == newId && r.value.config.createdAt == now
    ensures s.Some? && s.value.id != NilId && r.Success? ==> r.value.config.id == s.value.id
    ensures r.Success? ==> r.value.audit.oldUrl == Starting(s).redcapUrl && r.value.audit.newUrl == r.value.config.redcapUrl
    ensures r.Failure? ==> r.error.Invalid? || r.error == Store(RS.AlreadyExists)
    ensures r.Success? <==>
      ValidateConfig(Merge(Starting(s), req, userId), parse).Pass? && (s.None? || s.value.id != NilId)
    ensures r == Failure(Store(RS.AlreadyExists)) <==>
      ValidateConfig(Merge(Starting(s), req, userId), parse).Pass? && s.Some? && s.value.id == NilId
    ensures r.Success? ==>
      r.value.audit.userId == userId && r.value.audit.ip == ip
      && r.value.audit.oldEnabled == Starting(s).isEnabled && r.value.audit.newEnabled == r.value.config.isEnabled
  {
    var prev := Starting(s);
    var m := Merge(prev, req, userId);
    match ValidateConfig(m, parse)
    case Fail(e) => Failure(Invalid(e))
    case Pass =>
      var audit := UpdateAudit(userId, prev.redcapUrl, m.redcapUrl, prev.isEnabled, m.isEnabled, ip);
      if m.id == NilId then
        match RS.CreateConfig(s, m, newId, now)
        case Failure(e) => Failure(Store(e))
        case Success(created) => Success(Updated(created.0, created.1, audit))
      else
        match RS.UpdateConfig(s, m, now)
        case Failure(e) => Failure(Store(e))
        case Success(t) => Success(Updated(t, m.(updatedAt := now), audit))
  }

  /** What an update answers is what a later read returns, `IsConfigured`
      included, although the store never rewrites that flag. */
  lemma UpdateThenGet(s: RS.Store, req: UpdateRequest, userId: ObjectId, ip: string,
                      parse: UrlParser, newId: ObjectId, now: Time)
    requires UpdateReferralConfig(s, req, userId, ip, parse, newId, now).Success?
    ensures var u := UpdateReferralConfig(s, req, userId, ip, parse, newId, now).value;
      GetReferralConfig(u.store) == Success(u.config)
  {
  }

  /** With no configuration stored, an update that only enables the system
      is refused for the missing URL and nothing is stored. */
  lemma EnableWithoutUrlRefused(req: UpdateRequest, userId: ObjectId, ip: string, parse: UrlParser, newId: ObjectId, now: Time)
    requires req.redcapUrl.None? && req.isEnabled == Some(true)
    ensures UpdateReferralConfig(None, req, userId, ip, parse, newId, now) == Failure(Invalid(RedCapUrlRequired))
  {
  }

  /** `LogReferralAccess`: refused without a configuration or while
      disabled; otherwise the access entry, unless the audit write fails. */
  function LogReferralAccess(s: RS.Store, userId: ObjectId, ip: string, userAgent: string, auditWritten: bool)
    : (r: Result<AccessAudit, ReferralError>)
    ensures s.None? ==> r == Failure(NotConfigured)
    ensures s.Some? && !s.value.isEnabled ==> r == Failure(Disabled)
    ensures r.Success? <==> s.Some? && s.value.isEnabled && auditWritten
    ensures r.Success? ==> r.value == AccessAudit(userId, s.value.redcapUrl, ip, userAgent)
  {
    match GetReferralConfig(s)
    case Failure(e) => Failure(e)
    case Success(c) =>
      if !c.isEnabled then Failure(Disabled)
      else if !auditWritten then Failure(AuditFailed)
      else Success(AccessAudit(userId, c.redcapUrl, ip, userAgent))
  }

  /** `GetReferralURL`: the URL, only while enabled. */
  function GetReferralURL(s: RS.Store): (r: Result<string, ReferralError>)
    ensures s.None? ==> r == Failure(NotConfigured)
    ensures s.Some? && !s.value.isEnabled ==> r == Failure(Disabled)
    ensures r.Success? <==> s.Some? && s.value.isEnabled
    ensures r.Success? ==> r.value == s.value.redcapUrl
  {
    match GetReferralConfig(s)
    case Failure(e) => Failure(e)
    case Success(c) => if !c.isEnabled then Failure(Disabled) else Success(c.redcapUrl)
  }

  /** The URL handed out is the one the access entry records, and an
      enabled configuration that passed validation hands out a non-empty
      URL. */
  lemma UrlMatchesAccessLog(s: RS.Store, userId: ObjectId, ip: string, userAgent: string, parse: UrlParser)
    requires LogReferralAccess(s, userId, ip, userAgent, true).Success?
    requires ValidateConfig(s.value, parse).Pass?
    ensures GetReferralURL(s).Success?
    ensures GetReferralURL(s).value == LogReferralAccess(s, userId, ip, userAgent, true).value.redcapUrl
    ensures GetReferralURL(s).value != ""
  {
  }
}

/** The HTTP layer of referrals (`handlers/referral_handler.go`). */
module ReferralHandler {
  import opened Wrappers
  import opened Base
  import opened ReferralConfig
  import RS = ReferralStore
  import opened ReferralService

  /** The user view: configured, enabled and the URL. */
  datatype UserView = UserView(isConfigured: bool, isEnabled: bool, redcapUrl: string)

  /** `GetConfig`: always 200 for a stored or missing configuration; a
      missing one shows as unconfigured, disabled, with no URL. */
  function GetConfig(s: RS.Store): (r: (int, UserView))
    ensures r.0 == 200
    ensures s.None? ==> r.1 == UserView(false, false, "")
    ensures s.Some? ==> r.1 == UserView(s.value.redcapUrl != "", s.value.isEnabled, s.value.redcapUrl)
  {
    match GetReferralConfig(s)
    case Failure(_) => (200, UserView(false, false, ""))
    case Success(c) => (200, UserView(c.isConfigured, c.isEnabled, c.redcapUrl))
  }

  /** `GetAdminConfig`: 404 when not configured, otherwise 200. */
  function GetAdminConfigStatus(s: RS.Store): (code: int)
    ensures code == 404 <==> s.None?
    ensures code == 200 <==> s.Some?
  {
    match GetReferralConfig(s)
    case Failure(NotConfigured) => 404
    case Failure(_) => 500
    case Success(_) => 200
  }

  /** `UpdateConfig`: 401 without a caller; every service error, a failed
      validation included, is answered 500. */
  function UpdateConfigStatus(userId: Option<ObjectId>, s: RS.Store, req: UpdateRequest, ip: string,
                              parse: UrlParser, newId: ObjectId, now: Time): (code: int)
    ensures userId.None? ==> code == 401
    ensures userId.Some? ==>
      (code == 200 <==> UpdateReferralConfig(s, req, userId.value, ip, parse, newId, now).Success?)
      && (code != 200 ==> code == 500)
  {
    match userId
    case None => 401
    case Some(id) =>
      if UpdateReferralConfig(s, req, id, ip, parse, newId, now).Success? then 200 else 500
  }

  /** The answer of `LogAccess`: the audit entry written (if any), the
      status and the redirect URL. */
  datatype AccessAnswer = AccessAnswer(logged: Option<AccessAudit>, code: int, redirectUrl: Option<string>)

  /** `LogAccess`: 401 without a caller, 404 when not configured, 403 when
      disabled, 500 for a failed audit write; the URL is fetched only after
      the access was logged. */
  function LogAccess(s: RS.Store, userId: Option<ObjectId>, ip: string, userAgent: string, auditWritten: bool)
    : (a: AccessAnswer)
    ensures userId.None? ==> a.code == 401
    ensures userId.Some? && s.None? ==> a.code == 404
    ensures userId.Some? && s.Some? && !s.value.isEnabled ==> a.code == 403
    ensures a.redirectUrl.Some? <==> a.code == 200
    ensures a.redirectUrl.Some? ==> a.logged.Some? && a.logged.value.redcapUrl == a.redirectUrl.value
    ensures a.code == 200 <==> userId.Some? && s.Some? && s.value.isEnabled && auditWritten
  {
    match userId
    case None => AccessAnswer(None, 401, None)
    case Some(id) =>
      match LogReferralAccess(s, id, ip, userAgent, auditWritten)
      case Failure(NotConfigured) => AccessAnswer(None, 404, None)
      case Failure(Disabled) => AccessAnswer(None, 403, None)
      case Failure(_) => AccessAnswer(None, 500, None)
      case Success(entry) =>
        match GetReferralURL(s)
        case Failure(_) => AccessAnswer(Some(entry), 500, None)
        case Success(url) => AccessAnswer(Some(entry), 200, Some(url))
  }
}

=== FILE: dafny/referral_store.dfy ===
/** The `referral_config` collection (`repository/referral_config_repository.go`):
    a singleton created once and then updated in four fields only; the
    stored `is_configured` flag is written on creation and never again. */
module ReferralStore {
  import opened Wrappers
  import opened Base
  import opened ReferralConfig

  /** The collection: no document, or the one configuration. */
  type Store = Option<Config>

  datatype StoreError = ConfigNotFound | AlreadyExists

  /** `GetConfig`. */
  function GetConfig(s: Store): (r: Result<Config, StoreError>)
    ensures r.Success? <==> s.Some?
    ensures r.Success? ==> r.value == s.value
    ensures r.Failure? ==> r.error == ConfigNotFound
  {
    match s
    case Some(c) => Success(c)
    case None => Failure(ConfigNotFound)
  }

  /** `CreateConfig`: refused while a configuration exists; otherwise the
      given one is stored with both timestamps now and the identifier the
      insert assigns. */
  function CreateConfig(s: Store, c: Config, newId: ObjectId, now: Time): (r: Result<(Store, Config), StoreError>)
    ensures r.Failure? <==> s.Some?
    ensures r.Failure? ==> r.error == AlreadyExists
    ensures r.Success? ==>
      r.value.0 == Some(r.value.1) && r.value.1.id == newId && r.value.1.createdAt == now && r.value.1.updatedAt == now
      && r.value.1.redcapUrl == c.redcapUrl && r.value.1.isEnabled == c.isEnabled
      && r.value.1.isConfigured == c.isConfigured && r.value.1.updatedBy == c.updatedBy
  {
    if s.Some? then Failure(AlreadyExists)
    else
      var stored := c.(id := newId, createdAt := now, updatedAt := now);
      Success((Some(stored), stored))
  }

  /** `UpdateConfig`: writes the URL, the enabled flag, the update time and
      the updater of whatever document is stored, and nothing else. */
  function UpdateConfig(s: Store, c: Config, now: Time): (r: Result<Store, StoreError>)
    ensures r.Failure? <==> s.None?
    ensures r.Failure? ==> r.error == ConfigNotFound
    ensures r.Success? ==>
      r.value.Some?
      && r.value.value.redcapUrl == c.redcapUrl && r.value.value.isEnabled == c.isEnabled
      && r.value.value.updatedAt == now && r.value.value.updatedBy == c.updatedBy
      && r.value.value.id == s.value.id && r.value.value.createdAt == s.value.createdAt
      && r.value.value.isConfigured == s.value.isConfigured
  {
    match s
    case None => Failure(ConfigNotFound)
    case Some(stored) =>
      Success(Some(stored.(redcapUrl := c.redcapUrl, isEnabled := c.isEnabled, updatedAt := now, updatedBy := c.updatedBy)))
  }

  /** The stored flag can go stale: clearing the URL of a configured record
      leaves the record marked configured. */
  lemma StoredFlagNotRewritten(s: Store, c: Config, now: Time)
    requires s.Some? && s.value.isConfigured && c.redcapUrl == ""
    ensures var r := UpdateConfig(s, c, now).value.value;
      r.isConfigured && r.redcapUrl == ""
  {
  }
}

=== FILE: dafny/registry_config.dfy ===
/** The registry configuration and its SMTP settings (`models/registry_config.go`). */
module RegistryConfig {
  import opened Wrappers
  import opened Base

  datatype SmtpConfig = SmtpConfig(
    host: string,
    port: int,
    username: string,
    password: string,
    fromEmail: string,
    fromName: string)

  datatype Config = Config(
    id: ObjectId,
    videoUrl: string,
    documentsPath: string,
    notificationEmails: seq<string>,
    smtp: SmtpConfig,
    createdAt: Time,
    updatedAt: Time,
    updatedBy: Option<ObjectId>)

  /** `UpdateRegistryConfigRequest`: every field optional. */
  datatype UpdateRequest = UpdateRequest(
    videoUrl: Option<string>,
    documentsPath: Option<string>,
    notificationEmails: Option<seq<string>>,
    smtpHost: Option<string>,
    smtpPort: Option<int>,
    smtpUsername: Option<string>,
    smtpPassword: Option<string>,
    smtpFromEmail: Option<string>,
    smtpFromName: Option<string>)

  /** `ValidateEmail`, whose definition is not part of this model, supplied by the caller. */
  type EmailCheck = string -> bool

  /** The errors of both validators, in the order the registry config checks them. */
  datatype ConfigError =
    | InvalidVideoUrl | InvalidDocumentsPath | NoNotificationEmails | InvalidNotificationEmail
    | InvalidSmtpHost | InvalidSmtpPort | InvalidSmtpUsername | InvalidSmtpPassword | InvalidFromEmail
  {
    function Rank(): nat {
      match this
      case InvalidVideoUrl => 0
      case InvalidDocumentsPath => 1
      case NoNotificationEmails => 2
      case InvalidNotificationEmail => 3
      case InvalidSmtpHost => 4
      case InvalidSmtpPort => 5
      case InvalidSmtpUsername => 6
      case InvalidSmtpPassword => 7
      case InvalidFromEmail => 8
    }

    predicate IsSmtpError() {
      Rank() >= 4
    }
  }

  /** Each SMTP check on its own. */
  predicate SmtpCheckFails(s: SmtpConfig, emailOk: EmailCheck, e: ConfigError) {
    match e
    case InvalidSmtpHost => s.host == ""
    case InvalidSmtpPort => s.port < 1 || s.port > 65535
    case InvalidSmtpUsername => s.username == ""
    case InvalidSmtpPassword => s.password == ""
    case InvalidFromEmail => s.fromEmail == "" || !emailOk(s.fromEmail)
    case _ => false
  }

  /** `SMTPConfig.Validate`: host, port in 1..65535, username, password,
      then the sender address, present and well formed. */
  function ValidateSmtp(s: SmtpConfig, emailOk: EmailCheck): (r: Outcome<ConfigError>)
    ensures r.Pass? ==> forall e :: !SmtpCheckFails(s, emailOk, e)
    ensures r.Fail? ==> r.error.IsSmtpError() && SmtpCheckFails(s, emailOk, r.error)
    ensures r.Fail? ==> forall e: ConfigError :: e.Rank() < r.error.Rank() ==> !SmtpCheckFails(s, emailOk, e)
  {
    if s.host == "" then Fail(InvalidSmtpHost)
    else if s.port < 1 || s.port > 65535 then Fail(InvalidSmtpPort)
    else if s.username == "" then Fail(InvalidSmtpUsername)
    else if s.password == "" then Fail(InvalidSmtpPassword)
    else if s.fromEmail == "" then Fail(InvalidFromEmail)
    else if !emailOk(s.fromEmail) then Fail(InvalidFromEmail)
    else Pass
  }

  /** `SMTPConfig.IsComplete`: every required field is filled in. */
  predicate IsComplete(s: SmtpConfig) {
    s.host != "" && s.port > 0 && s.username != "" && s.password != "" && s.fromEmail != ""
  }

  /** A valid SMTP configuration is complete. */
  lemma ValidSmtpIsComplete(s: SmtpConfig, emailOk: EmailCheck)
    requires ValidateSmtp(s, emailOk).Pass?
    ensures IsComplete(s)
  {
    assert !SmtpCheckFails(s, emailOk, InvalidSmtpHost);
    assert !SmtpCheckFails(s, emailOk, InvalidSmtpPort);
    assert !SmtpCheckFails(s, emailOk, InvalidSmtpUsername);
    assert !SmtpCheckFails(s, emailOk, InvalidSmtpPassword);
    assert !SmtpCheckFails(s, emailOk, InvalidFromEmail);
  }

  /** Completeness does not imply validity: a port above 65535 is complete
      but refused. */
  lemma CompleteButInvalid(emailOk: EmailCheck)
    ensures var s := SmtpConfig("smtp.example.org", 70000, "u", "p", "a@b.org", "");
      IsComplete(s) && ValidateSmtp(s, emailOk) == Fail(InvalidSmtpPort)
  {
  }

  /** Every notification address passes the email check. */
  function AllEmailsOk(emails: seq<string>, emailOk: EmailCheck): (b: bool)
    ensures b <==> forall i :: 0 <= i < |emails| ==> emailOk(emails[i])
  {
    if |emails| == 0 then true
    else emailOk(emails[0]) && AllEmailsOk(emails[1..], emailOk)
  }

  /** Each registry-config check on its own (the SMTP ones through `SmtpCheckFails`). */
  predicate ConfigCheckFails(c: Config, emailOk: EmailCheck, e: ConfigError) {
    match e
    case InvalidVideoUrl => c.videoUrl == ""
    case InvalidDocumentsPath => c.documentsPath == ""
    case NoNotificationEmails => |c.notificationEmails| == 0
    case InvalidNotificationEmail => exists i :: 0 <= i < |c.notificationEmails| && !emailOk(c.notificationEmails[i])
    case _ => SmtpCheckFails(c.smtp, emailOk, e)
  }

  /** `RegistryConfig.Validate`: video URL, documents path, at least one
      notification address, every address well formed, then the SMTP settings. */
  function ValidateConfig(c: Config, emailOk: EmailCheck): (r: Outcome<ConfigError>)
    ensures r.Pass? ==> forall e :: !ConfigCheckFails(c, emailOk, e)
    ensures r.Fail? ==> ConfigCheckFails(c, emailOk, r.error)
    ensures r.Fail? ==> forall e: ConfigError :: e.Rank() < r.error.Rank() ==> !ConfigCheckFails(c, emailOk, e)
  {
    if c.videoUrl == "" then Fail(InvalidVideoUrl)
    else if c.documentsPath == "" then Fail(InvalidDocumentsPath)
    else if |c.notificationEmails| == 0 then Fail(NoNotificationEmails)
    else if !AllEmailsOk(c.notificationEmails, emailOk) then Fail(InvalidNotificationEmail)
    else ValidateSmtp(c.smtp, emailOk)
  }

  /** A valid registry config has a valid, hence complete, SMTP part. */
  lemma ValidConfigHasValidSmtp(c: Config, emailOk: EmailCheck)
    requires ValidateConfig(c, emailOk).Pass?
    ensures ValidateSmtp(c.smtp, emailOk).Pass? && IsComplete(c.smtp)
    ensures |c.notificationEmails| >= 1
  {
    assert !ConfigCheckFails(c, emailOk, NoNotificationEmails);
    ValidSmtpIsComplete(c.smtp, emailOk);
  }
}

=== FILE: dafny/registry_config_store.dfy ===
/** The `registry_config` collection (`repository/registry_config_repository.go`):
    a singleton written by an upsert that keeps the stored identity, with
    a notification list that never gains a duplicate and loses every copy
    of a removed address. */
module RegistryConfigStore {
  import opened Wrappers
  import opened Base
  import RC = RegistryConfig

  /** The collection: no document, or the one configuration. */
  type Store = Option<RC.Config>

  datatype StoreError = ConfigNotFound

  /** `GetConfig`. */
  function GetConfig(s: Store): (r: Result<RC.Config, StoreError>)
    ensures r.Success? <==> s.Some?
    ensures r.Success? ==> r.value == s.value
  {
    match s
    case Some(c) => Success(c)
    case None => Failure(ConfigNotFound)
  }

  /** `ConfigExists`. */
  function ConfigExists(s: Store): (b: bool)
    ensures b <==> GetConfig(s).Success?
  {
    s.Some?
  }

  /** `CreateOrUpdate`: without a stored configuration the given one is
      inserted with both timestamps now and a fresh identifier; otherwise it
      replaces the stored one but keeps that one's identifier and creation
      time. */
  function CreateOrUpdate(s: Store, c: RC.Config, newId: ObjectId, now: Time): (r: (Store, RC.Config))
    ensures r.0 == Some(r.1) && r.1.updatedAt == now
    ensures s.None? ==> r.1.id == newId && r.1.createdAt == now
    ensures s.Some? ==> r.1.id == s.value.id && r.1.createdAt == s.value.createdAt
    ensures r.1.videoUrl == c.videoUrl && r.1.documentsPath == c.documentsPath
         && r.1.notificationEmails == c.notificationEmails && r.1.smtp == c.smtp && r.1.updatedBy == c.updatedBy
  {
    var stored := match s
      case None => c.(id := newId, createdAt := now, updatedAt := now)
      case Some(prev) => c.(id := prev.id, createdAt := prev.createdAt, updatedAt := now);
    (Some(stored), stored)
  }

  /** Writing twice is writing the second configuration once: the first
      write's identity survives and the rest of it does not. */
  lemma CreateOrUpdateTwice(s: Store, a: RC.Config, b: RC.Config, id1: ObjectId, id2: ObjectId, t1: Time, t2: Time)
    ensures var first := CreateOrUpdate(s, a, id1, t1);
      var second := CreateOrUpdate(first.0, b, id2, t2);
      second.1.id == first.1.id && second.1.createdAt == first.1.createdAt
      && second.1 == CreateOrUpdate(first.0, b, id1, t2).1
      && second.1.(id := b.id, createdAt := b.createdAt, updatedAt := b.updatedAt) == b
  {
  }

  /** `Update`: a partial `$set` of the stored document, given as the change
      it makes; refused without a stored configuration. */
  function Update(s: Store, change: RC.Config -> RC.Config, now: Time): (r: Result<RC.Config, StoreError>)
    ensures r.Failure? <==> s.None?
    ensures r.Success? ==> r.value.updatedAt == now
  {
    match s
    case None => Failure(ConfigNotFound)
    case Some(c) => Success(change(c).(updatedAt := now))
  }

  /** `AddNotificationEmail`: an address already listed leaves the
      configuration untouched; a new one is appended. */
  function AddNotificationEmail(s: Store, email: string, now: Time): (r: Result<RC.Config, StoreError>)
    ensures r.Failure? <==> s.None?
    ensures r.Success? && email in s.value.notificationEmails ==> r.value == s.value
    ensures r.Success? && email !in s.value.notificationEmails ==>
      r.value.notificationEmails == s.value.notificationEmails + [email] && r.value.updatedAt == now
      && r.value.(notificationEmails := s.value.notificationEmails, updatedAt := s.value.updatedAt) == s.value
  {
    match s
    case None => Failure(ConfigNotFound)
    case Some(c) =>
      if email in c.notificationEmails then Success(c)
      else Success(c.(notificationEmails := c.notificationEmails + [email], updatedAt := now))
  }

  /** Whether no address is listed twice. */
  predicate NoDuplicates(xs: seq<string>) {
    forall i, j :: 0 <= i < j < |xs| ==> xs[i] != xs[j]
  }

  /** Adding keeps a duplicate-free list duplicate-free, lists the address
      afterwards, and adding it again changes nothing. */
  lemma AddNotificationEmailIdempotent(s: Store, email: string, now: Time, later: Time)
    requires s.Some? && NoDuplicates(s.value.notificationEmails)
    ensures var r := AddNotificationEmail(s, email, now).value;
      NoDuplicates(r.notificationEmails) && email in r.notificationEmails
      && AddNotificationEmail(Some(r), email, later) == Success(r)
  {
    var r := AddNotificationEmail(s, email, now).value;
    assert email in r.notificationEmails by {
      if email !in s.value.notificationEmails {
        assert r.notificationEmails[|r.notificationEmails| - 1] == email;
      }
    }
  }

  /** `$pull`: every copy of `e` removed, the rest in order. */
  function Pull(xs: seq<string>, e: string): (r: seq<string>)
    ensures |r| <= |xs|
    ensures forall x :: x in r <==> x in xs && x != e
  {
    if xs == [] then []
    else if xs[0] == e then Pull(xs[1..], e)
    else [xs[0]] + Pull(xs[1..], e)
  }

  /** Pulling an absent address changes nothing. */
  lemma {:induction false} PullAbsent(xs: seq<string>, e: string)
    requires e !in xs
    ensures Pull(xs, e) == xs
  {
    if xs != [] {
      PullAbsent(xs[1..], e);
      assert xs == [xs[0]] + xs[1..];
    }
  }

  /** Pulling distributes over a concatenation. */
  lemma {:induction false} PullAppend(xs: seq<string>, ys: seq<string>, e: string)
    ensures Pull(xs + ys, e) == Pull(xs, e) + Pull(ys, e)
  {
    if xs != [] {
      assert (xs + ys)[1..] == xs[1..] + ys;
      PullAppend(xs[1..], ys, e);
    } else {
      assert xs + ys == ys;
    }
  }

  /** `RemoveNotificationEmail`: every copy of the address is removed. */
  function RemoveNotificationEmail(s: Store, email: string, now: Time): (r: Result<RC.Config, StoreError>)
    ensures r.Failure? <==> s.None?
    ensures r.Success? ==>
      email !in r.value.notificationEmails && r.value.updatedAt == now
      && (forall x :: x in r.value.notificationEmails <==> x in s.value.notificationEmails && x != email)
      && r.value.(notificationEmails := s.value.notificationEmails, updatedAt := s.value.updatedAt) == s.value
  {
    match s
    case None => Failure(ConfigNotFound)
    case Some(c) => Success(c.(notificationEmails := Pull(c.notificationEmails, email), updatedAt := now))
  }

  /** Removing a newly added address gives back the list as it was. */
  lemma RemoveUndoesAdd(s: Store, email: string, now: Time, later: Time)
    requires s.Some? && email !in s.value.notificationEmails
    ensures var added := AddNotificationEmail(s, email, now).value;
      RemoveNotificationEmail(Some(added), email, later).value.notificationEmails == s.value.notificationEmails
  {
    var xs := s.value.notificationEmails;
    PullAppend(xs, [email], email);
    PullAbsent(xs, email);
    assert Pull([email], email) == [];
  }

  /** `DeleteConfig`. */
  function DeleteConfig(s: Store): (r: Result<Store, StoreError>)
    ensures r.Success? <==> s.Some?
    ensures r.Success? ==> !ConfigExists(r.value)
  {
    if s.Some? then Success(None) else Failure(ConfigNotFound)
  }
}

=== FILE: dafny/registry_form.dfy ===
/** The registry form schema and its validators (`models/registry_form.go`). */
module RegistryForm {
  import opened Wrappers
  import opened Base
  import opened GoStrings

  const FieldText: string := "text"
  const FieldTextarea: string := "textarea"
  const FieldSelect: string := "select"
  const FieldRadio: string := "radio"
  const FieldDate: string := "date"
  const FieldNumber: string := "number"
  const FieldEmail: string := "email"
  const FieldFile: string := "file"

  const FieldTypes: set<string> :=
    {FieldText, FieldTextarea, FieldSelect, FieldRadio, FieldDate, FieldNumber, FieldEmail, FieldFile}

  /** `FormFieldType.IsValid`. */
  predicate IsValidFieldType(t: string) {
    t in FieldTypes
  }

  /** Exactly eight field types are valid. */
  lemma EightFieldTypes()
    ensures |FieldTypes| == 8
  {
  }

  datatype ValidationRules = ValidationRules(
    minLength: Option<int>,
    maxLength: Option<int>,
    minValue: Option<real>,
    maxValue: Option<real>,
    pattern: Option<string>)

  datatype FormField = FormField(
    id: string,
    labelText: string,
    fieldType: string,
    required: bool,
    placeholder: string,
    helpText: string,
    options: seq<string>,
    allowMultiple: bool,
    rules: ValidationRules,
    displayOrder: int)

  datatype Schema = Schema(
    id: ObjectId,
    formName: string,
    description: string,
    fields: seq<FormField>,
    isActive: bool,
    createdAt: Time,
    updatedAt: Time,
    createdBy: Option<ObjectId>,
    updatedBy: Option<ObjectId>)

  /** `regexp.Compile` succeeding on a pattern, a library check supplied by the caller. */
  type PatternCheck = string -> bool

  // ---------------------------------------------------------------------
  // One field

  datatype FieldError =
    | InvalidFieldId | InvalidFieldLabel | InvalidFieldType | InvalidSelectOptions
    | InvalidMaxLength | InvalidMinValue | InvalidPattern
  {
    function Rank(): nat {
      match this
      case InvalidFieldId => 0
      case InvalidFieldLabel => 1
      case InvalidFieldType => 2
      case InvalidSelectOptions => 3
      case InvalidMaxLength => 4
      case InvalidMinValue => 5
      case InvalidPattern => 6
    }
  }

  /** The id pattern `^[a-zA-Z0-9_]+$`. */
  predicate IsFieldId(id: string) {
    |id| > 0 && AllChars(id, IsWordChar)
  }

  predicate IsChoiceType(t: string) {
    t == FieldSelect || t == FieldRadio
  }

  /** Each field check on its own. */
  predicate FieldCheckFails(f: FormField, compiles: PatternCheck, e: FieldError) {
    match e
    case InvalidFieldId => !IsFieldId(f.id)
    case InvalidFieldLabel => TrimSpace(f.labelText) == ""
    case InvalidFieldType => !IsValidFieldType(f.fieldType)
    case InvalidSelectOptions => IsChoiceType(f.fieldType) && |f.options| == 0
    case InvalidMaxLength => f.rules.maxLength.Some? && f.rules.maxLength.value <= 0
    case InvalidMinValue =>
      f.rules.minValue.Some? && f.rules.maxValue.Some? && f.rules.minValue.value > f.rules.maxValue.value
    case InvalidPattern =>
      f.rules.pattern.Some? && f.rules.pattern.value != "" && !compiles(f.rules.pattern.value)
  }

  /** `FormField.Validate`: passes iff no check fails, and otherwise reports
      the first failing check. */
  function ValidateField(f: FormField, compiles: PatternCheck): (r: Outcome<FieldError>)
    ensures r.Pass? ==> forall e :: !FieldCheckFails(f, compiles, e)
    ensures r.Fail? ==> FieldCheckFails(f, compiles, r.error)
    ensures r.Fail? ==> forall e: FieldError :: e.Rank() < r.error.Rank() ==> !FieldCheckFails(f, compiles, e)
  {
    if f.id == "" then Fail(InvalidFieldId)
    else if !AllChars(f.id, IsWordChar) then Fail(InvalidFieldId)
    else if TrimSpace(f.labelText) == "" then Fail(InvalidFieldLabel)
    else if !IsValidFieldType(f.fieldType) then Fail(InvalidFieldType)
    else if (f.fieldType == FieldSelect || f.fieldType == FieldRadio) && |f.options| == 0 then Fail(InvalidSelectOptions)
    else if f.rules.maxLength.Some? && f.rules.maxLength.value <= 0 then Fail(InvalidMaxLength)
    else if f.rules.minValue.Some? && f.rules.maxValue.Some? && f.rules.minValue.value > f.rules.maxValue.value
    then Fail(InvalidMinValue)
    else if f.rules.pattern.Some? && f.rules.pattern.value != "" && !compiles(f.rules.pattern.value)
    then Fail(InvalidPattern)
    else Pass
  }

  /** A label made only of white space is rejected like an empty one. */
  lemma BlankLabelRejected(f: FormField, compiles: PatternCheck)
    requires IsFieldId(f.id)
    requires forall i :: 0 <= i < |f.labelText| ==> IsSpace(f.labelText[i])
    ensures ValidateField(f, compiles) == Fail(InvalidFieldLabel)
  {
    TrimSpaceEmpty(f.labelText);
  }

  // ---------------------------------------------------------------------
  // Form name and field lists

  datatype FormError =
    | InvalidFormName
    | NoFields
    | BadField(fieldError: FieldError)
    | DuplicateFieldId
    | NoFileField

  /** `ValidateFormName`: the trimmed name is non-empty and at most 200 bytes. */
  function ValidateFormName(name: string): (r: Outcome<FormError>)
    ensures r.Pass? <==> TrimSpace(name) != "" && Utf8Len(TrimSpace(name)) <= 200
    ensures r.Fail? ==> r.error == InvalidFormName
  {
    var trimmed := TrimSpace(name);
    if trimmed == "" || Utf8Len(trimmed) > 200 then Fail(InvalidFormName) else Pass
  }

  /** The outcome of each field's own checks, in order. */
  function FieldOutcomes(fields: seq<FormField>, compiles: PatternCheck): (out: seq<Outcome<FieldError>>)
    ensures |out| == |fields|
    ensures forall i :: 0 <= i < |fields| ==> out[i] == ValidateField(fields[i], compiles)
  {
    if |fields| == 0 then [] else [ValidateField(fields[0], compiles)] + FieldOutcomes(fields[1..], compiles)
  }

  /** Field `i` passed its own checks (`checks[i]`) and repeats no earlier id. */
  predicate FieldOk(fields: seq<FormField>, checks: seq<Outcome<FieldError>>, i: int)
    requires |checks| == |fields| && 0 <= i < |fields|
  {
    checks[i].Pass? && forall j :: 0 <= j < i ==> fields[j].id != fields[i].id
  }

  predicate AllFieldsOk(fields: seq<FormField>, checks: seq<Outcome<FieldError>>)
    requires |checks| == |fields|
  {
    forall i :: 0 <= i < |fields| ==> FieldOk(fields, checks, i)
  }

  predicate HasFileField(fields: seq<FormField>) {
    exists i :: 0 <= i < |fields| && fields[i].fieldType == FieldFile
  }

  /** Field ids are pairwise distinct. */
  predicate DistinctIds(fields: seq<FormField>) {
    forall i, j :: 0 <= i < j < |fields| ==> fields[i].id != fields[j].id
  }

  /** `i` is the first field that fails its checks or repeats an id. */
  predicate FirstBadField(fields: seq<FormField>, checks: seq<Outcome<FieldError>>, i: int)
    requires |checks| == |fields|
  {
    0 <= i < |fields| && !FieldOk(fields, checks, i)
    && forall j :: 0 <= j < i ==> FieldOk(fields, checks, j)
  }

  /** The error the scan reports at a bad field: its own check first, then the duplicate id. */
  function BadFieldError(checks: seq<Outcome<FieldError>>, i: int): FormError
    requires 0 <= i < |checks|
  {
    match checks[i]
    case Fail(e) => BadField(e)
    case Pass => DuplicateFieldId
  }

  function IdsOf(fields: seq<FormField>, k: int): set<string>
    requires 0 <= k <= |fields|
  {
    set i | 0 <= i < k :: fields[i].id
  }

  lemma IdsOfStep(fields: seq<FormField>, k: int)
    requires 0 <= k < |fields|
    ensures IdsOf(fields, k + 1) == IdsOf(fields, k) + {fields[k].id}
  {
  }

  lemma InIdsOf(fields: seq<FormField>, k: int, id: string)
    requires 0 <= k <= |fields|
    ensures id in IdsOf(fields, k) <==> exists j :: 0 <= j < k && fields[j].id == id
  {
  }

  /** The loop over the fields from position `k`, with the ids seen so far
      and whether a file field has been met; `checks` holds each field's
      own outcome. */
  function ScanFields(fields: seq<FormField>, checks: seq<Outcome<FieldError>>, k: nat, seen: set<string>, hasFile: bool)
    : (r: Outcome<FormError>)
    requires |checks| == |fields| && k <= |fields|
    requires seen == IdsOf(fields, k)
    requires forall i :: 0 <= i < k ==> FieldOk(fields, checks, i)
    requires hasFile <==> exists i :: 0 <= i < k && fields[i].fieldType == FieldFile
    ensures r.Pass? <==> AllFieldsOk(fields, checks) && HasFileField(fields)
    ensures r.Fail? && r.error != NoFileField ==>
      exists i :: k <= i && FirstBadField(fields, checks, i) && r.error == BadFieldError(checks, i)
    ensures r == Fail(NoFileField) ==> AllFieldsOk(fields, checks) && !HasFileField(fields)
    decreases |fields| - k
  {
    if k == |fields| then
      if hasFile then Pass else Fail(NoFileField)
    else
      var f := fields[k];
      match checks[k]
      case Fail(e) =>
        assert FirstBadField(fields, checks, k);
        Fail(BadField(e))
      case Pass =>
        InIdsOf(fields, k, f.id);
        if f.id in seen then
          assert FirstBadField(fields, checks, k);
          Fail(DuplicateFieldId)
        else
          IdsOfStep(fields, k);
          ScanFields(fields, checks, k + 1, seen + {f.id}, hasFile || f.fieldType == FieldFile)
  }

  /** Every field passes its own checks and the ids are pairwise distinct. */
  predicate FieldsValid(fields: seq<FormField>, compiles: PatternCheck) {
    (forall i :: 0 <= i < |fields| ==> ValidateField(fields[i], compiles).Pass?) && DistinctIds(fields)
  }

  /** The per-field scan accepts exactly the lists of valid fields with distinct ids. */
  lemma {:induction false} AllFieldsOkIff(fields: seq<FormField>, compiles: PatternCheck)
    ensures AllFieldsOk(fields, FieldOutcomes(fields, compiles)) <==> FieldsValid(fields, compiles)
  {
    var checks := FieldOutcomes(fields, compiles);
    if AllFieldsOk(fields, checks) {
      forall i, j | 0 <= i < j < |fields| ensures fields[i].id != fields[j].id {
        assert FieldOk(fields, checks, j);
      }
      forall i | 0 <= i < |fields| ensures ValidateField(fields[i], compiles).Pass? {
        assert FieldOk(fields, checks, i);
      }
    }
    if FieldsValid(fields, compiles) {
      forall i | 0 <= i < |fields| ensures FieldOk(fields, checks, i) {
        assert checks[i] == ValidateField(fields[i], compiles);
      }
    }
  }

  /** The field checks shared by the schema and by the create and update
      requests: at least one field, then the scan. */
  function ValidateFields(fields: seq<FormField>, compiles: PatternCheck): (r: Outcome<FormError>)
    ensures r.Pass? <==> |fields| > 0 && FieldsValid(fields, compiles) && HasFileField(fields)
    ensures r == Fail(NoFields) <==> |fields| == 0
    ensures r.Fail? && r.error !in {NoFields, NoFileField} ==>
      exists i :: FirstBadField(fields, FieldOutcomes(fields, compiles), i)
        && r.error == BadFieldError(FieldOutcomes(fields, compiles), i)
    ensures r == Fail(NoFileField) ==> FieldsValid(fields, compiles) && !HasFileField(fields)
  {
    AllFieldsOkIff(fields, compiles);
    if |fields| == 0 then Fail(NoFields) else ScanFields(fields, FieldOutcomes(fields, compiles), 0, {}, false)
  }

  // ---------------------------------------------------------------------
  // Schema and requests

  /** `RegistryFormSchema.Validate`: the name, then the fields. */
  function ValidateSchema(s: Schema, compiles: PatternCheck): (r: Outcome<FormError>)
    ensures r.Pass? <==> ValidateFormName(s.formName).Pass? && ValidateFields(s.fields, compiles).Pass?
    ensures ValidateFormName(s.formName).Fail? ==> r == Fail(InvalidFormName)
  {
    if ValidateFormName(s.formName).Fail? then ValidateFormName(s.formName)
    else ValidateFields(s.fields, compiles)
  }

  datatype CreateSchemaRequest = CreateSchemaRequest(formName: string, description: string, fields: seq<FormField>)

  /** `CreateFormSchemaRequest.Validate` runs the schema's checks on the
      request's name and fields. */
  function ValidateCreateRequest(req: CreateSchemaRequest, compiles: PatternCheck): (r: Outcome<FormError>)
    ensures forall s: Schema :: s.formName == req.formName && s.fields == req.fields ==> r == ValidateSchema(s, compiles)
  {
    if ValidateFormName(req.formName).Fail? then ValidateFormName(req.formName)
    else ValidateFields(req.fields, compiles)
  }

  datatype UpdateSchemaRequest = UpdateSchemaRequest(
    formName: Option<string>,
    description: Option<string>,
    fields: Option<seq<FormField>>,
    isActive: Option<bool>)

  /** `UpdateFormSchemaRequest.Validate`: only the fields present are checked. */
  function ValidateUpdateRequest(req: UpdateSchemaRequest, compiles: PatternCheck): (r: Outcome<FormError>)
    ensures req.formName.None? && req.fields.None? ==> r.Pass?
    ensures r.Pass? <==>
      (req.formName.Some? ==> ValidateFormName(req.formName.value).Pass?)
      && (req.fields.Some? ==> ValidateFields(req.fields.value, compiles).Pass?)
    ensures req.formName.Some? && ValidateFormName(req.formName.value).Fail? ==> r == Fail(InvalidFormName)
    ensures req.formName.Some? && req.fields.Some? ==>
      r == ValidateCreateRequest(CreateSchemaRequest(req.formName.value, "", req.fields.value), compiles)
  {
    if req.formName.Some? && ValidateFormName(req.formName.value).Fail? then ValidateFormName(req.formName.value)
    else if req.fields.Some? then ValidateFields(req.fields.value, compiles)
    else Pass
  }
}

=== FILE: dafny/registry_handler.dfy ===
/** The HTTP layer of the registry (`handlers/registry_handler.go`): the
    page window of the list endpoints, the statuses of the service's
    errors and the checks `SubmitForm` makes before calling the service. */
module RegistryHandler {
  import opened Wrappers
  import opened GoStrings
  import opened Base
  import opened Users
  import RC = RegistryConfig
  import RF = RegistryForm
  import RS = RegistrySubmission
  import RSvc = RegistryService

  // ---------------------------------------------------------------------
  // Page window

  /** `strconv.Atoi(c.DefaultQuery(name, default))` with the error dropped:
      an absent parameter reads as `default`, and an unparsable one as 0. */
  function QueryInt(param: Option<string>, default: string): int {
    ParseInt(param.GetOr(default)).value
  }

  datatype Window = Window(page: int, limit: int)

  /** The clamp of the list endpoints: a page below 1 becomes 1, and a
      limit outside 1..100 becomes 10. */
  function ClampPaging(page: Option<string>, limit: Option<string>): (w: Window)
    ensures w.page >= 1 && 1 <= w.limit <= 100
    ensures QueryInt(page, "1") >= 1 ==> w.page == QueryInt(page, "1")
    ensures QueryInt(page, "1") < 1 ==> w.page == 1
    ensures 1 <= QueryInt(limit, "10") <= 100 ==> w.limit == QueryInt(limit, "10")
    ensures !(1 <= QueryInt(limit, "10") <= 100) ==> w.limit == 10
  {
    var p := QueryInt(page, "1");
    var l := QueryInt(limit, "10");
    Window(if p < 1 then 1 else p, if l < 1 || l > 100 then 10 else l)
  }

  /** Without parameters the window is the first page of ten. */
  lemma DefaultWindow()
    ensures ClampPaging(None, None) == Window(1, 10)
  {
    assert NatToString(1) == "1";
    assert NatToString(10) == NatToString(1) + [DigitChar(0)];
    ParseIntOfNatToString(1);
    ParseIntOfNatToString(10);
  }

  /** The window echoed in a response, sent back as parameters, gives the
      same window: the clamp is a fixed point on its own results. */
  lemma ClampPagingStable(page: Option<string>, limit: Option<string>)
    ensures var w := ClampPaging(page, limit);
      ClampPaging(Some(NatToString(w.page)), Some(NatToString(w.limit))) == w
  {
    var w := ClampPaging(page, limit);
    ParseIntOfNatToString(w.page);
    ParseIntOfNatToString(w.limit);
  }

  // ---------------------------------------------------------------------
  // Error statuses

  /** `UpdateConfiguration`: 403 for the missing right, otherwise 400. */
  function ConfigUpdateStatus(e: RSvc.ConfigUpdateError): (code: int)
    ensures code == 403 <==> e.UnauthorizedRegistryAccess?
    ensures code == 400 <==> !e.UnauthorizedRegistryAccess?
  {
    if e.UnauthorizedRegistryAccess? then 403 else 400
  }

  /** The errors that `UpdateFormSchema` and `DeleteFormSchema` return
      unwrapped: the permission check, the repository's not-found, and the
      rest (validation and storage errors). */
  datatype SchemaChangeError = SchemaUnauthorized | FormSchemaNotFound | SchemaOther

  /** Schema update and delete: 403, then 404, otherwise 400. */
  function SchemaChangeStatus(e: SchemaChangeError): (code: int)
    ensures code == 403 <==> e == SchemaUnauthorized
    ensures code == 404 <==> e == FormSchemaNotFound
    ensures code == 400 <==> e == SchemaOther
  {
    match e
    case SchemaUnauthorized => 403
    case FormSchemaNotFound => 404
    case SchemaOther => 400
  }

  // ---------------------------------------------------------------------
  // Submitting

  /** A submit request: whether the multipart body parsed (within 32 MiB of
      memory), the two form values, whether `formData` decodes into a map
      (JSON `null` does too), and the uploads under "files" and "documents". */
  datatype SubmitRequest<F> = SubmitRequest(multipartOk: bool, formData: string, formSchemaId: string,
                                            decodesToMap: bool, files: seq<F>, documents: seq<F>)

  datatype SubmitPrecheck<F> =
    | UnparsableMultipart
    | MissingFormData
    | MissingSchemaId
    | UnparsableFormData
    | Forward(files: seq<F>)

  /** The checks before the service is called, each answered with 400: the
      multipart body must parse, `formData`, then `formSchemaId` must be
      non-empty, and `formData` must parse; the files come from "files", or
      from "documents" when "files" holds none. */
  function Precheck<F>(req: SubmitRequest<F>): (r: SubmitPrecheck<F>)
    ensures r == UnparsableMultipart <==> !req.multipartOk
    ensures r == MissingFormData <==> req.multipartOk && req.formData == ""
    ensures r == MissingSchemaId <==> req.multipartOk && req.formData != "" && req.formSchemaId == ""
    ensures r.Forward? <==> req.multipartOk && req.formData != "" && req.formSchemaId != "" && req.decodesToMap
    ensures r.Forward? && |req.files| > 0 ==> r.files == req.files
    ensures r.Forward? && |req.files| == 0 ==> r.files == req.documents
  {
    if !req.multipartOk then UnparsableMultipart
    else if req.formData == "" then MissingFormData
    else if req.formSchemaId == "" then MissingSchemaId
    else if !req.decodesToMap then UnparsableFormData
    else Forward(if |req.files| == 0 then req.documents else req.files)
  }

  /** A request's files are never dropped: some upload reaches the service
      whenever either key carries one. */
  lemma FilesForwarded<F>(req: SubmitRequest<F>)
    requires Precheck(req).Forward?
    ensures |Precheck(req).files| == 0 <==> |req.files| == 0 && |req.documents| == 0
  {
  }

  /** The readiness sentinels the handler compares against. */
  datatype Sentinel = FormNotReady | NoActiveFormSchema

  /** A Go error value as far as `==` and `errors.Is` can tell: a sentinel
      itself, an error made by `fmt.Errorf` with `%w` around a sentinel, or
      an unrelated error. */
  datatype ErrorValue = Bare(sentinel: Sentinel) | Wrapping(target: Sentinel) | Unrelated

  /** The error value `SubmitForm` returns for each of its failures: a
      readiness failure is wrapped under the not-ready sentinel (its cause is
      only formatted, not wrapped); every other failure is unrelated to both. */
  function ReturnedError(e: RSvc.SubmitError): (v: ErrorValue)
    ensures !v.Bare?
    ensures v == Wrapping(FormNotReady) <==> e.NotReady?
  {
    if e.NotReady? then Wrapping(FormNotReady) else Unrelated
  }

  /** Go's `==` on error values: only the sentinel itself is equal to it. */
  predicate EqualsSentinel(v: ErrorValue, s: Sentinel) {
    v == Bare(s)
  }

  /** Go's `errors.Is`: the sentinel itself, or an error wrapping it. */
  predicate IsSentinel(v: ErrorValue, s: Sentinel) {
    v == Bare(s) || v == Wrapping(s)
  }

  /** The status of a refused submission as the handler computes it: 412
      when the error `==` either readiness sentinel, otherwise 400. */
  function SubmitStatusAsWritten(e: RSvc.SubmitError): (code: int)
    ensures code == 412 || code == 400
  {
    var v := ReturnedError(e);
    if EqualsSentinel(v, FormNotReady) || EqualsSentinel(v, NoActiveFormSchema) then 412 else 400
  }

  /** The 412 branch is dead: every refusal, a readiness failure included,
      is answered 400. */
  lemma PreconditionFailedUnreachable(e: RSvc.SubmitError)
    ensures SubmitStatusAsWritten(e) == 400
  {
  }

  /** The status with `errors.Is`: 412 exactly for the readiness failures. */
  function SubmitStatus(e: RSvc.SubmitError): (code: int)
    ensures code == 412 <==> e.NotReady?
    ensures code == 400 <==> !e.NotReady?
  {
    var v := ReturnedError(e);
    if IsSentinel(v, FormNotReady) || IsSentinel(v, NoActiveFormSchema) then 412 else 400
  }

  /** Without an active form the corrected handler answers 412 where the
      handler as written answers 400. */
  lemma NoActiveFormIsPreconditionFailed(user: User, stored: Option<RC.Config>,
                                         req: RS.CreateSubmissionRequest, parse: RS.HexParser,
                                         schemas: map<ObjectId, RF.Schema>, fileCount: nat)
    ensures var r := RSvc.SubmitChecks(user, None, stored, req, parse, schemas, fileCount);
      r == Failure(RSvc.NotReady(RSvc.NoActiveFormSchema))
      && SubmitStatus(r.error) == 412 && SubmitStatusAsWritten(r.error) == 400
  {
  }
}

=== FILE: dafny/registry_service.dfy ===
/** The registry service: configuration updates, the readiness check,
    form-data and file checks of a submission, submission access and the
    user search over a page of submissions (`service/registry_service.go`).
    Stores are reduced to the values the service reads from them. */
module RegistryService {
  import opened Wrappers
  import opened Base
  import opened GoStrings
  import opened Roles
  import opened Users
  import RF = RegistryForm
  import RC = RegistryConfig
  import RS = RegistrySubmission

  // ---------------------------------------------------------------------
  // Configuration updates

  /** The outcome of encrypting the new SMTP password: the sealed text or
      the encryption error. */
  type Sealed = Result<string, string>

  /** The field-by-field merge of `UpdateConfiguration`: present fields
      overwrite, absent ones keep their value, and the password changes only
      when a non-empty one is given (to its sealed form). */
  function MergeConfig(c: RC.Config, req: RC.UpdateRequest, sealed: string, updater: ObjectId): (m: RC.Config)
    ensures m.videoUrl == req.videoUrl.GetOr(c.videoUrl)
    ensures m.documentsPath == req.documentsPath.GetOr(c.documentsPath)
    ensures m.notificationEmails == req.notificationEmails.GetOr(c.notificationEmails)
    ensures m.smtp.host == req.smtpHost.GetOr(c.smtp.host)
    ensures m.smtp.port == req.smtpPort.GetOr(c.smtp.port)
    ensures m.smtp.username == req.smtpUsername.GetOr(c.smtp.username)
    ensures m.smtp.fromEmail == req.smtpFromEmail.GetOr(c.smtp.fromEmail)
    ensures m.smtp.fromName == req.smtpFromName.GetOr(c.smtp.fromName)
    ensures m.smtp.password != c.smtp.password ==>
      req.smtpPassword.Some? && req.smtpPassword.value != "" && m.smtp.password == sealed
    ensures m.id == c.id && m.createdAt == c.createdAt && m.updatedBy == Some(updater)
  {
    var s := c.smtp;
    var smtp := RC.SmtpConfig(
      req.smtpHost.GetOr(s.host),
      req.smtpPort.GetOr(s.port),
      req.smtpUsername.GetOr(s.username),
      if req.smtpPassword.Some? && req.smtpPassword.value != "" then sealed else s.password,
      req.smtpFromEmail.GetOr(s.fromEmail),
      req.smtpFromName.GetOr(s.fromName));
    c.(videoUrl := req.videoUrl.GetOr(c.videoUrl),
       documentsPath := req.documentsPath.GetOr(c.documentsPath),
       notificationEmails := req.notificationEmails.GetOr(c.notificationEmails),
       smtp := smtp,
       updatedBy := Some(updater))
  }

  /** The request with every field absent. */
  const EmptyConfigRequest: RC.UpdateRequest :=
    RC.UpdateRequest(None, None, None, None, None, None, None, None, None)

  /** Applying the same request twice is applying it once, and the empty
      request changes nothing but the updater. */
  lemma MergeConfigProperties(c: RC.Config, req: RC.UpdateRequest, sealed: string, updater: ObjectId)
    ensures MergeConfig(MergeConfig(c, req, sealed, updater), req, sealed, updater) == MergeConfig(c, req, sealed, updater)
    ensures MergeConfig(c, EmptyConfigRequest, sealed, updater) == c.(updatedBy := Some(updater))
  {
  }

  /** A configuration created on first update: nothing set, no addresses. */
  const FreshConfig: RC.Config :=
    RC.Config(NilId, "", "", [], RC.SmtpConfig("", 0, "", "", "", ""), 0, 0, None)

  datatype ConfigUpdateError =
    | UnauthorizedRegistryAccess
    | FolderCreationFailed(cause: string)
    | EncryptionFailed(cause: string)
    | InvalidConfig(error: RC.ConfigError)

  /** Whether a new SMTP password was given: present and non-empty. */
  predicate SetsPassword(pw: Option<string>) {
    pw.Some? && pw.value != ""
  }

  /** Whether `UpdateConfiguration` creates the documents folder first: a
      changed, non-empty path while Dropbox is configured. */
  predicate CreatesFolder(base: RC.Config, req: RC.UpdateRequest, dropboxConfigured: bool) {
    req.documentsPath.Some? && req.documentsPath.value != base.documentsPath
    && req.documentsPath.value != "" && dropboxConfigured
  }

  /** The sealed password, or the empty string when sealing failed. */
  function SealedOr(sealed: Sealed): string {
    if sealed.Success? then sealed.value else ""
  }

  /** `UpdateConfiguration`: only a holder of manage_system may update; the
      stored configuration (or a fresh one) is merged with the request; a
      changed, non-empty documents path is created in Dropbox first when
      Dropbox is configured, and a failure there aborts; the merged result
      must validate. `folder` is the folder creation's outcome. The result
      is what gets saved. */
  function UpdateConfiguration(user: User, stored: Option<RC.Config>, req: RC.UpdateRequest,
                               dropboxConfigured: bool, folder: Option<string>, sealed: Sealed,
                               emailOk: RC.EmailCheck): (r: Result<RC.Config, ConfigUpdateError>)
    ensures !user.Has(ManageSystem) ==> r == Failure(UnauthorizedRegistryAccess)
    ensures user.Has(ManageSystem) && CreatesFolder(stored.GetOr(FreshConfig), req, dropboxConfigured) && folder.Some? ==>
      r == Failure(FolderCreationFailed(folder.value))
    ensures r.Failure? && r.error.EncryptionFailed? <==>
      user.Has(ManageSystem) && !(CreatesFolder(stored.GetOr(FreshConfig), req, dropboxConfigured) && folder.Some?)
      && SetsPassword(req.smtpPassword) && sealed.Failure?
    ensures r.Failure? && r.error.EncryptionFailed? ==> r.error.cause == sealed.error
    ensures r.Success? ==> user.Has(ManageSystem) && RC.ValidateConfig(r.value, emailOk).Pass?
    ensures r.Success? ==> r.value == MergeConfig(stored.GetOr(FreshConfig), req, SealedOr(sealed), user.id)
    ensures user.Has(ManageSystem) && !(CreatesFolder(stored.GetOr(FreshConfig), req, dropboxConfigured) && folder.Some?)
            && !(SetsPassword(req.smtpPassword) && sealed.Failure?)
            && RC.ValidateConfig(MergeConfig(stored.GetOr(FreshConfig), req, SealedOr(sealed), user.id), emailOk).Pass?
            ==> r.Success?
    ensures r.Failure? && r.error.InvalidConfig? ==>
      RC.ValidateConfig(MergeConfig(stored.GetOr(FreshConfig), req, SealedOr(sealed), user.id), emailOk)
      == Fail(r.error.error)
  {
    var base := stored.GetOr(FreshConfig);
    if !user.Has(ManageSystem) then Failure(UnauthorizedRegistryAccess)
    else if CreatesFolder(base, req, dropboxConfigured) && folder.Some? then Failure(FolderCreationFailed(folder.value))
    else if SetsPassword(req.smtpPassword) && sealed.Failure? then Failure(EncryptionFailed(sealed.error))
    else
      var merged := MergeConfig(base, req, SealedOr(sealed), user.id);
      match RC.ValidateConfig(merged, emailOk)
      case Fail(e) => Failure(InvalidConfig(e))
      case Pass => Success(merged)
  }

  /** `UpdateSMTPConfigRequest`. */
  datatype SmtpUpdateRequest = SmtpUpdateRequest(
    host: Option<string>,
    port: Option<int>,
    username: Option<string>,
    password: Option<string>,
    fromEmail: Option<string>,
    fromName: Option<string>)

  /** The SMTP view the service returns: everything but the password. */
  datatype SmtpResponse = SmtpResponse(
    host: string, port: int, username: string, fromEmail: string, fromName: string, isComplete: bool)

  function ToResponse(s: RC.SmtpConfig): (resp: SmtpResponse)
    ensures resp.isComplete == RC.IsComplete(s)
  {
    SmtpResponse(s.host, s.port, s.username, s.fromEmail, s.fromName, RC.IsComplete(s))
  }

  /** `GetSMTPConfig`: a missing configuration reads as empty, port 0, incomplete. */
  function GetSmtpConfig(stored: Option<RC.Config>): (resp: SmtpResponse)
    ensures stored.None? ==> resp == SmtpResponse("", 0, "", "", "", false)
    ensures stored.Some? ==> resp == ToResponse(stored.value.smtp)
  {
    match stored
    case None => SmtpResponse("", 0, "", "", "", false)
    case Some(c) => ToResponse(c.smtp)
  }

  /** The response discloses no password, only whether one is set. */
  lemma ResponseHidesPassword(s: RC.SmtpConfig, pw: string)
    requires (pw == "") == (s.password == "")
    ensures ToResponse(s.(password := pw)) == ToResponse(s)
  {
  }

  /** The configuration `UpdateSMTPConfig` starts from when none is stored: port 587. */
  const FreshSmtpConfig: RC.Config :=
    RC.Config(NilId, "", "", [], RC.SmtpConfig("", 587, "", "", "", ""), 0, 0, None)

  /** The SMTP-only request as a configuration request. */
  function AsConfigRequest(req: SmtpUpdateRequest): RC.UpdateRequest {
    RC.UpdateRequest(None, None, None, req.host, req.port, req.username, req.password, req.fromEmail, req.fromName)
  }

  /** `UpdateSMTPConfig`: manage_system only; the stored configuration (or
      a fresh one with port 587) gets the present SMTP fields, and only the
      SMTP part is validated. */
  function UpdateSmtpConfig(user: User, stored: Option<RC.Config>, req: SmtpUpdateRequest, sealed: Sealed,
                            emailOk: RC.EmailCheck): (r: Result<RC.Config, ConfigUpdateError>)
    ensures !user.Has(ManageSystem) ==> r == Failure(UnauthorizedRegistryAccess)
    ensures r.Failure? && r.error.EncryptionFailed? <==>
      user.Has(ManageSystem) && SetsPassword(req.password) && sealed.Failure?
    ensures r.Failure? && r.error.EncryptionFailed? ==> r.error.cause == sealed.error
    ensures r.Success? ==> user.Has(ManageSystem) && RC.ValidateSmtp(r.value.smtp, emailOk).Pass?
    ensures r.Success? ==> r.value.smtp.port == req.port.GetOr(stored.GetOr(FreshSmtpConfig).smtp.port)
    ensures r.Success? && stored.Some? ==>
      r.value.videoUrl == stored.value.videoUrl && r.value.documentsPath == stored.value.documentsPath
      && r.value.notificationEmails == stored.value.notificationEmails
    ensures user.Has(ManageSystem) && !(SetsPassword(req.password) && sealed.Failure?)
            && RC.ValidateSmtp(MergeConfig(stored.GetOr(FreshSmtpConfig), AsConfigRequest(req), SealedOr(sealed), user.id).smtp,
                               emailOk).Pass?
            ==> r == Success(MergeConfig(stored.GetOr(FreshSmtpConfig), AsConfigRequest(req), SealedOr(sealed), user.id))
    ensures r.Failure? && r.error.InvalidConfig? ==>
      RC.ValidateSmtp(MergeConfig(stored.GetOr(FreshSmtpConfig), AsConfigRequest(req), SealedOr(sealed), user.id).smtp,
                      emailOk) == Fail(r.error.error)
  {
    var base := stored.GetOr(FreshSmtpConfig);
    if !user.Has(ManageSystem) then Failure(UnauthorizedRegistryAccess)
    else if SetsPassword(req.password) && sealed.Failure? then Failure(EncryptionFailed(sealed.error))
    else
      var merged := MergeConfig(base, AsConfigRequest(req), SealedOr(sealed), user.id);
      match RC.ValidateSmtp(merged.smtp, emailOk)
      case Fail(e) => Failure(InvalidConfig(e))
      case Pass => Success(merged)
  }

  /** A fresh configuration saved through the SMTP path need not be a valid
      registry configuration: its video URL is empty. */
  lemma SmtpOnlyConfigMayBeIncomplete(user: User, req: SmtpUpdateRequest, sealed: Sealed, emailOk: RC.EmailCheck)
    requires UpdateSmtpConfig(user, None, req, sealed, emailOk).Success?
    ensures RC.ValidateConfig(UpdateSmtpConfig(user, None, req, sealed, emailOk).value, emailOk)
         == Fail(RC.InvalidVideoUrl)
  {
  }

  // ---------------------------------------------------------------------
  // Readiness

  datatype PreSubmissionError = NoActiveFormSchema | ConfigNotComplete | NoNotificationEmails | SmtpIncomplete

  /** `ValidatePreSubmission`: an active form, then a stored configuration
      with at least one notification address and complete SMTP settings. */
  function ValidatePreSubmission(activeForm: Option<RF.Schema>, stored: Option<RC.Config>)
    : (r: Outcome<PreSubmissionError>)
    ensures r.Pass? <==> activeForm.Some? && stored.Some? && |stored.value.notificationEmails| > 0
                         && RC.IsComplete(stored.value.smtp)
    ensures activeForm.None? ==> r == Fail(NoActiveFormSchema)
    ensures activeForm.Some? && stored.None? ==> r == Fail(ConfigNotComplete)
    ensures activeForm.Some? && stored.Some? && |stored.value.notificationEmails| == 0 ==> r == Fail(NoNotificationEmails)
    ensures activeForm.Some? && stored.Some? && |stored.value.notificationEmails| > 0 && !RC.IsComplete(stored.value.smtp) ==>
      r == Fail(SmtpIncomplete)
  {
    if activeForm.None? then Fail(NoActiveFormSchema)
    else if stored.None? then Fail(ConfigNotComplete)
    else if |stored.value.notificationEmails| == 0 then Fail(NoNotificationEmails)
    else if !RC.IsComplete(stored.value.smtp) then Fail(SmtpIncomplete)
    else Pass
  }

  /** A stored configuration that validates never blocks submissions. */
  lemma ValidConfigIsReady(active: RF.Schema, c: RC.Config, emailOk: RC.EmailCheck)
    requires RC.ValidateConfig(c, emailOk).Pass?
    ensures ValidatePreSubmission(Some(active), Some(c)).Pass?
  {
    RC.ValidConfigHasValidSmtp(c, emailOk);
  }

  // ---------------------------------------------------------------------
  // Form data and files

  /** A field the submitted data must fill: required and not a file. */
  predicate NeedsValue(f: RF.FormField) {
    f.required && f.fieldType != RF.FieldFile
  }

  /** A value counts as missing when absent, null or the empty string. */
  predicate IsMissing(data: map<string, RS.Value>, id: string) {
    id !in data || data[id].Null? || data[id] == RS.Str("")
  }

  predicate MissingAt(data: map<string, RS.Value>, fields: seq<RF.FormField>, i: int) {
    0 <= i < |fields| && NeedsValue(fields[i]) && IsMissing(data, fields[i].id)
  }

  /** The first field from `k` on whose value is missing. */
  function FirstMissing(data: map<string, RS.Value>, fields: seq<RF.FormField>, k: nat): (r: Option<nat>)
    requires k <= |fields|
    ensures r.None? ==> forall i :: k <= i < |fields| ==> !MissingAt(data, fields, i)
    ensures r.Some? ==> k <= r.value && MissingAt(data, fields, r.value)
                        && forall i :: k <= i < r.value ==> !MissingAt(data, fields, i)
    decreases |fields| - k
  {
    if k == |fields| then None
    else if MissingAt(data, fields, k) then Some(k)
    else FirstMissing(data, fields, k + 1)
  }

  datatype DataError = RequiredFieldMissing(fieldLabel: string)

  /** `validateFormData`: every required non-file field needs a value; the
      error names the first field, in schema order, that lacks one. */
  function ValidateFormData(data: map<string, RS.Value>, fields: seq<RF.FormField>): (r: Outcome<DataError>)
    ensures r.Pass? <==> forall i :: 0 <= i < |fields| ==> !MissingAt(data, fields, i)
    ensures r.Fail? ==> exists i :: MissingAt(data, fields, i) && r.error.fieldLabel == fields[i].labelText
                                    && forall j :: 0 <= j < i ==> !MissingAt(data, fields, j)
  {
    match FirstMissing(data, fields, 0)
    case None => Pass
    case Some(i) => Fail(RequiredFieldMissing(fields[i].labelText))
  }

  /** Adding values never turns accepted data into rejected data. */
  lemma FormDataMonotone(data: map<string, RS.Value>, more: map<string, RS.Value>, fields: seq<RF.FormField>)
    requires ValidateFormData(data, fields).Pass?
    requires forall id :: id in data && !IsMissing(data, id) ==> id in more && more[id] == data[id]
    ensures ValidateFormData(more, fields).Pass?
  {
    forall i | 0 <= i < |fields| ensures !MissingAt(more, fields, i) {
      assert !MissingAt(data, fields, i);
    }
  }

  datatype FilesError = NoDocumentsUploaded

  predicate RequiresFile(f: RF.FormField) {
    f.fieldType == RF.FieldFile && f.required
  }

  /** `validateFiles`: the scan for a required file field stops at the first one found. */
  function HasRequiredFileField(fields: seq<RF.FormField>): (b: bool)
    ensures b <==> exists i :: 0 <= i < |fields| && RequiresFile(fields[i])
  {
    if |fields| == 0 then false
    else if RequiresFile(fields[0]) then true
    else
      var rest := HasRequiredFileField(fields[1..]);
      assert forall i :: 1 <= i < |fields| ==> fields[i] == fields[1..][i - 1];
      rest
  }

  /** `validateFiles`: without any uploaded file, a schema with a required
      file field is refused. */
  function ValidateFiles(fields: seq<RF.FormField>, fileCount: nat): (r: Outcome<FilesError>)
    ensures r.Fail? <==> fileCount == 0 && exists i :: 0 <= i < |fields| && RequiresFile(fields[i])
  {
    if HasRequiredFileField(fields) && fileCount == 0 then Fail(NoDocumentsUploaded) else Pass
  }

  // ---------------------------------------------------------------------
  // Submitting

  /** Why `SubmitForm` refused a submission. `NotReady` is the readiness
      error wrapped under the not-ready sentinel. */
  datatype SubmitError =
    | NotReady(cause: PreSubmissionError)
    | InvalidRequest(requestError: RS.SubmissionError)
    | SchemaNotFound
    | MissingData(dataError: DataError)
    | MissingFiles(filesError: FilesError)

  /** The checks of `SubmitForm`, in order, up to the creation of the record:
      readiness, the request, the schema lookup, the form data and the files.
      On success the new record belongs to the caller, refers to the schema
      and is in the submitted state. */
  function SubmitChecks(user: User, activeForm: Option<RF.Schema>, stored: Option<RC.Config>,
                        req: RS.CreateSubmissionRequest, parse: RS.HexParser,
                        schemas: map<ObjectId, RF.Schema>, fileCount: nat): (r: Result<RS.Submission, SubmitError>)
    ensures ValidatePreSubmission(activeForm, stored).Fail? ==>
      r == Failure(NotReady(ValidatePreSubmission(activeForm, stored).error))
    ensures ValidatePreSubmission(activeForm, stored).Pass? && RS.ValidateCreateSubmission(req, parse).Fail? ==>
      r == Failure(InvalidRequest(RS.ValidateCreateSubmission(req, parse).error))
    ensures ValidatePreSubmission(activeForm, stored).Pass? && RS.ValidateCreateSubmission(req, parse).Pass?
            && parse(req.formSchemaId).value !in schemas ==>
      r == Failure(SchemaNotFound)
    ensures r.Success? <==>
      ValidatePreSubmission(activeForm, stored).Pass? && RS.ValidateCreateSubmission(req, parse).Pass?
      && parse(req.formSchemaId).value in schemas
      && ValidateFormData(req.formData, schemas[parse(req.formSchemaId).value].fields).Pass?
      && ValidateFiles(schemas[parse(req.formSchemaId).value].fields, fileCount).Pass?
    ensures r.Failure? && r.error.MissingData? ==>
      ValidateFormData(req.formData, schemas[parse(req.formSchemaId).value].fields) == Fail(r.error.dataError)
    ensures r.Failure? && r.error.MissingFiles? ==>
      ValidateFormData(req.formData, schemas[parse(req.formSchemaId).value].fields).Pass?
      && ValidateFiles(schemas[parse(req.formSchemaId).value].fields, fileCount) == Fail(r.error.filesError)
    ensures r.Success? ==>
      r.value.userId == user.id && r.value.formSchemaId == parse(req.formSchemaId).value
      && r.value.status == RS.StatusSubmitted && r.value.formData == req.formData
  {
    match ValidatePreSubmission(activeForm, stored)
    case Fail(e) => Failure(NotReady(e))
    case Pass =>
      match RS.ValidateCreateSubmission(req, parse)
      case Fail(e) => Failure(InvalidRequest(e))
      case Pass =>
        var sid := parse(req.formSchemaId).value;
        if sid !in schemas then Failure(SchemaNotFound)
        else
          var fields := schemas[sid].fields;
          match ValidateFormData(req.formData, fields)
          case Fail(e) => Failure(MissingData(e))
          case Pass =>
            match ValidateFiles(fields, fileCount)
            case Fail(e) => Failure(MissingFiles(e))
            case Pass =>
              Success(RS.Submission(NilId, user.id, sid, req.formData, "", [], RS.StatusSubmitted,
                                    0, 0, None, None, "", "", "", ""))
  }

  /** The Dropbox folder of a submission: "BLDS_approvals/<username>/<id in hex>". */
  function SubmissionFolder(username: string, idHex: string): (p: string)
    ensures HasPrefix(p, "BLDS_approvals/")
  {
    "BLDS_approvals/" + username + "/" + idHex
  }

  // ---------------------------------------------------------------------
  // Reading submissions

  datatype AccessError = SubmissionNotFound | NotAllowedToView | UnauthorizedListing

  /** `GetSubmission`: the owner and holders of manage_users may read a submission. */
  function GetSubmission(store: map<ObjectId, RS.Submission>, id: ObjectId, user: User)
    : (r: Result<RS.Submission, AccessError>)
    ensures r == Failure(SubmissionNotFound) <==> id !in store
    ensures r.Success? <==> id in store && (store[id].userId == user.id || user.Has(ManageUsers))
    ensures r.Success? ==> r.value == store[id]
  {
    if id !in store then Failure(SubmissionNotFound)
    else if store[id].userId != user.id && !user.Has(ManageUsers) then Failure(NotAllowedToView)
    else Success(store[id])
  }

  /** The names the listing attaches to a submission: the submitter's full
      name and email and the form's name, each only when found. */
  function Enrich(s: RS.Submission, users: map<ObjectId, User>, forms: map<ObjectId, RF.Schema>)
    : (e: RS.Submission)
    ensures s.userId in users ==> e.userName == FullName(users[s.userId]) && e.userEmail == users[s.userId].email
    ensures s.userId !in users ==> e.userName == s.userName && e.userEmail == s.userEmail
    ensures s.formSchemaId in forms ==> e.formName == forms[s.formSchemaId].formName
    ensures s.formSchemaId !in forms ==> e.formName == s.formName
    ensures e.(userName := s.userName, userEmail := s.userEmail, formName := s.formName) == s
  {
    var withUser := if s.userId in users
                    then s.(userName := FullName(users[s.userId]), userEmail := users[s.userId].email)
                    else s;
    if s.formSchemaId in forms then withUser.(formName := forms[s.formSchemaId].formName) else withUser
  }

  /** The user search: the search text occurs, ignoring case, in the
      submitter's name or email. */
  predicate MatchesSearch(s: RS.Submission, search: string) {
    Contains(ToLower(s.userName), ToLower(search)) || Contains(ToLower(s.userEmail), ToLower(search))
  }

  /** `a` is `b` with some elements left out, the rest in order. */
  predicate IsSubsequence<T(==)>(a: seq<T>, b: seq<T>)
    decreases |b|
  {
    |a| == 0 || (|b| > 0 && ((a[0] == b[0] && IsSubsequence(a[1..], b[1..])) || IsSubsequence(a, b[1..])))
  }

  /** The submissions of a page that match the search, in page order. */
  function FilterBySearch(page: seq<RS.Submission>, search: string): (r: seq<RS.Submission>)
    ensures |r| <= |page|
    ensures forall s :: s in r <==> s in page && MatchesSearch(s, search)
    ensures IsSubsequence(r, page)
  {
    if |page| == 0 then []
    else
      var rest := FilterBySearch(page[1..], search);
      assert forall s :: s in page <==> s == page[0] || s in page[1..];
      if MatchesSearch(page[0], search) then
        assert ([page[0]] + rest)[1..] == rest;
        [page[0]] + rest
      else rest
  }

  /** The empty search matches everything, so it keeps the whole page. */
  lemma {:induction false} EmptySearchKeepsAll(page: seq<RS.Submission>)
    ensures FilterBySearch(page, "") == page
  {
    if |page| > 0 {
      assert OccursAt(ToLower(page[0].userName), ToLower(""), 0);
      EmptySearchKeepsAll(page[1..]);
    }
  }

  /** Every submission of a page, enriched, in page order. */
  function EnrichPage(page: seq<RS.Submission>, users: map<ObjectId, User>, forms: map<ObjectId, RF.Schema>)
    : (e: seq<RS.Submission>)
    ensures |e| == |page| && forall i :: 0 <= i < |page| ==> e[i] == Enrich(page[i], users, forms)
  {
    seq(|page|, i requires 0 <= i < |page| => Enrich(page[i], users, forms))
  }

  /** `GetAllSubmissions` on one repository page: manage_users only; every
      submission is enriched; with a search the matching ones are kept and
      the total becomes their number, otherwise the repository total stands. */
  function GetAllSubmissions(user: User, page: seq<RS.Submission>, total: int, search: string,
                             users: map<ObjectId, User>, forms: map<ObjectId, RF.Schema>)
    : (r: Result<(seq<RS.Submission>, int), AccessError>)
    ensures !user.Has(ManageUsers) <==> r == Failure(UnauthorizedListing)
    ensures r.Success? && search == "" ==> r.value == (EnrichPage(page, users, forms), total)
    ensures r.Success? && search != "" ==> r.value.1 == |r.value.0| <= |page|
    ensures r.Success? ==>
      IsSubsequence(r.value.0, EnrichPage(page, users, forms))
      && forall s :: s in r.value.0 <==> s in EnrichPage(page, users, forms) && MatchesSearch(s, search)
  {
    if !user.Has(ManageUsers) then Failure(UnauthorizedListing)
    else
      var enriched := EnrichPage(page, users, forms);
      if search == "" then
        EmptySearchKeepsAll(enriched);
        Success((enriched, total))
      else
        var kept := FilterBySearch(enriched, search);
        Success((kept, |kept|))
  }
}

=== FILE: dafny/registry_submission.dfy ===
/** Registry submissions and their request validators (`models/registry_submission.go`). */
module RegistrySubmission {
  import opened Wrappers
  import opened Base

  const StatusSubmitted: string := "submitted"
  const StatusPending: string := "pending"
  const StatusApproved: string := "approved"
  const StatusRejected: string := "rejected"

  const Statuses: set<string> := {StatusSubmitted, StatusPending, StatusApproved, StatusRejected}

  /** `SubmissionStatus.IsValid`. */
  predicate IsValidStatus(s: string) {
    s in Statuses
  }

  /** Exactly four statuses are valid, and a status outside them is refused. */
  lemma FourStatuses(s: string)
    ensures |Statuses| == 4
    ensures IsValidStatus(s) <==> s == "submitted" || s == "pending" || s == "approved" || s == "rejected"
  {
  }

  /** A value of the submitted form data, a decoded JSON value: only `null`
      and strings are told apart by the service's checks. */
  datatype Value = Null | Str(s: string) | Other

  datatype Submission = Submission(
    id: ObjectId,
    userId: ObjectId,
    formSchemaId: ObjectId,
    formData: map<string, Value>,
    documentsPath: string,
    uploadedDocuments: seq<string>,
    status: string,
    createdAt: Time,
    updatedAt: Time,
    reviewedBy: Option<ObjectId>,
    reviewedAt: Option<Time>,
    reviewNotes: string,
    userName: string,
    userEmail: string,
    formName: string)

  datatype SubmissionError =
    | UserIdRequired | SchemaIdRequired | InvalidStatus | InvalidSchemaIdFormat
  {
    function Rank(): nat {
      match this
      case UserIdRequired => 0
      case SchemaIdRequired => 1
      case InvalidStatus => 2
      case InvalidSchemaIdFormat => 3
    }
  }

  /** `RegistrySubmission.Validate`: the user and schema ids must be set and
      the status valid; empty form data and an empty document list pass. */
  function ValidateSubmission(s: Submission): (r: Outcome<SubmissionError>)
    ensures r.Pass? <==> s.userId != NilId && s.formSchemaId != NilId && IsValidStatus(s.status)
    ensures r == Fail(UserIdRequired) <==> s.userId == NilId
    ensures r == Fail(SchemaIdRequired) <==> s.userId != NilId && s.formSchemaId == NilId
    ensures r.Fail? ==> r.error in {UserIdRequired, SchemaIdRequired, InvalidStatus}
  {
    if s.userId == NilId then Fail(UserIdRequired)
    else if s.formSchemaId == NilId then Fail(SchemaIdRequired)
    else if !IsValidStatus(s.status) then Fail(InvalidStatus)
    else Pass
  }

  /** Validity reads neither the form data nor the documents. */
  lemma SubmissionValidityIgnoresContent(s: Submission, data: map<string, Value>, docs: seq<string>)
    ensures ValidateSubmission(s.(formData := data, uploadedDocuments := docs)) == ValidateSubmission(s)
  {
  }

  /** `primitive.ObjectIDFromHex`, a library parser supplied by the caller. */
  type HexParser = string -> Option<ObjectId>

  datatype CreateSubmissionRequest = CreateSubmissionRequest(formSchemaId: string, formData: map<string, Value>)

  /** `CreateSubmissionRequest.Validate`: a non-empty schema id that parses as hex. */
  function ValidateCreateSubmission(req: CreateSubmissionRequest, parse: HexParser): (r: Outcome<SubmissionError>)
    ensures r.Pass? <==> req.formSchemaId != "" && parse(req.formSchemaId).Some?
    ensures req.formSchemaId == "" ==> r == Fail(SchemaIdRequired)
    ensures req.formSchemaId != "" && parse(req.formSchemaId).None? ==> r == Fail(InvalidSchemaIdFormat)
  {
    if req.formSchemaId == "" then Fail(SchemaIdRequired)
    else if parse(req.formSchemaId).None? then Fail(InvalidSchemaIdFormat)
    else Pass
  }

  /** The form data places no constraint on a create request. */
  lemma CreateSubmissionIgnoresData(req: CreateSubmissionRequest, data: map<string, Value>, parse: HexParser)
    ensures ValidateCreateSubmission(req.(formData := data), parse) == ValidateCreateSubmission(req, parse)
  {
  }

  datatype UpdateStatusRequest = UpdateStatusRequest(status: string, reviewNotes: string)

  /** `UpdateSubmissionStatusRequest.Validate`: only the status is checked. */
  function ValidateStatusUpdate(req: UpdateStatusRequest): (r: Outcome<SubmissionError>)
    ensures r.Pass? <==> req.status in {"submitted", "pending", "approved", "rejected"}
    ensures r.Fail? ==> r.error == InvalidStatus
  {
    if !IsValidStatus(req.status) then Fail(InvalidStatus) else Pass
  }
}

=== FILE: dafny/reset_store.dfy ===
/** The `password_reset_tokens` collection
    (`repository/password_reset_repository.go`): lookups by token string,
    by code and by user, the `used` flag, the expiry sweep and the
    recent-request counts behind the rate limits. */
module ResetStore {
  import opened Wrappers
  import opened Seqs
  import opened Base
  import opened Session

  /** The collection, in natural order; it has no unique index. */
  type Tokens = seq<ResetToken>

  datatype ResetStoreError = ResetTokenNotFound

  /** The first document with token string `token`, if any. */
  function FirstWithToken(s: Tokens, token: string): (r: Option<nat>)
    ensures r.Some? ==> r.value < |s| && s[r.value].token == token
    ensures r.Some? ==> forall j :: 0 <= j < r.value ==> s[j].token != token
    ensures r.None? <==> forall i :: 0 <= i < |s| ==> s[i].token != token
  {
    FirstWhere(s, (x: ResetToken) => x.token == token)
  }

  /** The first document with verification code `code`, if any. */
  function FirstWithCode(s: Tokens, code: string): (r: Option<nat>)
    ensures r.Some? ==> r.value < |s| && s[r.value].code == code
    ensures r.Some? ==> forall j :: 0 <= j < r.value ==> s[j].code != code
    ensures r.None? <==> forall i :: 0 <= i < |s| ==> s[i].code != code
  {
    FirstWhere(s, (x: ResetToken) => x.code == code)
  }

  /** The first document with identifier `id`, if any. */
  function FirstWithId(s: Tokens, id: ObjectId): (r: Option<nat>)
    ensures r.Some? ==> r.value < |s| && s[r.value].id == id
    ensures r.Some? ==> forall j :: 0 <= j < r.value ==> s[j].id != id
    ensures r.None? <==> forall i :: 0 <= i < |s| ==> s[i].id != id
  {
    FirstWhere(s, (x: ResetToken) => x.id == id)
  }

  /** `FindByToken`: the first document with the token string. */
  function FindByToken(s: Tokens, token: string): (r: Result<ResetToken, ResetStoreError>)
    ensures r.Failure? <==> forall i :: 0 <= i < |s| ==> s[i].token != token
    ensures r.Success? ==> r.value == s[FirstWithToken(s, token).value]
  {
    match FirstWithToken(s, token)
    case None => Failure(ResetTokenNotFound)
    case Some(i) => Success(s[i])
  }

  /** `FindByCode`: the first document with the code, whoever it belongs
      to and whether or not it is still usable. */
  function FindByCode(s: Tokens, code: string): (r: Result<ResetToken, ResetStoreError>)
    ensures r.Failure? <==> forall i :: 0 <= i < |s| ==> s[i].code != code
    ensures r.Success? ==> r.value == s[FirstWithCode(s, code).value]
  {
    match FirstWithCode(s, code)
    case None => Failure(ResetTokenNotFound)
    case Some(i) => Success(s[i])
  }

  /** The position of the user's most recently created document: the
      earliest in collection order among those with the latest creation time. */
  function Latest(s: Tokens, userId: ObjectId): (r: Option<nat>)
    ensures r.None? <==> forall i :: 0 <= i < |s| ==> s[i].userId != userId
    ensures r.Some? ==> r.value < |s| && s[r.value].userId == userId
    ensures r.Some? ==> forall i :: 0 <= i < |s| && s[i].userId == userId ==> s[i].createdAt <= s[r.value].createdAt
  {
    if |s| == 0 then None
    else
      var rest := Latest(s[1..], userId);
      assert forall i :: 1 <= i < |s| ==> s[i] == s[1..][i - 1];
      if s[0].userId != userId then
        match rest
        case None => None
        case Some(k) => Some(k + 1)
      else
        match rest
        case None => Some(0)
        case Some(k) => if s[k + 1].createdAt > s[0].createdAt then Some(k + 1) else Some(0)
  }

  /** `FindByUserID`: the user's document with the latest `created_at`. */
  function FindByUserId(s: Tokens, userId: ObjectId): (r: Result<ResetToken, ResetStoreError>)
    ensures r.Failure? <==> forall i :: 0 <= i < |s| ==> s[i].userId != userId
    ensures r.Success? ==>
      r.value in s && r.value.userId == userId
      && forall i :: 0 <= i < |s| && s[i].userId == userId ==> s[i].createdAt <= r.value.createdAt
  {
    match Latest(s, userId)
    case None => Failure(ResetTokenNotFound)
    case Some(i) => Success(s[i])
  }

  /** `MarkAsUsed`: `UpdateOne` on the identifier sets `used` on the first
      matching document; an identifier that matches nothing is not an error. */
  function MarkAsUsed(s: Tokens, id: ObjectId): (r: Tokens)
    ensures |r| == |s|
    ensures FirstWithId(s, id).None? ==> r == s
    ensures FirstWithId(s, id).Some? ==>
      var k := FirstWithId(s, id).value;
      r[k] == s[k].(used := true) && forall i :: 0 <= i < |s| && i != k ==> r[i] == s[i]
  {
    match FirstWithId(s, id)
    case None => s
    case Some(k) => s[k := s[k].(used := true)]
  }

  /** `CleanupExpiredTokens`: deletes the documents whose deadline is
      before `now`, keeping the rest in order. */
  function CleanupExpiredTokens(s: Tokens, now: Time): (r: Tokens)
    ensures |r| <= |s|
    ensures forall i :: 0 <= i < |r| ==> r[i] in s && now <= r[i].expiresAt
    ensures forall i :: 0 <= i < |s| && now <= s[i].expiresAt ==> s[i] in r
  {
    if |s| == 0 then []
    else
      var rest := CleanupExpiredTokens(s[1..], now);
      assert forall i :: 1 <= i < |s| ==> s[i] == s[1..][i - 1];
      if s[0].expiresAt < now then rest else [s[0]] + rest
  }

  /** Whether a document counts towards a user's recent requests. */
  predicate RecentForUser(t: ResetToken, userId: ObjectId, since: Time) {
    t.userId == userId && t.createdAt >= since
  }

  /** Whether a document counts towards an address's recent requests. */
  predicate RecentForIp(t: ResetToken, ip: string, since: Time) {
    t.ipAddress == ip && t.createdAt >= since
  }

  /** `CountRecentRequests`: the documents of `userId` created at or after `since`. */
  function CountRecentRequests(s: Tokens, userId: ObjectId, since: Time): (n: nat)
    ensures n <= |s|
    ensures n == 0 <==> forall i :: 0 <= i < |s| ==> !RecentForUser(s[i], userId, since)
  {
    if |s| == 0 then 0
    else
      var init := s[..|s| - 1];
      assert forall i :: 0 <= i < |s| - 1 ==> s[i] == init[i];
      CountRecentRequests(init, userId, since) + (if RecentForUser(s[|s| - 1], userId, since) then 1 else 0)
  }

  /** `CountRecentRequestsByIP`: the documents from `ip` created at or after `since`. */
  function CountRecentRequestsByIp(s: Tokens, ip: string, since: Time): (n: nat)
    ensures n <= |s|
    ensures n == 0 <==> forall i :: 0 <= i < |s| ==> !RecentForIp(s[i], ip, since)
  {
    if |s| == 0 then 0
    else
      var init := s[..|s| - 1];
      assert forall i :: 0 <= i < |s| - 1 ==> s[i] == init[i];
      CountRecentRequestsByIp(init, ip, since) + (if RecentForIp(s[|s| - 1], ip, since) then 1 else 0)
  }

  /** Inserting a document raises each count by one exactly when the
      document falls in that count's window. */
  lemma CountAfterInsert(s: Tokens, t: ResetToken, userId: ObjectId, ip: string, since: Time)
    ensures CountRecentRequests(s + [t], userId, since)
      == CountRecentRequests(s, userId, since) + (if RecentForUser(t, userId, since) then 1 else 0)
    ensures CountRecentRequestsByIp(s + [t], ip, since)
      == CountRecentRequestsByIp(s, ip, since) + (if RecentForIp(t, ip, since) then 1 else 0)
  {
    assert (s + [t])[..|s|] == s;
  }

  /** A wider window counts at least as many documents. */
  lemma {:induction false} CountWindowMonotone(s: Tokens, userId: ObjectId, ip: string, early: Time, late: Time)
    requires early <= late
    ensures CountRecentRequests(s, userId, late) <= CountRecentRequests(s, userId, early)
    ensures CountRecentRequestsByIp(s, ip, late) <= CountRecentRequestsByIp(s, ip, early)
  {
    if |s| > 0 {
      CountWindowMonotone(s[..|s| - 1], userId, ip, early, late);
    }
  }

  /** Marking a document used leaves every token string in place, so a
      later lookup by token string finds the same position. */
  lemma MarkAsUsedKeepsKeys(s: Tokens, id: ObjectId, token: string)
    ensures FirstWithToken(MarkAsUsed(s, id), token) == FirstWithToken(s, token)
  {
    var r := MarkAsUsed(s, id);
    assert forall i :: 0 <= i < |s| ==> r[i].token == s[i].token;
    SameTokensSameFirst(s, r, token);
  }

  /** Two collections with the same token strings, position by position,
      find a token string at the same position. */
  lemma SameTokensSameFirst(s: Tokens, r: Tokens, token: string)
    requires |r| == |s| && forall i :: 0 <= i < |s| ==> r[i].token == s[i].token
    ensures FirstWithToken(r, token) == FirstWithToken(s, token)
  {
    var a := FirstWithToken(s, token);
    var b := FirstWithToken(r, token);
    if a.Some? && b.Some? {
      assert r[a.value].token == token;
      assert s[b.value].token == token;
    }
  }
}

=== FILE: dafny/roles.dfy ===
/** User roles, administrative levels and the permission table of the
    backend (`models/roles.go`). Roles and levels are plain strings, as the
    Go string types admit any value; validity is a predicate. */
module Roles {

  const Haematologist: string := "haematologist"
  const Physician: string := "physician"
  const DataCapturer: string := "data_capturer"
  const Admin: string := "admin"

  /** `UserRole.IsValid`. */
  predicate IsValidRole(role: string) {
    role in {Haematologist, Physician, DataCapturer, Admin}
  }

  /** `UserRole.IsClinical`. */
  predicate IsClinical(role: string) {
    role in {Haematologist, Physician, DataCapturer}
  }

  const LevelNone: string := ""
  const LevelUserManager: string := "user_manager"
  const LevelSuperAdmin: string := "super_admin"

  /** `AdminLevel.IsValid`: the empty level is valid. */
  predicate IsValidAdminLevel(level: string) {
    level in {LevelNone, LevelUserManager, LevelSuperAdmin}
  }

  /** The ten permissions, in the order the source declares them. */
  datatype Permission =
    | ViewSops | DownloadSops | AccessReferrals | ViewRegistry | UploadEthicsApproval
    | ManageUsers | AssignRoles | ViewAuditLogs | ManageSystem | DeleteUsers
  {
    /** The wire name of the permission. */
    function Name(): string {
      match this
      case ViewSops => "view_sops"
      case DownloadSops => "download_sops"
      case AccessReferrals => "access_referrals"
      case ViewRegistry => "view_registry"
      case UploadEthicsApproval => "upload_ethics_approval"
      case ManageUsers => "manage_users"
      case AssignRoles => "assign_roles"
      case ViewAuditLogs => "view_audit_logs"
      case ManageSystem => "manage_system"
      case DeleteUsers => "delete_users"
    }

    /** The five permissions every clinical user holds. */
    predicate IsClinicalPermission() {
      this in {ViewSops, DownloadSops, AccessReferrals, ViewRegistry, UploadEthicsApproval}
    }
  }

  /** Distinct permissions have distinct wire names. */
  lemma NameInjective(p: Permission, q: Permission)
    requires p.Name() == q.Name()
    ensures p == q
  {
  }

  /** The permission table stated one permission at a time: clinical
      permissions for everyone, user management for both admin levels,
      the remaining three only for super admins. */
  predicate Grants(role: string, level: string, p: Permission) {
    p.IsClinicalPermission()
    || (role == Admin && level in {LevelUserManager, LevelSuperAdmin} && p in {ManageUsers, AssignRoles})
    || (role == Admin && level == LevelSuperAdmin)
  }

  predicate NoDuplicates<T(==)>(s: seq<T>) {
    forall i, j :: 0 <= i < j < |s| ==> s[i] != s[j]
  }

  const ClinicalPermissions: seq<Permission> :=
    [ViewSops, DownloadSops, AccessReferrals, ViewRegistry, UploadEthicsApproval]

  /** Every permission, in declaration order. */
  const AllPermissions: seq<Permission> :=
    ClinicalPermissions + [ManageUsers, AssignRoles, ViewAuditLogs, ManageSystem, DeleteUsers]

  lemma AllPermissionsComplete()
    ensures forall p: Permission :: p in AllPermissions
  {
    forall p: Permission ensures p in AllPermissions {
      match p
      case ViewSops => assert AllPermissions[0] == p;
      case DownloadSops => assert AllPermissions[1] == p;
      case AccessReferrals => assert AllPermissions[2] == p;
      case ViewRegistry => assert AllPermissions[3] == p;
      case UploadEthicsApproval => assert AllPermissions[4] == p;
      case ManageUsers => assert AllPermissions[5] == p;
      case AssignRoles => assert AllPermissions[6] == p;
      case ViewAuditLogs => assert AllPermissions[7] == p;
      case ManageSystem => assert AllPermissions[8] == p;
      case DeleteUsers => assert AllPermissions[9] == p;
    }
  }

  /** `GetPermissionsForRole`: the clinical list, extended for the two
      admin levels. */
  function PermissionsForRole(role: string, level: string): (ps: seq<Permission>)
    ensures forall p :: p in ps <==> Grants(role, level, p)
    ensures NoDuplicates(ps)
    ensures |ps| >= 5 && ps[..5] == ClinicalPermissions
  {
    if role != Admin then ClinicalPermissions
    else if level == LevelUserManager then ClinicalPermissions + [ManageUsers, AssignRoles]
    else if level == LevelSuperAdmin then AllPermissionsComplete(); AllPermissions
    else ClinicalPermissions
  }

  /** The linear search of `HasPermission`. */
  function Member(ps: seq<Permission>, p: Permission): (b: bool)
    ensures b <==> p in ps
  {
    if ps == [] then false else ps[0] == p || Member(ps[1..], p)
  }

  /** `HasPermission`. */
  function HasPermission(role: string, level: string, p: Permission): (b: bool)
    ensures b <==> p in PermissionsForRole(role, level)
    ensures b <==> Grants(role, level, p)
  {
    Member(PermissionsForRole(role, level), p)
  }

  lemma ClinicalIffValidNonAdmin(role: string)
    ensures IsClinical(role) <==> IsValidRole(role) && role != Admin
  {
  }

  /** Non-admin roles get the five clinical permissions whatever level is given. */
  lemma NonAdminGetsClinical(role: string, level: string)
    requires role != Admin
    ensures PermissionsForRole(role, level) == ClinicalPermissions
    ensures |PermissionsForRole(role, level)| == 5
  {
  }

  /** Permission counts for admins: 7, 10, and 5 for any other level. */
  lemma AdminPermissionCounts(level: string)
    ensures |PermissionsForRole(Admin, LevelUserManager)| == 7
    ensures |PermissionsForRole(Admin, LevelSuperAdmin)| == 10
    ensures level != LevelUserManager && level != LevelSuperAdmin
      ==> PermissionsForRole(Admin, level) == ClinicalPermissions
  {
  }

  /** Clinical ⊆ user manager ⊆ super admin, and super admins hold every permission. */
  lemma PermissionsMonotone(role: string, p: Permission)
    ensures p in PermissionsForRole(role, LevelNone) ==> p in PermissionsForRole(Admin, LevelUserManager)
    ensures p in PermissionsForRole(Admin, LevelUserManager) ==> p in PermissionsForRole(Admin, LevelSuperAdmin)
    ensures p in PermissionsForRole(Admin, LevelSuperAdmin)
  {
  }

  /** Deleting users, managing the system and viewing audit logs are super-admin only. */
  lemma SuperAdminOnly(role: string, level: string, p: Permission)
    requires p in {DeleteUsers, ManageSystem, ViewAuditLogs}
    ensures HasPermission(role, level, p) <==> role == Admin && level == LevelSuperAdmin
  {
  }
}

=== FILE: dafny/router_guard.dfy ===
/** The client's navigation guard (`frontend/src/router/index.ts`): each
    route carries meta flags, and before every navigation the guard sends
    an unauthenticated visitor of a protected page to the login page, a
    signed-in visitor of a guest page to the dashboard, and a non-admin
    visitor of an admin page to the dashboard. */
module RouterGuard {
  import opened Wrappers

  /** A route's meta flags; an absent flag is false. */
  datatype Meta = Meta(requiresAuth: bool, requiresGuest: bool, requiresAdmin: bool)

  const Guest: Meta := Meta(false, true, false)
  const Authenticated: Meta := Meta(true, false, false)
  const AdminOnly: Meta := Meta(true, false, true)

  /** The named routes and their meta. The admin pages are children of
      `admin` without meta of their own, and the router merges a parent's
      meta into its children's, so they carry the parent's flags. */
  function RouteMeta(name: string): Option<Meta> {
    if name in {"home", "login"} then Some(Guest)
    else if name in {"dashboard", "sops", "sops-list", "referrals", "registry", "documents",
                     "training", "profile", "settings", "working-parties"} then Some(Authenticated)
    else if name in {"admin", "admin-dashboard", "admin-users", "admin-institutions",
                     "admin-settings", "admin-audit-logs"} then Some(AdminOnly)
    else None
  }

  /** What the guard tells the router. */
  datatype Decision = Proceed | RedirectTo(name: string)

  /** `router.beforeEach`: the three checks, in order. */
  function Guard(m: Meta, isAuthenticated: bool, isAdmin: bool): (d: Decision)
    ensures d == Proceed <==>
      (m.requiresAuth ==> isAuthenticated) && (m.requiresGuest ==> !isAuthenticated)
      && (m.requiresAdmin ==> isAdmin)
    ensures d == RedirectTo("login") <==> m.requiresAuth && !isAuthenticated
    ensures d.RedirectTo? ==> d.name in {"login", "dashboard"}
  {
    if m.requiresAuth && !isAuthenticated then RedirectTo("login")
    else if m.requiresGuest && isAuthenticated then RedirectTo("dashboard")
    else if m.requiresAdmin && !isAdmin then RedirectTo("dashboard")
    else Proceed
  }

  /** A sensible flag combination: admin pages are protected pages, and no
      page is both protected and for guests only. */
  predicate WellFormed(m: Meta) {
    (m.requiresAdmin ==> m.requiresAuth) && !(m.requiresAuth && m.requiresGuest)
  }

  /** Every route of the table has sensible flags. */
  lemma RoutesWellFormed(name: string)
    requires RouteMeta(name).Some?
    ensures WellFormed(RouteMeta(name).value)
  {
  }

  /** For sensible flags a redirect lands on a route of the table that the
      same visitor may enter: the guard never redirects twice in a row. */
  lemma NoRedirectChain(m: Meta, isAuthenticated: bool, isAdmin: bool)
    requires WellFormed(m)
    ensures var d := Guard(m, isAuthenticated, isAdmin);
      d.RedirectTo? ==>
        RouteMeta(d.name).Some? && Guard(RouteMeta(d.name).value, isAuthenticated, isAdmin) == Proceed
  {
    var d := Guard(m, isAuthenticated, isAdmin);
    if d.RedirectTo? {
      assert RouteMeta("login") == Some(Guest);
      assert RouteMeta("dashboard") == Some(Authenticated);
    }
  }

  /** The admin check reads the role only: a signed-out admin record is
      still sent to the login page, because authentication is checked
      first. */
  lemma AuthenticationCheckedFirst(isAdmin: bool)
    ensures Guard(AdminOnly, false, isAdmin) == RedirectTo("login")
    ensures Guard(AdminOnly, true, false) == RedirectTo("dashboard")
  {
  }
}

=== FILE: dafny/seqs.dfy ===
/** Searches over sequences shared by the stores: the position a Mongo
    `FindOne` without a sort, or a JavaScript `findIndex`, reports. */
module Seqs {
  import opened Wrappers

  /** The position of the first element that satisfies `p`, if any. */
  function FirstWhere<T>(s: seq<T>, p: T -> bool): (r: Option<nat>)
    ensures r.Some? ==> r.value < |s| && p(s[r.value])
    ensures r.Some? ==> forall j :: 0 <= j < r.value ==> !p(s[j])
    ensures r.None? <==> forall i :: 0 <= i < |s| ==> !p(s[i])
  {
    if |s| == 0 then None
    else if p(s[0]) then Some(0)
    else
      match FirstWhere(s[1..], p)
      case None =>
        assert forall i :: 1 <= i < |s| ==> s[i] == s[1..][i - 1];
        None
      case Some(k) =>
        assert forall j :: 1 <= j < k + 1 ==> s[j] == s[1..][j - 1];
        Some(k + 1)
  }
}

=== FILE: dafny/session.dfy ===
/** Authentication sessions and password-reset tokens: their expiry and
    validity at an instant `now` (`models/session.go`, `models/password_reset.go`). */
module Session {
  import opened Base

  datatype Session = Session(
    id: ObjectId,
    userId: ObjectId,
    token: string,
    refreshToken: string,
    expiresAt: Time,
    refreshExpiresAt: Time,
    createdAt: Time,
    ipAddress: string,
    userAgent: string)

  /** `Session.IsExpired`: strictly after the access deadline. */
  predicate IsExpired(s: Session, now: Time) {
    now > s.expiresAt
  }

  /** `Session.IsRefreshExpired`: strictly after the refresh deadline. */
  predicate IsRefreshExpired(s: Session, now: Time) {
    now > s.refreshExpiresAt
  }

  /** Each check reads only its own deadline, and both are monotone in time:
      once expired, always expired. */
  lemma ExpiryProperties(s: Session, now: Time, later: Time, t: Time)
    requires now <= later
    ensures IsExpired(s, now) ==> IsExpired(s, later)
    ensures IsRefreshExpired(s, now) ==> IsRefreshExpired(s, later)
    ensures IsExpired(s.(refreshExpiresAt := t), now) == IsExpired(s, now)
    ensures IsRefreshExpired(s.(expiresAt := t), now) == IsRefreshExpired(s, now)
    ensures !IsExpired(s, s.expiresAt) && IsExpired(s, s.expiresAt + 1)
  {
  }

  datatype ResetToken = ResetToken(
    id: ObjectId,
    userId: ObjectId,
    token: string,
    code: string,
    expiresAt: Time,
    used: bool,
    ipAddress: string,
    createdAt: Time)

  /** `PasswordResetToken.IsExpired`: strictly after the deadline. */
  function TokenExpired(t: ResetToken, now: Time): (b: bool)
    ensures b <==> t.expiresAt < now
  {
    now > t.expiresAt
  }

  /** `PasswordResetToken.IsValid`: neither expired nor used. */
  function TokenValid(t: ResetToken, now: Time): (b: bool)
    ensures b <==> now <= t.expiresAt && !t.used
  {
    !TokenExpired(t, now) && !t.used
  }

  /** A used token is never valid; at its deadline an unused one still is;
      validity only ever ends as time passes. */
  lemma TokenValidity(t: ResetToken, now: Time, later: Time)
    requires now <= later
    ensures t.used ==> !TokenValid(t, now)
    ensures !t.used ==> TokenValid(t, t.expiresAt)
    ensures TokenValid(t, later) ==> TokenValid(t, now)
  {
  }
}

=== FILE: dafny/session_store.dfy ===
/** The `sessions` collection (`repository/session_repository.go`): lookups
    that refuse expired sessions, single and bulk deletes, and the unique
    token indexes that `Create` runs into. */
module SessionStore {
  import opened Wrappers
  import opened Seqs
  import opened Base
  import opened Session

  /** The collection, in natural order. */
  type Sessions = seq<Session>

  datatype SessionError = SessionNotFound | SessionExpired | DuplicateToken

  /** The unique indexes on `token` and `refresh_token`. */
  predicate UniqueTokens(s: Sessions) {
    forall i, j :: 0 <= i < j < |s| ==>
      s[i].token != s[j].token && s[i].refreshToken != s[j].refreshToken
  }

  predicate HasToken(s: Sessions, token: string) {
    exists i :: 0 <= i < |s| && s[i].token == token
  }

  predicate HasRefreshToken(s: Sessions, refreshToken: string) {
    exists i :: 0 <= i < |s| && s[i].refreshToken == refreshToken
  }

  /** The first session with access token `token`, if any. */
  function FirstWithToken(s: Sessions, token: string): (r: Option<nat>)
    ensures r.Some? ==> r.value < |s| && s[r.value].token == token
    ensures r.Some? ==> forall j :: 0 <= j < r.value ==> s[j].token != token
    ensures r.None? <==> !HasToken(s, token)
  {
    FirstWhere(s, (x: Session) => x.token == token)
  }

  /** The first session with refresh token `refreshToken`, if any. */
  function FirstWithRefreshToken(s: Sessions, refreshToken: string): (r: Option<nat>)
    ensures r.Some? ==> r.value < |s| && s[r.value].refreshToken == refreshToken
    ensures r.Some? ==> forall j :: 0 <= j < r.value ==> s[j].refreshToken != refreshToken
    ensures r.None? <==> !HasRefreshToken(s, refreshToken)
  {
    FirstWhere(s, (x: Session) => x.refreshToken == refreshToken)
  }

  /** `FindByToken`: a missing token and an expired session are distinct errors. */
  function FindByToken(s: Sessions, token: string, now: Time): (r: Result<Session, SessionError>)
    ensures r == Failure(SessionNotFound) <==> !HasToken(s, token)
    ensures r.Success? ==> r.value in s && r.value.token == token && !IsExpired(r.value, now)
    ensures r.Failure? ==> r.error != DuplicateToken
  {
    match FirstWithToken(s, token)
    case None => Failure(SessionNotFound)
    case Some(i) => if IsExpired(s[i], now) then Failure(SessionExpired) else Success(s[i])
  }

  /** `FindByRefreshToken`: only the refresh deadline is consulted. */
  function FindByRefreshToken(s: Sessions, refreshToken: string, now: Time): (r: Result<Session, SessionError>)
    ensures r == Failure(SessionNotFound) <==> !HasRefreshToken(s, refreshToken)
    ensures r.Success? ==>
      r.value in s && r.value.refreshToken == refreshToken && !IsRefreshExpired(r.value, now)
    ensures r.Failure? ==> r.error != DuplicateToken
  {
    match FirstWithRefreshToken(s, refreshToken)
    case None => Failure(SessionNotFound)
    case Some(i) => if IsRefreshExpired(s[i], now) then Failure(SessionExpired) else Success(s[i])
  }

  /** An existing session whose only expired deadline is the access one is
      still found by its refresh token, but not by its access token. */
  lemma RefreshIgnoresAccessExpiry(s: Sessions, i: nat, now: Time)
    requires i < |s| && UniqueTokens(s)
    requires IsExpired(s[i], now) && !IsRefreshExpired(s[i], now)
    ensures FindByRefreshToken(s, s[i].refreshToken, now) == Success(s[i])
    ensures FindByToken(s, s[i].token, now) == Failure(SessionExpired)
  {
    var k := FirstWithRefreshToken(s, s[i].refreshToken).value;
    assert k == i;
    var m := FirstWithToken(s, s[i].token).value;
    assert m == i;
  }

  /** `Create`: stamps the creation time and assigns `id`; the unique
      indexes refuse a second session with the same token or refresh token. */
  function Create(s: Sessions, session: Session, id: ObjectId, now: Time): (r: Result<Sessions, SessionError>)
    ensures r.Failure? <==> HasToken(s, session.token) || HasRefreshToken(s, session.refreshToken)
    ensures r.Failure? ==> r.error == DuplicateToken
    ensures r.Success? ==> r.value == s + [session.(id := id, createdAt := now)]
    ensures r.Success? && UniqueTokens(s) ==> UniqueTokens(r.value)
  {
    if HasToken(s, session.token) || HasRefreshToken(s, session.refreshToken) then Failure(DuplicateToken)
    else Success(s + [session.(id := id, createdAt := now)])
  }

  /** `Delete`: `DeleteOne` on the access token removes its first session;
      deleting nothing is reported as not found. */
  function Delete(s: Sessions, token: string): (r: Result<Sessions, SessionError>)
    ensures r.Failure? <==> !HasToken(s, token)
    ensures r.Failure? ==> r.error == SessionNotFound
    ensures r.Success? ==> |r.value| == |s| - 1
    ensures r.Success? ==> var i := FirstWithToken(s, token).value; r.value == s[..i] + s[i + 1..]
  {
    match FirstWithToken(s, token)
    case None => Failure(SessionNotFound)
    case Some(i) => Success(s[..i] + s[i + 1..])
  }

  /** Removing one session keeps the tokens unique, and when they were
      unique the deleted token is gone for good. */
  lemma DeletePreservesUnique(s: Sessions, token: string)
    requires UniqueTokens(s) && HasToken(s, token)
    ensures Delete(s, token).Success?
    ensures UniqueTokens(Delete(s, token).value)
    ensures !HasToken(Delete(s, token).value, token)
    ensures forall k :: 0 <= k < |s| && s[k].token != token ==> s[k] in Delete(s, token).value
  {
    var i := FirstWithToken(s, token).value;
    var r := s[..i] + s[i + 1..];
    assert forall k :: 0 <= k < |r| ==> r[k] == (if k < i then s[k] else s[k + 1]);
    forall a, b | 0 <= a < b < |r| ensures r[a].token != r[b].token && r[a].refreshToken != r[b].refreshToken {
      var a' := if a < i then a else a + 1;
      var b' := if b < i then b else b + 1;
      assert r[a] == s[a'] && r[b] == s[b'] && a' < b';
    }
    forall k | 0 <= k < |r| ensures r[k].token != token {
      assert r[k] == s[if k < i then k else k + 1];
    }
    forall k | 0 <= k < |s| && s[k].token != token ensures s[k] in r {
      if k < i { assert r[k] == s[k]; } else { assert k != i; assert r[k - 1] == s[k]; }
    }
  }

  /** The sessions that do not satisfy `drop`, in collection order. */
  function Remove(s: Sessions, drop: Session -> bool): (r: Sessions)
    ensures |r| <= |s|
    ensures forall i :: 0 <= i < |r| ==> !drop(r[i]) && r[i] in s
    ensures forall i :: 0 <= i < |s| && !drop(s[i]) ==> s[i] in r
  {
    if |s| == 0 then []
    else (if drop(s[0]) then [] else [s[0]]) + Remove(s[1..], drop)
  }

  /** `DeleteAllByUserID`: every session of the user, and nothing else. */
  function DeleteAllByUserId(s: Sessions, userId: ObjectId): (r: Sessions)
    ensures forall i :: 0 <= i < |r| ==> r[i].userId != userId && r[i] in s
    ensures forall i :: 0 <= i < |s| && s[i].userId != userId ==> s[i] in r
  {
    Remove(s, (x: Session) => x.userId == userId)
  }

  /** `DeleteExpired`: removes exactly the sessions whose access deadline is
      before `now`, and reports how many went. */
  function DeleteExpired(s: Sessions, now: Time): (r: (Sessions, nat))
    ensures r.1 == |s| - |r.0|
    ensures forall i :: 0 <= i < |r.0| ==> !IsExpired(r.0[i], now) && r.0[i] in s
    ensures forall i :: 0 <= i < |s| && !IsExpired(s[i], now) ==> s[i] in r.0
  {
    var kept := Remove(s, (x: Session) => x.expiresAt < now);
    (kept, |s| - |kept|)
  }

  /** After the sweep no lookup reports an expired access token at the same instant. */
  lemma {:induction false} NoExpiredAfterSweep(s: Sessions, token: string, now: Time)
    ensures FindByToken(DeleteExpired(s, now).0, token, now) != Failure(SessionExpired)
  {
    var kept := DeleteExpired(s, now).0;
    match FirstWithToken(kept, token)
    case None =>
    case Some(i) => assert !IsExpired(kept[i], now);
  }

  /** The TTL index on `expires_at` lets the database run the same sweep
      on its own once the access deadline has passed. After it, the
      refresh token of a session whose access token expired is unknown,
      however long the refresh token itself would still have lived. */
  lemma RefreshAfterSweepFails(s: Sessions, i: nat, now: Time)
    requires i < |s| && UniqueTokens(s) && IsExpired(s[i], now)
    ensures FindByRefreshToken(DeleteExpired(s, now).0, s[i].refreshToken, now) == Failure(SessionNotFound)
  {
    var kept := DeleteExpired(s, now).0;
    forall k | 0 <= k < |kept|
      ensures kept[k].refreshToken != s[i].refreshToken
    {
      var j :| 0 <= j < |s| && s[j] == kept[k];
      assert j != i;
    }
  }
}

=== FILE: dafny/sop_category.dfy ===
/** SOP categories: slugs, names, image paths and request validators
    (`models/sop_category.go`). */
module SopCategory {
  import opened Wrappers
  import opened Base
  import opened GoStrings

  datatype Category = Category(
    id: ObjectId,
    name: string,
    slug: string,
    description: string,
    imagePath: string,
    dropboxPath: string,
    displayOrder: int,
    isActive: bool,
    createdAt: Time,
    updatedAt: Time,
    createdBy: Option<ObjectId>)

  datatype CreateRequest = CreateRequest(name: string, description: string, imagePath: string, displayOrder: int)

  datatype UpdateRequest = UpdateRequest(
    name: Option<string>,
    description: Option<string>,
    imagePath: Option<string>,
    displayOrder: Option<int>,
    isActive: Option<bool>)

  // ---------------------------------------------------------------------
  // Slugs

  /** The characters a slug may contain: `[a-z0-9-]`. */
  predicate IsSlugChar(c: char) {
    IsAsciiLower(c) || IsDigit(c) || c == '-'
  }

  /** No two hyphens in a row. */
  predicate NoDoubleHyphen(s: string) {
    forall i :: 0 <= i < |s| - 1 ==> !(s[i] == '-' && s[i + 1] == '-')
  }

  /** The shape of every generated slug. */
  predicate IsSlug(s: string) {
    AllChars(s, IsSlugChar) && NoDoubleHyphen(s) && (s == [] || (s[0] != '-' && s[|s| - 1] != '-'))
  }

  /** `strings.ReplaceAll` for a one-character pattern and replacement. */
  function ReplaceChar(s: string, from: char, to: char): (r: string)
    ensures |r| == |s|
    ensures forall i :: 0 <= i < |s| ==> r[i] == (if s[i] == from then to else s[i])
  {
    if |s| == 0 then [] else [if s[0] == from then to else s[0]] + ReplaceChar(s[1..], from, to)
  }

  /** The regular-expression replacement of `[^a-z0-9-]+` by nothing: the
      slug characters, in order. */
  function KeepSlugChars(s: string): (r: string)
    ensures AllChars(r, IsSlugChar)
    ensures |r| <= |s|
    ensures AllChars(s, IsSlugChar) ==> r == s
  {
    if |s| == 0 then []
    else if IsSlugChar(s[0]) then [s[0]] + KeepSlugChars(s[1..])
    else KeepSlugChars(s[1..])
  }

  /** The replacement of `-+` by a single `-`. */
  function CollapseHyphens(s: string): (r: string)
    ensures NoDoubleHyphen(r)
    ensures |r| <= |s|
    ensures AllChars(s, IsSlugChar) ==> AllChars(r, IsSlugChar)
    ensures |s| > 0 ==> |r| > 0 && r[0] == s[0]
    ensures NoDoubleHyphen(s) ==> r == s
  {
    if |s| <= 1 then s
    else if s[0] == '-' && s[1] == '-' then CollapseHyphens(s[1..])
    else [s[0]] + CollapseHyphens(s[1..])
  }

  /** `strings.TrimLeft(s, "-")`. */
  function TrimLeftHyphens(s: string): (r: string)
    ensures |r| <= |s| && r == s[|s| - |r|..]
    ensures r == [] || r[0] != '-'
    ensures forall i :: 0 <= i < |s| - |r| ==> s[i] == '-'
  {
    if |s| > 0 && s[0] == '-' then TrimLeftHyphens(s[1..]) else s
  }

  /** `strings.TrimRight(s, "-")`. */
  function TrimRightHyphens(s: string): (r: string)
    ensures |r| <= |s| && r == s[..|r|]
    ensures r == [] || r[|r| - 1] != '-'
    ensures forall i :: |r| <= i < |s| ==> s[i] == '-'
  {
    if |s| > 0 && s[|s| - 1] == '-' then TrimRightHyphens(s[..|s| - 1]) else s
  }

  /** `strings.Trim(s, "-")`. */
  function TrimHyphens(s: string): string {
    TrimRightHyphens(TrimLeftHyphens(s))
  }

  /** A slice of a string of slug characters without double hyphens is one too. */
  lemma SliceOfSlugChars(s: string, a: int, b: int)
    requires 0 <= a <= b <= |s| && AllChars(s, IsSlugChar) && NoDoubleHyphen(s)
    ensures AllChars(s[a..b], IsSlugChar) && NoDoubleHyphen(s[a..b])
  {
    var t := s[a..b];
    forall i | 0 <= i < |t| ensures IsSlugChar(t[i]) {
      assert t[i] == s[a + i];
    }
    forall i | 0 <= i < |t| - 1 ensures !(t[i] == '-' && t[i + 1] == '-') {
      assert t[i] == s[a + i] && t[i + 1] == s[a + i + 1];
    }
  }

  /** Trimming the hyphens of a string of slug characters without double
      hyphens leaves a slug. */
  lemma TrimHyphensIsSlug(s: string)
    requires AllChars(s, IsSlugChar) && NoDoubleHyphen(s)
    ensures IsSlug(TrimHyphens(s))
  {
    var left := TrimLeftHyphens(s);
    var r := TrimRightHyphens(left);
    var off := |s| - |left|;
    assert r == s[off..off + |r|] by {
      assert left == s[off..];
      assert r == left[..|r|];
    }
    SliceOfSlugChars(s, off, off + |r|);
    assert r == [] || r[0] == left[0];
  }

  /** The character replacements of `GenerateSlug`: lower-case, then spaces
      and underscores to hyphens. */
  function Hyphenate(name: string): (h: string)
    ensures |h| == |name|
    ensures forall i :: 0 <= i < |name| ==>
      h[i] == (if LowerChar(name[i]) == ' ' || LowerChar(name[i]) == '_' then '-' else LowerChar(name[i]))
  {
    ReplaceChar(ReplaceChar(ToLower(name), ' ', '-'), '_', '-')
  }

  /** The regular-expression steps of `GenerateSlug`: strip, collapse, trim. */
  function Slugify(h: string): (slug: string)
    ensures IsSlug(slug)
  {
    var collapsed := CollapseHyphens(KeepSlugChars(h));
    TrimHyphensIsSlug(collapsed);
    TrimHyphens(collapsed)
  }

  /** `GenerateSlug`: lower-case, spaces and underscores to hyphens, strip
      everything outside `[a-z0-9-]`, collapse hyphen runs, trim hyphens. */
  function GenerateSlug(name: string): (slug: string)
    ensures IsSlug(slug)
  {
    Slugify(Hyphenate(name))
  }

  /** The regular-expression steps leave a slug as it is. */
  lemma SlugifySlug(s: string)
    requires IsSlug(s)
    ensures Slugify(s) == s
  {
    assert KeepSlugChars(s) == s;
    assert CollapseHyphens(s) == s;
    assert TrimLeftHyphens(s) == s;
    assert TrimRightHyphens(s) == s;
  }

  /** A string already shaped like a slug is its own slug. */
  lemma SlugFixpoint(s: string)
    requires IsSlug(s)
    ensures GenerateSlug(s) == s
  {
    assert Hyphenate(s) == s;
    SlugifySlug(s);
  }

  /** Re-slugging a slug returns it unchanged. */
  lemma SlugIdempotent(name: string)
    ensures GenerateSlug(GenerateSlug(name)) == GenerateSlug(name)
  {
    SlugFixpoint(GenerateSlug(name));
  }

  /** A space becomes a hyphen between words. */
  lemma SlugOfSpacedName()
    ensures GenerateSlug("A b") == "a-b"
  {
    assert Hyphenate("A b") == "a-b";
    SlugifySlug("a-b");
  }

  /** An underscore becomes a hyphen as well. */
  lemma SlugOfUnderscoredName()
    ensures GenerateSlug("a_b") == "a-b"
  {
    assert Hyphenate("a_b") == "a-b";
    SlugifySlug("a-b");
  }

  /** Other punctuation is stripped, joining its neighbours. */
  lemma SlugOfPunctuatedName()
    ensures GenerateSlug("a&b") == "ab"
  {
    assert Hyphenate("a&b") == "a&b";
    assert "a&b"[1..] == "&b" && "&b"[1..] == "b";
    assert KeepSlugChars("&b") == "b";
    assert KeepSlugChars("a&b") == "ab";
    SlugifySlug("ab");
    assert Slugify("a&b") == Slugify("ab");
  }

  /** Hyphens left at the ends are trimmed. */
  lemma SlugOfHyphenatedName()
    ensures GenerateSlug("-a!") == "a"
  {
    assert Hyphenate("-a!") == "-a!";
    assert "-a!"[1..] == "a!" && "a!"[1..] == "!" && "!"[1..] == [];
    assert KeepSlugChars("!") == [];
    assert KeepSlugChars("a!") == "a";
    assert KeepSlugChars("-a!") == "-a";
    assert CollapseHyphens("-a") == "-a";
    assert "-a"[1..] == "a";
    assert TrimLeftHyphens("-a") == "a";
  }

  // ---------------------------------------------------------------------
  // Validators

  datatype CategoryError =
    | InvalidCategoryName | InvalidSlug | InvalidDescription | InvalidImageFormat | InvalidDisplayOrder
  {
    function Rank(): nat {
      match this
      case InvalidCategoryName => 0
      case InvalidSlug => 1
      case InvalidDescription => 2
      case InvalidImageFormat => 3
      case InvalidDisplayOrder => 4
    }
  }

  /** `ValidateCategoryName`: the trimmed name is non-empty and at most 100 bytes. */
  function ValidateCategoryName(name: string): (r: Outcome<CategoryError>)
    ensures r.Pass? <==> TrimSpace(name) != "" && Utf8Len(TrimSpace(name)) <= 100
    ensures r.Fail? ==> r.error == InvalidCategoryName
  {
    var trimmed := TrimSpace(name);
    if trimmed == "" || Utf8Len(trimmed) > 100 then Fail(InvalidCategoryName) else Pass
  }

  const ImageExtensions: seq<string> := [".jpg", ".jpeg", ".png", ".webp"]

  /** Some extension of `exts` ends `s` (the loop of `ValidateImagePath`). */
  function EndsWithAny(s: string, exts: seq<string>): (b: bool)
    ensures b <==> exists i :: 0 <= i < |exts| && HasSuffix(s, exts[i])
  {
    if |exts| == 0 then false
    else HasSuffix(s, exts[0]) || EndsWithAny(s, exts[1..])
  }

  /** `ValidateImagePath`: empty, or an image extension in any case. */
  function ValidateImagePath(path: string): (r: Outcome<CategoryError>)
    ensures r.Pass? <==> path == "" || exists i :: 0 <= i < |ImageExtensions| && HasSuffix(ToLower(path), ImageExtensions[i])
    ensures r.Fail? ==> r.error == InvalidImageFormat
  {
    if path == "" then Pass
    else if !EndsWithAny(ToLower(path), ImageExtensions) then Fail(InvalidImageFormat)
    else Pass
  }

  /** An upper-case image extension is accepted whatever the stem. */
  lemma UpperCaseExtensionAccepted(stem: string)
    ensures ValidateImagePath(stem + ".JPG").Pass?
  {
    ToLowerAppend(stem, ".JPG");
    assert ToLower(".JPG") == ".jpg";
    var lowered := ToLower(stem + ".JPG");
    assert lowered[|lowered| - 4..] == ".jpg";
    assert HasSuffix(lowered, ImageExtensions[0]);
  }

  /** A document extension is refused whatever the stem. */
  lemma PdfRejected(stem: string)
    ensures ValidateImagePath(stem + ".pdf").Fail?
  {
    ToLowerAppend(stem, ".pdf");
    assert ToLower(".pdf") == ".pdf";
    var lowered := ToLower(stem + ".pdf");
    assert lowered[|lowered| - 1] == 'f';
    assert lowered[|lowered| - 2] == 'd';
    forall i | 0 <= i < |ImageExtensions| ensures !HasSuffix(lowered, ImageExtensions[i]) {
    }
  }

  /** Each category check on its own. */
  predicate CategoryCheckFails(c: Category, e: CategoryError) {
    match e
    case InvalidCategoryName => ValidateCategoryName(c.name).Fail?
    case InvalidSlug => c.slug == ""
    case InvalidDescription => Utf8Len(c.description) > 1000
    case InvalidImageFormat => ValidateImagePath(c.imagePath).Fail?
    case InvalidDisplayOrder => c.displayOrder < 0
  }

  /** `SOPCategory.Validate`: name, slug, description, image path, display order. */
  function ValidateCategory(c: Category): (r: Outcome<CategoryError>)
    ensures r.Pass? ==> forall e :: !CategoryCheckFails(c, e)
    ensures r.Fail? ==> CategoryCheckFails(c, r.error)
    ensures r.Fail? ==> forall e: CategoryError :: e.Rank() < r.error.Rank() ==> !CategoryCheckFails(c, e)
  {
    if ValidateCategoryName(c.name).Fail? then ValidateCategoryName(c.name)
    else if c.slug == "" then Fail(InvalidSlug)
    else if Utf8Len(c.description) > 1000 then Fail(InvalidDescription)
    else if c.imagePath != "" && ValidateImagePath(c.imagePath).Fail? then ValidateImagePath(c.imagePath)
    else if c.displayOrder < 0 then Fail(InvalidDisplayOrder)
    else Pass
  }

  /** `CreateSOPCategoryRequest.Validate`: the category checks except the
      slug, which the service derives. */
  function ValidateCreate(req: CreateRequest): (r: Outcome<CategoryError>)
    ensures forall c: Category ::
      (c.name == req.name && c.slug != "" && c.description == req.description
       && c.imagePath == req.imagePath && c.displayOrder == req.displayOrder) ==> r == ValidateCategory(c)
  {
    if ValidateCategoryName(req.name).Fail? then ValidateCategoryName(req.name)
    else if Utf8Len(req.description) > 1000 then Fail(InvalidDescription)
    else if req.imagePath != "" && ValidateImagePath(req.imagePath).Fail? then ValidateImagePath(req.imagePath)
    else if req.displayOrder < 0 then Fail(InvalidDisplayOrder)
    else Pass
  }

  /** `UpdateSOPCategoryRequest.Validate`: absent fields are skipped and an
      empty image path is accepted. */
  function ValidateUpdate(req: UpdateRequest): (r: Outcome<CategoryError>)
    ensures req.name.None? && req.description.None? && req.imagePath.None? && req.displayOrder.None? ==> r.Pass?
    ensures r.Pass? <==>
      (req.name.Some? ==> ValidateCategoryName(req.name.value).Pass?)
      && (req.description.Some? ==> Utf8Len(req.description.value) <= 1000)
      && (req.imagePath.Some? ==> ValidateImagePath(req.imagePath.value).Pass?)
      && (req.displayOrder.Some? ==> req.displayOrder.value >= 0)
  {
    if req.name.Some? && ValidateCategoryName(req.name.value).Fail? then ValidateCategoryName(req.name.value)
    else if req.description.Some? && Utf8Len(req.description.value) > 1000 then Fail(InvalidDescription)
    else if req.imagePath.Some? && req.imagePath.value != "" && ValidateImagePath(req.imagePath.value).Fail?
    then ValidateImagePath(req.imagePath.value)
    else if req.displayOrder.Some? && req.displayOrder.value < 0 then Fail(InvalidDisplayOrder)
    else Pass
  }

  /** `SOPCategory.GetDropboxPath`: the stored path, or `SOPS/` and the name. */
  function DropboxPathOf(c: Category): (p: string)
    ensures c.dropboxPath != "" ==> p == c.dropboxPath
    ensures c.dropboxPath == "" ==> HasPrefix(p, "SOPS/") && TrimPrefix(p, "SOPS/") == c.name
  {
    if c.dropboxPath != "" then c.dropboxPath else "SOPS/" + c.name
  }
}

=== FILE: dafny/sop_handler.dfy ===
/** The HTTP layer of SOP categories (`handlers/sop_category_handler.go`):
    the statuses of the service's errors, the page window of the list
    endpoint, and the seeding endpoint's guard. The image upload is
    `Uploads.CheckAdminUpload` with `PermDeleteUsers`. */
module SopHandler {
  import opened Wrappers
  import opened Base
  import opened GoStrings
  import opened Roles
  import opened Users
  import opened Paging
  import opened SopCategory
  import opened SopStore
  import opened SopService

  /** `CreateCategory`: 403 for the missing right, 409 for a taken slug,
      otherwise 400. */
  function CreateStatus(e: ServiceError): (code: int)
    ensures code == 403 <==> e == Unauthorized
    ensures code == 409 <==> e == Duplicate
    ensures code == 400 <==> e.Invalid? || e == NotFound
  {
    if e == Unauthorized then 403
    else if e == Duplicate then 409
    else 400
  }

  /** `UpdateCategory`: 403, 404, 409, otherwise 400. */
  function UpdateStatus(e: ServiceError): (code: int)
    ensures code == 403 <==> e == Unauthorized
    ensures code == 404 <==> e == NotFound
    ensures code == 409 <==> e == Duplicate
    ensures code == 400 <==> e.Invalid?
  {
    match e
    case Unauthorized => 403
    case NotFound => 404
    case Duplicate => 409
    case Invalid(_) => 400
  }

  /** `DeleteCategory`: 403, 404, otherwise 500. */
  function DeleteStatus(e: ServiceError): (code: int)
    ensures code == 403 <==> e == Unauthorized
    ensures code == 404 <==> e == NotFound
    ensures code == 500 <==> e.Invalid? || e == Duplicate
  {
    match e
    case Unauthorized => 403
    case NotFound => 404
    case _ => 500
  }

  /** `GetCategory`: 404, otherwise 500. */
  function GetStatus(e: ServiceError): (code: int)
    ensures code == 404 <==> e == NotFound
    ensures code == 500 <==> e != NotFound
  {
    if e == NotFound then 404 else 500
  }

  /** The delete endpoint never answers 500: the service only refuses a
      delete for the right or the category. */
  lemma DeleteNeverInternal(s: Categories, id: ObjectId, actor: User)
    requires DeleteCategory(s, id, actor).Failure?
    ensures DeleteStatus(DeleteCategory(s, id, actor).error) in {403, 404}
  {
  }

  /** A hidden category is answered 404 to a caller without the right,
      exactly as a missing one is. */
  lemma HiddenLooksMissing(s: Categories, id: ObjectId, user: User)
    requires !user.Has(DeleteUsers)
    requires HasId(s, id) ==> !FindById(s, id).value.isActive
    ensures GetCategory(s, id, user).Failure? && GetStatus(GetCategory(s, id, user).error) == 404
  {
  }

  // ---------------------------------------------------------------------
  // Page window

  /** `c.DefaultQuery(name, default)`: the default only when the
      parameter is absent. */
  function DefaultQuery(param: Option<string>, default: string): string {
    param.GetOr(default)
  }

  datatype Window = Window(page: int, limit: int)

  /** The list endpoint's window: a page that does not parse or is below 1
      becomes 1; a limit that does not parse or is outside 1..100 becomes 20. */
  function ListWindow(page: Option<string>, limit: Option<string>): (w: Window)
    ensures w.page >= 1 && 1 <= w.limit <= 100
    ensures var p := ParseInt(DefaultQuery(page, "1"));
      (p.ok && p.value >= 1 ==> w.page == p.value) && (!(p.ok && p.value >= 1) ==> w.page == 1)
    ensures var l := ParseInt(DefaultQuery(limit, "20"));
      (l.ok && 1 <= l.value <= 100 ==> w.limit == l.value) && (!(l.ok && 1 <= l.value <= 100) ==> w.limit == 20)
  {
    var p := ParseInt(DefaultQuery(page, "1"));
    var l := ParseInt(DefaultQuery(limit, "20"));
    Window(if !p.ok || p.value < 1 then 1 else p.value,
           if !l.ok || l.value < 1 || l.value > 100 then 20 else l.value)
  }

  /** Without parameters the window is the first page of twenty. */
  lemma ListWindowDefaults()
    ensures ListWindow(None, None) == Window(1, 20)
  {
    assert NatToString(1) == "1";
    assert NatToString(2) == "2";
    assert NatToString(20) == NatToString(2) + [DigitChar(0)];
    ParseIntOfNatToString(1);
    ParseIntOfNatToString(20);
  }

  /** The window echoed in a response reads back as itself. */
  lemma ListWindowStable(page: Option<string>, limit: Option<string>)
    ensures var w := ListWindow(page, limit);
      ListWindow(Some(NatToString(w.page)), Some(NatToString(w.limit))) == w
  {
    var w := ListWindow(page, limit);
    ParseIntOfNatToString(w.page);
    ParseIntOfNatToString(w.limit);
  }

  // ---------------------------------------------------------------------
  // Seeding

  /** The four categories the seeding endpoint creates, in order. */
  const SeedData: seq<CreateRequest> := [
    CreateRequest("Anemia", "Standard operating procedures for anemia diagnosis and treatment", "", 1),
    CreateRequest("Lymphoma", "Standard operating procedures for lymphoma management", "", 2),
    CreateRequest("Myeloma", "Standard operating procedures for multiple myeloma treatment", "", 3),
    CreateRequest("General Business", "General business procedures and administrative guidelines", "", 4)
  ]

  /** A request with a short name that starts with a letter and does not
      end in a space, a short description, no image and a non-negative
      order: such a request is always valid. */
  predicate PlainRequest(req: CreateRequest) {
    0 < |req.name| <= 25 && IsAsciiLetter(req.name[0]) && !IsSpace(req.name[|req.name| - 1])
    && |req.description| <= 250 && req.imagePath == "" && req.displayOrder >= 0
  }

  lemma PlainRequestValid(req: CreateRequest)
    requires PlainRequest(req)
    ensures ValidateCreate(req).Pass?
  {
    TrimSpaceNoOuterSpace(req.name);
  }

  /** A name that starts with a letter has a non-empty slug starting with
      that letter in lower case. */
  lemma SlugHead(name: string)
    requires |name| > 0 && IsAsciiLetter(name[0])
    ensures GenerateSlug(name) != [] && GenerateSlug(name)[0] == LowerChar(name[0])
  {
    var h := Hyphenate(name);
    assert h[0] == LowerChar(name[0]) && IsSlugChar(h[0]) && h[0] != '-';
    var kept := KeepSlugChars(h);
    assert kept == [h[0]] + KeepSlugChars(h[1..]);
    var collapsed := CollapseHyphens(kept);
    var left := TrimLeftHyphens(collapsed);
    assert left == collapsed;
    var r := TrimRightHyphens(left);
    assert |r| > 0;
    assert r[0] == left[0];
    TrimHyphensIsSlug(collapsed);
  }

  /** Plain requests whose names start with different letters (ignoring
      case): their slugs differ in the first character. */
  predicate PlainSeeds(seeds: seq<CreateRequest>) {
    (forall k :: 0 <= k < |seeds| ==> PlainRequest(seeds[k]))
    && (forall k, l :: 0 <= k < l < |seeds| ==> LowerChar(seeds[k].name[0]) != LowerChar(seeds[l].name[0]))
  }

  /** When no seed can be refused: the caller holds the right, every
      request is valid with a non-empty slug, and the slugs and the
      identifiers the driver assigns are pairwise distinct. */
  predicate SeedsAdmissible(seeds: seq<CreateRequest>, actor: User, newId: nat -> ObjectId) {
    actor.Has(DeleteUsers)
    && (forall k :: 0 <= k < |seeds| ==> ValidateCreate(seeds[k]).Pass? && GenerateSlug(seeds[k].name) != "")
    && (forall k, l :: 0 <= k < l < |seeds| ==>
          GenerateSlug(seeds[k].name) != GenerateSlug(seeds[l].name) && newId(k) != newId(l))
  }

  /** The four seeds are plain, with initials A, L, M and G. */
  lemma SeedDataPlain()
    ensures PlainSeeds(SeedData)
  {
  }

  /** Plain seeds, a caller with the right and distinct identifiers leave
      nothing to refuse. */
  lemma PlainSeedsAdmissible(seeds: seq<CreateRequest>, actor: User, newId: nat -> ObjectId)
    requires PlainSeeds(seeds) && actor.Has(DeleteUsers)
    requires forall k, l :: 0 <= k < l < |seeds| ==> newId(k) != newId(l)
    ensures SeedsAdmissible(seeds, actor, newId)
  {
    forall k | 0 <= k < |seeds|
      ensures ValidateCreate(seeds[k]).Pass? && GenerateSlug(seeds[k].name) != ""
      ensures GenerateSlug(seeds[k].name)[0] == LowerChar(seeds[k].name[0])
    {
      PlainRequestValid(seeds[k]);
      SlugHead(seeds[k].name);
    }
  }

  datatype SeedOutcome =
    | SeedUnauthenticated
    | SeedForbidden
    | AlreadySeeded(count: nat)
    | Seeded(store: Categories, created: seq<Category>)

  /** For a caller with the right and an empty search, the list endpoint's
      total is the size of the collection. */
  lemma AdminTotalIsSize(s: Categories, actor: User, matches: (string, string) -> bool)
    requires actor.Has(DeleteUsers)
    ensures ListCategories(s, actor, "", matches, 1, 1).1 == |s|
  {
    FilterAll(s, ListFilter(actor, "", matches));
  }

  /** Whether `c` is what seeding with request `req` stores. */
  predicate FromSeed(c: Category, req: CreateRequest, actor: User) {
    c.name == req.name && c.displayOrder == req.displayOrder && c.description == req.description
    && c.isActive && c.createdBy == Some(actor.id)
  }

  /** Whether `c` is what seeding stores for one of `seeds`. */
  predicate SeededFrom(c: Category, seeds: seq<CreateRequest>, actor: User) {
    exists k :: 0 <= k < |seeds| && FromSeed(c, seeds[k], actor)
  }

  /** One seed: the category `CreateCategory` stores for it, if any. */
  function SeedOne(t: Categories, req: CreateRequest, actor: User, id: ObjectId, now: Time): (r: Option<Category>)
    ensures r.None? <==> CreateCategory(t, req, actor, id, now).Failure?
    ensures r.Some? ==> !HasSlug(t, r.value.slug) && !HasId(t, r.value.id) && FromSeed(r.value, req, actor)
    ensures r.Some? ==> r.value.id == id && CreatedFrom(r.value, req, actor)
  {
    match CreateCategory(t, req, actor, id, now)
    case Success(v) => Some(v.1)
    case Failure(_) => None
  }

  /** The first `n` seeds were all created, in order, under the
      identifiers `newId(0)`, ..., `newId(n - 1)`. */
  predicate SeededInOrder(created: Categories, seeds: seq<CreateRequest>, actor: User,
                          newId: nat -> ObjectId, n: nat)
    requires n <= |seeds|
  {
    |created| == n
    && forall j :: 0 <= j < n ==> created[j].id == newId(j) && CreatedFrom(created[j], seeds[j], actor)
  }

  /** With admissible seeds, the `i`-th request is created on top of the
      first `i` categories, extending the order. */
  lemma SeedStepAdmitted(created: Categories, seeds: seq<CreateRequest>, actor: User,
                         newId: nat -> ObjectId, i: nat, now: Time)
    requires SeedsAdmissible(seeds, actor, newId) && i < |seeds|
    requires SeededInOrder(created, seeds, actor, newId, i)
    ensures SeedOne(created, seeds[i], actor, newId(i), now).Some?
    ensures SeededInOrder(created + [SeedOne(created, seeds[i], actor, newId(i), now).value], seeds, actor, newId, i + 1)
  {
    var slug := GenerateSlug(seeds[i].name);
    forall j | 0 <= j < |created|
      ensures created[j].id != newId(i) && created[j].slug != slug
    {
      assert created[j].slug == GenerateSlug(seeds[j].name);
    }
    assert !HasId(created, newId(i)) && !HasSlug(created, slug);
    CreateRefusals(created, seeds[i], actor, newId(i), now);
    var c := SeedOne(created, seeds[i], actor, newId(i), now).value;
    var t := created + [c];
    forall j | 0 <= j < i + 1
      ensures t[j].id == newId(j) && CreatedFrom(t[j], seeds[j], actor)
    {
      if j < i {
        assert t[j] == created[j];
      }
    }
  }

  /** The seeding loop: each request in order, a refused one skipped.
      `newId(i)` is the identifier the driver assigns to the `i`-th insert. */
  method SeedAll(seeds: seq<CreateRequest>, actor: User, newId: nat -> ObjectId, now: Time)
    returns (created: seq<Category>)
    ensures |created| <= |seeds| && KeysUnique(created)
    ensures forall j :: 0 <= j < |created| ==> SeededFrom(created[j], seeds, actor)
    ensures SeedsAdmissible(seeds, actor, newId) ==>
      |created| == |seeds|
      && forall j :: 0 <= j < |seeds| ==> created[j].id == newId(j) && CreatedFrom(created[j], seeds[j], actor)
  {
    created := [];
    var i := 0;
    while i < |seeds|
      invariant 0 <= i <= |seeds| && |created| <= i
      invariant KeysUnique(created)
      invariant forall j :: 0 <= j < |created| ==> SeededFrom(created[j], seeds, actor)
      invariant SeedsAdmissible(seeds, actor, newId) ==> SeededInOrder(created, seeds, actor, newId, i)
    {
      if SeedsAdmissible(seeds, actor, newId) {
        SeedStepAdmitted(created, seeds, actor, newId, i, now);
      }
      var attempt := SeedOne(created, seeds[i], actor, newId(i), now);
      if attempt.Some? {
        assert SeededFrom(attempt.value, seeds, actor) by {
          assert FromSeed(attempt.value, seeds[i], actor);
        }
        AppendKeepsKeysUnique(created, attempt.value);
        created := created + [attempt.value];
      }
      i := i + 1;
    }
  }

  /** `SeedCategories`: a caller with the right seeds only an empty
      collection (the list endpoint's total is checked first). */
  method SeedCategories(s: Categories, user: Option<User>, matches: (string, string) -> bool,
                        newId: nat -> ObjectId, now: Time) returns (r: SeedOutcome)
    ensures r == SeedUnauthenticated <==> user.None?
    ensures r == SeedForbidden <==> user.Some? && !user.value.Has(DeleteUsers)
    ensures r.AlreadySeeded? <==> user.Some? && user.value.Has(DeleteUsers) && |s| > 0
    ensures r.AlreadySeeded? ==> r.count == |s|
    ensures r.Seeded? ==>
      |s| == 0 && r.store == r.created && |r.created| <= |SeedData| && KeysUnique(r.store)
      && forall j :: 0 <= j < |r.created| ==> SeededFrom(r.created[j], SeedData, user.value)
    ensures user.Some? && user.value.Has(DeleteUsers) && |s| == 0
            && (forall k, l :: 0 <= k < l < |SeedData| ==> newId(k) != newId(l)) ==>
      r.Seeded? && |r.created| == |SeedData|
      && forall j :: 0 <= j < |SeedData| ==>
           r.created[j].id == newId(j) && CreatedFrom(r.created[j], SeedData[j], user.value)
  {
    if user.None? {
      return SeedUnauthenticated;
    }
    var actor := user.value;
    if !actor.Has(DeleteUsers) {
      return SeedForbidden;
    }
    var (_, total) := ListCategories(s, actor, "", matches, 1, 1);
    AdminTotalIsSize(s, actor, matches);
    if total > 0 {
      return AlreadySeeded(total);
    }
    if forall k, l :: 0 <= k < l < |SeedData| ==> newId(k) != newId(l) {
      SeedDataPlain();
      PlainSeedsAdmissible(SeedData, actor, newId);
    }
    var created := SeedAll(SeedData, actor, newId, now);
    return Seeded(created, created);
  }
}

=== FILE: dafny/sop_service.dfy ===
/** SOP-category management (`service/sop_category_service.go`): only
    holders of `PermDeleteUsers` may change categories, the slug and the
    Dropbox folder follow the name, and inactive categories are hidden from
    everyone else. The Dropbox calls never decide an outcome and are left
    out. */
module SopService {
  import opened Wrappers
  import opened Base
  import opened Roles
  import opened Users
  import opened Paging
  import opened SopCategory
  import opened SopStore
  import opened GoStrings

  datatype ServiceError =
    | Invalid(reason: CategoryError)
    | Unauthorized
    | NotFound
    | Duplicate

  /** The Dropbox folder of a category named `name`. */
  function FolderOf(name: string): (p: string)
    ensures HasPrefix(p, "SOPS/") && TrimPrefix(p, "SOPS/") == name
  {
    "SOPS/" + name
  }

  /** The record `CreateCategory` builds: the request's fields, the derived
      slug and folder, active, created by the caller. */
  function NewCategory(req: CreateRequest, actor: User): (c: Category)
    ensures c.name == req.name && c.description == req.description && c.imagePath == req.imagePath
    ensures c.displayOrder == req.displayOrder && c.slug == GenerateSlug(req.name)
    ensures c.dropboxPath == FolderOf(req.name) && DropboxPathOf(c) == FolderOf(req.name)
    ensures c.isActive && c.createdBy == Some(actor.id) && c.id == NilId
  {
    Category(NilId, req.name, GenerateSlug(req.name), req.description, req.imagePath, FolderOf(req.name),
             req.displayOrder, true, 0, 0, Some(actor.id))
  }

  /** What `CreateCategory` promises about the category it stores. */
  predicate CreatedFrom(c: Category, req: CreateRequest, actor: User) {
    c.isActive && c.createdBy == Some(actor.id)
    && c.name == req.name && c.description == req.description && c.imagePath == req.imagePath
    && c.displayOrder == req.displayOrder
    && c.slug == GenerateSlug(req.name) && DropboxPathOf(c) == FolderOf(req.name)
  }

  /** The last two steps of `CreateCategory`, once the request is valid
      and its slug free: the whole record is checked, which refuses only an
      empty slug, then inserted. */
  function Insert(s: Categories, req: CreateRequest, actor: User, newId: ObjectId, now: Time)
    : (r: Result<(Categories, Category), ServiceError>)
    requires ValidateCreate(req).Pass? && !HasSlug(s, GenerateSlug(req.name))
    ensures r.Failure? <==> GenerateSlug(req.name) == "" || HasId(s, newId)
    ensures GenerateSlug(req.name) == "" ==> r == Failure(Invalid(InvalidSlug))
    ensures r.Failure? ==> r.error == Invalid(InvalidSlug) || r.error == Duplicate
    ensures r.Success? ==>
      var (t, c) := r.value;
      t == s + [c] && c.id == newId && c.createdAt == now && CreatedFrom(c, req, actor)
      && c.slug != "" && !HasSlug(s, c.slug) && !HasId(s, c.id)
  {
    var c := NewCategory(req, actor);
    if ValidateCategory(c).Fail? then Failure(Invalid(ValidateCategory(c).error))
    else match SopStore.Create(s, c, newId, now)
      case Failure(_) => Failure(Duplicate)
      case Success(v) => Success(v)
  }

  /** The steps of `CreateCategory` after the request and the permission:
      the slug's availability, then `Insert`. */
  function Admit(s: Categories, req: CreateRequest, actor: User, newId: ObjectId, now: Time)
    : (r: Result<(Categories, Category), ServiceError>)
    requires ValidateCreate(req).Pass?
    ensures HasSlug(s, GenerateSlug(req.name)) ==> r == Failure(Duplicate)
    ensures !HasSlug(s, GenerateSlug(req.name)) ==> r == Insert(s, req, actor, newId, now)
    ensures r.Failure? ==> r.error == Invalid(InvalidSlug) || r.error == Duplicate
  {
    var slug := GenerateSlug(req.name);
    ExistsBySlugMatchesIndex(s, slug, newId);
    if ExistsBySlug(s, slug, None) then Failure(Duplicate) else Insert(s, req, actor, newId, now)
  }

  /** `CreateCategory`: the request, then the permission, then the slug's
      availability, then the whole record, then the insert. `newId` is the
      identifier the driver assigns. */
  function CreateCategory(s: Categories, req: CreateRequest, actor: User, newId: ObjectId, now: Time)
    : (r: Result<(Categories, Category), ServiceError>)
    ensures ValidateCreate(req).Fail? ==> r == Failure(Invalid(ValidateCreate(req).error))
    ensures r == Failure(Unauthorized) <==> ValidateCreate(req).Pass? && !actor.Has(DeleteUsers)
    ensures ValidateCreate(req).Pass? && actor.Has(DeleteUsers) && HasSlug(s, GenerateSlug(req.name)) ==>
      r == Failure(Duplicate)
    ensures r.Success? ==>
      var (t, c) := r.value;
      t == s + [c] && c.id == newId && c.createdAt == now && CreatedFrom(c, req, actor)
      && IsSlug(c.slug) && c.slug != "" && !HasSlug(s, c.slug) && !HasId(s, c.id)
  {
    if ValidateCreate(req).Fail? then Failure(Invalid(ValidateCreate(req).error))
    else if !actor.Has(DeleteUsers) then Failure(Unauthorized)
    else Admit(s, req, actor, newId, now)
  }

  /** A created category passes the record's own validation. */
  lemma CreatedIsValid(s: Categories, req: CreateRequest, actor: User, newId: ObjectId, now: Time)
    requires CreateCategory(s, req, actor, newId, now).Success?
    ensures ValidateCategory(CreateCategory(s, req, actor, newId, now).value.1).Pass?
  {
    var c := CreateCategory(s, req, actor, newId, now).value.1;
    assert ValidateCategory(c) == ValidateCreate(req);
  }

  /** A valid request by an authorised caller under a fresh identifier is
      refused only for a slug already taken or a name with no slug
      characters at all. */
  lemma CreateRefusals(s: Categories, req: CreateRequest, actor: User, newId: ObjectId, now: Time)
    requires ValidateCreate(req).Pass? && actor.Has(DeleteUsers) && !HasId(s, newId)
    ensures CreateCategory(s, req, actor, newId, now).Failure? <==>
      HasSlug(s, GenerateSlug(req.name)) || GenerateSlug(req.name) == ""
    ensures !HasSlug(s, GenerateSlug(req.name)) && GenerateSlug(req.name) == "" ==>
      CreateCategory(s, req, actor, newId, now) == Failure(Invalid(InvalidSlug))
  {
  }

  /** Two names with the same slug cannot both be created: "Blood Tests"
      after "blood_tests" is a duplicate. */
  lemma SecondNameWithSameSlugRefused(s: Categories, req1: CreateRequest, req2: CreateRequest, actor: User,
                                      id1: ObjectId, id2: ObjectId, t1: Time, t2: Time)
    requires CreateCategory(s, req1, actor, id1, t1).Success?
    requires ValidateCreate(req2).Pass? && GenerateSlug(req2.name) == GenerateSlug(req1.name)
    ensures CreateCategory(CreateCategory(s, req1, actor, id1, t1).value.0, req2, actor, id2, t2) == Failure(Duplicate)
  {
    var (t, c) := CreateCategory(s, req1, actor, id1, t1).value;
    assert t[|s|] == c;
  }

  /** Who sees a category: everyone while it is active, only holders of
      `PermDeleteUsers` once it is not. */
  predicate Visible(c: Category, user: User) {
    c.isActive || user.Has(DeleteUsers)
  }

  /** `GetCategory`: an invisible category reads as not found. */
  function GetCategory(s: Categories, id: ObjectId, user: User): (r: Result<Category, ServiceError>)
    ensures r.Success? <==> HasId(s, id) && Visible(FindById(s, id).value, user)
    ensures r.Failure? ==> r.error == NotFound
    ensures r.Success? ==> r.value.id == id && r.value in s
  {
    match FindById(s, id)
    case Failure(_) => Failure(NotFound)
    case Success(c) => if !c.isActive && !user.Has(DeleteUsers) then Failure(NotFound) else Success(c)
  }

  /** `GetCategoryBySlug`: the same rule, looked up by slug. */
  function GetCategoryBySlug(s: Categories, slug: string, user: User): (r: Result<Category, ServiceError>)
    ensures r.Success? <==> HasSlug(s, slug) && Visible(FindBySlug(s, slug).value, user)
    ensures r.Failure? ==> r.error == NotFound
    ensures r.Success? ==> r.value.slug == slug && r.value in s
  {
    match FindBySlug(s, slug)
    case Failure(_) => Failure(NotFound)
    case Success(c) => if !c.isActive && !user.Has(DeleteUsers) then Failure(NotFound) else Success(c)
  }

  /** With unique keys the two lookups agree on every stored category. */
  lemma LookupsAgree(s: Categories, i: nat, user: User)
    requires KeysUnique(s) && i < |s|
    ensures GetCategory(s, s[i].id, user) == GetCategoryBySlug(s, s[i].slug, user)
    ensures GetCategory(s, s[i].id, user).Success? <==> Visible(s[i], user)
  {
    assert FirstWithId(s, s[i].id) == Some(i);
    assert FirstWithSlug(s, s[i].slug) == Some(i);
  }

  /** The filter `ListCategories` hands to the repository: the search, and
      the active flag for callers without `PermDeleteUsers`. */
  function ListFilter(user: User, search: string, matches: (string, string) -> bool): (keep: Category -> bool)
    ensures forall c: Category :: keep(c) ==> Visible(c, user)
    ensures forall c: Category :: search == "" ==> (keep(c) <==> Visible(c, user))
  {
    CategoryFilter(if user.Has(DeleteUsers) then None else Some(true), search, matches)
  }

  /** `ListCategories`: one page and the total under the same filter. */
  function ListCategories(s: Categories, user: User, search: string, matches: (string, string) -> bool,
                          page: nat, limit: nat): (r: (seq<Category>, nat))
    requires page >= 1
    ensures limit > 0 ==> |r.0| <= limit
    ensures |r.0| <= r.1 <= |s|
    ensures forall i :: 0 <= i < |r.0| ==> r.0[i] in s && Visible(r.0[i], user)
    ensures SortedBy(r.0, OrderLe)
  {
    var keep := ListFilter(user, search, matches);
    (SopStore.List(s, keep, page, limit), Count(s, keep))
  }

  /** Every listed category can be fetched by the same caller. */
  lemma ListedCanBeFetched(s: Categories, user: User, search: string, matches: (string, string) -> bool,
                           page: nat, limit: nat, i: nat)
    requires KeysUnique(s) && page >= 1 && i < |ListCategories(s, user, search, matches, page, limit).0|
    ensures var c := ListCategories(s, user, search, matches, page, limit).0[i];
      GetCategory(s, c.id, user) == Success(c)
  {
    var c := ListCategories(s, user, search, matches, page, limit).0[i];
    MemberIsFound(s, c);
  }

  /** Whether an update renames the category. */
  predicate Renames(req: UpdateRequest, c: Category) {
    req.name.Some? && req.name.value != c.name
  }

  /** Whether an update writes anything at all. */
  predicate Writes(req: UpdateRequest, c: Category) {
    Renames(req, c) || req.description.Some? || req.imagePath.Some? || req.displayOrder.Some? || req.isActive.Some?
  }

  /** The `$set` of `UpdateCategory` applied to `c`: a rename carries the
      new slug and folder with it; every other present field is copied. */
  function Merged(req: UpdateRequest, rename: bool, c: Category): (y: Category)
    ensures y.id == c.id && y.createdAt == c.createdAt && y.createdBy == c.createdBy && y.updatedAt == c.updatedAt
    ensures y.description == req.description.GetOr(c.description) && y.imagePath == req.imagePath.GetOr(c.imagePath)
    ensures y.displayOrder == req.displayOrder.GetOr(c.displayOrder) && y.isActive == req.isActive.GetOr(c.isActive)
    ensures rename && req.name.Some? ==>
      y.name == req.name.value && y.slug == GenerateSlug(req.name.value) && y.dropboxPath == FolderOf(req.name.value)
    ensures !rename ==> y.name == c.name && y.slug == c.slug && y.dropboxPath == c.dropboxPath
  {
    var named :=
      if rename && req.name.Some? then
        c.(name := req.name.value, slug := GenerateSlug(req.name.value), dropboxPath := FolderOf(req.name.value))
      else c;
    named.(description := req.description.GetOr(c.description), imagePath := req.imagePath.GetOr(c.imagePath),
           displayOrder := req.displayOrder.GetOr(c.displayOrder), isActive := req.isActive.GetOr(c.isActive))
  }

  /** The same `$set` as the change handed to the repository. */
  function Merge(req: UpdateRequest, rename: bool): Category -> Category {
    (c: Category) => Merged(req, rename, c)
  }

  /** Applying the same update twice is applying it once. */
  lemma MergeIdempotent(req: UpdateRequest, rename: bool, c: Category)
    ensures Merged(req, rename, Merged(req, rename, c)) == Merged(req, rename, c)
  {
  }

  /** What an update promises about the category it returns, `y`, given
      the stored one, `c`: the identity and creation are kept, present
      fields are taken from the request, and the slug and folder follow a
      changed name. */
  predicate UpdatedFrom(req: UpdateRequest, c: Category, y: Category) {
    y.id == c.id && y.createdAt == c.createdAt && y.createdBy == c.createdBy
    && y.name == req.name.GetOr(c.name) && y.description == req.description.GetOr(c.description)
    && y.imagePath == req.imagePath.GetOr(c.imagePath) && y.displayOrder == req.displayOrder.GetOr(c.displayOrder)
    && y.isActive == req.isActive.GetOr(c.isActive)
    && (y.name != c.name ==> y.slug == GenerateSlug(y.name) && y.dropboxPath == FolderOf(y.name))
    && (y.name == c.name ==> y.slug == c.slug && y.dropboxPath == c.dropboxPath)
  }

  /** The stored record after the `$set` satisfies the promise, and so
      does the unchanged record when nothing is written. */
  lemma MergeIsUpdate(req: UpdateRequest, c: Category, now: Time)
    ensures UpdatedFrom(req, c, Merged(req, Renames(req, c), c).(updatedAt := now))
    ensures !Writes(req, c) ==> UpdatedFrom(req, c, c)
  {
  }

  /** The write of `UpdateCategory` once the category `c` stored under
      `id` has been found and the new slug, if any, is free: nothing when
      nothing is written, else the `$set` and a fresh read. */
  function Commit(s: Categories, id: ObjectId, req: UpdateRequest, c: Category, now: Time)
    : (r: Result<(Categories, Category), ServiceError>)
    requires FindById(s, id) == Success(c)
    ensures r.Success? ==> UpdatedFrom(req, c, r.value.1) && FindById(r.value.0, id) == Success(r.value.1)
    ensures !Writes(req, c) ==> r == Success((s, c))
    ensures r.Failure? ==> r.error == NotFound || r.error == Duplicate
  {
    MergeIsUpdate(req, c, now);
    if !Writes(req, c) then Success((s, c))
    else match SopStore.Update(s, id, Merge(req, Renames(req, c)), now)
      case Failure(CategoryNotFound) => Failure(NotFound)
      case Failure(DuplicateSlug) => Failure(Duplicate)
      case Success(t) =>
        var k := FirstWithId(s, id).value;
        assert t[k] == Merged(req, Renames(req, c), c).(updatedAt := now);
        assert forall j :: 0 <= j < k ==> t[j].id == s[j].id;
        assert FirstWithId(t, id) == Some(k);
        Success((t, t[k]))
  }

  /** `UpdateCategory`: the request, the permission, the category, a
      renamed slug's availability; an update that writes nothing returns
      the category as stored. */
  function UpdateCategory(s: Categories, id: ObjectId, req: UpdateRequest, actor: User, now: Time)
    : (r: Result<(Categories, Category), ServiceError>)
    ensures ValidateUpdate(req).Fail? ==> r == Failure(Invalid(ValidateUpdate(req).error))
    ensures r == Failure(Unauthorized) <==> ValidateUpdate(req).Pass? && !actor.Has(DeleteUsers)
    ensures ValidateUpdate(req).Pass? && actor.Has(DeleteUsers) && !HasId(s, id) ==> r == Failure(NotFound)
    ensures r.Success? ==>
      HasId(s, id) && UpdatedFrom(req, FindById(s, id).value, r.value.1) && FindById(r.value.0, id) == Success(r.value.1)
    ensures r.Success? && !Writes(req, FindById(s, id).value) ==> r.value == (s, FindById(s, id).value)
  {
    if ValidateUpdate(req).Fail? then Failure(Invalid(ValidateUpdate(req).error))
    else if !actor.Has(DeleteUsers) then Failure(Unauthorized)
    else UpdateExisting(s, id, req, now)
  }

  /** The part of `UpdateCategory` after the request and the permission:
      the category, a renamed slug's availability, the write. */
  function UpdateExisting(s: Categories, id: ObjectId, req: UpdateRequest, now: Time)
    : (r: Result<(Categories, Category), ServiceError>)
    ensures !HasId(s, id) ==> r == Failure(NotFound)
    ensures r.Failure? ==> r.error == NotFound || r.error == Duplicate
    ensures r.Success? ==>
      HasId(s, id) && UpdatedFrom(req, FindById(s, id).value, r.value.1) && FindById(r.value.0, id) == Success(r.value.1)
    ensures r.Success? && !Writes(req, FindById(s, id).value) ==> r.value == (s, FindById(s, id).value)
  {
    match FindById(s, id)
    case Failure(_) => Failure(NotFound)
    case Success(c) =>
      if Renames(req, c) && ExistsBySlug(s, GenerateSlug(req.name.value), Some(id)) then Failure(Duplicate)
      else Commit(s, id, req, c, now)
  }

  /** In a collection with unique keys, an update the service lets through
      to the repository is never refused by the slug index, and the keys
      stay unique. */
  lemma UpdateKeepsKeysUnique(s: Categories, id: ObjectId, req: UpdateRequest, actor: User, now: Time)
    requires KeysUnique(s) && ValidateUpdate(req).Pass? && actor.Has(DeleteUsers) && HasId(s, id)
    requires var c := FindById(s, id).value; !(Renames(req, c) && ExistsBySlug(s, GenerateSlug(req.name.value), Some(id)))
    ensures UpdateCategory(s, id, req, actor, now).Success?
    ensures KeysUnique(UpdateCategory(s, id, req, actor, now).value.0)
  {
    var c := FindById(s, id).value;
    var k := FirstWithId(s, id).value;
    var change := Merge(req, Renames(req, c));
    if Renames(req, c) {
      ExistsBySlugMatchesIndex(s, GenerateSlug(req.name.value), id);
    } else {
      assert !SlugTakenElsewhere(s, k, s[k].slug);
    }
    if Writes(req, c) {
      SopStore.UpdateKeepsKeysUnique(s, id, change, now);
    }
  }

  /** Sending a category's own name back, and nothing else, changes nothing. */
  lemma SameNameUpdateUnchanged(s: Categories, id: ObjectId, actor: User, now: Time)
    requires actor.Has(DeleteUsers) && HasId(s, id)
    requires ValidateCategoryName(FindById(s, id).value.name).Pass?
    ensures var c := FindById(s, id).value;
      UpdateCategory(s, id, UpdateRequest(Some(c.name), None, None, None, None), actor, now) == Success((s, c))
  {
  }

  /** `DeleteCategory`: the permission, then the category; the Dropbox
      folder is kept. */
  function DeleteCategory(s: Categories, id: ObjectId, actor: User): (r: Result<Categories, ServiceError>)
    ensures r == Failure(Unauthorized) <==> !actor.Has(DeleteUsers)
    ensures r == Failure(NotFound) <==> actor.Has(DeleteUsers) && !HasId(s, id)
    ensures r.Success? ==> |r.value| == |s| - 1 && forall i :: 0 <= i < |r.value| ==> r.value[i] in s
  {
    if !actor.Has(DeleteUsers) then Failure(Unauthorized)
    else match SopStore.Delete(s, id)
      case Failure(_) => Failure(NotFound)
      case Success(t) => Success(t)
  }

  /** A deleted category is gone for everyone. */
  lemma DeletedIsNotFound(s: Categories, id: ObjectId, actor: User, user: User)
    requires KeysUnique(s) && DeleteCategory(s, id, actor).Success?
    ensures GetCategory(DeleteCategory(s, id, actor).value, id, user) == Failure(NotFound)
  {
  }
}

=== FILE: dafny/sop_store.dfy ===
/** The `sop_categories` collection (`repository/sop_category_repository.go`):
    a unique index on the slug turns every colliding insert or update into
    a duplicate-slug error, listings are ordered by display order then
    name, and `List` and `Count` share one filter. */
module SopStore {
  import opened Wrappers
  import opened Seqs
  import opened Base
  import opened Paging
  import opened SopCategory

  /** The collection, in natural order. */
  type Categories = seq<Category>

  datatype SopStoreError = CategoryNotFound | DuplicateSlug

  predicate HasId(s: Categories, id: ObjectId) {
    exists i :: 0 <= i < |s| && s[i].id == id
  }

  predicate HasSlug(s: Categories, slug: string) {
    exists i :: 0 <= i < |s| && s[i].slug == slug
  }

  /** What the unique indexes on `_id` and `slug` guarantee of the collection. */
  predicate KeysUnique(s: Categories) {
    forall i, j :: 0 <= i < j < |s| ==> s[i].id != s[j].id && s[i].slug != s[j].slug
  }

  /** The first category with identifier `id`, if any. */
  function FirstWithId(s: Categories, id: ObjectId): (r: Option<nat>)
    ensures r.Some? ==> r.value < |s| && s[r.value].id == id
    ensures r.Some? ==> forall j :: 0 <= j < r.value ==> s[j].id != id
    ensures r.None? <==> !HasId(s, id)
  {
    FirstWhere(s, (x: Category) => x.id == id)
  }

  /** The first category with slug `slug`, if any. */
  function FirstWithSlug(s: Categories, slug: string): (r: Option<nat>)
    ensures r.Some? ==> r.value < |s| && s[r.value].slug == slug
    ensures r.Some? ==> forall j :: 0 <= j < r.value ==> s[j].slug != slug
    ensures r.None? <==> !HasSlug(s, slug)
  {
    FirstWhere(s, (x: Category) => x.slug == slug)
  }

  /** `Create`: both times are stamped; the caller's identifier is kept
      unless it is zero, when `newId` is used. An insert that collides on
      either unique key is refused as a duplicate slug. */
  function Create(s: Categories, c: Category, newId: ObjectId, now: Time)
    : (r: Result<(Categories, Category), SopStoreError>)
    ensures var id := if c.id == NilId then newId else c.id;
      r.Failure? <==> HasSlug(s, c.slug) || HasId(s, id)
    ensures r.Failure? ==> r.error == DuplicateSlug
    ensures r.Success? ==>
      var (t, stored) := r.value;
      t == s + [stored]
      && stored == c.(id := if c.id == NilId then newId else c.id, createdAt := now, updatedAt := now)
  {
    var id := if c.id == NilId then newId else c.id;
    if FirstWithSlug(s, c.slug).Some? || FirstWithId(s, id).Some? then Failure(DuplicateSlug)
    else
      var stored := c.(id := id, createdAt := now, updatedAt := now);
      Success((s + [stored], stored))
  }

  /** Appending a category whose keys are new keeps both keys unique. */
  lemma AppendKeepsKeysUnique(s: Categories, c: Category)
    requires KeysUnique(s) && !HasSlug(s, c.slug) && !HasId(s, c.id)
    ensures KeysUnique(s + [c])
  {
    var t := s + [c];
    assert forall i :: 0 <= i < |s| ==> t[i] == s[i];
  }

  /** An accepted insert keeps both keys unique. */
  lemma CreateKeepsKeysUnique(s: Categories, c: Category, newId: ObjectId, now: Time)
    requires KeysUnique(s) && Create(s, c, newId, now).Success?
    ensures KeysUnique(Create(s, c, newId, now).value.0)
  {
    var (t, stored) := Create(s, c, newId, now).value;
    assert forall i :: 0 <= i < |s| ==> t[i] == s[i];
    assert forall i :: 0 <= i < |s| ==> s[i].id != stored.id && s[i].slug != stored.slug;
  }

  /** `FindByID`. */
  function FindById(s: Categories, id: ObjectId): (r: Result<Category, SopStoreError>)
    ensures r.Failure? <==> !HasId(s, id)
    ensures r.Failure? ==> r.error == CategoryNotFound
    ensures r.Success? ==> r.value == s[FirstWithId(s, id).value]
  {
    match FirstWithId(s, id)
    case None => Failure(CategoryNotFound)
    case Some(k) => Success(s[k])
  }

  /** With unique keys a stored category is the one found by its identifier. */
  lemma MemberIsFound(s: Categories, c: Category)
    requires KeysUnique(s) && c in s
    ensures FindById(s, c.id) == Success(c)
  {
    var j :| 0 <= j < |s| && s[j] == c;
    assert FirstWithId(s, c.id) == Some(j);
  }

  /** `FindBySlug`. */
  function FindBySlug(s: Categories, slug: string): (r: Result<Category, SopStoreError>)
    ensures r.Failure? <==> !HasSlug(s, slug)
    ensures r.Failure? ==> r.error == CategoryNotFound
    ensures r.Success? ==> r.value == s[FirstWithSlug(s, slug).value]
  {
    match FirstWithSlug(s, slug)
    case None => Failure(CategoryNotFound)
    case Some(k) => Success(s[k])
  }

  /** A stored category is found again by its slug. */
  lemma CreatedIsFoundBySlug(s: Categories, c: Category, newId: ObjectId, now: Time)
    requires Create(s, c, newId, now).Success?
    ensures var (t, stored) := Create(s, c, newId, now).value;
      FindBySlug(t, c.slug) == Success(stored) && FindById(t, stored.id) == Success(stored)
  {
    var (t, stored) := Create(s, c, newId, now).value;
    assert forall j :: 0 <= j < |s| ==> t[j] == s[j];
    assert forall j :: 0 <= j < |s| ==> t[j].slug != c.slug && t[j].id != stored.id;
    assert t[|s|] == stored;
  }

  /** `SOPCategoryFilter` as a test on one document: the active flag when
      given, and the search pattern against name or description when not
      empty. `matches(text, pattern)` is MongoDB's case-insensitive
      `$regex`. */
  function CategoryFilter(isActive: Option<bool>, search: string, matches: (string, string) -> bool): (keep: Category -> bool)
    ensures forall c: Category :: keep(c) <==>
      (isActive.None? || c.isActive == isActive.value)
      && (search == "" || matches(c.name, search) || matches(c.description, search))
  {
    (c: Category) =>
      (isActive.None? || c.isActive == isActive.value)
      && (search == "" || matches(c.name, search) || matches(c.description, search))
  }

  /** The listing order: display order ascending, then name. */
  predicate OrderLe(a: Category, b: Category) {
    a.displayOrder < b.displayOrder || (a.displayOrder == b.displayOrder && StrLe(a.name, b.name))
  }

  lemma OrderIsTotal()
    ensures IsTotalPreorder(OrderLe)
  {
    forall a: Category, b: Category ensures OrderLe(a, b) || OrderLe(b, a) {
      StrLeTotal(a.name, b.name);
    }
    forall a: Category, b: Category, c: Category | OrderLe(a, b) && OrderLe(b, c)
      ensures OrderLe(a, c)
    {
      if a.displayOrder == c.displayOrder {
        StrLeTrans(a.name, b.name, c.name);
      }
    }
  }

  /** `List`: the matching categories in listing order, page `page` of
      `limit` (a limit of 0 means no limit). */
  function List(s: Categories, keep: Category -> bool, page: nat, limit: nat): (r: seq<Category>)
    requires page >= 1
    ensures limit > 0 ==> |r| <= limit
    ensures |r| <= Count(s, keep)
    ensures SortedBy(r, OrderLe)
    ensures forall i :: 0 <= i < |r| ==> r[i] in s && keep(r[i])
  {
    OrderIsTotal();
    var matching := Filter(s, keep);
    var sorted := SortBy(matching, OrderLe);
    var skip := SkipOf(page, limit);
    var r := Page(sorted, skip, limit);
    assert |sorted| == |matching| by { assert |multiset(sorted)| == |multiset(matching)|; }
    assert forall i :: 0 <= i < |r| ==> r[i] == sorted[skip + i];
    assert forall i :: 0 <= i < |r| ==> r[i] in multiset(matching);
    r
  }

  /** `Count` with the same filter. */
  function Count(s: Categories, keep: Category -> bool): (n: nat)
    ensures n <= |s|
  {
    |Filter(s, keep)|
  }

  /** Without a limit the first page holds every match: `Count` is the size
      of the unpaginated listing. */
  lemma CountIsUnpaginatedList(s: Categories, keep: Category -> bool)
    ensures |List(s, keep, 1, 0)| == Count(s, keep)
  {
    OrderIsTotal();
    var sorted := SortBy(Filter(s, keep), OrderLe);
    assert |sorted| == |Filter(s, keep)| by { assert |multiset(sorted)| == |multiset(Filter(s, keep))|; }
  }

  /** Whether some category other than `j` already carries `slug`. */
  predicate SlugTakenElsewhere(s: Categories, k: nat, slug: string) {
    exists j :: 0 <= j < |s| && j != k && s[j].slug == slug
  }

  /** `Update`: a `$set` on the category with `id`, stamped `now`. A slug
      the unique index already holds elsewhere refuses the write. */
  function Update(s: Categories, id: ObjectId, change: Category -> Category, now: Time)
    : (r: Result<Categories, SopStoreError>)
    ensures r == Failure(CategoryNotFound) <==> !HasId(s, id)
    ensures r == Failure(DuplicateSlug) <==>
      HasId(s, id) && SlugTakenElsewhere(s, FirstWithId(s, id).value, change(s[FirstWithId(s, id).value]).slug)
    ensures r.Success? ==>
      var k := FirstWithId(s, id).value;
      |r.value| == |s| && r.value[k] == change(s[k]).(updatedAt := now)
      && forall i :: 0 <= i < |s| && i != k ==> r.value[i] == s[i]
  {
    match FirstWithId(s, id)
    case None => Failure(CategoryNotFound)
    case Some(k) =>
      var y := change(s[k]).(updatedAt := now);
      if exists j :: 0 <= j < |s| && j != k && s[j].slug == y.slug then Failure(DuplicateSlug)
      else Success(s[k := y])
  }

  /** An update that goes through keeps both keys unique when it leaves the
      identifier alone. */
  lemma UpdateKeepsKeysUnique(s: Categories, id: ObjectId, change: Category -> Category, now: Time)
    requires KeysUnique(s) && Update(s, id, change, now).Success?
    requires change(s[FirstWithId(s, id).value]).id == id
    ensures KeysUnique(Update(s, id, change, now).value)
  {
  }

  /** The change `Activate` (`active`) or `Deactivate` (`!active`) makes. */
  function WithActive(active: bool): Category -> Category {
    (x: Category) => x.(isActive := active)
  }

  /** `Activate` and `Deactivate`: only the flag and the update time
      change, and with unique slugs the index never objects. */
  function SetActive(s: Categories, id: ObjectId, active: bool, now: Time)
    : (r: Result<Categories, SopStoreError>)
    requires KeysUnique(s)
    ensures r.Failure? <==> !HasId(s, id)
    ensures r.Success? ==>
      var k := FirstWithId(s, id).value;
      |r.value| == |s| && r.value[k].isActive == active
      && r.value[k].(isActive := s[k].isActive, updatedAt := s[k].updatedAt) == s[k]
      && forall i :: 0 <= i < |s| && i != k ==> r.value[i] == s[i]
  {
    Update(s, id, WithActive(active), now)
  }

  /** The collection without its `k`-th category. */
  function RemoveAt(s: Categories, k: nat): (r: Categories)
    requires k < |s|
    ensures |r| == |s| - 1
    ensures forall i :: 0 <= i < |r| ==> r[i] == (if i < k then s[i] else s[i + 1])
  {
    var rest := s[..k] + s[k + 1..];
    assert forall i :: 0 <= i < |rest| ==> rest[i] == (if i < k then s[i] else s[i + 1]);
    rest
  }

  /** Removing a category keeps the keys unique, and no other category
      carried its identifier. */
  lemma RemoveAtKeepsKeysUnique(s: Categories, k: nat)
    requires k < |s|
    ensures KeysUnique(s) ==> KeysUnique(RemoveAt(s, k)) && !HasId(RemoveAt(s, k), s[k].id)
  {
    if !KeysUnique(s) {
      return;
    }
    var r := RemoveAt(s, k);
    forall i, j | 0 <= i < j < |r| ensures r[i].id != r[j].id && r[i].slug != r[j].slug {
      var i' := if i < k then i else i + 1;
      var j' := if j < k then j else j + 1;
      assert r[i] == s[i'] && r[j] == s[j'] && i' < j';
    }
    forall i | 0 <= i < |r| ensures r[i].id != s[k].id {
      assert r[i] == s[if i < k then i else i + 1];
    }
  }

  /** `Delete`: removes the category with `id`. */
  function Delete(s: Categories, id: ObjectId): (r: Result<Categories, SopStoreError>)
    ensures r.Failure? <==> !HasId(s, id)
    ensures r.Failure? ==> r.error == CategoryNotFound
    ensures r.Success? ==> |r.value| == |s| - 1 && forall i :: 0 <= i < |r.value| ==> r.value[i] in s
    ensures r.Success? && KeysUnique(s) ==> !HasId(r.value, id) && KeysUnique(r.value)
  {
    match FirstWithId(s, id)
    case None => Failure(CategoryNotFound)
    case Some(k) =>
      RemoveAtKeepsKeysUnique(s, k);
      var rest := RemoveAt(s, k);
      assert forall i :: 0 <= i < |rest| ==> rest[i] in s by {
        forall i | 0 <= i < |rest| ensures rest[i] in s {
          assert rest[i] == s[if i < k then i else i + 1];
        }
      }
      Success(rest)
  }

  /** Whether `s[i]` counts for `ExistsBySlug`. */
  predicate SlugClash(x: Category, slug: string, exclude: Option<ObjectId>) {
    x.slug == slug && (exclude.None? || x.id != exclude.value)
  }

  /** `ExistsBySlug`: some category has the slug, the excluded one aside. */
  function ExistsBySlug(s: Categories, slug: string, exclude: Option<ObjectId>): (b: bool)
    ensures b <==> exists i :: 0 <= i < |s| && SlugClash(s[i], slug, exclude)
  {
    if |s| == 0 then false
    else if SlugClash(s[0], slug, exclude) then true
    else
      var b := ExistsBySlug(s[1..], slug, exclude);
      assert forall i :: 1 <= i < |s| ==> s[i] == s[1..][i - 1];
      b
  }

  /** `ExistsBySlug` answers exactly what the unique index would: without
      an exclusion it is the plain slug test, and with the identifier of the
      category being changed it is the test `Update` applies to it. */
  lemma ExistsBySlugMatchesIndex(s: Categories, slug: string, id: ObjectId)
    ensures ExistsBySlug(s, slug, None) <==> HasSlug(s, slug)
    ensures KeysUnique(s) && HasId(s, id) ==>
      (ExistsBySlug(s, slug, Some(id)) <==> SlugTakenElsewhere(s, FirstWithId(s, id).value, slug))
  {
    if HasSlug(s, slug) {
      var i :| 0 <= i < |s| && s[i].slug == slug;
      assert SlugClash(s[i], slug, None);
    }
    if KeysUnique(s) && HasId(s, id) {
      var k := FirstWithId(s, id).value;
      if ExistsBySlug(s, slug, Some(id)) {
        var i :| 0 <= i < |s| && SlugClash(s[i], slug, Some(id));
        assert i != k;
      }
      if SlugTakenElsewhere(s, k, slug) {
        var j :| 0 <= j < |s| && j != k && s[j].slug == slug;
        assert s[j].id != id;
        assert SlugClash(s[j], slug, Some(id));
      }
    }
  }
}

=== FILE: dafny/submission_store.dfy ===
/** The `registry_submissions` collection
    (`repository/registry_submission_repository.go`): creation always
    starts a submission as submitted, a review sets status, reviewer and
    review time and keeps earlier notes unless new ones are given, and the
    per-user listing is newest first with a total over all of the user's
    submissions. */
module SubmissionStore {
  import opened Wrappers
  import opened Seqs
  import opened Base
  import opened Paging
  import opened RegistrySubmission

  /** The collection, in natural order. */
  type Submissions = seq<Submission>

  datatype SubmissionStoreError = SubmissionNotFound

  /** The status `Create` stores. */
  const Submitted: string := "submitted"

  predicate HasId(s: Submissions, id: ObjectId) {
    exists i :: 0 <= i < |s| && s[i].id == id
  }

  /** The first submission with identifier `id`, if any. */
  function FirstWithId(s: Submissions, id: ObjectId): (r: Option<nat>)
    ensures r.Some? ==> r.value < |s| && s[r.value].id == id
    ensures r.Some? ==> forall j :: 0 <= j < r.value ==> s[j].id != id
    ensures r.None? <==> !HasId(s, id)
  {
    FirstWhere(s, (x: Submission) => x.id == id)
  }

  /** `Create`: stamps both times, assigns `id` and sets the status to
      submitted, whatever the caller's record said. */
  function Create(s: Submissions, sub: Submission, id: ObjectId, now: Time): (r: (Submissions, Submission))
    ensures r.1.status == Submitted && IsValidStatus(r.1.status)
    ensures r.1.id == id && r.1.createdAt == now && r.1.updatedAt == now
    ensures r.1.(status := sub.status, id := sub.id, createdAt := sub.createdAt, updatedAt := sub.updatedAt) == sub
    ensures r.0 == s + [r.1]
  {
    var stored := sub.(id := id, createdAt := now, updatedAt := now, status := Submitted);
    (s + [stored], stored)
  }

  /** `FindByID`. */
  function FindById(s: Submissions, id: ObjectId): (r: Result<Submission, SubmissionStoreError>)
    ensures r.Failure? <==> !HasId(s, id)
    ensures r.Success? ==> r.value in s && r.value.id == id
  {
    match FirstWithId(s, id)
    case None => Failure(SubmissionNotFound)
    case Some(k) => Success(s[k])
  }

  /** A submission created under a fresh identifier is found by it, as
      submitted. */
  lemma CreatedIsFound(s: Submissions, sub: Submission, id: ObjectId, now: Time)
    requires !HasId(s, id)
    ensures var (r, stored) := Create(s, sub, id, now);
      FindById(r, id) == Success(stored) && FindById(r, id).value.status == Submitted
  {
    var (r, stored) := Create(s, sub, id, now);
    assert forall i :: 0 <= i < |s| ==> r[i] == s[i];
    assert forall j :: 0 <= j < |s| ==> r[j].id != id;
    assert r[|s|].id == id;
  }

  /** The owner filter of `FindByUser`. */
  function OwnedBy(userId: ObjectId): Submission -> bool {
    (x: Submission) => x.userId == userId
  }

  /** The sort key of the listings. */
  function CreatedKey(x: Submission): int {
    x.createdAt
  }

  /** One page of a filtered listing, newest first, and the number of
      documents the filter matches. */
  function ListWhere(s: Submissions, keep: Submission -> bool, page: nat, limit: nat): (r: (seq<Submission>, nat))
    requires page >= 1 && limit >= 1
    ensures |r.0| <= limit
    ensures r.1 == |Filter(s, keep)|
    ensures Descending(r.0, CreatedKey)
    ensures forall i :: 0 <= i < |r.0| ==> r.0[i] in s && keep(r.0[i])
  {
    var matching := Filter(s, keep);
    (PageDesc(matching, CreatedKey, SkipOf(page, limit), limit), |matching|)
  }

  /** `FindByUser`: the user's submissions, a page at a time; the total
      counts all of them. */
  function FindByUser(s: Submissions, userId: ObjectId, page: nat, limit: nat): (r: (seq<Submission>, nat))
    requires page >= 1 && limit >= 1
    ensures forall i :: 0 <= i < |r.0| ==> r.0[i] in s && r.0[i].userId == userId
    ensures r.1 <= |s| && |r.0| <= limit
    ensures Descending(r.0, CreatedKey)
  {
    ListWhere(s, OwnedBy(userId), page, limit)
  }

  /** `List`: the same window over an arbitrary filter. */
  function List(s: Submissions, keep: Submission -> bool, page: nat, limit: nat): (r: (seq<Submission>, nat))
    requires page >= 1 && limit >= 1
    ensures forall i :: 0 <= i < |r.0| ==> r.0[i] in s && keep(r.0[i])
    ensures r.1 <= |s| && |r.0| <= limit
  {
    ListWhere(s, keep, page, limit)
  }

  /** A user's total and everyone else's add up to the collection, and a
      submission of the user's is counted in it. */
  lemma FindByUserTotal(s: Submissions, userId: ObjectId, page: nat, limit: nat)
    requires page >= 1 && limit >= 1
    ensures FindByUser(s, userId, page, limit).1 + |Filter(s, Not(OwnedBy(userId)))| == |s|
    ensures (exists i :: 0 <= i < |s| && s[i].userId == userId) ==> FindByUser(s, userId, page, limit).1 >= 1
  {
    FilterPartition(s, OwnedBy(userId));
    if exists i :: 0 <= i < |s| && s[i].userId == userId {
      var i :| 0 <= i < |s| && s[i].userId == userId;
      assert OwnedBy(userId)(s[i]);
      assert s[i] in Filter(s, OwnedBy(userId));
    }
  }

  /** `Update`: a `$set` on the submission with `id`, stamped `now`. */
  function Update(s: Submissions, id: ObjectId, change: Submission -> Submission, now: Time)
    : (r: Result<Submissions, SubmissionStoreError>)
    ensures r.Failure? <==> !HasId(s, id)
    ensures r.Success? ==>
      var k := FirstWithId(s, id).value;
      |r.value| == |s| && r.value[k] == change(s[k]).(updatedAt := now)
      && forall i :: 0 <= i < |s| && i != k ==> r.value[i] == s[i]
  {
    match FirstWithId(s, id)
    case None => Failure(SubmissionNotFound)
    case Some(k) => Success(s[k := change(s[k]).(updatedAt := now)])
  }

  /** The fields a review writes into one submission. */
  function Reviewed(x: Submission, status: string, reviewer: Option<ObjectId>, notes: string, now: Time): (y: Submission)
    ensures y.status == status && y.reviewedBy == reviewer && y.reviewedAt == Some(now) && y.updatedAt == now
    ensures y.reviewNotes == (if notes == "" then x.reviewNotes else notes)
    ensures y.(status := x.status, reviewedBy := x.reviewedBy, reviewedAt := x.reviewedAt,
               updatedAt := x.updatedAt, reviewNotes := x.reviewNotes) == x
  {
    var y := x.(status := status, updatedAt := now, reviewedBy := reviewer, reviewedAt := Some(now));
    if notes != "" then y.(reviewNotes := notes) else y
  }

  /** `UpdateStatus`: a review of the submission with `id`. */
  function UpdateStatus(s: Submissions, id: ObjectId, status: string, reviewer: Option<ObjectId>,
                        notes: string, now: Time): (r: Result<Submissions, SubmissionStoreError>)
    ensures r.Failure? <==> !HasId(s, id)
    ensures r.Success? ==>
      var k := FirstWithId(s, id).value;
      |r.value| == |s| && r.value[k] == Reviewed(s[k], status, reviewer, notes, now)
      && forall i :: 0 <= i < |s| && i != k ==> r.value[i] == s[i]
  {
    match FirstWithId(s, id)
    case None => Failure(SubmissionNotFound)
    case Some(k) => Success(s[k := Reviewed(s[k], status, reviewer, notes, now)])
  }

  /** A later review without notes keeps the notes of an earlier one, and
      the last review's status, reviewer and time are what remain. */
  lemma NotesSurviveLaterReview(s: Submissions, id: ObjectId, st1: string, st2: string,
                                rev1: Option<ObjectId>, rev2: Option<ObjectId>, notes: string, t1: Time, t2: Time)
    requires HasId(s, id) && notes != ""
    ensures var r1 := UpdateStatus(s, id, st1, rev1, notes, t1).value;
      var r2 := UpdateStatus(r1, id, st2, rev2, "", t2).value;
      var k := FirstWithId(s, id).value;
      r2[k].reviewNotes == notes && r2[k].status == st2 && r2[k].reviewedBy == rev2 && r2[k].reviewedAt == Some(t2)
  {
    var r1 := UpdateStatus(s, id, st1, rev1, notes, t1).value;
    var k := FirstWithId(s, id).value;
    assert forall j :: 0 <= j < k ==> r1[j].id == s[j].id;
    assert FirstWithId(r1, id) == Some(k);
  }

  /** `Delete`: removes the submission with `id`. */
  function Delete(s: Submissions, id: ObjectId): (r: Result<Submissions, SubmissionStoreError>)
    ensures r.Failure? <==> !HasId(s, id)
    ensures r.Success? ==> |r.value| == |s| - 1 && forall i :: 0 <= i < |r.value| ==> r.value[i] in s
    ensures r.Success? && (forall i, j :: 0 <= i < j < |s| ==> s[i].id != s[j].id) ==> !HasId(r.value, id)
  {
    match FirstWithId(s, id)
    case None => Failure(SubmissionNotFound)
    case Some(k) =>
      var rest := s[..k] + s[k + 1..];
      assert forall i :: 0 <= i < |rest| ==> rest[i] == (if i < k then s[i] else s[i + 1]);
      Success(rest)
  }

  /** `Count`. */
  function Count(s: Submissions): (n: nat)
    ensures n == |s|
  {
    |s|
  }
}

=== FILE: dafny/uploads.dfy ===
/** The image-upload endpoints of the institution and SOP-category handlers
    (`handlers/institution_handler.go`, `handlers/sop_category_handler.go`):
    who may upload, the size bound, the extension check, and the random
    part of the stored file name. */
module Uploads {
  import opened Wrappers
  import opened GoStrings
  import opened Roles
  import opened Users

  /** 5 MiB: the largest accepted upload. */
  const MaxImageSize: nat := 5 * 1024 * 1024

  /** The extensions every image upload accepts, after lower-casing. */
  const ImageExtensions: seq<string> := [".jpg", ".jpeg", ".png", ".webp"]

  /** `filepath.Ext`: the suffix from the last '.' of the final path
      element, or "" when that element has no '.'. */
  function Ext(p: string): (e: string)
    ensures e == "" || (e[0] == '.' && |e| <= |p| && e == p[|p| - |e|..])
    ensures forall k :: 1 <= k < |e| ==> e[k] != '.' && e[k] != '/'
  {
    if |p| == 0 || p[|p| - 1] == '/' then ""
    else if p[|p| - 1] == '.' then "."
    else
      var e := Ext(p[..|p| - 1]);
      if e == "" then "" else e + [p[|p| - 1]]
  }

  /** A name ending in '.' and a plain suffix has that extension,
      whatever comes before. */
  lemma {:induction false} ExtOfSuffix(stem: string, x: string)
    requires forall k :: 0 <= k < |x| ==> x[k] != '.' && x[k] != '/'
    ensures Ext(stem + "." + x) == "." + x
  {
    var p := stem + "." + x;
    if |x| > 0 {
      var init := x[..|x| - 1];
      assert p[|p| - 1] == x[|x| - 1];
      assert p[..|p| - 1] == stem + "." + init;
      ExtOfSuffix(stem, init);
      assert "." + init + [x[|x| - 1]] == "." + x;
    } else {
      assert p[|p| - 1] == '.';
    }
  }

  /** The admin handlers' check: a lookup in a map of the four extensions,
      a missing key reading as false. */
  function ExtensionTable(): map<string, bool> {
    map[".jpg" := true, ".jpeg" := true, ".png" := true, ".webp" := true]
  }

  predicate AdminExtensionOk(ext: string) {
    ext in ExtensionTable() && ExtensionTable()[ext]
  }

  /** The user handler's check: a scan of the list of the four extensions. */
  function ScanExtensions(ext: string, allowed: seq<string>): (b: bool)
    ensures b <==> ext in allowed
  {
    if |allowed| == 0 then false
    else if ext == allowed[0] then true
    else ScanExtensions(ext, allowed[1..])
  }

  predicate UserExtensionOk(ext: string) {
    ScanExtensions(ext, ImageExtensions)
  }

  /** Both checks accept exactly the four image extensions. */
  lemma ExtensionChecksAgree(ext: string)
    ensures AdminExtensionOk(ext) <==> UserExtensionOk(ext)
    ensures UserExtensionOk(ext) <==> ext in ImageExtensions
  {
  }

  /** The uploaded file, as the handler sees it. */
  datatype FileHeader = FileHeader(filename: string, size: nat)

  /** Why an upload is refused: 401, 403, and three 400s. */
  datatype UploadRefusal = Unauthenticated | InsufficientPermissions | ImageRequired | TooLarge | BadFormat {
    function Status(): int {
      match this
      case Unauthenticated => 401
      case InsufficientPermissions => 403
      case _ => 400
    }
  }

  /** The checks the file itself must pass: present, at most 5 MiB, and an
      allowed extension, in that order. */
  function CheckFile(file: Option<FileHeader>, extOk: string -> bool): (r: Outcome<UploadRefusal>)
    ensures r == Fail(ImageRequired) <==> file.None?
    ensures r == Fail(TooLarge) <==> file.Some? && file.value.size > MaxImageSize
    ensures r.Pass? <==>
      file.Some? && file.value.size <= MaxImageSize && extOk(ToLower(Ext(file.value.filename)))
  {
    match file
    case None => Fail(ImageRequired)
    case Some(f) =>
      if f.size > MaxImageSize then Fail(TooLarge)
      else if !extOk(ToLower(Ext(f.filename))) then Fail(BadFormat)
      else Pass
  }

  /** The admin upload endpoints: an authenticated user holding `needed`
      (`PermManageUsers` for institutions, `PermDeleteUsers` for SOP
      categories), then the file checks. */
  function CheckAdminUpload(user: Option<User>, needed: Permission, file: Option<FileHeader>)
    : (r: Outcome<UploadRefusal>)
    ensures r == Fail(Unauthenticated) <==> user.None?
    ensures r == Fail(InsufficientPermissions) <==> user.Some? && !user.value.Has(needed)
    ensures r.Pass? ==> user.Some? && user.value.Has(needed) && file.Some? && file.value.size <= MaxImageSize
  {
    match user
    case None => Fail(Unauthenticated)
    case Some(u) => if !u.Has(needed) then Fail(InsufficientPermissions) else CheckFile(file, AdminExtensionOk)
  }

  /** The user upload endpoint: authentication only, then the file checks. */
  function CheckUserUpload(user: Option<User>, file: Option<FileHeader>): (r: Outcome<UploadRefusal>)
    ensures r == Fail(Unauthenticated) <==> user.None?
    ensures r != Fail(InsufficientPermissions)
  {
    match user
    case None => Fail(Unauthenticated)
    case Some(_) => CheckFile(file, UserExtensionOk)
  }

  /** Once past the permission check, the admin and user endpoints accept
      and refuse the same files, for the same reasons. */
  lemma AdminAndUserUploadsAgree(u: User, needed: Permission, file: Option<FileHeader>)
    requires u.Has(needed)
    ensures CheckAdminUpload(Some(u), needed, file) == CheckUserUpload(Some(u), file)
  {
    if file.Some? {
      ExtensionChecksAgree(ToLower(Ext(file.value.filename)));
    }
  }

  /** The size bound is inclusive: exactly 5 MiB passes and one byte more
      does not, for a file with an accepted name. */
  lemma SizeBoundary(stem: string)
    ensures CheckFile(Some(FileHeader(stem + ".png", MaxImageSize)), UserExtensionOk).Pass?
    ensures CheckFile(Some(FileHeader(stem + ".png", MaxImageSize + 1)), UserExtensionOk) == Fail(TooLarge)
  {
    ExtOfSuffix(stem, "png");
    assert stem + "." + "png" == stem + ".png";
    assert ToLower(".png") == ".png";
  }

  /** The extension of a name ending in ".JPG", lower-cased. */
  lemma LoweredJpg(stem: string)
    ensures ToLower(Ext(stem + ".JPG")) == ".jpg"
  {
    ExtOfSuffix(stem, "JPG");
    assert stem + "." + "JPG" == stem + ".JPG";
    assert ToLower(".JPG") == ".jpg";
  }

  /** An upper-case extension is accepted by both checks. */
  lemma UpperCaseImageAccepted(stem: string, size: nat)
    requires size <= MaxImageSize
    ensures CheckFile(Some(FileHeader(stem + ".JPG", size)), AdminExtensionOk).Pass?
  {
    LoweredJpg(stem);
    assert AdminExtensionOk(".jpg");
  }

  // ---------------------------------------------------------------------
  // Random file names

  /** The alphabet of `generateRandomString`. */
  const Charset: string := "abcdefghijklmnopqrstuvwxyz0123456789"

  /** `generateRandomString`: `draw(i)` is the `i`-th value of
      `rand.Intn(36)`. */
  method GenerateRandomString(length: nat, draw: nat -> nat) returns (s: string)
    requires forall i :: 0 <= i < length ==> draw(i) < |Charset|
    ensures |s| == length
    ensures forall i :: 0 <= i < length ==> s[i] == Charset[draw(i)]
    ensures forall i :: 0 <= i < length ==> IsAsciiLower(s[i]) || IsDigit(s[i])
  {
    s := [];
    var i := 0;
    while i < length
      invariant 0 <= i <= length && |s| == i
      invariant forall k :: 0 <= k < i ==> s[k] == Charset[draw(k)]
    {
      s := s + [Charset[draw(i)]];
      i := i + 1;
    }
    assert forall k :: 0 <= k < |Charset| ==> IsAsciiLower(Charset[k]) || IsDigit(Charset[k]);
  }
}

=== FILE: dafny/user_handler.dfy ===
/** The HTTP layer of user management (`handlers/user_handler.go`): the
    statuses of the service's errors and the query parameters of the list
    endpoint. */
module UserHandler {
  import opened Wrappers
  import opened Base
  import opened GoStrings
  import opened Roles
  import opened Users
  import opened UserStore
  import opened UserService

  /** `CreateUser`: 403 for the missing right, 409 for a taken email or
      username, otherwise 400. */
  function CreateStatus(e: UserServiceError): (code: int)
    ensures code == 403 <==> e == Unauthorized
    ensures code == 409 <==> e == DuplicateEmail || e == DuplicateUsername
    ensures code == 400 <==> e != Unauthorized && e != DuplicateEmail && e != DuplicateUsername
  {
    if e == Unauthorized then 403
    else if e == DuplicateEmail || e == DuplicateUsername then 409
    else 400
  }

  /** `UpdateUser`: 403 for the missing right or a change of one's own
      admin level, 404 for a missing user, otherwise 400. */
  function UpdateStatus(e: UserServiceError): (code: int)
    ensures code == 403 <==> e == Unauthorized || e == CannotModifyOwnAdminLevel
    ensures code == 404 <==> e == StoreFailure(UserNotFound)
    ensures code == 400 <==> e != Unauthorized && e != CannotModifyOwnAdminLevel && e != StoreFailure(UserNotFound)
  {
    if e == Unauthorized || e == CannotModifyOwnAdminLevel then 403
    else if e == StoreFailure(UserNotFound) then 404
    else 400
  }

  /** `DeleteUser`, `DeactivateUser` and `ActivateUser`: 403 for the
      missing right, 404 for a missing user, otherwise 400. */
  function RemovalStatus(e: UserServiceError): (code: int)
    ensures code == 403 <==> e == Unauthorized
    ensures code == 404 <==> e == StoreFailure(UserNotFound)
    ensures code == 400 <==> e != Unauthorized && e != StoreFailure(UserNotFound)
  {
    if e == Unauthorized then 403
    else if e == StoreFailure(UserNotFound) then 404
    else 400
  }

  /** An invalid request is answered 400 whoever sends it, since the
      service validates before it looks at the creator's rights. */
  lemma InvalidCreateIsBadRequest(s: Store, req: CreateUserRequest, parse: HexParser, creator: User,
                                  hash: Option<string>, newId: ObjectId, now: Time)
    requires ValidateCreateUser(req, parse).Fail?
    ensures CreateStatus(CreateUser(s, req, parse, creator, hash, newId, now).error) == 400
  {
  }

  /** A user manager asking for an admin account is answered 400, not 403:
      the service's refusal is not `ErrUnauthorized`. */
  lemma ManagerCreatingAdminIsBadRequest(s: Store, req: CreateUserRequest, parse: HexParser, creator: User,
                                         hash: Option<string>, newId: ObjectId, now: Time)
    requires ValidateCreateUser(req, parse).Pass?
    requires creator.role == Admin && creator.adminLevel == LevelUserManager && req.role == Admin
    ensures CreateUser(s, req, parse, creator, hash, newId, now).Failure?
    ensures CreateStatus(CreateUser(s, req, parse, creator, hash, newId, now).error) == 400
  {
    assert creator.Has(ManageUsers);
  }

  /** A valid request from a creator with the right whose email the
      uniqueness check finds taken is answered 409. */
  lemma TakenEmailConflicts(s: Store, req: CreateUserRequest, parse: HexParser, creator: User,
                            hash: Option<string>, newId: ObjectId, now: Time)
    requires ValidateCreateUser(req, parse).Pass? && creator.Has(ManageUsers)
    requires !(req.role == Admin && creator.adminLevel == LevelUserManager)
    requires EmailExists(s, NormalizeEmail(req.email)) == Success(true)
    ensures CreateStatus(CreateUser(s, req, parse, creator, hash, newId, now).error) == 409
  {
  }

  /** Deleting one's own account is answered 400, not 403. */
  lemma SelfDeleteIsBadRequest(s: Store, me: User)
    requires me.Has(DeleteUsers) && HasId(s, me.id)
    ensures DeleteUser(s, me.id, me).Failure? && RemovalStatus(DeleteUser(s, me.id, me).error) == 400
  {
  }

  /** `GetUser`: the user, or 404 when there is none with that identifier. */
  function GetUserStatus(s: Store, id: ObjectId): (code: int)
    ensures code == 200 <==> HasId(s, id)
    ensures code == 404 <==> !HasId(s, id)
  {
    if FindById(s, id).Success? then 200 else 404
  }

  // ---------------------------------------------------------------------
  // List parameters

  /** The query of `ListUsers` after parsing. */
  datatype ListQuery = ListQuery(role: Option<string>, isActive: Option<bool>, search: string, limit: int, skip: int)

  /** A parameter as `c.Query` gives it: "" when absent. */
  function Param(p: Option<string>): string {
    p.GetOr("")
  }

  /** The list endpoint's parameters: an invalid role is dropped, any
      non-empty `is_active` other than "true" means false, the limit is
      20 unless a positive number is given, and the skip is 0 unless a
      non-negative number is given. */
  function ParseListQuery(roleParam: Option<string>, activeParam: Option<string>, search: Option<string>,
                          limitParam: Option<string>, skipParam: Option<string>): (q: ListQuery)
    ensures q.role.Some? <==> IsValidRole(Param(roleParam))
    ensures q.role.Some? ==> q.role.value == Param(roleParam)
    ensures q.isActive.None? <==> Param(activeParam) == ""
    ensures q.isActive == Some(true) <==> Param(activeParam) == "true"
    ensures q.search == Param(search)
    ensures q.limit >= 1 && q.skip >= 0
    ensures ParseInt(Param(limitParam)).ok && ParseInt(Param(limitParam)).value > 0 ==> q.limit == ParseInt(Param(limitParam)).value
    ensures !(ParseInt(Param(limitParam)).ok && ParseInt(Param(limitParam)).value > 0) ==> q.limit == 20
    ensures ParseInt(Param(skipParam)).ok && ParseInt(Param(skipParam)).value >= 0 ==> q.skip == ParseInt(Param(skipParam)).value
    ensures !(ParseInt(Param(skipParam)).ok && ParseInt(Param(skipParam)).value >= 0) ==> q.skip == 0
  {
    var r := Param(roleParam);
    var a := Param(activeParam);
    var l := ParseInt(Param(limitParam));
    var k := ParseInt(Param(skipParam));
    ListQuery(
      if r != "" && IsValidRole(r) then Some(r) else None,
      if a != "" then Some(a == "true") else None,
      Param(search),
      if Param(limitParam) != "" && l.ok && l.value > 0 then l.value else 20,
      if Param(skipParam) != "" && k.ok && k.value >= 0 then k.value else 0)
  }

  /** The limit and skip echoed in a response, sent back, are read the
      same way. */
  lemma ListQueryStable(roleParam: Option<string>, activeParam: Option<string>, search: Option<string>,
                        limitParam: Option<string>, skipParam: Option<string>)
    ensures var q := ParseListQuery(roleParam, activeParam, search, limitParam, skipParam);
      var q2 := ParseListQuery(roleParam, activeParam, search, Some(NatToString(q.limit)), Some(NatToString(q.skip)));
      q2.limit == q.limit && q2.skip == q.skip
  {
    var q := ParseListQuery(roleParam, activeParam, search, limitParam, skipParam);
    ParseIntOfNatToString(q.limit);
    ParseIntOfNatToString(q.skip);
  }

  /** The body of a `ListUsers` answer. */
  datatype ListAnswer = ListAnswer(users: seq<User>, total: nat, limit: int, skip: int)

  /** `ListUsers`: the parsed query handed to the service, and echoed. */
  function ListUsersAnswer(s: Store, m: SearchMatcher, roleParam: Option<string>, activeParam: Option<string>,
                           search: Option<string>, limitParam: Option<string>, skipParam: Option<string>): (a: ListAnswer)
    ensures 1 <= a.limit && 0 <= a.skip && |a.users| <= a.limit && |a.users| <= a.total <= |s|
  {
    var q := ParseListQuery(roleParam, activeParam, search, limitParam, skipParam);
    var (users, total) := ListUsers(s, q.role, q.isActive, q.search, m, q.limit, q.skip);
    ListAnswer(users, total, q.limit, q.skip)
  }

  /** An invalid role filter is ignored: the answer is the unfiltered one. */
  lemma InvalidRoleIgnored(s: Store, m: SearchMatcher, roleParam: Option<string>, activeParam: Option<string>,
                           search: Option<string>, limitParam: Option<string>, skipParam: Option<string>)
    requires !IsValidRole(Param(roleParam))
    ensures ListUsersAnswer(s, m, roleParam, activeParam, search, limitParam, skipParam)
         == ListUsersAnswer(s, m, None, activeParam, search, limitParam, skipParam)
  {
  }
}

=== FILE: dafny/user_service.dfy ===
/** User management (`service/user_service.go`): who may create, update,
    delete, deactivate and activate whom, and which fields of an update
    take effect. Password hashing and audit logging are not modelled: the
    hash (or its failure) is an input, and audit entries are not kept. */
module UserService {
  import opened Wrappers
  import opened Base
  import opened GoStrings
  import opened Roles
  import opened Users
  import opened UserStore

  datatype UserServiceError =
    | InvalidRequest(requestError: UserRequestError)
    | Unauthorized
    | ManagerCannotCreateAdmin
    | DuplicateEmail
    | DuplicateUsername
    | HashFailed
    | InvalidInstitutionId
    | StoreFailure(storeError: StoreError)
    | CannotModifyOwnAdminLevel
    | ManagerCannotAssignAdmin
    | OnlySuperAdminChangesLevel
    | CannotDeleteSelf
    | CannotDeactivateSelf

  /** The collection after an operation and the user it returns. */
  datatype Changed = Changed(store: Store, user: User)

  /** The email under which a new user is stored. */
  function NormalizeEmail(email: string): (r: string)
    ensures |r| <= |email|
    ensures SameEmail(r, TrimSpace(email))
  {
    ToLowerIdempotent(TrimSpace(email));
    ToLower(TrimSpace(email))
  }

  // ---------------------------------------------------------------------
  // CreateUser

  /** The record built from a valid request, before it is stored. */
  function NewUser(req: CreateUserRequest, hash: string, institution: ObjectId, creator: User): User {
    User(NilId, req.username, NormalizeEmail(req.email), hash, req.role, req.adminLevel, true,
         Profile(req.firstName, req.lastName, Some(institution), req.specialty,
                 req.registrationNumber, req.phoneNumber),
         0, 0, None, Some(creator.id), 0, None)
  }

  /** The part of `CreateUser` after the checks of the request and the
      creator: the email and the username must be unused, the hash must
      exist and the institution must parse. */
  function Register(s: Store, req: CreateUserRequest, parse: HexParser, creator: User,
                    hash: Option<string>, newId: ObjectId, now: Time): (r: Result<Changed, UserServiceError>)
    ensures r.Failure? ==> !r.error.InvalidRequest? && r.error != Unauthorized && r.error != ManagerCannotCreateAdmin
    ensures EmailExists(s, NormalizeEmail(req.email)).Failure? ==> r == Failure(StoreFailure(QueryFailed))
    ensures EmailExists(s, NormalizeEmail(req.email)) == Success(true) ==> r == Failure(DuplicateEmail)
    ensures EmailExists(s, NormalizeEmail(req.email)) == Success(false) && UsernameExists(s, req.username) ==>
      r == Failure(DuplicateUsername)
    ensures r.Success? ==>
      forall i :: 0 <= i < |s| ==>
        MatchesAsWritten(NormalizeEmail(req.email), s[i].email) == Some(false)
        && s[i].email != NormalizeEmail(req.email) && s[i].username != req.username && s[i].id != newId
    ensures r.Success? ==> r.value.store == s + [r.value.user]
    ensures r.Success? ==>
      var u := r.value.user;
      u.id == newId && u.email == NormalizeEmail(req.email) && u.username == req.username
      && u.role == req.role && u.adminLevel == req.adminLevel && u.isActive
      && u.createdBy == Some(creator.id) && u.failedLoginAttempts == 0 && u.lockedUntil.None?
      && u.createdAt == now && Some(u.passwordHash) == hash
  {
    var email := NormalizeEmail(req.email);
    match EmailExists(s, email)
    case Failure(e) => Failure(StoreFailure(e))
    case Success(true) => Failure(DuplicateEmail)
    case Success(false) =>
    if UsernameExists(s, req.username) then Failure(DuplicateUsername)
    else if hash.None? then Failure(HashFailed)
    else
      match parse(req.institutionId)
      case None => Failure(InvalidInstitutionId)
      case Some(institution) =>
        var u := NewUser(req, hash.value, institution, creator);
        match Create(s, u, newId, now)
        case Failure(e) => Failure(StoreFailure(e))
        case Success(s2) => Success(Changed(s2, u.(id := newId, createdAt := now, updatedAt := now)))
  }

  /** `CreateUser`: the request is validated before the creator's rights are
      looked at; a user manager may not create an admin; the normalised
      email and then the username must be unused. `hash` is the outcome of
      hashing the password, `None` when it failed. */
  function CreateUser(s: Store, req: CreateUserRequest, parse: HexParser, creator: User,
                      hash: Option<string>, newId: ObjectId, now: Time): (r: Result<Changed, UserServiceError>)
    ensures ValidateCreateUser(req, parse).Fail? ==>
      r == Failure(InvalidRequest(ValidateCreateUser(req, parse).error))
    ensures ValidateCreateUser(req, parse).Pass? && !creator.Has(ManageUsers) ==> r == Failure(Unauthorized)
    ensures r.Success? ==>
      creator.Has(ManageUsers) && !(req.role == Admin && creator.adminLevel == LevelUserManager)
    ensures ValidateCreateUser(req, parse).Pass? && creator.Has(ManageUsers)
            && !(req.role == Admin && creator.adminLevel == LevelUserManager) ==>
      r == Register(s, req, parse, creator, hash, newId, now)
    ensures r.Success? ==>
      forall i :: 0 <= i < |s| ==>
        MatchesAsWritten(NormalizeEmail(req.email), s[i].email) == Some(false)
        && s[i].email != NormalizeEmail(req.email) && s[i].username != req.username && s[i].id != newId
    ensures r.Success? ==> r.value.store == s + [r.value.user]
    ensures r.Success? ==>
      var u := r.value.user;
      u.id == newId && u.email == NormalizeEmail(req.email) && u.username == req.username
      && u.role == req.role && u.adminLevel == req.adminLevel && u.isActive
      && u.createdBy == Some(creator.id) && u.failedLoginAttempts == 0 && u.lockedUntil.None?
      && u.createdAt == now && Some(u.passwordHash) == hash
  {
    match ValidateCreateUser(req, parse)
    case Fail(e) => Failure(InvalidRequest(e))
    case Pass =>
      if !creator.Has(ManageUsers) then Failure(Unauthorized)
      else if req.role == Admin && creator.adminLevel == LevelUserManager then Failure(ManagerCannotCreateAdmin)
      else Register(s, req, parse, creator, hash, newId, now)
  }

  /** The user just created is what a lookup by its identifier returns,
      and, when its email is plain, what a lookup by any spelling of that
      email differing only in letter case returns. */
  lemma CreatedUserIsFound(s: Store, req: CreateUserRequest, parse: HexParser, creator: User,
                           hash: Option<string>, newId: ObjectId, now: Time, query: string)
    requires CreateUser(s, req, parse, creator, hash, newId, now).Success?
    requires PlainEmail(query) && SameEmail(query, NormalizeEmail(req.email))
    ensures var c := CreateUser(s, req, parse, creator, hash, newId, now).value;
      FindById(c.store, newId) == Success(c.user) && FindByEmail(c.store, query) == Success(c.user)
  {
    var c := CreateUser(s, req, parse, creator, hash, newId, now).value;
    var email := NormalizeEmail(req.email);
    PlainOfSameEmail(query, email);
    forall i | 0 <= i < |s|
      ensures MatchesAsWritten(query, s[i].email) == Some(false)
    {
      PlainEmailMatchesIff(email, s[i].email);
      PlainEmailMatchesIff(query, s[i].email);
    }
    PlainEmailMatchesIff(query, c.user.email);
    FindAppended(s, c.user, query);
  }

  /** The example email is already normalised. */
  lemma PlusEmailNormal()
    ensures NormalizeEmail("a+b@x.org") == "a+b@x.org"
  {
    var e := "a+b@x.org";
    TrimSpaceNoOuterSpace(e);
    assert forall i :: 0 <= i < |e| ==> !IsAsciiUpper(e[i]);
    assert ToLower(e) == e;
  }

  /** The example store holds "aab@x.org", which the pattern of "a+b@x.org"
      matches. */
  lemma LookalikeTaken(u: User)
    requires u.email == "aab@x.org"
    ensures EmailExists([u], "a+b@x.org") == Success(true)
  {
    PlusEmailMissed();
    assert MatchesAsWritten("a+b@x.org", [u][0].email) == Some(true);
  }

  /** As written, a stored "aab@x.org" blocks registering "a+b@x.org": the
      uniqueness check reads the '+' as a repetition. */
  lemma LookalikeBlocksRegistration(u: User, req: CreateUserRequest, parse: HexParser, creator: User,
                                    hash: Option<string>, newId: ObjectId, now: Time)
    requires u.email == "aab@x.org" && req.email == "a+b@x.org"
    ensures Register([u], req, parse, creator, hash, newId, now) == Failure(DuplicateEmail)
  {
    PlusEmailNormal();
    LookalikeTaken(u);
  }

  // ---------------------------------------------------------------------
  // UpdateUser

  /** `UpdateUserRequest`: absent fields are `None`. */
  datatype UpdateUserRequest = UpdateUserRequest(
    firstName: Option<string>,
    lastName: Option<string>,
    institutionId: Option<string>,
    specialty: Option<string>,
    registrationNumber: Option<string>,
    phoneNumber: Option<string>,
    role: Option<string>,
    adminLevel: Option<string>,
    isActive: Option<bool>)

  const EmptyUpdate: UpdateUserRequest := UpdateUserRequest(None, None, None, None, None, None, None, None, None)

  /** Whether the request touches a profile field. */
  predicate TouchesProfile(req: UpdateUserRequest) {
    req.firstName.Some? || req.lastName.Some? || req.institutionId.Some?
    || req.specialty.Some? || req.registrationNumber.Some? || req.phoneNumber.Some?
  }

  /** Whether the request touches a field that only a user manager may set. */
  predicate TouchesPrivileged(req: UpdateUserRequest) {
    req.role.Some? || req.adminLevel.Some? || req.isActive.Some?
  }

  /** The update document applied to a record: the present profile fields
      (the institution already parsed), and, when `privileged`, the present
      role, admin level and active flag. */
  function ApplyUpdate(u: User, req: UpdateUserRequest, institution: Option<ObjectId>, privileged: bool)
    : (v: User)
    ensures v.id == u.id && v.email == u.email && v.username == u.username
    ensures v.passwordHash == u.passwordHash && v.createdAt == u.createdAt
    ensures v.failedLoginAttempts == u.failedLoginAttempts && v.lockedUntil == u.lockedUntil
    ensures !privileged ==> v.role == u.role && v.adminLevel == u.adminLevel && v.isActive == u.isActive
  {
    var p := u.profile;
    var profile := Profile(
      req.firstName.GetOr(p.firstName),
      req.lastName.GetOr(p.lastName),
      if institution.Some? then institution else p.institutionId,
      req.specialty.GetOr(p.specialty),
      req.registrationNumber.GetOr(p.registrationNumber),
      req.phoneNumber.GetOr(p.phoneNumber));
    if privileged then
      u.(profile := profile, role := req.role.GetOr(u.role), adminLevel := req.adminLevel.GetOr(u.adminLevel),
         isActive := req.isActive.GetOr(u.isActive))
    else u.(profile := profile)
  }

  /** Applying an update twice is applying it once; the empty update
      changes nothing. */
  lemma ApplyUpdateIdempotent(u: User, req: UpdateUserRequest, institution: Option<ObjectId>, privileged: bool)
    ensures var v := ApplyUpdate(u, req, institution, privileged);
      ApplyUpdate(v, req, institution, privileged) == v
    ensures ApplyUpdate(u, EmptyUpdate, None, privileged) == u
  {
  }

  /** What the checks of `UpdateUser` decide before anything is written:
      the parsed institution, if one was given, and whether role, admin
      level and active flag take effect. */
  datatype UpdatePlan = UpdatePlan(institution: Option<ObjectId>, privileged: bool)

  /** The checks of `UpdateUser` on an existing target, in order: the
      updater must be able to manage the target or be it; nobody sets their
      own admin level; a given institution id must parse; and, for an
      updater with `ManageUsers`, a user manager may not assign the admin
      role and only a super admin may set an admin level. */
  function PlanUpdate(target: User, req: UpdateUserRequest, parse: HexParser, updater: User)
    : (r: Result<UpdatePlan, UserServiceError>)
    ensures r.Success? ==> updater.id == target.id || CanManageUser(updater, target)
    ensures r.Success? && req.adminLevel.Some? ==> updater.id != target.id
    ensures r.Success? ==> r.value.privileged == updater.Has(ManageUsers)
    ensures r.Success? ==> (r.value.institution.Some? <==> req.institutionId.Some?)
    ensures r.Success? && r.value.privileged && req.adminLevel.Some? ==> updater.adminLevel == LevelSuperAdmin
    ensures r.Success? && r.value.privileged && req.role == Some(Admin) ==> updater.adminLevel != LevelUserManager
    ensures !CanManageUser(updater, target) && updater.id != target.id ==> r == Failure(Unauthorized)
  {
    if !CanManageUser(updater, target) && updater.id != target.id then Failure(Unauthorized)
    else if req.adminLevel.Some? && updater.id == target.id then Failure(CannotModifyOwnAdminLevel)
    else
      var institution := if req.institutionId.Some? then parse(req.institutionId.value) else None;
      if req.institutionId.Some? && institution.None? then Failure(InvalidInstitutionId)
      else
        var privileged := updater.Has(ManageUsers);
        if privileged && req.role == Some(Admin) && updater.adminLevel == LevelUserManager then
          Failure(ManagerCannotAssignAdmin)
        else if privileged && req.adminLevel.Some? && updater.adminLevel != LevelSuperAdmin then
          Failure(OnlySuperAdminChangesLevel)
        else Success(UpdatePlan(institution, privileged))
  }

  /** Whether a planned update writes anything. */
  predicate Writes(req: UpdateUserRequest, plan: UpdatePlan) {
    TouchesProfile(req) || (plan.privileged && TouchesPrivileged(req))
  }

  /** `UpdateUser`: the target must exist and pass `PlanUpdate`; fields the
      updater may not set are silently ignored, and nothing is written when
      no field is left. The result is the record as re-read. */
  function UpdateUser(s: Store, id: ObjectId, req: UpdateUserRequest, parse: HexParser, updater: User, now: Time)
    : (r: Result<Changed, UserServiceError>)
    ensures !HasId(s, id) ==> r == Failure(StoreFailure(UserNotFound))
    ensures HasId(s, id) ==>
      var target := FindById(s, id).value;
      var plan := PlanUpdate(target, req, parse, updater);
      (plan.Failure? ==> r == Failure(plan.error))
      && (plan.Success? && !Writes(req, plan.value) ==> r == Success(Changed(s, target)))
      && (plan.Success? && Writes(req, plan.value) ==>
            var f := (u: User) => ApplyUpdate(u, req, plan.value.institution, plan.value.privileged);
            r == Success(Changed(MapId(s, id, f, now), f(target).(updatedAt := now))))
  {
    match FindById(s, id)
    case Failure(e) => Failure(StoreFailure(e))
    case Success(target) =>
      match PlanUpdate(target, req, parse, updater)
      case Failure(e) => Failure(e)
      case Success(plan) =>
        if Writes(req, plan) then
          var f := (u: User) => ApplyUpdate(u, req, plan.institution, plan.privileged);
          Success(Changed(MapId(s, id, f, now), f(target).(updatedAt := now)))
        else Success(Changed(s, target))
  }

  /** The rules an update obeys: the updater manages the target or is it;
      its own admin level never changes; without `ManageUsers` role, level
      and active flag are kept; only a super admin changes an admin level or
      makes a non-admin an admin; and the record re-read is the one returned. */
  lemma UpdateUserRules(s: Store, id: ObjectId, req: UpdateUserRequest, parse: HexParser, updater: User, now: Time)
    requires UpdateUser(s, id, req, parse, updater, now).Success?
    ensures HasId(s, id)
    ensures var target := FindById(s, id).value;
      var u := UpdateUser(s, id, req, parse, updater, now).value.user;
      (updater.id == id || CanManageUser(updater, target))
      && u.id == id
      && (updater.id == id ==> u.adminLevel == target.adminLevel)
      && (!updater.Has(ManageUsers) ==>
            u.role == target.role && u.adminLevel == target.adminLevel && u.isActive == target.isActive)
      && (u.adminLevel != target.adminLevel ==> updater.role == Admin && updater.adminLevel == LevelSuperAdmin)
      && (u.role == Admin && target.role != Admin ==> updater.role == Admin && updater.adminLevel == LevelSuperAdmin)
  {
    var target := FindById(s, id).value;
    var plan := PlanUpdate(target, req, parse, updater).value;
    assert updater.Has(ManageUsers) ==> updater.role == Admin;
  }

  /** Re-reading the record after an update returns the updated user. */
  lemma UpdatedUserReRead(s: Store, id: ObjectId, req: UpdateUserRequest, parse: HexParser, updater: User, now: Time)
    requires UpdateUser(s, id, req, parse, updater, now).Success?
    ensures var c := UpdateUser(s, id, req, parse, updater, now).value;
      FindById(c.store, id) == Success(c.user)
  {
    var target := FindById(s, id).value;
    var plan := PlanUpdate(target, req, parse, updater).value;
    if Writes(req, plan) {
      var f := (u: User) => ApplyUpdate(u, req, plan.institution, plan.privileged);
      FindByIdAfterMap(s, id, f, now);
    }
  }

  /** An update with no field present changes nothing, whoever makes it. */
  lemma EmptyUpdateChangesNothing(s: Store, id: ObjectId, parse: HexParser, updater: User, now: Time)
    requires HasId(s, id)
    requires UpdateUser(s, id, EmptyUpdate, parse, updater, now).Success?
    ensures UpdateUser(s, id, EmptyUpdate, parse, updater, now).value == Changed(s, FindById(s, id).value)
  {
  }

  /** A user manager may deactivate themselves through an update, which
      `DeactivateUser` refuses. */
  lemma SelfDeactivationThroughUpdate(s: Store, me: User, now: Time, parse: HexParser)
    requires HasId(s, me.id) && FindById(s, me.id).value == me
    requires me.role == Admin && me.adminLevel == LevelUserManager
    ensures var req := EmptyUpdate.(isActive := Some(false));
      var r := UpdateUser(s, me.id, req, parse, me, now);
      r.Success? && !r.value.user.isActive
    ensures DeactivateUser(s, me.id, me, now) == Failure(Unauthorized)
  {
    assert me.Has(ManageUsers);
  }

  // ---------------------------------------------------------------------
  // DeleteUser, DeactivateUser, ActivateUser

  /** `DeleteUser`: the deleter needs `DeleteUsers`, the target must exist
      and may not be the deleter. */
  function DeleteUser(s: Store, id: ObjectId, deleter: User): (r: Result<Store, UserServiceError>)
    ensures !deleter.Has(DeleteUsers) ==> r == Failure(Unauthorized)
    ensures r.Success? ==> deleter.role == Admin && deleter.adminLevel == LevelSuperAdmin
    ensures r.Success? ==> HasId(s, id) && deleter.id != id
    ensures r.Success? ==> !HasId(r.value, id)
    ensures r.Success? ==> forall i :: 0 <= i < |s| && s[i].id != id ==> s[i] in r.value
    ensures deleter.Has(DeleteUsers) && HasId(s, id) && deleter.id != id ==> r.Success?
  {
    SuperAdminOnly(deleter.role, deleter.adminLevel, DeleteUsers);
    if !deleter.Has(DeleteUsers) then Failure(Unauthorized)
    else match FindById(s, id)
      case Failure(e) => Failure(StoreFailure(e))
      case Success(target) =>
        if deleter.id == target.id then Failure(CannotDeleteSelf)
        else match Delete(s, id)
          case Failure(e) => Failure(StoreFailure(e))
          case Success(s2) => Success(s2)
  }

  /** `DeactivateUser`: the actor needs `ManageUsers` and must be able to
      manage the existing target, which may not be the actor. */
  function DeactivateUser(s: Store, id: ObjectId, actor: User, now: Time): (r: Result<Store, UserServiceError>)
    ensures !actor.Has(ManageUsers) ==> r == Failure(Unauthorized)
    ensures r.Success? ==> HasId(s, id) && CanManageUser(actor, FindById(s, id).value) && actor.id != id
    ensures r.Success? ==> r.value == Deactivate(s, id, now).value
    ensures HasId(s, id) && CanManageUser(actor, FindById(s, id).value) && actor.id != id ==> r.Success?
  {
    if !actor.Has(ManageUsers) then Failure(Unauthorized)
    else match FindById(s, id)
      case Failure(e) => Failure(StoreFailure(e))
      case Success(target) =>
        if !CanManageUser(actor, target) then Failure(Unauthorized)
        else if actor.id == target.id then Failure(CannotDeactivateSelf)
        else match Deactivate(s, id, now)
          case Failure(e) => Failure(StoreFailure(e))
          case Success(s2) => Success(s2)
  }

  /** `ActivateUser`: as `DeactivateUser`, without the check against the actor. */
  function ActivateUser(s: Store, id: ObjectId, actor: User, now: Time): (r: Result<Store, UserServiceError>)
    ensures !actor.Has(ManageUsers) ==> r == Failure(Unauthorized)
    ensures r.Success? ==> HasId(s, id) && CanManageUser(actor, FindById(s, id).value)
    ensures r.Success? ==> r.value == Activate(s, id, now).value
    ensures HasId(s, id) && CanManageUser(actor, FindById(s, id).value) ==> r.Success?
  {
    if !actor.Has(ManageUsers) then Failure(Unauthorized)
    else match FindById(s, id)
      case Failure(e) => Failure(StoreFailure(e))
      case Success(target) =>
        if !CanManageUser(actor, target) then Failure(Unauthorized)
        else match Activate(s, id, now)
          case Failure(e) => Failure(StoreFailure(e))
          case Success(s2) => Success(s2)
  }

  // ---------------------------------------------------------------------
  // ListUsers

  /** Case-insensitive matching of a client-supplied regular expression, a
      library feature supplied by the caller. */
  type SearchMatcher = (string, string) -> bool

  /** The filter of `ListUsers`: an optional role, an optional active flag,
      and a search over first name, last name, email and role. */
  predicate ListFilter(u: User, role: Option<string>, isActive: Option<bool>, search: string, m: SearchMatcher) {
    (role.None? || u.role == role.value)
    && (isActive.None? || u.isActive == isActive.value)
    && (search == "" || m(search, u.profile.firstName) || m(search, u.profile.lastName)
        || m(search, u.email) || m(search, u.role))
  }

  /** `ListUsers`: one page of the matching users, newest first, and their total. */
  function ListUsers(s: Store, role: Option<string>, isActive: Option<bool>, search: string, m: SearchMatcher,
                     limit: nat, skip: nat): (r: (seq<User>, nat))
    ensures |r.0| <= r.1 <= |s|
    ensures limit > 0 ==> |r.0| <= limit
    ensures forall i :: 0 <= i < |r.0| ==>
      r.0[i] in s && (role.None? || r.0[i].role == role.value) && (isActive.None? || r.0[i].isActive == isActive.value)
  {
    var keep := (u: User) => ListFilter(u, role, isActive, search, m);
    (List(s, keep, limit, skip), Count(s, keep))
  }

  /** Without any filter every user is counted. */
  lemma UnfilteredListCountsAll(s: Store, m: SearchMatcher, limit: nat, skip: nat)
    ensures ListUsers(s, None, None, "", m, limit, skip).1 == |s|
  {
    var keep := (u: User) => ListFilter(u, None, None, "", m);
    Paging.FilterAll(s, keep);
  }
}

=== FILE: dafny/user_store.dfy ===
/** The users collection (`repository/user_repository.go`) as a sequence of
    records in natural order, with the lookups, the lockout counters and the
    soft and hard deletes as pure transitions. The case-insensitive email
    lookup is modelled on a small fragment of the regular-expression
    language, enough to show which emails the written pattern fails to find. */
module UserStore {
  import opened Wrappers
  import opened Seqs
  import opened Base
  import opened GoStrings
  import opened Users
  import Paging

  // ---------------------------------------------------------------------
  // Email patterns

  /** `strings.ReplaceAll(email, ".", "\\.")`: every '.' gets a backslash. */
  function EscapeDots(s: string): (r: string)
    ensures |r| >= |s|
  {
    if |s| == 0 then ""
    else (if s[0] == '.' then "\\." else [s[0]]) + EscapeDots(s[1..])
  }

  /** The characters with a meaning of their own in a pattern. */
  predicate IsRegexMeta(c: char) {
    c == '\\' || c == '.' || c == '+' || c == '*' || c == '?' || c == '(' || c == ')'
    || c == '|' || c == '[' || c == ']' || c == '{' || c == '}' || c == '^' || c == '$'
  }

  /** One pattern element: a character matched without regard to letter
      case, once or (`repeat`) one or more times. */
  datatype Atom = Atom(c: char, repeat: bool)

  function Cons(a: Atom, rest: Option<seq<Atom>>): (r: Option<seq<Atom>>)
    ensures r.Some? <==> rest.Some?
    ensures r.Some? ==> r.value == [a] + rest.value
  {
    match rest
    case None => None
    case Some(atoms) => Some([a] + atoms)
  }

  /** The body of an anchored pattern as atoms: a plain character or a
      backslash-escaped metacharacter, optionally followed by '+'. `None`
      for any other syntax, which this model does not interpret. */
  function Compile(p: string): (r: Option<seq<Atom>>)
    decreases |p|
  {
    if |p| == 0 then Some([])
    else if p[0] == '\\' && (|p| < 2 || !IsRegexMeta(p[1])) then None
    else if p[0] != '\\' && IsRegexMeta(p[0]) then None
    else
      var k := if p[0] == '\\' then 2 else 1;
      var c := p[k - 1];
      if k < |p| && p[k] == '+' then
        if k + 1 < |p| && (p[k + 1] == '+' || p[k + 1] == '?' || p[k + 1] == '*' || p[k + 1] == '{') then None
        else Cons(Atom(c, true), Compile(p[k + 1..]))
      else Cons(Atom(c, false), Compile(p[k..]))
  }

  /** Whether the whole of `s` matches the atoms, ignoring ASCII letter case
      (the pattern is anchored with "^" and "$" and given option "i"). */
  function Matches(atoms: seq<Atom>, s: string): bool
    decreases |atoms| + |s|
  {
    if |atoms| == 0 then |s| == 0
    else if |s| == 0 || LowerChar(s[0]) != LowerChar(atoms[0].c) then false
    else if atoms[0].repeat then Matches(atoms[1..], s[1..]) || Matches(atoms, s[1..])
    else Matches(atoms[1..], s[1..])
  }

  /** The email filter of `FindByEmail` and `EmailExists` as written:
      whether the stored email matches the pattern built from the query
      with only its dots escaped. */
  function MatchesAsWritten(query: string, stored: string): Option<bool> {
    match Compile(EscapeDots(query))
    case None => None
    case Some(atoms) => Some(Matches(atoms, stored))
  }

  /** The email of the counterexample and its lookup pattern. */
  const PlusEmail: string := "a+b@x.org"
  const PlusPattern: seq<Atom> :=
    [Atom('a', true), Atom('b', false), Atom('@', false), Atom('x', false), Atom('.', false),
     Atom('o', false), Atom('r', false), Atom('g', false)]

  lemma PlusEmailAccepted()
    ensures MatchesEmailPattern(PlusEmail)
  {
    var e := PlusEmail;
    assert EmailSplit(e, 3, 5) by {
      assert e[..3] == "a+b" && e[4..5] == "x" && e[6..] == "org";
    }
  }

  lemma {:induction false} EscapeDotsAppend(a: string, b: string)
    ensures EscapeDots(a + b) == EscapeDots(a) + EscapeDots(b)
  {
    if |a| > 0 {
      assert (a + b)[0] == a[0];
      assert (a + b)[1..] == a[1..] + b;
      EscapeDotsAppend(a[1..], b);
    } else {
      assert a + b == b;
    }
  }

  /** One character escaped. */
  lemma EscapeDotsCons(c: char, rest: string)
    ensures EscapeDots([c] + rest) == (if c == '.' then "\\." else [c]) + EscapeDots(rest)
  {
    assert ([c] + rest)[1..] == rest;
  }

  /** A string without a dot is left as it is. */
  lemma {:induction false} EscapeNoDot(s: string)
    requires '.' !in s
    ensures EscapeDots(s) == s
  {
    if |s| > 0 {
      assert s[0] != '.' && '.' !in s[1..];
      EscapeNoDot(s[1..]);
    }
  }

  /** An email with a single dot has exactly that dot escaped. */
  lemma EscapeOneDot(a: string, b: string)
    requires '.' !in a && '.' !in b
    ensures EscapeDots(a + ['.'] + b) == a + ['\\', '.'] + b
  {
    var tail := ['.'] + b;
    EscapeNoDot(a);
    EscapeNoDot(b);
    EscapeDotsCons('.', b);
    assert EscapeDots(tail) == ['\\', '.'] + b;
    EscapeDotsAppend(a, tail);
    assert a + ['.'] + b == a + tail;
  }

  /** The literal facts about the example email: one dot, between "a+b@x"
      and "org". */
  lemma PlusEmailParts()
    ensures '.' !in "a+b@x" && '.' !in "org"
    ensures "a+b@x" + ['.'] + "org" == PlusEmail
    ensures "a+b@x" + ['\\', '.'] + "org" == "a+b@x\\.org"
  {
  }

  lemma PlusEmailEscaped()
    ensures EscapeDots(PlusEmail) == "a+b@x\\.org"
  {
    PlusEmailParts();
    EscapeOneDot("a+b@x", "org");
  }

  /** One plain character, not repeated. */
  lemma CompilePlain(c: char, rest: string)
    requires !IsRegexMeta(c)
    requires |rest| == 0 || rest[0] != '+'
    ensures Compile([c] + rest) == Cons(Atom(c, false), Compile(rest))
  {
    assert ([c] + rest)[1..] == rest;
  }

  /** One escaped character, not repeated. */
  lemma CompileEscaped(c: char, rest: string)
    requires IsRegexMeta(c)
    requires |rest| == 0 || rest[0] != '+'
    ensures Compile(['\\', c] + rest) == Cons(Atom(c, false), Compile(rest))
  {
    var p := ['\\', c] + rest;
    assert p[0] == '\\' && p[1] == c;
    assert p[2..] == rest;
  }

  /** One plain character followed by '+'. */
  lemma CompileRepeated(c: char, rest: string)
    requires !IsRegexMeta(c)
    requires |rest| == 0 || !(rest[0] == '+' || rest[0] == '?' || rest[0] == '*' || rest[0] == '{')
    ensures Compile([c, '+'] + rest) == Cons(Atom(c, true), Compile(rest))
  {
    assert ([c, '+'] + rest)[2..] == rest;
  }

  /** The compiled domain "org". */
  lemma OrgCompiled()
    ensures Compile("org") == Some(PlusPattern[5..])
  {
    var e: string := [];
    assert Compile(e) == Some([]);
    CompilePlain('g', e);
    assert ['g'] + e == "g";
    assert [Atom('g', false)] + [] == [Atom('g', false)];
    assert Compile("g") == Some([Atom('g', false)]);
    CompilePlain('r', "g");
    assert ['r'] + "g" == "rg";
    assert [Atom('r', false)] + [Atom('g', false)] == [Atom('r', false), Atom('g', false)];
    assert Compile("rg") == Some([Atom('r', false), Atom('g', false)]);
    CompilePlain('o', "rg");
    assert ['o'] + "rg" == "org";
    assert [Atom('o', false)] + [Atom('r', false), Atom('g', false)] == [Atom('o', false), Atom('r', false), Atom('g', false)];
    assert Compile("org") == Some([Atom('o', false), Atom('r', false), Atom('g', false)]);
    assert PlusPattern[5..] == [Atom('o', false), Atom('r', false), Atom('g', false)];
  }

  /** The compiled part after the '@'. */
  lemma DomainCompiled()
    ensures Compile("x\\.org") == Some(PlusPattern[3..])
  {
    OrgCompiled();
    CompileEscaped('.', "org");
    assert ['\\', '.'] + "org" == "\\.org";
    assert Compile("\\.org") == Some([PlusPattern[4]] + PlusPattern[5..]);
    CompilePlain('x', "\\.org");
    assert ['x'] + "\\.org" == "x\\.org";
    assert [PlusPattern[3]] + ([PlusPattern[4]] + PlusPattern[5..]) == PlusPattern[3..];
  }

  /** The compiled part from the '@'. */
  lemma AddressCompiled()
    ensures Compile("b@x\\.org") == Some(PlusPattern[1..])
  {
    DomainCompiled();
    CompilePlain('@', "x\\.org");
    assert ['@'] + "x\\.org" == "@x\\.org";
    assert [PlusPattern[2]] + PlusPattern[3..] == PlusPattern[2..];
    CompilePlain('b', "@x\\.org");
    assert ['b'] + "@x\\.org" == "b@x\\.org";
    assert [PlusPattern[1]] + PlusPattern[2..] == PlusPattern[1..];
  }

  lemma PlusPatternCompiled()
    ensures Compile("a+b@x\\.org") == Some(PlusPattern)
  {
    AddressCompiled();
    CompileRepeated('a', "b@x\\.org");
    assert ['a', '+'] + "b@x\\.org" == "a+b@x\\.org";
    assert [PlusPattern[0]] + PlusPattern[1..] == PlusPattern;
  }

  /** A character matched once. */
  lemma MatchesOnce(a: Atom, atoms: seq<Atom>, c: char, rest: string)
    requires !a.repeat
    ensures Matches([a] + atoms, [c] + rest) <==> LowerChar(c) == LowerChar(a.c) && Matches(atoms, rest)
  {
    assert ([a] + atoms)[1..] == atoms;
    assert ([c] + rest)[1..] == rest;
  }

  lemma PlusPatternMisses()
    ensures !Matches(PlusPattern, PlusEmail)
  {
    var e := PlusEmail;
    assert e == ['a'] + e[1..] && e[1] == '+';
    assert !Matches(PlusPattern[1..], e[1..]);
    assert !Matches(PlusPattern, e[1..]);
  }

  lemma PlusPatternHits()
    ensures Matches(PlusPattern, "aab@x.org")
  {
    var tail := PlusPattern[1..];
    MatchesOnce(tail[6], [], 'g', "");
    MatchesOnce(tail[5], tail[6..], 'r', "g");
    MatchesOnce(tail[4], tail[5..], 'o', "rg");
    MatchesOnce(tail[3], tail[4..], '.', "org");
    MatchesOnce(tail[2], tail[3..], 'x', ".org");
    MatchesOnce(tail[1], tail[2..], '@', "x.org");
    MatchesOnce(tail[0], tail[1..], 'b', "@x.org");
    assert tail[6..] == [tail[6]] + [];
    assert tail == [tail[0]] + tail[1..];
    assert Matches(tail, "b@x.org");
    assert "ab@x.org"[1..] == "b@x.org";
    assert Matches(PlusPattern, "ab@x.org");
    assert "aab@x.org"[1..] == "ab@x.org";
  }

  /** An email that user creation accepts is not found by itself, and a
      different stored email is found in its place: the '+' of the local
      part is read as a repetition. */
  lemma PlusEmailMissed()
    ensures MatchesEmailPattern("a+b@x.org")
    ensures MatchesAsWritten("a+b@x.org", "a+b@x.org") == Some(false)
    ensures MatchesAsWritten("a+b@x.org", "aab@x.org") == Some(true)
  {
    PlusEmailAccepted();
    PlusEmailEscaped();
    PlusPatternCompiled();
    PlusPatternMisses();
    PlusPatternHits();
  }

  /** `regexp.QuoteMeta`: every metacharacter gets a backslash. */
  function QuoteMeta(s: string): (r: string)
    ensures |r| > 0 ==> r[0] != '+'
    ensures |r| >= |s|
  {
    if |s| == 0 then ""
    else (if IsRegexMeta(s[0]) then ['\\', s[0]] else [s[0]]) + QuoteMeta(s[1..])
  }

  /** Each character matched once, as itself. */
  function Literals(s: string): (r: seq<Atom>)
    ensures |r| == |s|
    ensures forall i :: 0 <= i < |s| ==> r[i] == Atom(s[i], false)
  {
    if |s| == 0 then [] else [Atom(s[0], false)] + Literals(s[1..])
  }

  /** A quoted string compiles to its characters, each matched once. */
  lemma {:induction false} CompileQuoteMeta(s: string)
    ensures Compile(QuoteMeta(s)) == Some(Literals(s))
  {
    if |s| > 0 {
      var q := QuoteMeta(s[1..]);
      var p := QuoteMeta(s);
      CompileQuoteMeta(s[1..]);
      if IsRegexMeta(s[0]) {
        assert p == ['\\', s[0]] + q;
        assert p[2..] == q;
      } else {
        assert p == [s[0]] + q;
        assert p[1..] == q;
      }
      assert Literals(s) == [Atom(s[0], false)] + Literals(s[1..]);
    }
  }

  /** Literal atoms match exactly the strings equal up to letter case. */
  lemma {:induction false} MatchesLiterals(s: string, t: string)
    ensures Matches(Literals(s), t) <==> ToLower(s) == ToLower(t)
  {
    if |s| > 0 && |t| > 0 {
      MatchesLiterals(s[1..], t[1..]);
      assert Literals(s)[1..] == Literals(s[1..]);
      assert ToLower(s) == [LowerChar(s[0])] + ToLower(s[1..]);
      assert ToLower(t) == [LowerChar(t[0])] + ToLower(t[1..]);
    } else if |s| > 0 {
      assert |ToLower(s)| != |ToLower(t)|;
    } else if |t| > 0 {
      assert |ToLower(s)| != |ToLower(t)|;
    }
  }

  /** The lookup as intended: the query quoted in full. */
  function MatchesQuoted(query: string, stored: string): Option<bool> {
    match Compile(QuoteMeta(query))
    case None => None
    case Some(atoms) => Some(Matches(atoms, stored))
  }

  /** The intended lookup always compiles and finds exactly the emails that
      equal the query up to letter case. */
  lemma QuotedPatternMatchesIff(query: string, stored: string)
    ensures MatchesQuoted(query, stored) == Some(SameEmail(query, stored))
  {
    CompileQuoteMeta(query);
    MatchesLiterals(query, stored);
  }

  /** Two emails that are equal up to ASCII letter case. */
  predicate SameEmail(a: string, b: string) {
    ToLower(a) == ToLower(b)
  }

  /** An email whose only metacharacters are dots: for it the pattern with
      the dots escaped is the fully quoted one. */
  predicate PlainEmail(s: string) {
    forall i :: 0 <= i < |s| && IsRegexMeta(s[i]) ==> s[i] == '.'
  }

  lemma {:induction false} EscapeDotsOfPlain(s: string)
    requires PlainEmail(s)
    ensures EscapeDots(s) == QuoteMeta(s)
  {
    if |s| > 0 {
      assert PlainEmail(s[1..]) by {
        forall i | 0 <= i < |s| - 1 && IsRegexMeta(s[1..][i])
          ensures s[1..][i] == '.'
        {
          assert s[1..][i] == s[i + 1];
        }
      }
      EscapeDotsOfPlain(s[1..]);
    }
  }

  /** For a plain email the pattern as written behaves as intended: it
      compiles and finds exactly the emails equal to it up to letter case. */
  lemma PlainEmailMatchesIff(query: string, stored: string)
    requires PlainEmail(query)
    ensures MatchesAsWritten(query, stored) == Some(SameEmail(query, stored))
  {
    EscapeDotsOfPlain(query);
    QuotedPatternMatchesIff(query, stored);
  }

  /** Plainness survives a change of letter case: lower-casing leaves every
      metacharacter alone and makes none. */
  lemma PlainOfSameEmail(a: string, b: string)
    requires PlainEmail(a) && SameEmail(a, b)
    ensures PlainEmail(b)
  {
    forall i | 0 <= i < |b| && IsRegexMeta(b[i])
      ensures b[i] == '.'
    {
      assert ToLower(a)[i] == ToLower(b)[i];
    }
  }

  // ---------------------------------------------------------------------
  // The collection

  /** The collection, in natural order. */
  type Store = seq<User>

  /** `QueryFailed`: the server refused the email pattern, or the pattern
      lies outside the fragment this model interprets. */
  datatype StoreError = UserNotFound | UserAlreadyExists | QueryFailed

  predicate HasId(s: Store, id: ObjectId) {
    exists i :: 0 <= i < |s| && s[i].id == id
  }

  predicate UniqueIds(s: Store) {
    forall i, j :: 0 <= i < j < |s| ==> s[i].id != s[j].id
  }

  /** `FindByID`. */
  function FindById(s: Store, id: ObjectId): (r: Result<User, StoreError>)
    ensures r.Failure? <==> !HasId(s, id)
    ensures r.Failure? ==> r.error == UserNotFound
    ensures r.Success? ==> r.value in s && r.value.id == id
  {
    match FirstWhere(s, (u: User) => u.id == id)
    case None => Failure(UserNotFound)
    case Some(k) => Success(s[k])
  }

  /** The first user whose email the compiled pattern matches. */
  function FirstMatch(s: Store, atoms: seq<Atom>): (r: Result<User, StoreError>)
    ensures r.Failure? <==> forall i :: 0 <= i < |s| ==> !Matches(atoms, s[i].email)
    ensures r.Failure? ==> r.error == UserNotFound
    ensures r.Success? ==> r.value in s && Matches(atoms, r.value.email)
  {
    match FirstWhere(s, (u: User) => Matches(atoms, u.email))
    case None => Failure(UserNotFound)
    case Some(k) => Success(s[k])
  }

  /** `FindByEmail` as written: the query with its dots escaped is an
      anchored, case-insensitive pattern, and the first user whose email it
      matches is returned. */
  function FindByEmail(s: Store, email: string): (r: Result<User, StoreError>)
    ensures r == Failure(QueryFailed) <==> MatchesAsWritten(email, "").None?
    ensures r.Failure? ==> r.error in {UserNotFound, QueryFailed}
    ensures MatchesAsWritten(email, "").Some? ==>
      (r.Failure? <==> forall i :: 0 <= i < |s| ==> MatchesAsWritten(email, s[i].email) == Some(false))
    ensures r.Success? ==> r.value in s && MatchesAsWritten(email, r.value.email) == Some(true)
  {
    match Compile(EscapeDots(email))
    case None => Failure(QueryFailed)
    case Some(atoms) => FirstMatch(s, atoms)
  }

  /** The lookup as intended: the first user whose email equals the query
      up to letter case. */
  function FindByEmailQuoted(s: Store, email: string): (r: Result<User, StoreError>)
    ensures r.Failure? <==> forall i :: 0 <= i < |s| ==> !SameEmail(s[i].email, email)
    ensures r.Failure? ==> r.error == UserNotFound
    ensures r.Success? ==> r.value in s && SameEmail(r.value.email, email)
  {
    if |s| == 0 then Failure(UserNotFound)
    else if SameEmail(s[0].email, email) then Success(s[0])
    else
      var r := FindByEmailQuoted(s[1..], email);
      assert forall i :: 1 <= i < |s| ==> s[i] == s[1..][i - 1];
      r
  }

  lemma {:induction false} FirstMatchLiterals(s: Store, email: string)
    ensures FirstMatch(s, Literals(email)) == FindByEmailQuoted(s, email)
  {
    if |s| > 0 {
      MatchesLiterals(email, s[0].email);
      FirstMatchLiterals(s[1..], email);
    }
  }

  /** On a plain email the lookup as written and the intended one agree,
      both for `FindByEmail` and for `EmailExists`. */
  lemma PlainEmailLookupsAgree(s: Store, email: string)
    requires PlainEmail(email)
    ensures FindByEmail(s, email) == FindByEmailQuoted(s, email)
    ensures EmailExists(s, email) == Success(EmailExistsQuoted(s, email))
  {
    EscapeDotsOfPlain(email);
    CompileQuoteMeta(email);
    FirstMatchLiterals(s, email);
  }

  /** `FindByUsername`: exact match. */
  function FindByUsername(s: Store, username: string): (r: Result<User, StoreError>)
    ensures r.Failure? <==> forall i :: 0 <= i < |s| ==> s[i].username != username
    ensures r.Success? ==> r.value in s && r.value.username == username
  {
    match FirstWhere(s, (u: User) => u.username == username)
    case None => Failure(UserNotFound)
    case Some(i) => Success(s[i])
  }

  /** A record appended with a fresh identifier is what the lookup by
      identifier returns, and what the lookup by email returns for a query
      whose pattern matches its email and no earlier one. */
  lemma FindAppended(s: Store, u: User, query: string)
    requires forall i :: 0 <= i < |s| ==> s[i].id != u.id && MatchesAsWritten(query, s[i].email) == Some(false)
    requires MatchesAsWritten(query, u.email) == Some(true)
    ensures FindById(s + [u], u.id) == Success(u)
    ensures FindByEmail(s + [u], query) == Success(u)
  {
    FindByIdAppended(s, u);
    var atoms := Compile(EscapeDots(query)).value;
    FirstMatchAppended(s, u, atoms);
  }

  lemma {:induction false} FirstMatchAppended(s: Store, u: User, atoms: seq<Atom>)
    requires forall i :: 0 <= i < |s| ==> !Matches(atoms, s[i].email)
    requires Matches(atoms, u.email)
    ensures FirstMatch(s + [u], atoms) == Success(u)
  {
    if |s| > 0 {
      assert (s + [u])[1..] == s[1..] + [u];
      FirstMatchAppended(s[1..], u, atoms);
    }
  }

  lemma {:induction false} FindByIdAppended(s: Store, u: User)
    requires forall i :: 0 <= i < |s| ==> s[i].id != u.id
    ensures FindById(s + [u], u.id) == Success(u)
  {
    if |s| > 0 {
      assert (s + [u])[1..] == s[1..] + [u];
      FindByIdAppended(s[1..], u);
    }
  }

  /** After an update of the record with identifier `id`, that record, as
      updated, is what the lookup returns. */
  lemma {:induction false} FindByIdAfterMap(s: Store, id: ObjectId, f: User -> User, now: Time)
    requires HasId(s, id)
    requires forall u :: f(u).id == u.id
    ensures FindById(MapId(s, id, f, now), id) == Success(f(FindById(s, id).value).(updatedAt := now))
  {
    var t := MapId(s, id, f, now);
    if s[0].id != id {
      assert t[1..] == MapId(s[1..], id, f, now);
      assert HasId(s[1..], id) by {
        var i :| 0 <= i < |s| && s[i].id == id;
        assert s[1..][i - 1].id == id;
      }
      FindByIdAfterMap(s[1..], id, f, now);
    }
  }

  /** An update that leaves emails alone leaves the email lookup on the same
      record, as updated when it carries identifier `id`. */
  lemma FindByEmailAfterMap(s: Store, id: ObjectId, f: User -> User, now: Time, email: string)
    requires forall u :: f(u).email == u.email
    ensures FindByEmail(s, email).Failure? ==> FindByEmail(MapId(s, id, f, now), email) == FindByEmail(s, email)
    ensures FindByEmail(s, email).Success? ==>
      var u := FindByEmail(s, email).value;
      FindByEmail(MapId(s, id, f, now), email) == Success(if u.id == id then f(u).(updatedAt := now) else u)
  {
    match Compile(EscapeDots(email))
    case None =>
    case Some(atoms) => FirstMatchAfterMap(s, id, f, now, atoms);
  }

  lemma {:induction false} FirstMatchAfterMap(s: Store, id: ObjectId, f: User -> User, now: Time, atoms: seq<Atom>)
    requires forall u :: f(u).email == u.email
    ensures FirstMatch(s, atoms).Failure? ==> FirstMatch(MapId(s, id, f, now), atoms) == FirstMatch(s, atoms)
    ensures FirstMatch(s, atoms).Success? ==>
      var u := FirstMatch(s, atoms).value;
      FirstMatch(MapId(s, id, f, now), atoms) == Success(if u.id == id then f(u).(updatedAt := now) else u)
  {
    var t := MapId(s, id, f, now);
    if |s| > 0 {
      assert t[0].email == s[0].email;
      if !Matches(atoms, s[0].email) {
        assert t[1..] == MapId(s[1..], id, f, now);
        FirstMatchAfterMap(s[1..], id, f, now, atoms);
      }
    }
  }

  /** `EmailExists` as written: whether the pattern of `FindByEmail`
      matches some stored email; a refused pattern fails the count. */
  function EmailExists(s: Store, email: string): (r: Result<bool, StoreError>)
    ensures r.Failure? <==> MatchesAsWritten(email, "").None?
    ensures r.Failure? ==> r.error == QueryFailed
    ensures r.Success? ==>
      (r.value <==> exists i :: 0 <= i < |s| && MatchesAsWritten(email, s[i].email) == Some(true))
  {
    match FindByEmail(s, email)
    case Failure(QueryFailed) => Failure(QueryFailed)
    case Failure(_) => Success(false)
    case Success(_) => Success(true)
  }

  /** The existence check as intended. */
  function EmailExistsQuoted(s: Store, email: string): (b: bool)
    ensures b <==> exists i :: 0 <= i < |s| && SameEmail(s[i].email, email)
  {
    FindByEmailQuoted(s, email).Success?
  }

  /** `UsernameExists`. */
  function UsernameExists(s: Store, username: string): (b: bool)
    ensures b <==> exists i :: 0 <= i < |s| && s[i].username == username
  {
    FindByUsername(s, username).Success?
  }

  /** A record that the unique indexes on `_id`, email and username reject
      next to `u`. */
  predicate Clashes(v: User, u: User) {
    v.id == u.id || v.email == u.email || v.username == u.username
  }

  /** `Create`: the record is stamped with `now` and appended under the
      identifier the driver generated, unless a unique index rejects it. */
  function Create(s: Store, u: User, id: ObjectId, now: Time): (r: Result<Store, StoreError>)
    ensures r.Failure? <==> exists i :: 0 <= i < |s| && Clashes(s[i], u.(id := id))
    ensures r.Failure? ==> r.error == UserAlreadyExists
    ensures r.Success? ==> r.value == s + [u.(id := id, createdAt := now, updatedAt := now)]
  {
    var v := u.(id := id);
    match FirstWhere(s, (w: User) => Clashes(w, v))
    case Some(_) => Failure(UserAlreadyExists)
    case None => Success(s + [u.(id := id, createdAt := now, updatedAt := now)])
  }

  /** Applies `f` to every record with identifier `id` and stamps it. */
  function MapId(s: Store, id: ObjectId, f: User -> User, now: Time): (r: Store)
    ensures |r| == |s|
    ensures forall i :: 0 <= i < |s| ==> r[i] == (if s[i].id == id then f(s[i]).(updatedAt := now) else s[i])
  {
    if |s| == 0 then []
    else [if s[0].id == id then f(s[0]).(updatedAt := now) else s[0]] + MapId(s[1..], id, f, now)
  }

  /** `Update`: a `$set` on the record with identifier `id`, which must exist. */
  function Update(s: Store, id: ObjectId, f: User -> User, now: Time): (r: Result<Store, StoreError>)
    ensures r.Failure? <==> !HasId(s, id)
    ensures r.Failure? ==> r.error == UserNotFound
    ensures r.Success? ==> r.value == MapId(s, id, f, now)
  {
    if HasId(s, id) then Success(MapId(s, id, f, now)) else Failure(UserNotFound)
  }

  /** The change `IncrementFailedLoginAttempts` makes to a record. */
  function Bump(u: User): (v: User)
    ensures v.failedLoginAttempts == u.failedLoginAttempts + 1
    ensures v.(failedLoginAttempts := u.failedLoginAttempts) == u
  {
    u.(failedLoginAttempts := u.failedLoginAttempts + 1)
  }

  /** The change `LockAccount` makes to a record. */
  function LockUntil(until: Time): User -> User {
    (u: User) => u.(lockedUntil := Some(until))
  }

  /** The change `UpdateLastLogin` makes to a record. */
  function LoginRecorded(now: Time): User -> User {
    (u: User) => u.(lastLoginAt := Some(now), failedLoginAttempts := 0, lockedUntil := None)
  }

  /** `UpdateLastLogin`: records the login and clears the lockout. */
  function UpdateLastLogin(s: Store, id: ObjectId, now: Time): (r: Result<Store, StoreError>)
    ensures r.Failure? <==> !HasId(s, id)
    ensures r.Success? ==> |r.value| == |s|
    ensures r.Success? ==> forall i :: 0 <= i < |s| && s[i].id == id ==>
      r.value[i].lastLoginAt == Some(now) && r.value[i].failedLoginAttempts == 0
      && r.value[i].lockedUntil.None? && r.value[i].isActive == s[i].isActive
    ensures r.Success? ==> forall i :: 0 <= i < |s| ==>
      r.value[i] == (if s[i].id == id
        then s[i].(lastLoginAt := Some(now), failedLoginAttempts := 0, lockedUntil := None, updatedAt := now)
        else s[i])
  {
    Update(s, id, LoginRecorded(now), now)
  }

  /** `IncrementFailedLoginAttempts`: an `$inc` by one, which does nothing
      (and reports nothing) when no record has the identifier. */
  function IncrementFailedLoginAttempts(s: Store, id: ObjectId, now: Time): (r: Store)
    ensures |r| == |s|
    ensures !HasId(s, id) ==> r == s
    ensures forall i :: 0 <= i < |s| && s[i].id == id ==>
      r[i].failedLoginAttempts == s[i].failedLoginAttempts + 1
      && r[i].lockedUntil == s[i].lockedUntil
    ensures forall i :: 0 <= i < |s| ==>
      r[i] == (if s[i].id == id
        then s[i].(failedLoginAttempts := s[i].failedLoginAttempts + 1, updatedAt := now)
        else s[i])
  {
    var r := MapId(s, id, Bump, now);
    assert !HasId(s, id) ==> r == s;
    r
  }

  /** `LockAccount`. */
  function LockAccount(s: Store, id: ObjectId, until: Time, now: Time): (r: Result<Store, StoreError>)
    ensures r.Failure? <==> !HasId(s, id)
    ensures r.Success? ==> |r.value| == |s|
    ensures r.Success? ==> forall i :: 0 <= i < |s| ==> r.value[i].id == s[i].id
    ensures r.Success? ==> forall i :: 0 <= i < |s| && s[i].id == id ==>
      r.value[i].lockedUntil == Some(until) && r.value[i].failedLoginAttempts == s[i].failedLoginAttempts
    ensures r.Success? ==> forall i :: 0 <= i < |s| ==>
      r.value[i] == (if s[i].id == id then s[i].(lockedUntil := Some(until), updatedAt := now) else s[i])
  {
    Update(s, id, LockUntil(until), now)
  }

  /** `UnlockAccount`. */
  function UnlockAccount(s: Store, id: ObjectId, now: Time): (r: Result<Store, StoreError>)
    ensures r.Failure? <==> !HasId(s, id)
    ensures r.Success? ==> |r.value| == |s|
    ensures r.Success? ==> forall i :: 0 <= i < |s| && s[i].id == id ==>
      r.value[i].lockedUntil.None? && r.value[i].failedLoginAttempts == 0
    ensures r.Success? ==> forall i :: 0 <= i < |s| ==>
      r.value[i] == (if s[i].id == id then s[i].(lockedUntil := None, failedLoginAttempts := 0, updatedAt := now) else s[i])
  {
    Update(s, id, (u: User) => u.(lockedUntil := None, failedLoginAttempts := 0), now)
  }

  /** `Deactivate`: a soft delete. */
  function Deactivate(s: Store, id: ObjectId, now: Time): (r: Result<Store, StoreError>)
    ensures r.Failure? <==> !HasId(s, id)
    ensures r.Success? ==> |r.value| == |s|
    ensures r.Success? ==> forall i :: 0 <= i < |s| ==>
      r.value[i] == (if s[i].id == id then s[i].(isActive := false, updatedAt := now) else s[i])
  {
    Update(s, id, (u: User) => u.(isActive := false), now)
  }

  /** `Activate`. */
  function Activate(s: Store, id: ObjectId, now: Time): (r: Result<Store, StoreError>)
    ensures r.Failure? <==> !HasId(s, id)
    ensures r.Success? ==> |r.value| == |s|
    ensures r.Success? ==> forall i :: 0 <= i < |s| ==>
      r.value[i] == (if s[i].id == id then s[i].(isActive := true, updatedAt := now) else s[i])
  {
    Update(s, id, (u: User) => u.(isActive := true), now)
  }

  /** Re-activating a deactivated user restores every field except the
      update time. */
  lemma ActivateUndoesDeactivate(s: Store, id: ObjectId, t1: Time, t2: Time)
    requires HasId(s, id)
    requires forall i :: 0 <= i < |s| && s[i].id == id ==> s[i].isActive
    ensures Deactivate(s, id, t1).Success?
    ensures var d := Deactivate(s, id, t1).value;
      Activate(d, id, t2).Success?
      && forall i :: 0 <= i < |s| ==>
           Activate(d, id, t2).value[i] == (if s[i].id == id then s[i].(updatedAt := t2) else s[i])
  {
    var d := Deactivate(s, id, t1).value;
    assert HasId(d, id) by {
      var i :| 0 <= i < |s| && s[i].id == id;
      assert d[i].id == id;
    }
    var a := Activate(d, id, t2).value;
    forall i | 0 <= i < |s|
      ensures a[i] == (if s[i].id == id then s[i].(updatedAt := t2) else s[i])
    {
      assert d[i].id == s[i].id;
    }
  }

  /** Unlocking after a lock leaves the user unlocked at every time, with no
      failed attempts counted. */
  lemma UnlockUndoesLock(s: Store, id: ObjectId, until: Time, t1: Time, t2: Time, now: Time)
    requires HasId(s, id)
    ensures LockAccount(s, id, until, t1).Success?
    ensures var l := LockAccount(s, id, until, t1).value;
      UnlockAccount(l, id, t2).Success?
      && forall i :: 0 <= i < |s| && s[i].id == id ==>
           !IsLocked(UnlockAccount(l, id, t2).value[i], now)
           && UnlockAccount(l, id, t2).value[i].failedLoginAttempts == 0
  {
    var l := LockAccount(s, id, until, t1).value;
    assert HasId(l, id) by {
      var i :| 0 <= i < |s| && s[i].id == id;
      assert l[i].id == id;
    }
    var u := UnlockAccount(l, id, t2).value;
    forall i | 0 <= i < |s| && s[i].id == id
      ensures !IsLocked(u[i], now) && u[i].failedLoginAttempts == 0
    {
      assert l[i].id == id;
    }
  }

  /** Records other than those with identifier `id`, in order. */
  function Without(s: Store, id: ObjectId): (r: Store)
    ensures !HasId(r, id)
    ensures |r| <= |s|
    ensures forall i :: 0 <= i < |s| && s[i].id != id ==> s[i] in r
    ensures forall i :: 0 <= i < |r| ==> r[i] in s
  {
    if |s| == 0 then []
    else (if s[0].id == id then [] else [s[0]]) + Without(s[1..], id)
  }

  /** `Delete`: a hard delete of the record with identifier `id`. */
  function Delete(s: Store, id: ObjectId): (r: Result<Store, StoreError>)
    ensures r.Failure? <==> !HasId(s, id)
    ensures r.Failure? ==> r.error == UserNotFound
    ensures r.Success? ==> !HasId(r.value, id) && |r.value| < |s|
    ensures r.Success? ==> forall i :: 0 <= i < |s| && s[i].id != id ==> s[i] in r.value
  {
    if HasId(s, id) then
      WithoutShrinks(s, id);
      Success(Without(s, id))
    else Failure(UserNotFound)
  }

  lemma {:induction false} WithoutShrinks(s: Store, id: ObjectId)
    requires HasId(s, id)
    ensures |Without(s, id)| < |s|
  {
    if s[0].id != id {
      assert HasId(s[1..], id) by {
        var i :| 0 <= i < |s| && s[i].id == id;
        assert s[1..][i - 1].id == id;
      }
      WithoutShrinks(s[1..], id);
    }
  }

  /** `List`: the matching users, newest first, then the skip/limit window. */
  function List(s: Store, keep: User -> bool, limit: nat, skip: nat): (r: seq<User>)
    ensures limit > 0 ==> |r| <= limit
    ensures |r| <= Count(s, keep)
    ensures Paging.Descending(r, (u: User) => u.createdAt)
    ensures forall i :: 0 <= i < |r| ==> keep(r[i]) && r[i] in s
  {
    Paging.PageDesc(Paging.Filter(s, keep), (u: User) => u.createdAt, skip, limit)
  }

  /** `Count`: the number of users the filter matches. */
  function Count(s: Store, keep: User -> bool): (n: nat)
    ensures n <= |s|
  {
    |Paging.Filter(s, keep)|
  }
}

=== FILE: dafny/users.dfy ===
/** The user record and its request validators (`models/user.go`). */
module Users {
  import opened Wrappers
  import opened Base
  import opened GoStrings
  import opened Roles

  datatype Profile = Profile(
    firstName: string,
    lastName: string,
    institutionId: Option<ObjectId>,
    specialty: string,
    registrationNumber: string,
    phoneNumber: string)

  datatype User = User(
    id: ObjectId,
    username: string,
    email: string,
    passwordHash: string,
    role: string,
    adminLevel: string,
    isActive: bool,
    profile: Profile,
    createdAt: Time,
    updatedAt: Time,
    lastLoginAt: Option<Time>,
    createdBy: Option<ObjectId>,
    failedLoginAttempts: int,
    lockedUntil: Option<Time>)
  {
    /** `User.HasPermission`. */
    predicate Has(p: Permission) {
      HasPermission(role, adminLevel, p)
    }
  }

  /** `primitive.ObjectIDFromHex`, a library parser supplied by the caller. */
  type HexParser = string -> Option<ObjectId>

  // ---------------------------------------------------------------------
  // The two regular expressions

  predicate IsEmailLocalChar(c: char) {
    IsAsciiLetter(c) || IsDigit(c) || c in "._%+-"
  }

  predicate IsEmailDomainChar(c: char) {
    IsAsciiLetter(c) || IsDigit(c) || c in ".-"
  }

  /** `s[at]` is the '@' and `s[dot]` the final '.' of a split that
      matches `^[a-zA-Z0-9._%+-]+@[a-zA-Z0-9.-]+\.[a-zA-Z]{2,}$`. */
  predicate EmailSplit(s: string, at: int, dot: int) {
    1 <= at && at + 2 <= dot && dot + 3 <= |s|
    && s[at] == '@' && s[dot] == '.'
    && AllChars(s[..at], IsEmailLocalChar)
    && AllChars(s[at + 1..dot], IsEmailDomainChar)
    && AllChars(s[dot + 1..], IsAsciiLetter)
  }

  /** The email regular expression of user creation, matched against the whole string. */
  predicate MatchesEmailPattern(s: string) {
    exists at, dot :: 0 <= at < dot < |s| && EmailSplit(s, at, dot)
  }

  /** The username regular expression `^[a-zA-Z0-9_]{3,50}$`. */
  predicate MatchesUsernamePattern(s: string) {
    3 <= |s| <= 50 && AllChars(s, IsWordChar)
  }

  // ---------------------------------------------------------------------
  // Passwords

  /** The four character classes that `ValidatePassword` looks for. The
      `unicode` predicates are modelled on ASCII; see the README. */
  datatype CharClass = Upper | Lower | Number | Special | OtherClass

  function ClassOf(c: char): CharClass {
    if IsAsciiUpper(c) then Upper
    else if IsAsciiLower(c) then Lower
    else if IsDigit(c) then Number
    else if ('!' <= c <= '/') || (':' <= c <= '@') || ('[' <= c <= '`') || ('{' <= c <= '~') then Special
    else OtherClass
  }

  predicate HasClass(s: string, k: CharClass) {
    exists i :: 0 <= i < |s| && ClassOf(s[i]) == k
  }

  /** The flags that the loop over the password's runes sets. */
  datatype Flags = Flags(upper: bool, lower: bool, number: bool, special: bool)

  function ScanFlags(s: string): (f: Flags)
    ensures f.upper <==> HasClass(s, Upper)
    ensures f.lower <==> HasClass(s, Lower)
    ensures f.number <==> HasClass(s, Number)
    ensures f.special <==> HasClass(s, Special)
  {
    if s == [] then Flags(false, false, false, false)
    else
      var rest := ScanFlags(s[1..]);
      assert forall k :: HasClass(s, k) <==> ClassOf(s[0]) == k || HasClass(s[1..], k) by {
        forall k ensures HasClass(s, k) <==> ClassOf(s[0]) == k || HasClass(s[1..], k) {
          if HasClass(s, k) && ClassOf(s[0]) != k {
            var i :| 0 <= i < |s| && ClassOf(s[i]) == k;
            assert s[1..][i - 1] == s[i];
          }
          if HasClass(s[1..], k) {
            var i :| 0 <= i < |s| - 1 && ClassOf(s[1..][i]) == k;
            assert s[i + 1] == s[1..][i];
          }
        }
      }
      var k := ClassOf(s[0]);
      Flags(rest.upper || k == Upper, rest.lower || k == Lower,
            rest.number || k == Number, rest.special || k == Special)
  }

  datatype PasswordError = WeakPassword

  /** A strong password: at least 8 bytes with an upper-case letter, a
      lower-case letter, a digit and a punctuation or symbol character. */
  predicate IsStrongPassword(pw: string) {
    Utf8Len(pw) >= 8 && HasClass(pw, Upper) && HasClass(pw, Lower)
    && HasClass(pw, Number) && HasClass(pw, Special)
  }

  /** `ValidatePassword`. */
  function ValidatePassword(pw: string): (r: Outcome<PasswordError>)
    ensures r.Pass? <==> IsStrongPassword(pw)
  {
    if Utf8Len(pw) < 8 then Fail(WeakPassword)
    else
      var f := ScanFlags(pw);
      if !f.upper || !f.lower || !f.number || !f.special then Fail(WeakPassword) else Pass
  }

  /** An accepted case from the password table of the source's unit tests. */
  lemma PasswordExampleAccepted()
    ensures ValidatePassword("Abcdef1@").Pass?
  {
    var good := "Abcdef1@";
    assert IsAscii(good) by {
      forall i | 0 <= i < |good| ensures good[i] as int < 0x80 {
      }
    }
    Utf8LenAscii(good);
    assert ClassOf(good[0]) == Upper && ClassOf(good[1]) == Lower;
    assert ClassOf(good[6]) == Number && ClassOf(good[7]) == Special;
    assert IsStrongPassword(good);
  }

  /** "nouppercas1!" has no upper-case letter. */
  lemma NoUpperInExample()
    ensures !HasClass("nouppercas1!", Upper)
  {
    var noUpper := "nouppercas1!";
    forall i | 0 <= i < |noUpper| ensures ClassOf(noUpper[i]) != Upper {
    }
  }

  /** "NoSpecialChar1" has no special character. */
  lemma NoSpecialInExample()
    ensures !HasClass("NoSpecialChar1", Special)
  {
    var noSpecial := "NoSpecialChar1";
    forall i | 0 <= i < |noSpecial| ensures ClassOf(noSpecial[i]) != Special {
    }
  }

  /** Rejected cases from the same table: too short, or a class missing. */
  lemma PasswordExamplesRejected()
    ensures ValidatePassword("").Fail?
    ensures ValidatePassword("Short1!").Fail?
    ensures ValidatePassword("nouppercas1!").Fail?
    ensures ValidatePassword("NoSpecialChar1").Fail?
  {
    Utf8LenAscii("Short1!");
    NoUpperInExample();
    NoSpecialInExample();
  }

  // ---------------------------------------------------------------------
  // Create-user request

  datatype CreateUserRequest = CreateUserRequest(
    username: string,
    email: string,
    password: string,
    role: string,
    adminLevel: string,
    firstName: string,
    lastName: string,
    institutionId: string,
    specialty: string,
    registrationNumber: string,
    phoneNumber: string)

  /** The errors of `CreateUserRequest.Validate`, in the order it checks them. */
  datatype UserRequestError =
    | InvalidEmail | InvalidUsername | InvalidPassword | InvalidRole | InvalidAdminLevel
    | AdminLevelRequired | AdminLevelForbidden | ProfileFieldTooShort
    | InstitutionIdRequired | InvalidInstitutionIdFormat
  {
    function Rank(): nat {
      match this
      case InvalidEmail => 0
      case InvalidUsername => 1
      case InvalidPassword => 2
      case InvalidRole => 3
      case InvalidAdminLevel => 4
      case AdminLevelRequired => 5
      case AdminLevelForbidden => 6
      case ProfileFieldTooShort => 7
      case InstitutionIdRequired => 8
      case InvalidInstitutionIdFormat => 9
    }
  }

  predicate NameLengthOk(name: string) {
    2 <= Utf8Len(name) <= 100
  }

  /** Each check on its own: the condition under which it reports its error. */
  predicate UserCheckFails(req: CreateUserRequest, parse: HexParser, e: UserRequestError) {
    match e
    case InvalidEmail => !MatchesEmailPattern(req.email)
    case InvalidUsername => !MatchesUsernamePattern(req.username)
    case InvalidPassword => !IsStrongPassword(req.password)
    case InvalidRole => !IsValidRole(req.role)
    case InvalidAdminLevel => req.role == Admin && !IsValidAdminLevel(req.adminLevel)
    case AdminLevelRequired => req.role == Admin && req.adminLevel == LevelNone
    case AdminLevelForbidden => req.role != Admin && req.adminLevel != LevelNone
    case ProfileFieldTooShort => !NameLengthOk(req.firstName) || !NameLengthOk(req.lastName)
    case InstitutionIdRequired => req.institutionId == ""
    case InvalidInstitutionIdFormat => parse(req.institutionId).None?
  }

  /** `CreateUserRequest.Validate`: the request is valid iff no check fails,
      and a failure reports the first failing check. */
  function ValidateCreateUser(req: CreateUserRequest, parse: HexParser): (r: Outcome<UserRequestError>)
    ensures r.Pass? ==> forall e :: !UserCheckFails(req, parse, e)
    ensures r.Fail? ==> UserCheckFails(req, parse, r.error)
    ensures r.Fail? ==> forall e: UserRequestError :: e.Rank() < r.error.Rank() ==> !UserCheckFails(req, parse, e)
  {
    if !MatchesEmailPattern(req.email) then Fail(InvalidEmail)
    else if !MatchesUsernamePattern(req.username) then Fail(InvalidUsername)
    else if ValidatePassword(req.password).Fail? then Fail(InvalidPassword)
    else if !IsValidRole(req.role) then Fail(InvalidRole)
    else if req.role == Admin && !IsValidAdminLevel(req.adminLevel) then Fail(InvalidAdminLevel)
    else if req.role == Admin && req.adminLevel == LevelNone then Fail(AdminLevelRequired)
    else if req.role != Admin && req.adminLevel != LevelNone then Fail(AdminLevelForbidden)
    else if Utf8Len(req.firstName) < 2 || Utf8Len(req.firstName) > 100 then Fail(ProfileFieldTooShort)
    else if Utf8Len(req.lastName) < 2 || Utf8Len(req.lastName) > 100 then Fail(ProfileFieldTooShort)
    else if req.institutionId == "" then Fail(InstitutionIdRequired)
    else if parse(req.institutionId).None? then Fail(InvalidInstitutionIdFormat)
    else Pass
  }

  /** Validity is exactly the absence of a failing check. */
  lemma ValidateCreateUserIff(req: CreateUserRequest, parse: HexParser)
    ensures ValidateCreateUser(req, parse).Pass? <==> forall e :: !UserCheckFails(req, parse, e)
  {
  }

  /** A valid admin request names user_manager or super_admin; a valid
      non-admin request has the empty level. */
  lemma ValidRequestAdminLevel(req: CreateUserRequest, parse: HexParser)
    requires ValidateCreateUser(req, parse).Pass?
    ensures req.role == Admin ==> req.adminLevel in {LevelUserManager, LevelSuperAdmin}
    ensures req.role != Admin ==> req.adminLevel == LevelNone && IsClinical(req.role)
  {
    assert !UserCheckFails(req, parse, InvalidAdminLevel);
    assert !UserCheckFails(req, parse, AdminLevelRequired);
    assert !UserCheckFails(req, parse, AdminLevelForbidden);
    assert !UserCheckFails(req, parse, InvalidRole);
  }

  // ---------------------------------------------------------------------
  // Queries on a user

  /** `User.IsLocked` at time `now`. */
  function IsLocked(u: User, now: Time): (b: bool)
    ensures u.lockedUntil.None? ==> !b
    ensures u.lockedUntil.Some? ==> (b <==> now < u.lockedUntil.value)
  {
    match u.lockedUntil
    case None => false
    case Some(t) => now < t
  }

  /** `User.CanManageUser`. */
  function CanManageUser(u: User, target: User): (b: bool)
    ensures b ==> u.Has(ManageUsers)
    ensures b <==> u.role == Admin && (u.adminLevel == LevelSuperAdmin
                   || (u.adminLevel == LevelUserManager && target.role != Admin))
  {
    if !u.Has(ManageUsers) then false
    else if u.adminLevel == LevelSuperAdmin then true
    else if u.adminLevel == LevelUserManager then target.role != Admin
    else false
  }

  /** `User.FullName`. */
  function FullName(u: User): (name: string)
    ensures |name| == |u.profile.firstName| + 1 + |u.profile.lastName|
    ensures name[..|u.profile.firstName|] == u.profile.firstName
    ensures name[|u.profile.firstName|] == ' '
    ensures name[|u.profile.firstName| + 1..] == u.profile.lastName
  {
    u.profile.firstName + " " + u.profile.lastName
  }
}

=== FILE: dafny/wrappers.dfy ===
/** Failure-compatible datatypes shared by the whole model, and the plain
    value types (object ids, instants) that the backend's records use. */
module Wrappers {

  /** An optional value: Go's nil pointer, an absent JSON field or TypeScript's null. */
  datatype Option<+T> = None | Some(value: T) {

    /** The value if present, `default` otherwise. */
    function GetOr(default: T): T {
      match this
      case Some(v) => v
      case None => default
    }
  }

  /** A value or an error, like Go's `(value, error)` pair. */
  datatype Result<+R, +E> = Success(value: R) | Failure(error: E) {

    predicate IsFailure() {
      Failure?
    }

    function PropagateFailure<U>(): Result<U, E>
      requires Failure?
    {
      Failure(error)
    }

    function Extract(): R
      requires Success?
    {
      value
    }
  }

  /** The outcome of a check that returns only an error: Go's `error` result, `nil` being Pass. */
  datatype Outcome<+E> = Pass | Fail(error: E)
}

/** Identifiers and instants. A Mongo `ObjectID` is modelled by a natural
    number whose zero is the nil id; an instant is an integer count of
    nanoseconds, as Go's `time.Time` and `time.Duration` compare. */
module Base {

  type ObjectId = nat

  /** `primitive.NilObjectID`, the zero value that `IsZero` detects. */
  const NilId: ObjectId := 0

  /** An instant in nanoseconds. */
  type Time = int

  const Second: int := 1_000_000_000
  const Minute: int := 60 * Second
  const Hour: int := 60 * Minute
  const Day: int := 24 * Hour
}
